=== FILE: README.md ===
# Expense backend core, modelled in Dafny

This project models the core of a personal-finance backend (Node.js with PostgreSQL). The model covers:

- The keyword chatbot (`callAssistant`) and the queries it runs, plus its helpers: month detection, category and wallet name extraction, and the reply texts' figures.
- The function-calling assistant behind it: tool arguments, tools, retry parsing and the three-round model loop.
- The simple intent detector.
- The monthly budget: reading, upserting, history and alert logging.
- The transaction service and the transaction HTTP controller.
- The category, wallet and settings services.

The database is a value: a `Ledger.Db` holds the transactions, categories, wallets, budgets and alert-log rows as sequences. Each SQL statement is a pure function from one `Db` to the next, together with its result. Other inputs are explicit parameters:

- the current date;
- the Vietnam-time month;
- the alert's `sent_on` day;
- the language model's replies;
- whether the follow-up alert check succeeded.

Money is a `real`. A JavaScript number is a `Js.Num`: a finite real, NaN or an infinity. `Number(...)`, `parseInt`, `Math.trunc` and `Math.ceil` are written out in `Js`, and `trim` and `toLowerCase` in `Common`. The modules follow the source files:

| module | source |
|---|---|
| `Common`, `Js` | string helpers and JavaScript number conversion used throughout |
| `Calendar` | dates, `getMonthRange`, `formatDateLocal`, `formatMonthLabel` |
| `Ledger`, `Sorting` | the tables, filtered sums, `ORDER BY ... LIMIT` |
| `ChatbotData` | `src/services/chatbotDataService.js` |
| `Budgets` | `src/services/budgetService.js` |
| `Intent` | `src/services/chatbotIntentService.js` |
| `ChatText`, `Chatbot` | `src/services/chatbotService.js` |
| `Assistant`, `Orchestrator` | `src/services/geminiAssistantService.js` |
| `Transactions` | `src/services/transactionService.js` |
| `TxController` | `src/controllers/transactionController.js` |
| `Categories` | `src/services/categoryService.js` |
| `Wallets` | `src/services/walletService.js` |
| `Settings` | `src/services/settingsService.js` |

## Model

| member | source | states |
|---|---|---|
| Js.ToNumber | src/services/walletService.js:46-52 | `Number(v)`: null is 0 and undefined is NaN |
| Js.StringToNumber | src/services/walletService.js:46-52 | `Number` of a blank or white-space text is 0 |
| Js.StringToNumberOfNat | src/services/walletService.js:46-52 | `Number` reads back every natural number `String` renders |
| Js.Trunc | src/services/geminiAssistantService.js:34-39 | `Math.trunc` rounds toward zero from either side |
| Js.Ceil | src/services/geminiAssistantService.js:107-110 | `Math.ceil` gives the least integer not below its argument |
| Js.ParseIntOfIntToString | src/controllers/transactionController.js:6-9 | `parseInt(String(n), 10)` returns `n` for every integer, negative ones included |
| Js.ParseIntIgnoresSuffix | src/controllers/transactionController.js:6-9 | `parseInt` reads the leading digits and ignores what follows a non-digit |
| Js.ParseIntOfDigits | src/services/chatbotIntentService.js:67 | a text of digits only is read as their value |
| Common.TrimIdempotent | src/services/chatbotIntentService.js:4-6 | trimming twice is trimming once |
| Common.LowerIdempotent | src/services/chatbotIntentService.js:4-6 | lower-casing twice is lower-casing once |
| Common.NatToStringInjective | src/services/chatbotDataService.js:36-38 | different numbers render to different decimal texts |
| Common.NoWordBefore | src/services/chatbotIntentService.js:29-34 | a regular-expression search for a word finds no match inside a prefix free of the word, even where the prefix runs into the word |
| Common.FoldOccursExact | src/services/chatbotService.js:101-104 | on text without capital letters a case-insensitive match is an exact match |
| Common.OccursAcross | src/services/chatbotService.js:106-107 | a match of a pattern without the separator lies wholly before or wholly after it |
| Calendar.DaysInMonth | src/services/chatbotDataService.js:17-34 | a month has 28 to 31 days, and February has 29 exactly in leap years |
| Calendar.KeyOrder | src/services/chatbotDataService.js:76-93 | comparing dates (`tx_date >= $2 AND tx_date < $3`) is lexicographic on year, month, day |
| Calendar.NextDaySuccessor | src/services/chatbotDataService.js:96-105 | no date lies strictly between a day and the next one |
| Calendar.PrevDayPredecessor | src/services/chatbotDataService.js:108-117 | no date lies strictly between the previous day and a day |
| Calendar.DaysBefore | src/services/chatbotDataService.js:108-117 | going back k days gives a valid date no later than the start |
| Calendar.TodayWindow | src/services/chatbotDataService.js:96-105 | the range `[today, tomorrow)` holds exactly today |
| Calendar.WindowMembers | src/services/chatbotDataService.js:108-117 | the dates from k days back to today are exactly the dates j days back for j in 0..k |
| Calendar.Last7DaysWindow | src/services/chatbotDataService.js:108-117 | `[today - 6 days, tomorrow)` holds exactly the last seven days |
| Calendar.GetMonthRange | src/services/chatbotDataService.js:17-34 | the range starts on the 1st of the month `offset` months from now, ends on the 1st of the next month, and reports that month and year |
| Calendar.MonthStartOrder | src/services/chatbotDataService.js:17-34 | against the first of a month, dates compare as their months do |
| Calendar.MonthRangeCoversMonth | src/services/chatbotDataService.js:17-34 | a date lies in the range exactly when it is in the target month |
| Calendar.MonthRangeOfTarget | src/services/chatbotService.js:72-74 | the offset `(year - now.year) * 12 + (month - now.month)` lands on that month and year |
| Calendar.JsRem | src/services/chatbotDataService.js:21-23 | JavaScript `%` keeps the dividend's sign and agrees with Dafny's on non-negative operands |
| Calendar.MonthFieldAsWritten | src/services/chatbotDataService.js:21-23 | the month the code derives with JavaScript `%` stays between -10 and 12 |
| Calendar.MonthFieldAsWrittenLeavesRange | src/services/chatbotDataService.js:21-23 | for a month index below zero the derived month leaves 1..12 |
| Calendar.MonthFieldAsWrittenAgrees | src/services/chatbotDataService.js:21-23 | for non-negative month indexes the code's month equals the modelled range's month |
| Calendar.Pad2 | src/services/chatbotDataService.js:5-10 | `padStart(2, "0")` gives digits of the same value, two of them below 100 |
| Calendar.ParseIsoDate | src/services/geminiAssistantService.js:165-177 | a text is read as a date exactly when it has the `YYYY-MM-DD` shape |
| Calendar.FormatDateRoundTrip | src/services/chatbotDataService.js:5-10 | `formatDateLocal` gives ten characters in `YYYY-MM-DD` shape that read back as the same date |
| Calendar.FormatDate | src/services/chatbotDataService.js:5-10 | a date with a four-digit year renders as ten characters in `YYYY-MM-DD` shape |
| Calendar.MonthLabelReadBack | src/services/chatbotDataService.js:36-38 | the label starts with "tháng "; read back as `parseInt` reads, the text up to the first "/" gives the month and the text after it the year, for every integer month and year |
| Calendar.MonthLabelInjective | src/services/chatbotDataService.js:36-38 | `formatMonthLabel` gives two months the same label exactly when they are the same month of the same year |
| Ledger.FindCategory | src/services/categoryService.js:133-146 | the lookup by `category_id` finds a row with that id, or none exists |
| Ledger.FindWallet | src/services/walletService.js:77-85 | the lookup by `wallet_id` finds a row with that id, or none exists |
| Ledger.NextId | src/services/transactionService.js:24-36 | a new serial id differs from every id in use |
| Ledger.FilterTx | src/services/chatbotDataService.js:76-93 | a `WHERE` keeps exactly the rows passing it, each as often as the table holds it, and adds none |
| Ledger.FilterTxAppend | src/services/chatbotDataService.js:76-93 | filtering a concatenation filters each part and keeps them in table order |
| Ledger.FilterTxSingle | src/services/chatbotDataService.js:76-93 | a single row is kept exactly when it passes the condition |
| Ledger.SumWhereNone | src/services/chatbotDataService.js:76-93 | `COALESCE(SUM(amount), 0)` over no row is 0 |
| Ledger.SumWhereAppend | src/services/chatbotDataService.js:76-93 | the sum over two blocks of rows is the sum of their sums |
| Ledger.SumWhereSplit | src/services/chatbotDataService.js:43-69 | a filter split into two disjoint parts splits the sum |
| Ledger.SumWhereFilter | src/services/chatbotDataService.js:76-93 | summing the filtered rows is summing with the filter |
| Ledger.SumWhereMono | src/services/chatbotDataService.js:122-157 | over non-negative amounts a wider filter never sums to less |
| Ledger.Percentage | src/services/budgetService.js:62-67 | the percentage is `spent / limit * 100` and reaches 100 exactly when the limit is spent |
| Ledger.PercentBounds | src/services/chatbotService.js:389-393 | a part of a positive whole is between 0 and 100 percent of it |
| Ledger.MonthFilterIsMonth | src/services/chatbotDataService.js:43-69 | a transaction counts in the month's range exactly when it lies in the target month |
| Ledger.MonthSum | src/services/chatbotDataService.js:43-69 | summing over the month's date range is summing over the target month |
| Sorting.InsertDesc | src/services/chatbotDataService.js:304-305 | inserting into rows sorted by descending key keeps them sorted and adds that one row |
| Sorting.SortDesc | src/services/chatbotDataService.js:304-305 | `ORDER BY ... DESC` gives a permutation of the rows, sorted by descending key |
| Sorting.Take | src/services/chatbotDataService.js:304-305 | `LIMIT n` gives the first n rows, or all of them when there are fewer |
| Sorting.TopN | src/services/chatbotDataService.js:284-318 | the top n are sorted, drawn from the rows, and no row left out has a larger key than any row kept |
| Sorting.MaxBy | src/services/chatbotDataService.js:141-142 | `ORDER BY ... DESC LIMIT 1` gives a kept row of maximal key, or none when no row is kept |
| Sorting.FindMaxBy | src/services/chatbotDataService.js:141-142 | the scanning loop returns the maximal kept row |
| Sorting.SortDescOfSorted | src/services/budgetService.js:151-152 | sorting already sorted rows leaves them as they are |
| Sorting.Page | src/services/transactionService.js:106-107 | `LIMIT $l OFFSET $o` gives the rows from position o on, at most l of them |
| Sorting.PageAll | src/services/transactionService.js:106-107 | the first page holds every row when the limit leaves none out |
| Sorting.LexKeyOrder | src/services/transactionService.js:106 | the combined key orders by date first and by id second, strictly and non-strictly |
| ChatbotData.MonthlyIncomeExpense | src/services/chatbotDataService.js:43-69 | the month's range and label, and its income and expense totals over the user's live transactions in the target month |
| ChatbotData.MonthlyTotalsWithoutActivity | src/services/chatbotDataService.js:43-69 | with no live transaction of the user both totals are 0 |
| ChatbotData.ExpenseInRangeAdditive | src/services/chatbotDataService.js:76-93 | the expense over `[a, c)` is the expense over `[a, b)` plus the expense over `[b, c)` |
| ChatbotData.ExpenseInEmptyRange | src/services/chatbotDataService.js:76-93 | an empty or reversed range sums to 0 |
| ChatbotData.ExpenseInRange | src/services/chatbotDataService.js:76-93 | an empty or reversed half-open date range sums to 0 |
| ChatbotData.ExpenseToday | src/services/chatbotDataService.js:96-105 | today's expense is the sum of the user's live expenses dated today |
| ChatbotData.ExpenseLast7Days | src/services/chatbotDataService.js:108-117 | the seven-day expense is the sum of the user's live expenses dated today or up to six days back |
| ChatbotData.TodayWithinLast7Days | src/services/chatbotDataService.js:108-117 | the seven-day total is today's total plus the six days before |
| ChatbotData.BestWallet | src/services/chatbotDataService.js:122-157 | the chosen wallet has spending in the month and none has more; none is chosen when no wallet has spending |
| ChatbotData.LargestSpendingWallet | src/services/chatbotDataService.js:122-157 | one pass over the wallets picks the same wallet and total as `BestWallet` |
| ChatbotData.WalletSpentWithinMonth | src/services/chatbotDataService.js:122-157 | a wallet's spending in the month is between 0 and the month's total expense |
| ChatbotData.TopSpendingWallet | src/services/chatbotDataService.js:122-157 | the wallet with the largest spending in the target month, with its total, range and label, or none when nothing was spent |
| ChatbotData.CategoryGroups | src/services/chatbotDataService.js:160-197 | one group per candidate category with expense in the range, holding that category's total |
| ChatbotData.NamedCategories | src/services/chatbotDataService.js:160-197 | the categories kept are exactly those whose lower-cased name is listed |
| ChatbotData.SpendingByCategoryNames | src/services/chatbotDataService.js:160-197 | no names gives the no-names answer; otherwise every listed category with expense in the month appears with its total, sorted by total, and no category more often than the table holds it |
| ChatbotData.SpendingByCategoryNamesOnce | src/services/chatbotDataService.js:160-197 | with distinct category ids, `GROUP BY c.category_id` reports each category at most once |
| ChatbotData.GroupsOnce | src/services/chatbotDataService.js:160-197 | groups drawn at most once per category row of a table with distinct ids have distinct ids |
| ChatbotData.TopExpenseCategories | src/services/chatbotDataService.js:218-253 | at most `limit` category groups, sorted by total, none left out larger than one kept |
| ChatbotData.TotalBalance | src/services/chatbotDataService.js:202-214 | the total of the user's unarchived wallets is non-negative when every balance is, and at most 0 when every counted balance is |
| ChatbotData.ArchiveLowersTotal | src/services/chatbotDataService.js:202-214 | archiving a wallet removes exactly its balance from the user's total |
| ChatbotData.TotalBalanceWithoutWallets | src/services/chatbotDataService.js:202-214 | the total is 0 when the user has no active wallet |
| ChatbotData.WalletByName | src/services/chatbotDataService.js:258-279 | a matching wallet of the user with the least name, or none when no name matches |
| ChatbotData.TopBigTransactions | src/services/chatbotDataService.js:284-357 | the first `limit` (or all) of the month's transactions of the kind, by descending amount: a sub-multiset of them, no row repeated beyond the table, none left out larger than one kept |
| ChatbotData.FindGlobalBudget | src/services/chatbotDataService.js:396-451 | a global budget of the user for that month, or none exists |
| ChatbotData.UsageOf | src/services/chatbotDataService.js:396-451 | the usage has a percentage exactly when the limit is positive, and it is `spent / limit * 100` |
| ChatbotData.CurrentBudgetWithUsage | src/services/chatbotDataService.js:396-451 | the month's global budget with the month's expense total and its percentage, or none when no budget is set |
| Budgets.MonthStart | src/services/budgetService.js:26-75 | `date_trunc('month', CURRENT_DATE)` is the first of today's month |
| Budgets.MonthExpense | src/services/budgetService.js:26-75 | the month's spending is the sum of the user's live expenses in the current month |
| Budgets.StatusOf | src/services/budgetService.js:62-67 | the percentage is `spent / limit * 100` (0 for a non-positive limit); over the threshold iff it reaches the threshold; over the limit iff spent exceeds it |
| Budgets.OverLimitIsOverThreshold | src/services/budgetService.js:62-67 | with a threshold up to 100, a budget over its limit is over its threshold |
| Budgets.StatusExample | src/services/budgetService.js:62-67 | 850000 spent of 1000000 at threshold 80 is 85%, over the threshold and under the limit |
| Budgets.CurrentBudget | src/services/budgetService.js:26-75 | the user's global budget for the current month with its status, or none when none is set |
| Budgets.ThresholdNumber | src/services/budgetService.js:96-101 | an absent threshold is 80; any other value goes through `Number` |
| Budgets.AllowedThreshold | src/services/budgetService.js:96-101 | a threshold is accepted exactly when it is 70, 80, 90 or 100 |
| Budgets.ValidateBudget | src/services/budgetService.js:89-101 | LIMIT_INVALID iff the limit is not a positive number; THRESHOLD_INVALID iff the limit is fine but the threshold is not allowed |
| Budgets.UpsertGlobal | src/services/budgetService.js:103-126 | the month's global row takes the new terms; a row is added only when none existed, other rows are kept, and uniqueness is preserved |
| Budgets.UpsertCurrentBudget | src/services/budgetService.js:81-136 | fails exactly when validation fails, with its error; otherwise only the budgets change, every row other than the user's current global budget stays at its place, at most one row is added, unique global budgets stay unique, and reading back gives the stored terms |
| Budgets.FirstGlobalBudget | src/services/budgetService.js:26-75 | the lookup finds the first global row of the month |
| Budgets.UpsertIdempotent | src/services/budgetService.js:103-126 | repeating an upsert leaves the store as the first one left it |
| Budgets.HistoryCount | src/services/budgetService.js:141-158 | a missing, zero or NaN count gives 6; a finite count in 1..24 is kept, a larger one gives 24 and a smaller non-zero one gives 1; the infinities clamp the same way |
| Budgets.UserGlobals | src/services/budgetService.js:141-158 | the history's candidates are exactly the user's global budgets |
| Budgets.BudgetHistory | src/services/budgetService.js:141-158 | as many of the user's global budgets as the count allows, a sub-multiset of them, newest month first, none left out newer than one kept |
| Budgets.FindNotifying | src/services/budgetService.js:164-181 | the current global budget that notifies, or none exists |
| Budgets.ThresholdsToLog | src/services/budgetService.js:203-210 | the user's threshold when reached, and 101 when 100% is reached, each at most once |
| Budgets.LogAlerts | src/services/budgetService.js:212-227 | one in-app log row per threshold, skipped when already present; existing rows are kept in front |
| Budgets.CheckBudgetAlerts | src/services/budgetService.js:164-231 | only the alert log changes; it gains exactly the due alerts and keeps its rows unique |
| Budgets.CheckBudgetAlertsIdempotent | src/services/budgetService.js:214-227 | checking twice on the same day logs nothing new the second time |
| Budgets.LogAlertsPresent | src/services/budgetService.js:214-227 | rows already in the log are not inserted again |
| Intent.Normalize | src/services/chatbotIntentService.js:4-6 | the text is lower-cased with no leading or trailing space |
| Intent.NormalizeIdempotent | src/services/chatbotIntentService.js:4-6 | normalising twice is normalising once |
| Intent.PreviousMonth | src/services/chatbotIntentService.js:24-27 | `new Date(year, month - 2, 1)` is the month before, wrapping January to December of the year before |
| Intent.PreviousMonthOfJanuary | src/services/chatbotIntentService.js:24-27 | the month before January is December of the previous year |
| Intent.MonthInfo | src/services/chatbotIntentService.js:17-38 | "this month" keeps the current month, "last month" gives the previous one, and otherwise a "tháng n" names the month of the current year |
| Intent.MonthInfoNamedMonth | src/services/chatbotIntentService.js:29-34 | "tháng n" gives month n of the current year, n unchecked |
| Intent.MonthInfoNamedMonthIn | src/services/chatbotIntentService.js:17-38 | "tháng n" anywhere in a text without an earlier "tháng" or a this/last-month phrase gives month n of the current year |
| Intent.MonthNumberIn | src/services/chatbotIntentService.js:29-34 | the number read after the first "tháng" is the written number n |
| Intent.MonthWordThenNumber | src/services/chatbotIntentService.js:29-34 | one or two digits after "tháng " are read up to the first non-digit |
| Intent.DetectCategory | src/services/chatbotIntentService.js:40-45 | a keyword the text contains, or none when it contains none |
| Intent.DetectCategoryFirstListed | src/services/chatbotIntentService.js:40-45 | the keyword returned is the earliest listed one the text contains |
| Intent.NameMatch | src/services/chatbotIntentService.js:58 | the captured name follows "là" and spaces, stays on one line and is followed by "với số tiền" |
| Intent.AmountMatch | src/services/chatbotIntentService.js:65 | the captured amount follows "số tiền", is a maximal run of digits and dots |
| Intent.ParseAmount | src/services/chatbotIntentService.js:67 | dots are dropped and the digits read; only dots reads as NaN |
| Intent.DottedDigits | src/services/chatbotIntentService.js:67 | a dot between runs of digits is ignored when the amount is read |
| Intent.ThousandsGroup | src/services/chatbotIntentService.js:67 | "n.ddd" reads as n * 1000 + ddd |
| Intent.DetectCreateWallet | src/services/chatbotIntentService.js:47-71 | a wallet request iff the text asks to create one; the name defaults to "Ví mới" and the amount to 0 |
| Intent.DetectIntent | src/services/chatbotIntentService.js:73-115 | creation first, then spending with month and category, then income with month, otherwise small talk |
| Intent.DetectIntentOfNormalized | src/services/chatbotIntentService.js:73-115 | classifying an already normalised message gives the same answer |
| ChatText.MonthMention | src/services/chatbotService.js:48-55 | a month after "thang" is used only when it is 1..12 |
| ChatText.DetectMonthOffset | src/services/chatbotService.js:28-75 | "thang nay" gives 0, otherwise "thang truoc" gives -1, and a text naming no valid month and no year gives 0 |
| ChatText.YearMention | src/services/chatbotService.js:57-64 | a year after "nam" is used only when it is above 1900 and below 3000 |
| ChatText.DetectedMonthIsNamedMonth | src/services/chatbotService.js:28-75 | "thang nay" is this month, "thang truoc" the one before; otherwise the month and year named, each defaulting to the current one |
| ChatText.MonthOfMonthYearText | src/services/chatbotService.js:48-55 | "thang m nam y" names month m |
| ChatText.FirstWordThenNumber | src/services/chatbotService.js:48-64 | on a prefix without the word, then the word, one space and digits not followed by a digit, a `word\s+(\d{min,max})` search captures exactly those digits |
| ChatText.YearOfMonthYearText | src/services/chatbotService.js:57-64 | "thang m nam y" names year y |
| ChatText.ExplicitMonthAndYear | src/services/chatbotService.js:28-75 | the offset detected in "thang m nam y" lands on month m of year y |
| ChatText.QuotedAt | src/services/chatbotService.js:86 | a quoted match captures a non-empty text on one line |
| ChatText.QuotedSkip | src/services/chatbotService.js:86 | no match starts before the first opening quote |
| ChatText.TrimmedNonEmpty | src/services/chatbotService.js:106-110 | `.map(trim).filter(Boolean)` keeps exactly the non-empty trimmed parts, each trimmed and non-empty |
| ChatText.TrimmedNonEmptyAppend | src/services/chatbotService.js:106-110 | the kept parts of a concatenation are those of each half, in order |
| ChatText.TrimmedNonEmptySingle | src/services/chatbotService.js:106-110 | one part is kept, trimmed, exactly when its trim is non-empty |
| ChatText.StripCategoryWord | src/services/chatbotService.js:104 | removing a leading "danh muc " keeps a suffix of the segment |
| ChatText.SplitAtSeparators | src/services/chatbotService.js:106-107 | splitting at `,`, " và " and " va " leaves no comma in any part |
| ChatText.ExtractCategoryNames | src/services/chatbotService.js:82-113 | the quoted names when there are any; with none and no "cho", no names; otherwise the parts after "cho", trimmed, non-empty, without commas or question marks |
| ChatText.CategoryNamesRoundTrip | src/services/chatbotService.js:82-113 | a lower-case "… cho a, b" with plain names a and b gives exactly [a, b] |
| ChatText.QuotedCategoryRoundTrip | src/services/chatbotService.js:82-113 | a message with one quoted trimmed name extracts exactly that name |
| ChatText.DropTrailingMarks | src/services/chatbotService.js:128 | trailing `?`, `.` and `!` are removed, and only those |
| ChatText.ExtractWalletName | src/services/chatbotService.js:114-130 | the first quoted text trimmed; else the text after "vi" without trailing marks; null iff neither exists |
| ChatText.WalletNameRoundTrip | src/services/chatbotService.js:114-130 | a lower-case "… vi name?" with a plain name gives exactly that name |
| ChatText.RestAfterPlainWord | src/services/chatbotService.js:122-124 | the text after the first occurrence of a word and its space is found whatever precedes the word |
| ChatText.QuotedWalletRoundTrip | src/services/chatbotService.js:114-130 | the first quoted text is the wallet name, whatever follows it |
| Chatbot.Classify | src/services/chatbotService.js:135-576 | the rule chosen holds and no earlier rule holds; the fallback means no rule holds |
| Chatbot.EarlierRuleWins | src/services/chatbotService.js:135-576 | on the chain as written and on the corrected one, a question an earlier rule accepts is never given to a later rule |
| Chatbot.ClassifyIsLeastRank | src/services/chatbotService.js:135-576 | the classification is exactly the first rule that holds |
| Chatbot.TopSpendingQuestionMisrouted | src/services/chatbotService.js:278-320 | a top-3 question saying "giao dich" and naming spending only goes to the income rule as written, and to the expense rule once corrected |
| Chatbot.TopSpendingQuestionExample | src/services/chatbotService.js:278-320 | "top 3 giao dich chi tieu lon nhat" is answered with incomes as written and with expenses once corrected |
| Chatbot.SpendingQuestionNeverIncome | src/services/chatbotService.js:278-320 | once corrected, a question naming spending and not income never gets the income answer |
| Chatbot.IncomeQuestionUnchanged | src/services/chatbotService.js:278-288 | the correction changes nothing for a question that names income |
| Chatbot.AlertPct | src/services/chatbotService.js:204 | `alertThreshold \|\| 100`: never 0, and the threshold itself when set |
| Chatbot.AdviseBudget | src/services/chatbotService.js:190-236 | the remaining amounts are non-negative and positive exactly while spending is below the alert level or the limit, and then they close the gap |
| Chatbot.AlertLineIffPercentBelow | src/services/chatbotService.js:207-228 | the "left before the alert" line appears exactly when the used percentage is below the alert percentage |
| Chatbot.Verdict | src/services/chatbotService.js:409-439 | surplus, overspending or balance exactly as income exceeds, falls short of or equals expense, with the gap as amount |
| Chatbot.ShareOfExpense | src/services/chatbotService.js:389-393 | a share exists exactly when the month's expense is positive, and it is the wallet's percentage of it |
| Chatbot.LlmMessages | src/services/chatbotService.js:546-575 | the system prompt, the history with roles mapped and content kept, then the latest message |
| Chatbot.LlmReply | src/services/chatbotService.js:546-575 | the model's text is the reply; an error or no message gives the matching apology |
| Chatbot.CategoryAnswer | src/services/chatbotService.js:239-276 | asks for categories when none is named; otherwise reports the month's spending on the named categories, or that there is none |
| Chatbot.WalletAnswer | src/services/chatbotService.js:486-503 | asks for a wallet when none is named, reports "not found" iff no wallet of the user matches, and otherwise the matching wallet |
| Chatbot.MonthAnswer | src/services/chatbotService.js:189-545 | each month-scoped rule replies with its own query's result for the month, and with its "nothing" reply exactly when that result is empty |
| Chatbot.TodayAnswer | src/services/chatbotService.js:142-160 | the reply carries today's expense and is the "nothing yet" reply exactly when it is 0 |
| Chatbot.Last7DaysAnswer | src/services/chatbotService.js:162-186 | the reply carries the seven-day expense with the first day six days back, and is the "nothing" reply exactly when it is 0 |
| Chatbot.CallAssistant | src/services/chatbotService.js:135-576 | routes by the corrected rule chain (see Findings); each rule's reply carries its query's result for the detected month; a question no rule matches is answered by the language model on the built messages |
| Chatbot.NetAndOverviewAgree | src/services/chatbotService.js:409-439 | the net reply's verdict and the overview's net agree in sign and amount |
| Chatbot.TopWalletShareAtMost100 | src/services/chatbotService.js:374-407 | the top wallet's share of the month's expense is between 0 and 100 percent |
| Assistant.Arg | src/services/geminiAssistantService.js:41-65 | a missing argument is undefined; a present one is itself |
| Assistant.TextArg | src/services/geminiAssistantService.js:144-157 | `String(args?.key \|\| "").trim()`: a falsy argument is empty, a text is trimmed |
| Assistant.ClampInt | src/services/geminiAssistantService.js:34-39 | a non-finite value gives the fallback; otherwise the truncated value clamped to `[min, max]` |
| Assistant.ResolveMonthOffsetAsWritten | src/services/geminiAssistantService.js:41-65 | as written, an explicit `monthOffset` gives its clamped value (`ClampInt`: truncated toward zero, held within ±240, 0 when not a finite number), a whole number; without it, a month or year outside its range gives 0 |
| Assistant.ResolveMonthOffset | src/services/geminiAssistantService.js:41-65 | an explicit `monthOffset` gives its clamped value (`ClampInt`: truncated toward zero, held within ±240, 0 when not a finite number); otherwise the offset to a valid month and year, and 0 when those are missing or not whole |
| Assistant.ResolveMonthOffsetRoundTrip | src/services/geminiAssistantService.js:51-60 | a valid whole month and year give an offset whose range is that month and year |
| Assistant.ResolveMonthOffsetAgrees | src/services/geminiAssistantService.js:41-65 | the corrected offset equals the one as written whenever month and year are whole |
| Assistant.FractionalMonthResolves | src/services/geminiAssistantService.js:51-60 | as written, month 1.5 gives offset 0.5 and a month of 1.5; corrected, the offset is 0 |
| Assistant.HistoryToContents | src/services/geminiAssistantService.js:67-83 | each history turn is mapped in order, and the latest message is appended unless it is already the last user turn |
| Assistant.HistoryToContentsNoDouble | src/services/geminiAssistantService.js:67-83 | putting the latest user message at the end of the history first gives the same contents, so it is never sent twice |
| Assistant.SafeCall | src/services/geminiAssistantService.js:85-91 | a result is passed through; a thrown error becomes an error object with a non-empty message |
| Assistant.ExpenseInRangeTool | src/services/geminiAssistantService.js:165-177 | an ill-shaped start or end date throws its message; otherwise the expense in `[start, end)` |
| Assistant.ExpenseInRangeToolOfFormatted | src/services/geminiAssistantService.js:165-177 | dates formatted as `YYYY-MM-DD` give the expense in exactly that range, whatever other arguments come with them |
| Assistant.RunTool | src/services/geminiAssistantService.js:126-206 | a handler exists exactly for the declared tool names; the wallet tool without a name asks for one |
| Assistant.ToolResultFor | src/services/geminiAssistantService.js:437-459 | an unknown tool gives "Unknown tool: name"; a known one gives its handler's result through `safeCall` |
| Assistant.ToolErrorsAreCaptured | src/services/geminiAssistantService.js:165-188 | bad dates and the missing matcher come back as error results, not failures |
| Assistant.TopCategoriesToolLimit | src/services/geminiAssistantService.js:159-163 | the top-categories tool uses a limit in 1..20, 5 by default |
| Assistant.TopExpensesToolLimit | src/services/geminiAssistantService.js:189-193 | the top-expenses tool uses a limit in 1..20, 3 by default |
| Assistant.TopIncomesToolLimit | src/services/geminiAssistantService.js:195-199 | the top-incomes tool uses a limit in 1..20, 3 by default |
| Assistant.CeilNum | src/services/geminiAssistantService.js:107-110 | `Math.ceil` keeps NaN and infinities and rounds finite values up |
| Assistant.ParseRetryAfterSeconds | src/services/geminiAssistantService.js:92-111 | a structured delay is used when present; otherwise a delay exists exactly when "retry in <number>s" occurs |
| Assistant.IsQuota429 | src/services/geminiAssistantService.js:113-120 | a failure counts as a quota error exactly when its message holds '"code":429', "RESOURCE_EXHAUSTED" or "Quota exceeded" |
| Assistant.NoRetryPhraseNoDelay | src/services/geminiAssistantService.js:107-110 | a message without "retry in" in any letter case yields no delay |
| Assistant.RetryDelayRead | src/services/geminiAssistantService.js:107-110 | "Please retry in <d>s" yields the ceiling of the number d spells |
| Assistant.RetryWholeSeconds | src/services/geminiAssistantService.js:107-110 | "Please retry in <n>s." yields exactly n seconds |
| Orchestrator.ToolTurns | src/services/geminiAssistantService.js:437-459 | each call adds the model's call turn followed by the tool's result turn, in order |
| Orchestrator.Converse | src/services/geminiAssistantService.js:413-465 | a run makes at least one and at most three model calls |
| Orchestrator.RunRounds | src/services/geminiAssistantService.js:413-465 | the loop computes the run its recursive definition describes |
| Orchestrator.AppendToolTurns | src/services/geminiAssistantService.js:437-459 | the inner loop over the calls appends the same turns as `ToolTurns` |
| Orchestrator.Round | src/services/geminiAssistantService.js:413-465 | one iteration either ends the run with the reply `Converse` gives, or continues it with the conversation `Converse` continues from |
| Orchestrator.RunWithTools | src/services/geminiAssistantService.js:122-465 | the run starts from the converted history and makes one to three model calls |
| Orchestrator.ConverseStep | src/services/geminiAssistantService.js:437-459 | a reply with tool calls appends their turns and goes on to the next round |
| Orchestrator.ConverseOnlyAppends | src/services/geminiAssistantService.js:437-459 | a run only appends call and result turns to the conversation |
| Orchestrator.AnswerEndsRun | src/services/geminiAssistantService.js:462 | a reply without tool calls ends the run with its text, or the fallback text when empty |
| Orchestrator.FailureEndsRun | src/services/geminiAssistantService.js:428-435 | a failed call ends the run with the quota message for a 429 and the generic apology otherwise |
| Orchestrator.FailureReply | src/services/geminiAssistantService.js:428-435 | the reply differs from the generic apology exactly for a quota error, and then starts with the quota message |
| Orchestrator.QuotaReply | src/services/geminiAssistantService.js:429-431 | the quota message is the fixed text around the waiting time in seconds |
| Orchestrator.SecondsText | src/services/geminiAssistantService.js:429-430 | no delay reads "60"; a whole non-negative delay is written as its decimal digits, which read back as the delay |
| Orchestrator.QuotaWaitDefaultsToSixty | src/services/geminiAssistantService.js:428-435 | without a "retry in" delay the quota message asks to wait 60 seconds |
| Orchestrator.ThreeToolRoundsExhaust | src/services/geminiAssistantService.js:414-465 | three rounds of tool calls end with the exhausted apology after three model calls |
| Orchestrator.UnknownToolAnswered | src/services/geminiAssistantService.js:437-459 | an unknown tool name is answered with an "Unknown tool" result |
| Transactions.InsertTx | src/services/transactionService.js:24-36 | the new row is appended with the given fields, today as default date, and a fresh id |
| Transactions.CreateTransaction | src/services/transactionService.js:8-48 | MISSING_FIELDS iff a category, wallet or amount is missing; INVALID_AMOUNT iff the amount is not positive; otherwise one row is appended |
| Transactions.GetTransactionById | src/services/transactionService.js:118-142 | the user's live transaction with that id joined with its category, or none exists |
| Transactions.GetAfterCreate | src/services/transactionService.js:8-142 | a created transaction is found again by its id |
| Transactions.Patched | src/services/transactionService.js:159-184 | every field given replaces the stored one; the others, the id, owner and deletion are kept |
| Transactions.PatchRows | src/services/transactionService.js:193-206 | only the user's row with that id is patched |
| Transactions.UpdateTransaction | src/services/transactionService.js:147-220 | NOT_FOUND iff no such live row; INVALID_AMOUNT iff an amount is given but bad; an empty patch changes nothing; otherwise the row is patched and read back |
| Transactions.PatchedTwice | src/services/transactionService.js:159-184 | patching twice is patching once |
| Transactions.PatchRowsTwice | src/services/transactionService.js:193-206 | running the same `UPDATE ... WHERE transaction_id AND user_id` twice leaves the rows as the first run left them |
| Transactions.UpdateIdempotent | src/services/transactionService.js:147-220 | sending the same update twice changes nothing the second time |
| Transactions.MarkDeleted | src/services/transactionService.js:225-252 | only the user's live row with that id is marked deleted |
| Transactions.SoftDeleteTransaction | src/services/transactionService.js:225-252 | NOT_FOUND iff no such live row; otherwise that row is marked deleted and nothing else changes |
| Transactions.SoftDeleteHides | src/services/transactionService.js:118-252 | a deleted transaction is no longer found, and deleting it again is NOT_FOUND |
| Transactions.NotOlderByRecency | src/services/transactionService.js:106 | the sort key orders by date, then id, both descending |
| Transactions.Joined | src/services/transactionService.js:53-113 | the joined rows are exactly the listed transactions with their categories |
| Transactions.ListTransactions | src/services/transactionService.js:53-113 | the requested page of the filtered joined rows sorted newest first: as many rows as fit after the offset, row k being sorted row offset + k, a sub-multiset of the rows |
| Transactions.JoinedIgnoresPage | src/services/transactionService.js:53-104 | the rows before paging do not depend on the page size or offset |
| Transactions.ListTransactionsIsPage | src/services/transactionService.js:53-113 | every page is a window of the same sorted rows, whatever limit and offset are asked |
| Transactions.PageOfSorted | src/services/transactionService.js:106-107 | a page of the sorted rows is newest first and drawn from them |
| TxController.ToInt | src/controllers/transactionController.js:6-9 | `parseInt(value, 10)`, or the fallback when that is NaN |
| TxController.ToIntOfIntToString | src/controllers/transactionController.js:6-9 | `toInt` reads back every rendered integer |
| TxController.ToIntIgnoresSuffix | src/controllers/transactionController.js:6-9 | digits followed by a non-digit read as the digits |
| TxController.ToIntFallback | src/controllers/transactionController.js:6-9 | a text whose first character is not a sign, space or digit gives the fallback |
| TxController.AfterWrite | src/controllers/transactionController.js:128-133 | the alert check after a write changes only the alert log, and nothing when it fails |
| TxController.JoinRow | src/controllers/transactionController.js:61-65 | a row is joined exactly when its category and wallet exist |
| TxController.ShownRows | src/controllers/transactionController.js:19-81 | the rows shown are exactly the user's live transactions passing the filters, joined |
| TxController.ListTransactionsReply | src/controllers/transactionController.js:19-81 | exactly the joined rows passing the filters, each as often as its transaction occurs, newest first, all the user's and live |
| TxController.NothingShown | src/controllers/transactionController.js:19-81 | no row is shown when no transaction passes the filters |
| TxController.UnreadableYearListsNothing | src/controllers/transactionController.js:27-30 | a year that is not a number lists nothing |
| TxController.UnknownKindIgnored | src/controllers/transactionController.js:37-40 | a type other than income or expense filters nothing |
| TxController.CreateTransactionReply | src/controllers/transactionController.js:87-159 | 400 iff a field is missing or the amount is not positive; 201 iff the service would create, with the row appended and alerts checked; nothing changes otherwise |
| TxController.CreateAgreesWithService | src/controllers/transactionController.js:87-159 | the controller's insert stores the service's row |
| TxController.Coalesced | src/controllers/transactionController.js:188-211 | `COALESCE`: each truthy field replaces the stored one, and the rest is kept |
| TxController.CoalesceRows | src/controllers/transactionController.js:188-211 | only the user's live row with that id is updated |
| TxController.UpdateTransactionReply | src/controllers/transactionController.js:165-255 | 400 iff an amount is given but not positive; 404 iff no such live row; 500 iff a live row exists and the given amount is positive but not finite; 200 iff a live row exists and the amount is absent or positive and finite, with every such row coalesced and the updated row returned; no other status |
| TxController.FalsyBodyKeepsRow | src/controllers/transactionController.js:188-211 | a body with no truthy field leaves the transactions as they are |
| TxController.UpdateTwiceSameRows | src/controllers/transactionController.js:165-255 | the same body sent twice changes nothing the second time |
| TxController.DeleteTransactionReply | src/controllers/transactionController.js:261-309 | 404 iff no such live row; otherwise 200 with the row soft-deleted and alerts checked |
| TxController.DeleteTwiceNotFound | src/controllers/transactionController.js:261-309 | deleting the same transaction twice gives 404 the second time |
| TxController.AlertFailureInvisible | src/controllers/transactionController.js:128-133 | a failing alert check changes neither the reply nor the transactions |
| Categories.Status | src/services/categoryService.js:124-295 | global and foreign categories give 403; a missing one or parent gives 404; the other errors give 400 or 500 |
| Categories.ReadId | src/services/categoryService.js:125-130 | an id that is NaN is invalid; a whole number is an id |
| Categories.KindOf | src/services/categoryService.js:60-64 | only "income" and "expense" name a type |
| Categories.MapCategoryRow | src/services/categoryService.js:5-15 | the row's fields, with `isGlobal` iff the row has no owner |
| Categories.VisibleRows | src/services/categoryService.js:23-45 | exactly the global and own categories of the requested type |
| Categories.GetCategories | src/services/categoryService.js:23-45 | every visible category of the type is listed, and nothing else |
| Categories.OthersHidden | src/services/categoryService.js:35 | another user's category is never listed |
| Categories.KindLists | src/services/categoryService.js:27-30 | a visible category is listed unfiltered, and under a type iff it has that type |
| Categories.ListedHasKind | src/services/categoryService.js:27-30 | a category listed under a type has that type |
| Categories.CheckParent | src/services/categoryService.js:67-99 | no parent is fine; NaN is invalid; a non-integral id is rejected; a missing parent is not found; a parent of another type is a mismatch; each exactly in its case, and an existing parent of the same type is accepted |
| Categories.CreateCategory | src/services/categoryService.js:50-119 | the name is required and the type must be valid; with both valid, it succeeds exactly when the parent check does and otherwise fails with the parent check's error; the new own row has the trimmed name, checked parent and a fresh id |
| Categories.CreatedIsListed | src/services/categoryService.js:23-119 | a created category is listed for its owner, unfiltered and under its type |
| Categories.OwnedCategory | src/services/categoryService.js:124-162 | invalid id, non-integral id, not found, global and not-owner each exactly in their case; found exactly when the id names the user's own row, which is returned |
| Categories.GlobalCategoriesAreReadOnly | src/services/categoryService.js:151-162 | updating or deleting a global category is refused |
| Categories.Edited | src/services/categoryService.js:164-168 | the name and type are set, and icon and color are replaced only when given |
| Categories.EditRows | src/services/categoryService.js:182-200 | only the user's row with that id is edited |
| Categories.UpdateCategory | src/services/categoryService.js:124-203 | lookup errors pass through; once the user's row is found, only an empty name or a bad type is refused, each exactly in its case; otherwise the row is edited, keeping ids, owners and parents |
| Categories.EmptyUpdateKeeps | src/services/categoryService.js:164-168 | an empty update changes nothing and returns the row |
| Categories.RemoveRows | src/services/categoryService.js:277-292 | the category and its subcategories of the user are removed, and nothing else |
| Categories.DeleteCategory | src/services/categoryService.js:212-295 | lookup errors pass through; IN_USE iff a transaction uses the category or a subcategory; otherwise exactly those rows go |
| Categories.DeleteTwiceNotFound | src/services/categoryService.js:212-295 | deleting the same category twice gives "not found" the second time |
| Wallets.Status | src/services/walletService.js:122-157 | NOT_FOUND gives 404; every other error gives 400 |
| Wallets.ListedRows | src/services/walletService.js:19-29 | exactly the user's unarchived wallets |
| Wallets.GetWalletsByUser | src/services/walletService.js:19-29 | exactly the user's unarchived wallets, each as often as stored, by ascending id |
| Wallets.GetWalletsByUserStrict | src/services/walletService.js:19-29 | with distinct wallet ids the listing is strictly increasing by id |
| Wallets.CheckedBalanceAsWritten | src/services/walletService.js:46-52 | as written, a balance is refused exactly when `Number(balance) < 0` |
| Wallets.NaNBalancePasses | src/services/walletService.js:46-52 | as written, the balance "abc" is NaN and passes the check |
| Wallets.CheckedBalance | src/services/walletService.js:46-52 | a missing balance takes the fallback; a given one is accepted exactly when it is a finite non-negative number |
| Wallets.CheckedBalanceAgrees | src/services/walletService.js:89-93 | the corrected check accepts exactly what the written one accepts with a finite value, and refuses "abc" |
| Wallets.FirstText | src/services/walletService.js:33-40 | `name \|\| wallet_name \|\| walletName \|\| ""` |
| Wallets.OrDefault | src/services/walletService.js:34-44 | `x \|\| fallback` |
| Wallets.CreateWallet | src/services/walletService.js:31-71 | the name is required and the balance must be valid; the new row has the trimmed name, the default kind and color, and the largest id |
| Wallets.CreatedWalletListed | src/services/walletService.js:19-71 | a created wallet is listed for its owner, last |
| Wallets.FindOwned | src/services/walletService.js:77-85 | the user's wallet with that id, or none exists |
| Wallets.Edited | src/services/walletService.js:95-117 | each given field replaces the stored one, the balance is the checked one, and id, owner and archive flag are kept |
| Wallets.EditRows | src/services/walletService.js:95-117 | only the user's row with that id is edited |
| Wallets.UpdateWallet | src/services/walletService.js:73-120 | NOT_FOUND iff the user has no such wallet; INVALID_BALANCE iff the balance is bad; otherwise the row is edited and returned |
| Wallets.UpdateIdempotent | src/services/walletService.js:73-120 | sending the same update twice changes nothing the second time |
| Wallets.RemoveRows | src/services/walletService.js:145-154 | only the user's row with that id is removed, and a row goes iff one matches |
| Wallets.DeleteWallet | src/services/walletService.js:122-157 | IN_USE iff a transaction of the user uses the wallet; NOT_FOUND iff it is unused and missing; otherwise exactly that row goes |
| Wallets.DeleteTwiceNotFound | src/services/walletService.js:122-157 | deleting the same wallet twice gives NOT_FOUND the second time |
| Settings.MapSettingsRow | src/services/settingsService.js:5-14 | no row gives null; a row gives its columns |
| Settings.MapSettingsRowInjective | src/services/settingsService.js:5-14 | different rows give different objects |
| Settings.GetSettingsByUser | src/services/settingsService.js:17-48 | the existing row untouched, or a new row of the table's defaults for that user; other users' rows never change |
| Settings.GetStable | src/services/settingsService.js:17-48 | a second read sees the first read's row and changes nothing |
| Settings.Coalesce | src/services/settingsService.js:68-72 | `COALESCE($n, column)`: each given field replaces the stored one |
| Settings.UpdateSettings | src/services/settingsService.js:62-78 | an upsert: a new row takes the given fields over the defaults, an existing one over its values; only that user's row changes |
| Settings.UpdateThenGet | src/services/settingsService.js:17-78 | after an update, reading returns the updated row and inserts nothing |
| Settings.Then | src/services/settingsService.js:68-72 | the combined patch applies the first patch and then the second |
| Settings.UpdateCompose | src/services/settingsService.js:62-78 | two updates in a row amount to one update with the combined patch |
| Settings.UpdateIdempotent | src/services/settingsService.js:62-78 | sending the same update twice changes nothing the second time |
| Settings.EmptyUpdateKeeps | src/services/settingsService.js:68-72 | an empty update leaves an existing row as it is |
| Settings.EmptyUpdateIsGet | src/services/settingsService.js:17-78 | an empty update acts as a read when the table's defaults are the upsert's literals |

## Left out

- Database I/O, connection pools, transactions (`BEGIN`/`COMMIT`), timestamps (`created_at`, `updated_at`, `deleted_at` values) and the HTTP layer beyond the transaction controller: tables are sequences and statements are functions.
- Database triggers, foreign-key and check-constraint errors: the controller's path that turns a message about "Category" or "Wallet" into a 400, and every other 500, are not modelled.
- `LIKE`/`ILIKE` wildcards in search text: `%` and `_` inside a query are matched literally by the model's substring test.
- The `ORDER BY` of `getCategories` (type, parent first, lower-cased name): `Categories.GetCategories` states which rows are listed, not their order.
- `Categories.OwnedCategory`: a non-integral id such as "1.5" is treated as rejected by the database (`IdRejected`, a 500). The `!id` guard cannot be reached once NaN is refused. Ids are integers throughout.
- `is_archived` and `notify_*` columns take their declared defaults. The shapes of `mapWalletRow` and `mapBudgetRow` (renamed fields, string-to-number casts) are not modelled.
- `Settings.GetSettingsByUser`: the table's column defaults are a parameter. The fallback read after a concurrent insert (settingsService.js:39-47) cannot happen in a sequential model.
- `updateAvatarUrl` writes to the users table, which is not part of this model.
- TxController.CreateTransactionReply: an infinite amount ("Infinity") passes the controller's `amount > 0` check. The model then answers 500, as if the `numeric` column refused it, and does not model a database that stores it. `TxController.UpdateTransactionReply` does the same. The service's own check refuses infinite amounts.
- The transaction service's own fire-and-forget budget checks (transactionService.js:42, 213 and 246) pass the transaction date where `checkAndLogBudgetAlertsForUser` expects a database client (budgetService.js:164). Its first `client.query` call then throws, and the `.catch` swallows the error, so these checks never look at a budget; `Transactions` therefore has no alert step. The checks that do run are the controller's (transactionController.js:128-133, 225-229 and 292-296), which `TxController.AfterWrite` models, with a failure of theirs as its `alertsOk` parameter. A partial failure, with some alert rows inserted and others not, is not modelled.
- `detectMonthYearFromText` and `getMonthlySpendingByCategory` (chatbotDataService.js:360-390 and 454-487) are not called by any modelled path.
- The `get_spending_by_categories` tool: only its path through `safeCall` is modelled, where the missing name matcher throws and the error is returned.
- `Assistant.ParseRetryAfterSeconds`: the structured `retryDelay` is a field of the error value rather than JSON text to parse.
- `normalizeText`'s `normalize("NFD")` and accent stripping are a parameter of `Chatbot.CallAssistant`. `Common.Lower` lower-cases ASCII, Latin-1 and the Vietnamese letters only, not every Unicode capital.
- The language model and the Gemini backend are oracles (function parameters). The tool declarations sent to Gemini are not modelled.
- `formatCurrency` and `toLocaleDateString` texts: replies carry the figures, not their rendered strings.
- `Js.StringToNumber`: exponent (`1e3`), hexadecimal, octal and binary literals are read as NaN, where JavaScript gives a number.
- `Calendar.GetMonthRange` uses a non-negative remainder. The JavaScript `%` in the source differs only for dates before year 0, as `Calendar.MonthFieldAsWrittenLeavesRange` shows, so the model treats this as unreachable rather than as a finding.
- `Wallets.UpdateWallet`: an update may set an empty name, as in the source, which checks only the balance.
- Chatbot.CallAssistant: routes with the corrected rule chain (`Classify(t, false)`), not the chain as written. A question such as "top 3 giao dich chi tieu lon nhat", which the source answers with the largest incomes, gets the expense answer here; the as-written routing is stated by `Chatbot.TopSpendingQuestionExample` and the Findings row.
- Wallets.CreateWallet: checks the balance with the corrected `CheckedBalance`, so a balance that is not a number is refused with `InvalidBalance`, where the source stores NaN (see the Findings row and `Wallets.NaNBalancePasses`).
- Wallets.UpdateWallet: refuses a NaN balance for the same reason, where the source stores it.
- Assistant.RunTool: month arguments go through the corrected `ResolveMonthOffset`, so a fractional month or year gives offset 0, where the source computes a fractional offset (see the Findings row and `Assistant.FractionalMonthResolves`). Tool names inherited from `Object.prototype` ("toString", "valueOf", "constructor", …) are treated as unknown; in the source `toolFunctions[name]` finds the inherited function and calls it through `safeCall`.
- Assistant.ToolResultFor: the same two differences as `Assistant.RunTool`.
- Orchestrator.UnknownToolAnswered: holds for names outside the declared tools and outside `Object.prototype`; an inherited name does not get the "Unknown tool" result in the source.
- Js.ToJsString: a non-integral number is rendered by its integer part, not by JavaScript's shortest decimal expansion ("0.5").
- Orchestrator.SecondsText: through `Js.ToJsString`, a structured `retryDelay` of 0.5 seconds is written "0" where the source writes "0.5"; only whole delays are promised.
- ChatbotData.WalletByName: the least name is chosen by code-point order (`LexLe`), not by the database collation that `ORDER BY wallet_name` uses, so the two can pick different wallets for names with accented capitals.
- Budgets.UpsertCurrentBudget: stores the validated whole threshold. The source checks `Number(alertThreshold)` but binds the raw value, so a text such as "80.0" or "80." passes the check and is then sent as is to the `alert_threshold` column, documented as 70, 80, 90 or 100, which as an integer column refuses it; the source fails there, while the model stores 80.
- Ledger.Percentage: money and percentages are exact reals, not JavaScript doubles, so a percentage that rounds just below a threshold in doubles reaches it here. For example, 9.04 spent of 11.3 is 80 exactly in the model but 79.99999999999999 in doubles, so `Budgets.ThresholdsToLog`, `Budgets.CheckBudgetAlerts`, `Budgets.StatusOf`, `ChatbotData.UsageOf`, `Chatbot.AdviseBudget`, `Chatbot.AlertLineIffPercentBelow` and `Chatbot.ShareOfExpense` can report a threshold as reached where the source does not.
- Budgets.BudgetHistory: a fractional month count such as "2.5" is floored to 2 rows; the source passes it as the `LIMIT` parameter, which PostgreSQL refuses, so the source fails where the model answers.

## Findings

| source | as written | input that shows it | evidently intended | confidence | as-written member | corrected member |
|---|---|---|---|---|---|---|
| src/services/geminiAssistantService.js:51-60 | `month` and `year` are range-checked but not checked to be whole numbers, so the offset can be fractional | `{month: 1.5, year: 2025}` in January 2025 gives offset 0.5 and a month range for month "1.5" | only whole months and years select a month; other values fall back to offset 0 | not executed | Assistant.FractionalMonthResolves | Assistant.ResolveMonthOffsetRoundTrip |
| src/services/walletService.js:46-52 | the balance check `Number(balance) < 0` lets NaN through | `{name: "x", balance: "abc"}` creates a wallet whose balance is NaN; the same holds for updates at lines 89-93 | a balance that is not a number is refused like a negative one | not executed | Wallets.NaNBalancePasses | Wallets.CheckedBalanceAgrees |
| src/services/chatbotService.js:278-320 | the top-3 income rule accepts "giao dich" and comes before the top-3 expense rule, which can therefore never answer a "giao dich" question | "top 3 giao dich chi tieu lon nhat" is answered with the three largest incomes | a question naming spending and not income gets the expense answer | not executed | Chatbot.TopSpendingQuestionExample | Chatbot.SpendingQuestionNeverIncome |

=== FILE: assistant.dfy ===
/** The server side of the function-calling assistant: how tool arguments are
    coerced, how a month is resolved from them, how the chat history becomes
    the model's conversation, what each tool returns, and how a rate-limit
    error message is read. */
module Assistant {
  import opened Common
  import opened Js
  import opened Calendar
  import opened Ledger
  import opened ChatbotData

  /** A tool's `args`: a JSON object, where a missing key reads as undefined. */
  type Args = map<string, JsValue>

  function Arg(args: Args, key: string): (v: JsValue)
    ensures key !in args ==> v == Undefined
    ensures key in args ==> v == args[key]
  {
    if key in args then args[key] else Undefined
  }

  /** `String(args?.key || "").trim()`. */
  function TextArg(args: Args, key: string): (s: string)
    ensures !Truthy(Arg(args, key)) ==> s == []
    ensures Arg(args, key).Str? ==> s == Trim(Arg(args, key).s)
  {
    var v := Arg(args, key);
    Trim(if Truthy(v) then ToJsString(v) else "")
  }

  // ---------------------------------------------------------------------------
  // clampInt and resolveMonthOffset

  /** `clampInt(n, min, max, fallback)`: `Number(n)` truncated toward zero
      and clamped into `[min, max]`; the fallback when it is not finite. */
  function ClampInt(n: JsValue, min: int, max: int, fallback: int): (r: int)
    ensures !IsFinite(ToNumber(n)) ==> r == fallback
    ensures IsFinite(ToNumber(n)) ==>
              var xi := Trunc(ToNumber(n).r);
              && (min <= xi <= max ==> r == xi)
              && (xi < min ==> r == min)
              && (max < xi && min <= max ==> r == max)
    ensures IsFinite(ToNumber(n)) && min <= max ==> min <= r <= max
    ensures min <= fallback <= max ==> min <= r <= max
  {
    var x := ToNumber(n);
    if !IsFinite(x) then fallback
    else
      var xi := Trunc(x.r);
      var upper := if max < xi then max else xi;
      if min > upper then min else upper
  }

  /** The calendar year and month in the Asia/Ho_Chi_Minh time zone at the
      moment of the call. */
  datatype YearMonth = YearMonth(year: int, month: int)

  predicate MonthArgOk(n: Num) { n.Finite? && 1.0 <= n.r <= 12.0 }
  predicate YearArgOk(n: Num) { n.Finite? && 1900.0 <= n.r <= 3000.0 }
  predicate IsIntegral(x: real) { x.Floor as real == x }

  /** `resolveMonthOffset(args)` as written: an explicit `monthOffset`
      (clamped to ±240) wins; otherwise a month in 1..12 and a year in
      1900..3000 give their distance in months from `vn`; otherwise 0. The
      bounds are the only test on month and year, so fractional values pass
      and give a fractional offset. */
  function ResolveMonthOffsetAsWritten(args: Args, vn: YearMonth): (r: real)
    ensures !IsNullish(Arg(args, "monthOffset")) ==> -240.0 <= r <= 240.0 && IsIntegral(r)
    ensures !IsNullish(Arg(args, "monthOffset")) ==> r == ClampInt(Arg(args, "monthOffset"), -240, 240, 0) as real
    ensures IsNullish(Arg(args, "monthOffset"))
            && !(MonthArgOk(ToNumber(Arg(args, "month"))) && YearArgOk(ToNumber(Arg(args, "year"))))
            ==> r == 0.0
  {
    var mo := Arg(args, "monthOffset");
    if !IsNullish(mo) then ClampInt(mo, -240, 240, 0) as real
    else
      var month := ToNumber(Arg(args, "month"));
      var year := ToNumber(Arg(args, "year"));
      if MonthArgOk(month) && YearArgOk(year) then
        (year.r - vn.year as real) * 12.0 + (month.r - vn.month as real)
      else 0.0
  }

  /** `resolveMonthOffset(args)` with month and year required to be whole
      numbers: a fractional month or year is ignored like an out-of-range
      one. */
  function ResolveMonthOffset(args: Args, vn: YearMonth): (r: int)
    ensures !IsNullish(Arg(args, "monthOffset")) ==> -240 <= r <= 240
    ensures !IsNullish(Arg(args, "monthOffset")) ==> r == ClampInt(Arg(args, "monthOffset"), -240, 240, 0)
    ensures var month := ToNumber(Arg(args, "month"));
            var year := ToNumber(Arg(args, "year"));
            IsNullish(Arg(args, "monthOffset"))
            && !(MonthArgOk(month) && YearArgOk(year) && IsIntegral(month.r) && IsIntegral(year.r))
            ==> r == 0
  {
    var mo := Arg(args, "monthOffset");
    if !IsNullish(mo) then ClampInt(mo, -240, 240, 0)
    else
      var month := ToNumber(Arg(args, "month"));
      var year := ToNumber(Arg(args, "year"));
      if MonthArgOk(month) && YearArgOk(year) && IsIntegral(month.r) && IsIntegral(year.r) then
        (year.r.Floor - vn.year) * 12 + (month.r.Floor - vn.month)
      else 0
  }

  /** Round trip: when the host's date and the Vietnamese clock agree on the
      month, the resolved offset makes `getMonthRange` land on exactly the
      month and year asked for. */
  lemma ResolveMonthOffsetRoundTrip(args: Args, vn: YearMonth, now: CivilDate)
    requires now.year == vn.year && now.month == vn.month
    requires IsNullish(Arg(args, "monthOffset"))
    requires var month := ToNumber(Arg(args, "month"));
             var year := ToNumber(Arg(args, "year"));
             MonthArgOk(month) && YearArgOk(year) && IsIntegral(month.r) && IsIntegral(year.r)
    ensures var r := GetMonthRange(now, ResolveMonthOffset(args, vn));
            r.month as real == ToNumber(Arg(args, "month")).r
            && r.year as real == ToNumber(Arg(args, "year")).r
  {
    var month := ToNumber(Arg(args, "month")).r.Floor;
    var year := ToNumber(Arg(args, "year")).r.Floor;
    MonthRangeOfTarget(now, month, year);
  }

  /** On every argument object without a fractional month or year the
      corrected resolution and the as-written one agree. */
  lemma ResolveMonthOffsetAgrees(args: Args, vn: YearMonth)
    requires !ToNumber(Arg(args, "month")).Finite? || IsIntegral(ToNumber(Arg(args, "month")).r)
    requires !ToNumber(Arg(args, "year")).Finite? || IsIntegral(ToNumber(Arg(args, "year")).r)
    ensures ResolveMonthOffset(args, vn) as real == ResolveMonthOffsetAsWritten(args, vn)
  {}

  /** The `month` field `getMonthRange` computes for a possibly fractional
      offset: `(index % 12) + 1` with JavaScript's `%` on numbers. */
  function MonthFieldOfRealOffset(now: Date, offset: real): real {
    var index := (now.year * 12 + (now.month - 1)) as real + offset;
    var q := Trunc(index / 12.0);
    index - 12.0 * q as real + 1.0
  }

  /** As written, `{month: 1.5, year: 2025}` asked in January 2025 resolves
      to the offset 0.5, and the month range built from it reports month
      1.5; the corrected resolution falls back to the current month. */
  lemma FractionalMonthResolves()
    ensures var args := map["month" := Number(Finite(1.5)), "year" := Number(Finite(2025.0))];
            && ResolveMonthOffsetAsWritten(args, YearMonth(2025, 1)) == 0.5
            && MonthFieldOfRealOffset(Date(2025, 1, 10), 0.5) == 1.5
            && ResolveMonthOffset(args, YearMonth(2025, 1)) == 0
  {
    var args := map["month" := Number(Finite(1.5)), "year" := Number(Finite(2025.0))];
    assert Arg(args, "monthOffset") == Undefined;
    assert Arg(args, "month") == Number(Finite(1.5));
    assert Arg(args, "year") == Number(Finite(2025.0));
    assert !IsIntegral(1.5) by {
      assert (1.5).Floor == 1;
    }
    var q := Trunc((2025 * 12) as real / 12.0 + 0.5 / 12.0);
    assert q == 2025;
  }

  // ---------------------------------------------------------------------------
  // The conversation sent to the model

  datatype Role = UserRole | ModelRole

  /** A function call the model requests: the tool's name and its arguments
      (`args || {}`). */
  datatype FunctionCall = FunctionCall(name: string, args: Args)

  /** What a tool hands back to the model. */
  datatype ToolResult =
    | ToolError(message: string)
    | MonthlyResult(totals: MonthlyTotals)
    | BudgetStatus(usage: Option<BudgetUsage>)
    | BalanceResult(total: real)
    | NeedWalletName(prompt: string)
    | WalletLookup(walletName: string, wallet: Option<Wallet>)
    | CategoriesResult(report: CategoryReport)
    | ExpenseResult(total: real)
    | TransactionsResult(txReport: TxReport)
    | TopWalletResult(top: Option<WalletTotal>)

  datatype Part = TextPart(text: string) | CallPart(call: FunctionCall) | ResponsePart(name: string, result: ToolResult)

  /** One entry of `contents`: a role and its single part. */
  datatype Turn = Turn(role: Role, part: Part)

  function TurnOf(m: ChatMessage): Turn {
    Turn(if m.sender == "assistant" then ModelRole else UserRole, TextPart(m.content))
  }

  /** `historyToGeminiContents(history, latestMessage)`: every stored message
      in order ('assistant' speaks as the model, anyone else as the user),
      then the latest message as a user turn unless the history already
      ends with exactly that turn. */
  function HistoryToContents(history: seq<ChatMessage>, latest: string): (r: seq<Turn>)
    ensures |r| == |history| || |r| == |history| + 1
    ensures |r| >= 1
    ensures forall i :: 0 <= i < |history| ==> r[i] == TurnOf(history[i])
    ensures r[|r| - 1] == Turn(UserRole, TextPart(latest))
    ensures |r| == |history| <==>
              history != [] && history[|history| - 1].sender != "assistant"
              && history[|history| - 1].content == latest
  {
    var mapped := seq(|history|, i requires 0 <= i < |history| => TurnOf(history[i]));
    if mapped != [] && mapped[|mapped| - 1] == Turn(UserRole, TextPart(latest)) then mapped
    else mapped + [Turn(UserRole, TextPart(latest))]
  }

  /** Whether the latest message was already stored as the last history
      entry or not, the model is sent the same conversation. */
  lemma HistoryToContentsNoDouble(history: seq<ChatMessage>, sender: string, latest: string)
    requires sender != "assistant"
    requires !(history != [] && history[|history| - 1].sender != "assistant"
               && history[|history| - 1].content == latest)
    ensures HistoryToContents(history + [ChatMessage(sender, latest)], latest) == HistoryToContents(history, latest)
  {
    var h := history + [ChatMessage(sender, latest)];
    var r := HistoryToContents(h, latest);
    var s := HistoryToContents(history, latest);
    assert |r| == |h| == |s|;
    forall i | 0 <= i < |r|
      ensures r[i] == s[i]
    {
      if i < |history| {
        assert h[i] == history[i];
      }
    }
  }

  // ---------------------------------------------------------------------------
  // safeCall

  /** How a tool handler finishes: with a value or by throwing an error
      whose `message` may be empty. */
  datatype Outcome = Returned(value: ToolResult) | Threw(message: string)

  /** `safeCall(fn)`: a thrown error becomes `{error: true, message}` with
      "Tool error" standing in for an empty message; a value passes through. */
  function SafeCall(o: Outcome): (r: ToolResult)
    ensures o.Returned? ==> r == o.value
    ensures o.Threw? ==> r.ToolError? && r.message != []
    ensures o.Threw? && o.message != [] ==> r == ToolError(o.message)
  {
    match o
    case Returned(v) => v
    case Threw(m) => ToolError(if m == [] then "Tool error" else m)
  }

  // ---------------------------------------------------------------------------
  // The tools

  const WalletNamePrompt := "Bạn muốn xem số dư của ví nào? (Ví dụ: Tiền mặt, MoMo, Ngân hàng...)"
  const StartDateMessage := "start_date must be YYYY-MM-DD"
  const EndDateMessage := "end_date_exclusive must be YYYY-MM-DD"
  const MissingMatcherMessage := "chatbotDataService.getSpendingByCategories is missing"

  const ToolNames: set<string> := {
    "get_monthly_income_expense", "get_budget_status_total_month", "get_total_balance",
    "get_wallet_balance_by_name", "get_top_expense_categories", "get_expense_in_range",
    "get_spending_by_categories", "get_top_big_expenses", "get_top_big_incomes",
    "get_top_spending_wallet"
  }

  /** The database's `::date` cast of a `YYYY-MM-DD` text: a real calendar
      date of year 1 or later; anything else is rejected. */
  function DbDate(s: string): (r: Option<CivilDate>)
    requires IsoShaped(s)
    ensures r.Some? ==> ParseIsoDate(s) == Some(r.value) && r.value.year >= 1
  {
    var d := ParseIsoDate(s).value;
    if ValidDate(d) && d.year >= 1 then Some(d) else None
  }

  /** The error the database raises for a well-shaped text that is not a
      date. */
  function DateOutOfRange(s: string): string {
    "date/time field value out of range: \"" + s + "\""
  }

  /** The `get_expense_in_range` handler: both dates must have the
      `YYYY-MM-DD` shape, start first; the expense total over
      `[start, end)` otherwise. */
  function ExpenseInRangeTool(db: Db, user: int, args: Args): (o: Outcome)
    ensures !IsoShaped(TextArg(args, "start_date")) ==> o == Threw(StartDateMessage)
    ensures IsoShaped(TextArg(args, "start_date")) && !IsoShaped(TextArg(args, "end_date_exclusive"))
            ==> o == Threw(EndDateMessage)
    ensures o.Returned? ==>
              && IsoShaped(TextArg(args, "start_date")) && IsoShaped(TextArg(args, "end_date_exclusive"))
              && exists a: CivilDate, b: CivilDate ::
                   && ParseIsoDate(TextArg(args, "start_date")) == Some(a)
                   && ParseIsoDate(TextArg(args, "end_date_exclusive")) == Some(b)
                   && o.value == ExpenseResult(ExpenseInRange(db, user, a, b))
  {
    var start := TextArg(args, "start_date");
    var end := TextArg(args, "end_date_exclusive");
    if !IsoShaped(start) then Threw(StartDateMessage)
    else if !IsoShaped(end) then Threw(EndDateMessage)
    else
      match DbDate(start)
      case None => Threw(DateOutOfRange(start))
      case Some(a) =>
        match DbDate(end)
        case None => Threw(DateOutOfRange(end))
        case Some(b) => Returned(ExpenseResult(ExpenseInRange(db, user, a, b)))
  }

  /** A date written by `formatDateLocal` passes the argument coercion
      unchanged and the database cast reads it back. */
  lemma FormattedDateArg(args: Args, key: string, a: CivilDate)
    requires 1000 <= a.year <= 9999
    requires key in args && args[key] == Str(FormatDate(a))
    ensures TextArg(args, key) == FormatDate(a)
    ensures IsoShaped(FormatDate(a)) && DbDate(FormatDate(a)) == Some(a)
  {
    FormatDateRoundTrip(a);
    var sa := FormatDate(a);
    assert !IsSpace(sa[0]) && !IsSpace(sa[|sa| - 1]);
    TrimOfTrimmed(sa);
  }

  /** Dates written by `formatDateLocal` are accepted by the range tool and
      read back as the same dates. */
  lemma ExpenseInRangeToolOfFormatted(db: Db, user: int, extra: Args, a: CivilDate, b: CivilDate)
    requires 1000 <= a.year <= 9999 && 1000 <= b.year <= 9999
    ensures var args := extra["start_date" := Str(FormatDate(a))]["end_date_exclusive" := Str(FormatDate(b))];
            ExpenseInRangeTool(db, user, args) == Returned(ExpenseResult(ExpenseInRange(db, user, a, b)))
  {
    var args := extra["start_date" := Str(FormatDate(a))]["end_date_exclusive" := Str(FormatDate(b))];
    FormattedDateArg(args, "start_date", a);
    FormattedDateArg(args, "end_date_exclusive", b);
  }

  /** The handler behind each tool name; None for a name with no handler. */
  function RunTool(db: Db, user: int, now: CivilDate, vn: YearMonth, call: FunctionCall): (r: Option<Outcome>)
    ensures r.None? <==> call.name !in ToolNames
    ensures call.name == "get_spending_by_categories" ==> r == Some(Threw(MissingMatcherMessage))
    ensures call.name == "get_wallet_balance_by_name" ==>
              (TextArg(call.args, "walletName") == [] <==> r == Some(Returned(NeedWalletName(WalletNamePrompt))))
  {
    var args := call.args;
    var name := call.name;
    if name == "get_monthly_income_expense" then
      Some(Returned(MonthlyResult(MonthlyIncomeExpense(db, user, now, ResolveMonthOffset(args, vn)))))
    else if name == "get_budget_status_total_month" then
      Some(Returned(BudgetStatus(CurrentBudgetWithUsage(db, user, now, ResolveMonthOffset(args, vn)))))
    else if name == "get_total_balance" then
      Some(Returned(BalanceResult(TotalBalance(db.wallets, user))))
    else if name == "get_wallet_balance_by_name" then
      var walletName := TextArg(args, "walletName");
      if walletName == [] then Some(Returned(NeedWalletName(WalletNamePrompt)))
      else Some(Returned(WalletLookup(walletName, WalletByName(db.wallets, user, walletName))))
    else if name == "get_top_expense_categories" then
      var limit := ClampInt(Arg(args, "limit"), 1, 20, 5);
      Some(Returned(CategoriesResult(TopExpenseCategories(db, user, now, ResolveMonthOffset(args, vn), limit))))
    else if name == "get_expense_in_range" then
      Some(ExpenseInRangeTool(db, user, args))
    else if name == "get_spending_by_categories" then
      Some(Threw(MissingMatcherMessage))
    else if name == "get_top_big_expenses" then
      var limit := ClampInt(Arg(args, "limit"), 1, 20, 3);
      Some(Returned(TransactionsResult(TopBigTransactions(db, user, Expense, now, ResolveMonthOffset(args, vn), limit))))
    else if name == "get_top_big_incomes" then
      var limit := ClampInt(Arg(args, "limit"), 1, 20, 3);
      Some(Returned(TransactionsResult(TopBigTransactions(db, user, Income, now, ResolveMonthOffset(args, vn), limit))))
    else if name == "get_top_spending_wallet" then
      Some(Returned(TopWalletResult(TopSpendingWallet(db, user, now, ResolveMonthOffset(args, vn)))))
    else None
  }

  /** The result recorded for one function call: the handler's value, its
      error captured by `safeCall`, or "Unknown tool: <name>". */
  function ToolResultFor(db: Db, user: int, now: CivilDate, vn: YearMonth, call: FunctionCall): (r: ToolResult)
    ensures call.name !in ToolNames ==> r == ToolError("Unknown tool: " + call.name)
    ensures call.name in ToolNames ==> r == SafeCall(RunTool(db, user, now, vn, call).value)
  {
    match RunTool(db, user, now, vn, call)
    case None => ToolError("Unknown tool: " + call.name)
    case Some(o) => SafeCall(o)
  }

  /** Malformed dates and the missing category matcher reach the model as
      `{error: true, message}` results, never as a thrown error. */
  lemma ToolErrorsAreCaptured(db: Db, user: int, now: CivilDate, vn: YearMonth, args: Args)
    ensures !IsoShaped(TextArg(args, "start_date")) ==>
              ToolResultFor(db, user, now, vn, FunctionCall("get_expense_in_range", args)) == ToolError(StartDateMessage)
    ensures IsoShaped(TextArg(args, "start_date")) && !IsoShaped(TextArg(args, "end_date_exclusive")) ==>
              ToolResultFor(db, user, now, vn, FunctionCall("get_expense_in_range", args)) == ToolError(EndDateMessage)
    ensures ToolResultFor(db, user, now, vn, FunctionCall("get_spending_by_categories", args)) == ToolError(MissingMatcherMessage)
  {}

  /** The top-categories tool asks for between 1 and 20 rows, 5 when no
      limit is given. */
  lemma TopCategoriesToolLimit(db: Db, user: int, now: CivilDate, vn: YearMonth, args: Args)
    ensures var r := ToolResultFor(db, user, now, vn, FunctionCall("get_top_expense_categories", args));
            exists limit :: 1 <= limit <= 20 && ("limit" !in args ==> limit == 5)
              && r == CategoriesResult(TopExpenseCategories(db, user, now, ResolveMonthOffset(args, vn), limit))
  {
    var l5 := ClampInt(Arg(args, "limit"), 1, 20, 5);
    assert ToolResultFor(db, user, now, vn, FunctionCall("get_top_expense_categories", args))
           == CategoriesResult(TopExpenseCategories(db, user, now, ResolveMonthOffset(args, vn), l5));
  }

  /** The top-expenses tool asks for between 1 and 20 rows, 3 when no limit
      is given. */
  lemma TopExpensesToolLimit(db: Db, user: int, now: CivilDate, vn: YearMonth, args: Args)
    ensures var r := ToolResultFor(db, user, now, vn, FunctionCall("get_top_big_expenses", args));
            exists limit :: 1 <= limit <= 20 && ("limit" !in args ==> limit == 3)
              && r == TransactionsResult(TopBigTransactions(db, user, Expense, now, ResolveMonthOffset(args, vn), limit))
  {
    var l3 := ClampInt(Arg(args, "limit"), 1, 20, 3);
    assert ToolResultFor(db, user, now, vn, FunctionCall("get_top_big_expenses", args))
           == TransactionsResult(TopBigTransactions(db, user, Expense, now, ResolveMonthOffset(args, vn), l3));
  }

  /** The top-incomes tool asks for between 1 and 20 rows, 3 when no limit
      is given. */
  lemma TopIncomesToolLimit(db: Db, user: int, now: CivilDate, vn: YearMonth, args: Args)
    ensures var r := ToolResultFor(db, user, now, vn, FunctionCall("get_top_big_incomes", args));
            exists limit :: 1 <= limit <= 20 && ("limit" !in args ==> limit == 3)
              && r == TransactionsResult(TopBigTransactions(db, user, Income, now, ResolveMonthOffset(args, vn), limit))
  {
    var l3 := ClampInt(Arg(args, "limit"), 1, 20, 3);
    assert ToolResultFor(db, user, now, vn, FunctionCall("get_top_big_incomes", args))
           == TransactionsResult(TopBigTransactions(db, user, Income, now, ResolveMonthOffset(args, vn), l3));
  }

  // ---------------------------------------------------------------------------
  // Rate-limit errors

  /** An error from the model call: its `message` ("" when absent) and the
      `retryDelay` seconds carried in the JSON body of the message, when the
      body parses and holds a finite one. */
  datatype ModelError = ModelError(message: string, retryDelay: Option<real>)

  /** `isQuota429(err)`. */
  predicate IsQuota429(msg: string)
    ensures IsQuota429(msg) <==> exists i :: QuotaMarkAt(msg, i)
  {
    QuotaMarkIff(msg);
    Contains(msg, "\"code\":429") || Contains(msg, "RESOURCE_EXHAUSTED") || Contains(msg, "Quota exceeded")
  }

  lemma QuotaMarkIff(msg: string)
    ensures (Contains(msg, "\"code\":429") || Contains(msg, "RESOURCE_EXHAUSTED") || Contains(msg, "Quota exceeded"))
            <==> exists i :: QuotaMarkAt(msg, i)
  {
    if Contains(msg, "\"code\":429") {
      var i :| OccursAt(msg, "\"code\":429", i);
      assert QuotaMarkAt(msg, i);
    } else if Contains(msg, "RESOURCE_EXHAUSTED") {
      var i :| OccursAt(msg, "RESOURCE_EXHAUSTED", i);
      assert QuotaMarkAt(msg, i);
    } else if Contains(msg, "Quota exceeded") {
      var i :| OccursAt(msg, "Quota exceeded", i);
      assert QuotaMarkAt(msg, i);
    }
  }

  /** One of the three quota markers starts at `i`. */
  predicate QuotaMarkAt(msg: string, i: int) {
    OccursAt(msg, "\"code\":429", i) || OccursAt(msg, "RESOURCE_EXHAUSTED", i) || OccursAt(msg, "Quota exceeded", i)
  }

  /** The text `/retry in\s+([\d.]+)s/i` captures when matched at `i`.
      Backtracking cannot help either run: a shorter `\s+` leaves white
      space where `[\d.]` is needed and a shorter `[\d.]+` leaves a digit
      or a point where `s` is needed, so only the maximal runs can match. */
  function RetryCaptureAt(msg: string, i: nat): (r: Option<string>)
    ensures r.Some? ==> r.value != [] && forall k :: 0 <= k < |r.value| ==> DigitOrDot(r.value[k])
  {
    if !FoldOccursAt(msg, "retry in", i) then None
    else
      var j := i + 8;
      var sp := SpaceRun(msg, j);
      var k := j + sp;
      var d := DigitDotRun(msg, k);
      var e := k + d;
      if sp >= 1 && d >= 1 && e < |msg| && FoldMatch(msg[e], 's') then Some(msg[k..e]) else None
  }

  function RetryCaptures(msg: string): nat -> Option<string> {
    (i: nat) => RetryCaptureAt(msg, i)
  }

  /** The capture of the leftmost match at or after `from`. */
  function FindRetry(msg: string, from: nat): (r: Option<string>) {
    FirstCapture(RetryCaptures(msg), from, |msg|)
  }

  /** The search finds nothing exactly when no position from `from` on
      matches. */
  lemma FindRetryNone(msg: string, from: nat)
    ensures FindRetry(msg, from).None? <==> forall i :: from <= i <= |msg| ==> RetryCaptureAt(msg, i).None?
  {
    var cap := RetryCaptures(msg);
    FirstCaptureNone(cap, from, |msg|);
    if FindRetry(msg, from).None? {
      forall i | from <= i <= |msg|
        ensures RetryCaptureAt(msg, i).None?
      {
        assert cap(i) == RetryCaptureAt(msg, i);
      }
    } else {
      var j: nat :| from <= j <= |msg| && cap(j).Some?;
      assert RetryCaptureAt(msg, j).Some?;
    }
  }

  /** `Math.ceil` on a JavaScript number. */
  function CeilNum(n: Num): (r: Num)
    ensures n.Finite? <==> r.Finite?
    ensures n.Finite? ==> r.r == Ceil(n.r) as real
  {
    if n.Finite? then Finite(Ceil(n.r) as real) else n
  }

  /** `parseRetryAfterSeconds(err)`: the JSON `retryDelay` when there is one,
      else the ceiling of the number in "retry in <n>s", else None (null). */
  function ParseRetryAfterSeconds(err: ModelError): (r: Option<Num>)
    ensures err.retryDelay.Some? ==> r == Some(Finite(err.retryDelay.value))
    ensures err.retryDelay.None? ==>
              (r.None? <==> forall i :: 0 <= i <= |err.message| ==> RetryCaptureAt(err.message, i).None?)
  {
    match err.retryDelay
    case Some(sec) => Some(Finite(sec))
    case None =>
      FindRetryNone(err.message, 0);
      match FindRetry(err.message, 0)
      case None => None
      case Some(d) => Some(CeilNum(StringToNumber(d)))
  }

  lemma FoldOccursLower(msg: string, i: nat)
    requires FoldOccursAt(msg, "retry in", i)
    ensures OccursAt(Lower(msg), "retry in", i)
  {
    var low := Lower(msg);
    var pat := "retry in";
    forall k | 0 <= k < 8
      ensures low[i + k] == pat[k]
    {
      FoldMatchLower(msg[i + k], pat[k]);
    }
    assert low[i..i + 8] == pat;
  }

  /** A message without "retry in" in any letter case yields no delay. */
  lemma NoRetryPhraseNoDelay(msg: string)
    requires !Contains(Lower(msg), "retry in")
    ensures ParseRetryAfterSeconds(ModelError(msg, None)).None?
  {
    forall i | 0 <= i <= |msg|
      ensures RetryCaptureAt(msg, i).None?
    {
      if FoldOccursAt(msg, "retry in", i) {
        FoldOccursLower(msg, i);
      }
    }
  }

  /** "retry in", one space, the delay text and an `s` at `i`: the capture is
      the delay text. */
  lemma RetryCaptureOfPhrase(msg: string, i: nat, d: string)
    requires d != [] && forall k :: 0 <= k < |d| ==> DigitOrDot(d[k])
    requires i + 9 + |d| < |msg|
    requires msg[i..i + 9] == "retry in " && msg[i + 9..i + 9 + |d|] == d && msg[i + 9 + |d|] == 's'
    ensures RetryCaptureAt(msg, i) == Some(d)
  {
    assert msg[i..i + 8] == msg[i..i + 9][..8] == "retry in";
    assert FoldOccursAt(msg, "retry in", i) by {
      forall k | 0 <= k < 8
        ensures FoldMatch(msg[i + k], "retry in"[k])
      {
        assert msg[i + k] == msg[i..i + 8][k];
      }
    }
    assert msg[i + 8] == ' ';
    assert msg[i + 9] == d[0];
    assert SpaceRun(msg, i + 9) == 0;
    assert SpaceRun(msg, i + 8) == 1;
    forall k | i + 9 <= k < i + 9 + |d|
      ensures DigitOrDot(msg[k])
    {
      assert msg[k] == d[k - (i + 9)];
    }
    DigitDotRunOf(msg, i + 9, |d|);
  }

  /** "Please retry in <d>s..." yields the ceiling of the number `d` spells. */
  lemma RetryDelayRead(d: string, rest: string)
    requires d != [] && forall k :: 0 <= k < |d| ==> DigitOrDot(d[k])
    ensures ParseRetryAfterSeconds(ModelError("Please retry in " + d + "s" + rest, None))
            == Some(CeilNum(StringToNumber(d)))
  {
    var msg := "Please retry in " + d + "s" + rest;
    assert msg[..7] == "Please ";
    forall i | 0 <= i < 7
      ensures RetryCaptureAt(msg, i).None?
    {
      assert msg[i] == msg[..7][i];
      assert !FoldMatch(msg[i], "retry in"[0]);
      assert !FoldOccursAt(msg, "retry in", i);
    }
    assert msg[7..16] == "retry in ";
    assert msg[16..16 + |d|] == d;
    assert msg[16 + |d|] == 's';
    RetryCaptureOfPhrase(msg, 7, d);
    FindRetrySkips(msg, 0, 7);
  }

  lemma FindRetrySkips(msg: string, from: nat, to: nat)
    requires from <= to <= |msg|
    requires forall i :: from <= i < to ==> RetryCaptureAt(msg, i).None?
    ensures FindRetry(msg, from) == FindRetry(msg, to)
  {
    FirstCaptureSkips(RetryCaptures(msg), from, to, |msg|);
  }

  /** "Please retry in <n>s." yields exactly `n` seconds. */
  lemma RetryWholeSeconds(n: nat)
    ensures ParseRetryAfterSeconds(ModelError("Please retry in " + NatToString(n) + "s.", None))
            == Some(Finite(n as real))
  {
    var d := NatToString(n);
    assert forall k :: 0 <= k < |d| ==> DigitOrDot(d[k]);
    RetryDelayRead(d, ".");
    assert "Please retry in " + d + "s" + "." == "Please retry in " + d + "s.";
    StringToNumberOfNat(n);
    assert Ceil(n as real) == n;
  }
}

=== FILE: budgets.dfy ===
/** src/services/budgetService.js: the current month's global budget with its
    usage flags, its validated upsert, the budget history and the alert check
    that logs crossed thresholds once per day. The database's CURRENT_DATE is
    the parameter `today`. */
module Budgets {
  import opened Common
  import opened Js
  import opened Calendar
  import opened Sorting
  import opened Ledger
  import opened ChatbotData

  /** `date_trunc('month', CURRENT_DATE)`: the first day of today's month. */
  function MonthStart(today: CivilDate): (d: CivilDate)
    ensures d == Date(today.year, today.month, 1)
    ensures d == GetMonthRange(today, 0).start
  {
    var r := GetMonthRange(today, 0);
    assert (r.year - today.year) * 12 == today.month - r.month;
    r.start
  }

  /** The live expense total of today's month, as both `getCurrentBudget`
      and the alert check compute it. */
  function MonthExpense(db: Db, user: int, today: CivilDate): (s: real)
    ensures s == SumWhere(db.txs, t => InMonth(db.categories, user, Expense, MonthIndex(today), t))
  {
    var range := GetMonthRange(today, 0);
    MonthSum(db, user, Expense, today, 0);
    ExpenseInRange(db, user, range.start, range.end)
  }

  // ---------------------------------------------------------------------------
  // getCurrentBudget

  datatype BudgetStatus = BudgetStatus(budget: Budget, spent: real, percentage: real, overThreshold: bool, overLimit: bool)

  /** The derived fields of `getCurrentBudget`: the share of the limit spent
      (0 for a limit that is not positive), whether it reached the alert
      threshold and whether the spending exceeds the limit. */
  function StatusOf(b: Budget, spent: real): (s: BudgetStatus)
    ensures s.budget == b && s.spent == spent
    ensures b.limit > 0.0 ==> IsPercentOf(s.percentage, spent, b.limit)
    ensures b.limit <= 0.0 ==> s.percentage == 0.0
    ensures s.overThreshold <==> s.percentage >= b.threshold as real
    ensures s.overLimit <==> spent > b.limit
  {
    var pct := if b.limit > 0.0 then Percentage(spent, b.limit) else 0.0;
    BudgetStatus(b, spent, pct, pct >= b.threshold as real, spent > b.limit)
  }

  /** With a positive limit and a threshold of at most 100 percent,
      overspending the limit has always crossed the threshold. */
  lemma OverLimitIsOverThreshold(b: Budget, spent: real)
    requires b.limit > 0.0 && b.threshold <= 100
    ensures StatusOf(b, spent).overLimit ==> StatusOf(b, spent).overThreshold
  {
    var s := StatusOf(b, spent);
    if s.overLimit {
      assert s.percentage * b.limit > 100.0 * b.limit;
    }
  }

  /** A limit of 1,000,000 with threshold 80 and 850,000 spent: 85 percent,
      over the threshold, within the limit. */
  lemma StatusExample(b: Budget)
    requires b.limit == 1000000.0 && b.threshold == 80
    ensures StatusOf(b, 850000.0).percentage == 85.0
    ensures StatusOf(b, 850000.0).overThreshold
    ensures !StatusOf(b, 850000.0).overLimit
  {}

  /** `getCurrentBudget(userId)`: None when the user has no global budget for
      today's month; otherwise its status against the month's live expense
      total. */
  function CurrentBudget(db: Db, user: int, today: CivilDate): (r: Option<BudgetStatus>)
    ensures r.None? <==> forall b :: b in db.budgets ==> !GlobalBudgetFor(b, user, MonthStart(today))
    ensures r.Some? ==> r.value.budget in db.budgets && GlobalBudgetFor(r.value.budget, user, MonthStart(today))
    ensures r.Some? ==> r.value == StatusOf(r.value.budget, MonthExpense(db, user, today))
  {
    match FindGlobalBudget(db.budgets, user, MonthStart(today))
    case None => None
    case Some(b) => Some(StatusOf(b, MonthExpense(db, user, today)))
  }

  // ---------------------------------------------------------------------------
  // upsertCurrentBudget

  const AllowedThresholds: seq<int> := [70, 80, 90, 100]

  /** The payload of `upsertCurrentBudget`; a notify flag is None when it is
      null or missing. */
  datatype BudgetInput = BudgetInput(limitAmount: JsValue, alertThreshold: JsValue, notifyInApp: Option<bool>, notifyEmail: Option<bool>)

  datatype BudgetError = LimitInvalid | ThresholdInvalid

  /** `Number(alertThreshold)`, the parameter defaulting to 80 only when it
      is missing. */
  function ThresholdNumber(v: JsValue): (n: Num)
    ensures v.Undefined? ==> n == Finite(80.0)
    ensures !v.Undefined? ==> n == ToNumber(v)
  {
    if v.Undefined? then Finite(80.0) else ToNumber(v)
  }

  /** `[70, 80, 90, 100].includes(n)`, returning the matched threshold. */
  function AllowedThreshold(n: Num): (r: Option<int>)
    ensures r.Some? ==> r.value in AllowedThresholds && n == Finite(r.value as real)
    ensures r.None? <==> forall t :: t in AllowedThresholds ==> n != Finite(t as real)
  {
    if n == Finite(70.0) then Some(70)
    else if n == Finite(80.0) then Some(80)
    else if n == Finite(90.0) then Some(90)
    else if n == Finite(100.0) then Some(100)
    else None
  }

  /** The validated limit and threshold of an upsert. */
  datatype BudgetTerms = BudgetTerms(limit: real, threshold: int)

  /** The checks of `upsertCurrentBudget`, the limit first: LIMIT_INVALID
      unless `Number(limitAmount)` is finite and positive, then
      THRESHOLD_INVALID unless the threshold is 70, 80, 90 or 100. */
  function ValidateBudget(input: BudgetInput): (r: Result<BudgetTerms, BudgetError>)
    ensures r == Err(LimitInvalid) <==> !(ToNumber(input.limitAmount).Finite? && ToNumber(input.limitAmount).r > 0.0)
    ensures r == Err(ThresholdInvalid) <==>
              && ToNumber(input.limitAmount).Finite? && ToNumber(input.limitAmount).r > 0.0
              && forall t :: t in AllowedThresholds ==> ThresholdNumber(input.alertThreshold) != Finite(t as real)
    ensures r.Ok? ==> && ToNumber(input.limitAmount) == Finite(r.value.limit) && r.value.limit > 0.0
                      && r.value.threshold in AllowedThresholds
                      && ThresholdNumber(input.alertThreshold) == Finite(r.value.threshold as real)
  {
    var limit := ToNumber(input.limitAmount);
    if !(limit.Finite? && limit.r > 0.0) then Err(LimitInvalid)
    else
      match AllowedThreshold(ThresholdNumber(input.alertThreshold))
      case None => Err(ThresholdInvalid)
      case Some(t) => Ok(BudgetTerms(limit.r, t))
  }

  /** The position of the first global budget of `user` for the month
      starting on `start`. */
  function FindGlobalIndex(budgets: seq<Budget>, user: int, start: Date): (r: Option<nat>)
    ensures r.Some? ==> r.value < |budgets| && GlobalBudgetFor(budgets[r.value], user, start)
    ensures r.Some? ==> forall k :: 0 <= k < r.value ==> !GlobalBudgetFor(budgets[k], user, start)
    ensures r.None? <==> forall k :: 0 <= k < |budgets| ==> !GlobalBudgetFor(budgets[k], user, start)
  {
    if budgets == [] then None
    else if GlobalBudgetFor(budgets[0], user, start) then Some(0)
    else match FindGlobalIndex(budgets[1..], user, start)
      case None => None
      case Some(k) => Some(k + 1)
  }

  /** At most one global budget per user and month: the unique key
      `(user_id, category_key, wallet_key, month)` of the table. */
  predicate UniqueGlobal(budgets: seq<Budget>) {
    forall i, j :: 0 <= i < j < |budgets| && budgets[i].categoryId.None? && budgets[i].walletId.None?
                   ==> !GlobalBudgetFor(budgets[j], budgets[i].owner, budgets[i].month)
  }

  /** The row the upsert leaves: the existing global budget with the new
      limit, threshold and flags, or a fresh one. */
  predicate HasTerms(b: Budget, user: int, start: Date, terms: BudgetTerms, inApp: bool, email: bool) {
    GlobalBudgetFor(b, user, start) && b.limit == terms.limit && b.threshold == terms.threshold
    && b.notifyInApp == inApp && b.notifyEmail == email
  }

  /** `INSERT ... ON CONFLICT (user_id, category_key, wallet_key, month) DO
      UPDATE`: overwrite the limit, threshold and flags of the user's global
      budget for the month, or add one with a fresh id. */
  function UpsertGlobal(budgets: seq<Budget>, user: int, start: CivilDate, terms: BudgetTerms, inApp: bool, email: bool)
    : (r: seq<Budget>)
    ensures FindGlobalIndex(budgets, user, start).Some? ==> |r| == |budgets|
    ensures FindGlobalIndex(budgets, user, start).None? ==> |r| == |budgets| + 1
    ensures forall k :: 0 <= k < |budgets| && !GlobalBudgetFor(budgets[k], user, start) ==> r[k] == budgets[k]
    ensures FindGlobalIndex(r, user, start).Some?
    ensures HasTerms(r[FindGlobalIndex(r, user, start).value], user, start, terms, inApp, email)
    ensures UniqueGlobal(budgets) ==> UniqueGlobal(r)
  {
    match FindGlobalIndex(budgets, user, start)
    case Some(i) =>
      var r := budgets[i := budgets[i].(limit := terms.limit, threshold := terms.threshold,
                                        notifyInApp := inApp, notifyEmail := email)];
      assert GlobalBudgetFor(r[i], user, start);
      assert forall k :: 0 <= k < i ==> r[k] == budgets[k];
      assert FindGlobalIndex(r, user, start) == Some(i) by { FindGlobalIndexIs(r, user, start, i); }
      r
    case None =>
      var b := Budget(NextId(budgets, (b: Budget) => b.id), user, None, None, start, terms.limit, terms.threshold, inApp, email);
      var r := budgets + [b];
      assert r[|budgets|] == b;
      assert forall k :: 0 <= k < |budgets| ==> r[k] == budgets[k];
      FindGlobalIndexIs(r, user, start, |budgets|);
      r
  }

  lemma FindGlobalIndexIs(budgets: seq<Budget>, user: int, start: Date, i: nat)
    requires i < |budgets| && GlobalBudgetFor(budgets[i], user, start)
    requires forall k :: 0 <= k < i ==> !GlobalBudgetFor(budgets[k], user, start)
    ensures FindGlobalIndex(budgets, user, start) == Some(i)
  {
    var r := FindGlobalIndex(budgets, user, start);
    assert r.Some?;
  }

  /** `upsertCurrentBudget(userId, payload)`: the validation error, or the
      store after the upsert with the status `getCurrentBudget` then reports.
      Missing notify flags are stored as false. */
  function UpsertCurrentBudget(db: Db, user: int, today: CivilDate, input: BudgetInput)
    : (r: Result<(Db, BudgetStatus), BudgetError>)
    ensures r.Err? <==> ValidateBudget(input).Err?
    ensures r.Err? ==> r.error == ValidateBudget(input).error
    ensures r.Ok? ==> var (db', status) := r.value;
              && db' == db.(budgets := db'.budgets)
              && |db.budgets| <= |db'.budgets| <= |db.budgets| + 1
              && (forall k :: 0 <= k < |db.budgets| && !GlobalBudgetFor(db.budgets[k], user, MonthStart(today))
                              ==> db'.budgets[k] == db.budgets[k])
              && (UniqueGlobal(db.budgets) ==> UniqueGlobal(db'.budgets))
              && CurrentBudget(db', user, today) == Some(status)
              && HasTerms(status.budget, user, MonthStart(today), ValidateBudget(input).value,
                          input.notifyInApp == Some(true), input.notifyEmail == Some(true))
  {
    match ValidateBudget(input)
    case Err(e) => Err(e)
    case Ok(terms) =>
      var start := MonthStart(today);
      var inApp := input.notifyInApp == Some(true);
      var email := input.notifyEmail == Some(true);
      var budgets := UpsertGlobal(db.budgets, user, start, terms, inApp, email);
      var db' := db.(budgets := budgets);
      var i := FindGlobalIndex(budgets, user, start).value;
      assert FindGlobalBudget(budgets, user, start) == Some(budgets[i]) by {
        FirstGlobalBudget(budgets, user, start, i);
      }
      Ok((db', StatusOf(budgets[i], MonthExpense(db', user, today))))
  }

  lemma {:induction false} FirstGlobalBudget(budgets: seq<Budget>, user: int, start: Date, i: nat)
    requires i < |budgets| && GlobalBudgetFor(budgets[i], user, start)
    requires forall k :: 0 <= k < i ==> !GlobalBudgetFor(budgets[k], user, start)
    ensures FindGlobalBudget(budgets, user, start) == Some(budgets[i])
  {
    if i > 0 {
      FirstGlobalBudget(budgets[1..], user, start, i - 1);
    }
  }

  /** Repeating an upsert leaves the store as the first one left it. */
  lemma UpsertIdempotent(db: Db, user: int, today: CivilDate, input: BudgetInput)
    requires UpsertCurrentBudget(db, user, today, input).Ok?
    ensures var db1 := UpsertCurrentBudget(db, user, today, input).value.0;
            UpsertCurrentBudget(db1, user, today, input).Ok?
            && UpsertCurrentBudget(db1, user, today, input).value.0 == db1
  {
    var terms := ValidateBudget(input).value;
    var start := MonthStart(today);
    var inApp := input.notifyInApp == Some(true);
    var email := input.notifyEmail == Some(true);
    var b1 := UpsertGlobal(db.budgets, user, start, terms, inApp, email);
    var i := FindGlobalIndex(b1, user, start).value;
    var b2 := UpsertGlobal(b1, user, start, terms, inApp, email);
    assert b2 == b1[i := b1[i].(limit := terms.limit, threshold := terms.threshold,
                                notifyInApp := inApp, notifyEmail := email)];
    assert b1[i].(limit := terms.limit, threshold := terms.threshold,
                  notifyInApp := inApp, notifyEmail := email) == b1[i];
  }

  // ---------------------------------------------------------------------------
  // listBudgetHistory

  /** `Math.max(1, Math.min(24, Number(months) || 6))`: 6 for a missing, zero
      or NaN count, else the count within [1, 24]. */
  function HistoryCount(months: JsValue): (m: real)
    ensures 1.0 <= m <= 24.0
    ensures ToNumber(months).NaN? || ToNumber(months) == Finite(0.0) ==> m == 6.0
    ensures ToNumber(months).Finite? && 1.0 <= ToNumber(months).r <= 24.0 ==> m == ToNumber(months).r
    ensures ToNumber(months).Finite? && ToNumber(months).r > 24.0 ==> m == 24.0
    ensures ToNumber(months).Finite? && ToNumber(months).r != 0.0 && ToNumber(months).r < 1.0 ==> m == 1.0
    ensures ToNumber(months) == PosInf ==> m == 24.0
    ensures ToNumber(months) == NegInf ==> m == 1.0
  {
    match ToNumber(months)
    case NaN => 6.0
    case PosInf => 24.0
    case NegInf => 1.0
    case Finite(x) =>
      if x == 0.0 then 6.0
      else if x > 24.0 then 24.0
      else if x < 1.0 then 1.0
      else x
  }

  function MonthKey(b: Budget): real { Key(b.month) as real }

  /** The user's global budgets, in table order. */
  function UserGlobals(budgets: seq<Budget>, user: int): (r: seq<Budget>)
    ensures forall b :: b in r <==> b in budgets && b.owner == user && b.categoryId.None? && b.walletId.None?
    ensures multiset(r) <= multiset(budgets)
  {
    if budgets == [] then []
    else
      var rest := UserGlobals(budgets[1..], user);
      var b := budgets[0];
      assert forall x :: x in budgets <==> x == b || x in budgets[1..];
      assert budgets == [b] + budgets[1..];
      if b.owner == user && b.categoryId.None? && b.walletId.None? then [b] + rest else rest
  }

  /** `listBudgetHistory(userId, months)`: the user's global budgets, latest
      month first, at most the clamped count of them (read as its integer
      part). */
  function BudgetHistory(db: Db, user: int, months: JsValue): (r: seq<Budget>)
    ensures var all := UserGlobals(db.budgets, user);
            |r| == if HistoryCount(months).Floor < |all| then HistoryCount(months).Floor else |all|
    ensures forall b :: b in r ==> b in db.budgets && b.owner == user && b.categoryId.None? && b.walletId.None?
    ensures SortedDesc(r, MonthKey)
    ensures multiset(r) <= multiset(UserGlobals(db.budgets, user)) && multiset(r) <= multiset(db.budgets)
    ensures forall b, k :: b in multiset(UserGlobals(db.budgets, user)) - multiset(r) && 0 <= k < |r|
                           ==> Key(b.month) <= Key(r[k].month)
  {
    var m := HistoryCount(months).Floor;
    TopN(UserGlobals(db.budgets, user), MonthKey, m)
  }

  // ---------------------------------------------------------------------------
  // checkAndLogBudgetAlertsForUser

  /** A global budget of the month with at least one notification channel
      switched on. */
  predicate Notifying(b: Budget, user: int, start: Date) {
    GlobalBudgetFor(b, user, start) && (b.notifyInApp || b.notifyEmail)
  }

  function FindNotifying(budgets: seq<Budget>, user: int, start: Date): (r: Option<Budget>)
    ensures r.None? <==> forall b :: b in budgets ==> !Notifying(b, user, start)
    ensures r.Some? ==> r.value in budgets && Notifying(r.value, user, start)
  {
    if budgets == [] then None
    else if Notifying(budgets[0], user, start) then Some(budgets[0])
    else
      assert forall x :: x in budgets ==> x == budgets[0] || x in budgets[1..];
      FindNotifying(budgets[1..], user, start)
  }

  /** The `thresholdsToLog` set, in insertion order: the budget's threshold
      once the percentage reaches it, and 101 once it reaches 100. */
  function ThresholdsToLog(pct: real, threshold: int): (r: seq<int>)
    ensures forall t :: t in r <==> (t == threshold && pct >= threshold as real) || (t == 101 && pct >= 100.0)
    ensures |r| <= 2 && (|r| == 2 ==> r[0] != r[1])
  {
    var a := if pct >= threshold as real then [threshold] else [];
    if pct >= 100.0 && 101 !in a then a + [101] else a
  }

  /** The alert rows the check is due to hold for `user` on `sentOn`: one
      in-app row per threshold crossed, when the month's notifying budget
      has in-app notifications and a positive limit. */
  function DueAlerts(db: Db, user: int, today: CivilDate, sentOn: CivilDate): set<AlertLog> {
    match FindNotifying(db.budgets, user, MonthStart(today))
    case None => {}
    case Some(b) =>
      if !b.notifyInApp || b.limit <= 0.0 then {}
      else
        var pct := Percentage(MonthExpense(db, user, today), b.limit);
        set t | t in {b.threshold, 101} && ((t == b.threshold && pct >= b.threshold as real) || (t == 101 && pct >= 100.0))
          :: AlertLog(user, b.id, t, sentOn, InApp)
  }

  /** `INSERT ... ON CONFLICT DO NOTHING` of one in-app row per threshold. */
  function LogAlerts(logs: seq<AlertLog>, user: int, budgetId: int, ts: seq<int>, sentOn: CivilDate): (r: seq<AlertLog>)
    ensures forall l :: l in r <==> l in logs || (l.threshold in ts && l == AlertLog(user, budgetId, l.threshold, sentOn, InApp))
    ensures |logs| <= |r| && r[..|logs|] == logs
    ensures NoDuplicates(logs) ==> NoDuplicates(r)
    decreases |ts|
  {
    if ts == [] then logs
    else
      var row := AlertLog(user, budgetId, ts[0], sentOn, InApp);
      var next := if row in logs then logs else logs + [row];
      assert forall x :: x in ts <==> x == ts[0] || x in ts[1..];
      var r := LogAlerts(next, user, budgetId, ts[1..], sentOn);
      assert r[..|logs|] == next[..|logs|];
      r
  }

  predicate NoDuplicates(logs: seq<AlertLog>) {
    forall i, j :: 0 <= i < j < |logs| ==> logs[i] != logs[j]
  }

  /** `checkAndLogBudgetAlertsForUser(userId)` on the database date `today`
      and the UTC date `sentOn`: only the alert log changes, gaining exactly
      the due rows it did not hold yet. */
  function CheckBudgetAlerts(db: Db, user: int, today: CivilDate, sentOn: CivilDate): (r: Db)
    ensures r == db.(alertLogs := r.alertLogs)
    ensures forall l :: l in r.alertLogs <==> l in db.alertLogs || l in DueAlerts(db, user, today, sentOn)
    ensures |db.alertLogs| <= |r.alertLogs| && r.alertLogs[..|db.alertLogs|] == db.alertLogs
    ensures NoDuplicates(db.alertLogs) ==> NoDuplicates(r.alertLogs)
  {
    match FindNotifying(db.budgets, user, MonthStart(today))
    case None => db
    case Some(b) =>
      var spent := MonthExpense(db, user, today);
      if b.limit <= 0.0 then db
      else
        var pct := Percentage(spent, b.limit);
        if pct < b.threshold as real && pct < 100.0 then db
        else if !b.notifyInApp then db
        else db.(alertLogs := LogAlerts(db.alertLogs, user, b.id, ThresholdsToLog(pct, b.threshold), sentOn))
  }

  /** The check is idempotent on a given day: running it again logs nothing
      new. */
  lemma CheckBudgetAlertsIdempotent(db: Db, user: int, today: CivilDate, sentOn: CivilDate)
    ensures var db1 := CheckBudgetAlerts(db, user, today, sentOn);
            CheckBudgetAlerts(db1, user, today, sentOn) == db1
  {
    var db1 := CheckBudgetAlerts(db, user, today, sentOn);
    assert db1.budgets == db.budgets && db1.txs == db.txs && db1.categories == db.categories;
    assert MonthExpense(db1, user, today) == MonthExpense(db, user, today);
    match FindNotifying(db.budgets, user, MonthStart(today))
    case None =>
    case Some(b) =>
      if b.limit > 0.0 {
        var pct := Percentage(MonthExpense(db, user, today), b.limit);
        if !(pct < b.threshold as real && pct < 100.0) && b.notifyInApp {
          LogAlertsPresent(db1.alertLogs, user, b.id, ThresholdsToLog(pct, b.threshold), sentOn);
        }
      }
  }

  /** Rows already in the log are not inserted again. */
  lemma {:induction false} LogAlertsPresent(logs: seq<AlertLog>, user: int, budgetId: int, ts: seq<int>, sentOn: CivilDate)
    requires forall t :: t in ts ==> AlertLog(user, budgetId, t, sentOn, InApp) in logs
    ensures LogAlerts(logs, user, budgetId, ts, sentOn) == logs
    decreases |ts|
  {
    if ts != [] {
      assert ts[0] in ts;
      assert forall t :: t in ts[1..] ==> t in ts;
      LogAlertsPresent(logs, user, budgetId, ts[1..], sentOn);
    }
  }
}

=== FILE: calendar.dfy ===
/** Civil dates (proleptic Gregorian, no time of day), the half-open month
    ranges the chatbot queries use, and the `YYYY-MM-DD` / "tháng M/Y" texts
    of src/services/chatbotDataService.js. */
module Calendar {
  import opened Common
  import Js

  datatype Date = Date(year: int, month: int, day: int)

  predicate IsLeapYear(y: int) {
    (y % 4 == 0 && y % 100 != 0) || y % 400 == 0
  }

  function DaysInMonth(y: int, m: int): (n: int)
    requires 1 <= m <= 12
    ensures 28 <= n <= 31
    ensures m == 2 ==> (n == 29 <==> IsLeapYear(y))
  {
    if m == 2 then (if IsLeapYear(y) then 29 else 28)
    else if m == 4 || m == 6 || m == 9 || m == 11 then 30
    else 31
  }

  predicate ValidDate(d: Date) {
    1 <= d.month <= 12 && 1 <= d.day <= DaysInMonth(d.year, d.month)
  }

  /** A date that exists on the calendar: what a `date` column holds and what
      a clock reading yields. */
  type CivilDate = d: Date | ValidDate(d) witness Date(1970, 1, 1)

  /** Position of a date on the calendar line: for valid dates it is
      injective and orders them chronologically (year, then month, then day). */
  function Key(d: Date): int {
    d.year * 416 + d.month * 32 + d.day
  }

  /** `start <= x < end` on dates, the SQL filter `tx_date >= $2 AND tx_date < $3`. */
  predicate InRange(x: Date, start: Date, end: Date) {
    Key(start) <= Key(x) < Key(end)
  }

  /** On valid dates `Key` is the lexicographic (year, month, day) order. */
  lemma KeyOrder(a: Date, b: Date)
    requires ValidDate(a) && ValidDate(b)
    ensures Key(a) < Key(b) <==>
            a.year < b.year || (a.year == b.year && (a.month < b.month || (a.month == b.month && a.day < b.day)))
  {
    assert 33 <= a.month * 32 + a.day <= 415;
    assert 33 <= b.month * 32 + b.day <= 415;
    if a.year < b.year {
      assert Key(a) < a.year * 416 + 416 <= Key(b);
    } else if b.year < a.year {
      assert Key(b) < b.year * 416 + 416 <= Key(a);
    }
  }

  lemma KeyInjective(a: Date, b: Date)
    requires ValidDate(a) && ValidDate(b) && Key(a) == Key(b)
    ensures a == b
  {
    assert a.year == b.year;
  }

  /** Absolute month number: `year * 12 + month0`. */
  function MonthIndex(d: Date): int {
    d.year * 12 + d.month - 1
  }

  // ---------------------------------------------------------------------------
  // Neighbouring days (`new Date(y, m, d + 1)` and `new Date(y, m, d - 1)`)

  function NextDay(d: Date): (r: Date)
    requires ValidDate(d)
    ensures ValidDate(r) && Key(d) < Key(r)
  {
    if d.day < DaysInMonth(d.year, d.month) then Date(d.year, d.month, d.day + 1)
    else if d.month < 12 then Date(d.year, d.month + 1, 1)
    else Date(d.year + 1, 1, 1)
  }

  function PrevDay(d: Date): (r: Date)
    requires ValidDate(d)
    ensures ValidDate(r) && Key(r) < Key(d)
  {
    if d.day > 1 then Date(d.year, d.month, d.day - 1)
    else if d.month > 1 then Date(d.year, d.month - 1, DaysInMonth(d.year, d.month - 1))
    else Date(d.year - 1, 12, 31)
  }

  /** No valid date lies strictly between a day and the next one. */
  lemma NextDaySuccessor(d: Date, x: Date)
    requires ValidDate(d) && ValidDate(x)
    ensures Key(d) < Key(x) <==> Key(NextDay(d)) <= Key(x)
  {
    KeyOrder(d, x);
    KeyOrder(x, NextDay(d));
  }

  /** No valid date lies strictly between the previous day and a day. */
  lemma PrevDayPredecessor(d: Date, x: Date)
    requires ValidDate(d) && ValidDate(x)
    ensures Key(x) < Key(d) <==> Key(x) <= Key(PrevDay(d))
  {
    KeyOrder(x, d);
    KeyOrder(PrevDay(d), x);
  }

  /** The date `k` days before `d`. */
  function DaysBefore(d: Date, k: nat): (r: Date)
    requires ValidDate(d)
    ensures ValidDate(r) && Key(r) <= Key(d)
  {
    if k == 0 then d else PrevDay(DaysBefore(d, k - 1))
  }

  /** `[today, today + 1 day)` holds exactly one valid date: today. */
  lemma TodayWindow(today: Date, x: Date)
    requires ValidDate(today) && ValidDate(x)
    ensures InRange(x, today, NextDay(today)) <==> x == today
  {
    NextDaySuccessor(today, x);
    if InRange(x, today, NextDay(today)) {
      KeyInjective(x, today);
    }
  }

  /** Going further back never gives a later day. */
  lemma {:induction false} DaysBeforeMono(t: Date, j: nat, k: nat)
    requires ValidDate(t) && j <= k
    ensures Key(DaysBefore(t, k)) <= Key(DaysBefore(t, j))
    decreases k
  {
    if j < k {
      DaysBeforeMono(t, j, k - 1);
      assert DaysBefore(t, k) == PrevDay(DaysBefore(t, k - 1));
    }
  }

  /** Every valid date from `k` days before `t` up to `t` is one of the
      days `DaysBefore(t, j)` with `j <= k`. */
  lemma {:induction false} WindowHasOnlyListedDays(t: Date, k: nat, x: Date)
    requires ValidDate(t) && ValidDate(x)
    requires Key(DaysBefore(t, k)) <= Key(x) <= Key(t)
    ensures exists j :: 0 <= j <= k && x == DaysBefore(t, j)
  {
    if k == 0 {
      KeyInjective(x, t);
      assert x == DaysBefore(t, 0);
    } else {
      var b := DaysBefore(t, k - 1);
      var p := DaysBefore(t, k);
      assert p == PrevDay(b);
      if Key(x) < Key(b) {
        PrevDayPredecessor(b, x);
        KeyInjective(x, p);
        assert x == DaysBefore(t, k);
      } else {
        WindowHasOnlyListedDays(t, k - 1, x);
        var j :| 0 <= j <= k - 1 && x == DaysBefore(t, j);
        assert 0 <= j <= k;
      }
    }
  }

  /** The valid dates between `k` days before `t` and `t` (both inclusive)
      are exactly `t` and its `k` predecessors. */
  lemma WindowMembers(t: Date, k: nat, x: Date)
    requires ValidDate(t) && ValidDate(x)
    ensures Key(DaysBefore(t, k)) <= Key(x) <= Key(t)
            <==> exists j :: 0 <= j <= k && x == DaysBefore(t, j)
  {
    if Key(DaysBefore(t, k)) <= Key(x) <= Key(t) {
      WindowHasOnlyListedDays(t, k, x);
    }
    if exists j :: 0 <= j <= k && x == DaysBefore(t, j) {
      var j :| 0 <= j <= k && x == DaysBefore(t, j);
      DaysBeforeMono(t, j, k);
    }
  }

  /** `[today - 6 days, today + 1 day)` holds exactly the seven days ending
      today. */
  lemma Last7DaysWindow(today: Date, x: Date)
    requires ValidDate(today) && ValidDate(x)
    ensures InRange(x, DaysBefore(today, 6), NextDay(today))
            <==> exists j :: 0 <= j < 7 && x == DaysBefore(today, j)
  {
    NextDaySuccessor(today, x);
    WindowMembers(today, 6, x);
  }

  // ---------------------------------------------------------------------------
  // Month ranges (getMonthRange)

  /** The month range of chatbotDataService: the target month's first day,
      the first day of the following month (exclusive end), and the target
      month and year for the label. */
  datatype MonthRange = MonthRange(start: Date, end: Date, month: int, year: int)

  /** `getMonthRange(monthOffset)` evaluated on the date `now`: the month
      `offset` months away from now's month. The absolute month index is split
      with floor division and a non-negative remainder. */
  function GetMonthRange(now: Date, offset: int): (r: MonthRange)
    ensures 1 <= r.month <= 12
    ensures r.year * 12 + r.month - 1 == MonthIndex(now) + offset
    ensures r.start == Date(r.year, r.month, 1) && ValidDate(r.start)
    ensures ValidDate(r.end) && r.end.day == 1
    ensures MonthIndex(r.end) == MonthIndex(now) + offset + 1
  {
    var baseMonthIndex := now.year * 12 + (now.month - 1) + offset;
    var year := baseMonthIndex / 12;
    var month0 := baseMonthIndex % 12;
    var start := Date(year, month0 + 1, 1);
    var end := if month0 + 1 == 12 then Date(year + 1, 1, 1) else Date(year, month0 + 2, 1);
    MonthRange(start, end, month0 + 1, year)
  }

  /** Against the first day of a month, dates compare as their months do. */
  lemma MonthStartOrder(f: Date, x: Date)
    requires ValidDate(f) && ValidDate(x) && f.day == 1
    ensures Key(f) <= Key(x) <==> MonthIndex(f) <= MonthIndex(x)
  {
    KeyOrder(x, f);
    if x.year < f.year {
      assert MonthIndex(x) < x.year * 12 + 12 <= MonthIndex(f);
    } else if f.year < x.year {
      assert MonthIndex(f) < f.year * 12 + 12 <= MonthIndex(x);
    }
  }

  /** A valid date lies in the range of `GetMonthRange(now, offset)` exactly
      when it falls in the target month. */
  lemma MonthRangeCoversMonth(now: Date, offset: int, x: Date)
    requires ValidDate(x)
    ensures var r := GetMonthRange(now, offset);
            InRange(x, r.start, r.end) <==> MonthIndex(x) == MonthIndex(now) + offset
  {
    var r := GetMonthRange(now, offset);
    MonthStartOrder(r.start, x);
    MonthStartOrder(r.end, x);
  }

  /** Requesting the month of an explicit (month, year) through its offset from
      `now` lands on that month, whatever `now` is. */
  lemma MonthRangeOfTarget(now: Date, month: int, year: int)
    requires 1 <= month <= 12
    ensures var r := GetMonthRange(now, (year - now.year) * 12 + (month - now.month));
            r.month == month && r.year == year
  {
    var r := GetMonthRange(now, (year - now.year) * 12 + (month - now.month));
    assert r.year * 12 + r.month == year * 12 + month;
    assert (r.year - year) * 12 == month - r.month;
  }

  /** JavaScript's `%`: the remainder carries the sign of the dividend. */
  function JsRem(a: int, b: int): (r: int)
    requires b > 0
    ensures -b < r < b
    ensures a >= 0 ==> r == a % b
  {
    if a >= 0 then a % b else -((-a) % b)
  }

  /** The `month` field of getMonthRange as written: `baseMonthIndex % 12 + 1`
      with JavaScript's sign-of-dividend remainder. */
  function MonthFieldAsWritten(now: Date, offset: int): (m: int)
    ensures -10 <= m <= 12
  {
    JsRem(now.year * 12 + (now.month - 1) + offset, 12) + 1
  }

  /** As written, a negative absolute month index (a date before year 0)
      yields month 0: January of year 0 with offset -1. */
  lemma MonthFieldAsWrittenLeavesRange()
    ensures MonthFieldAsWritten(Date(0, 1, 1), -1) == 0
  {}

  /** For every non-negative absolute month index the as-written month field
      and the corrected one agree. */
  lemma MonthFieldAsWrittenAgrees(now: Date, offset: int)
    requires MonthIndex(now) + offset >= 0
    ensures MonthFieldAsWritten(now, offset) == GetMonthRange(now, offset).month
  {}

  // ---------------------------------------------------------------------------
  // Text forms

  /** `String(n).padStart(2, "0")`. */
  function Pad2(n: nat): (r: string)
    ensures AllDigits(r) && |r| >= 2 && DigitsValue(r) == n
    ensures n < 100 ==> |r| == 2
  {
    if n < 10 then
      var r := "0" + NatToString(n);
      assert r[..1] == "0";
      r
    else NatToString(n)
  }

  /** `formatDateLocal`: `${year}-${MM}-${DD}`. */
  function FormatDate(d: Date): (r: string)
    requires ValidDate(d)
    ensures 1000 <= d.year <= 9999 ==> |r| == 10 && IsoShaped(r)
  {
    var y := IntToString(d.year);
    var r := y + "-" + Pad2(d.month) + "-" + Pad2(d.day);
    if 1000 <= d.year <= 9999 then
      FourDigitYear(d.year);
      assert r[..4] == y && r[5..7] == Pad2(d.month) && r[8..] == Pad2(d.day);
      r
    else r
  }

  /** The pattern `^\d{4}-\d{2}-\d{2}$`. */
  predicate IsoShaped(s: string) {
    |s| == 10 && AllDigits(s[..4]) && s[4] == '-' && AllDigits(s[5..7])
    && s[7] == '-' && AllDigits(s[8..])
  }

  /** Reads the three numeric fields of a `YYYY-MM-DD` text; whether they form
      a calendar date is left to `ValidDate` (the database cast). */
  function ParseIsoDate(s: string): (r: Option<Date>)
    ensures r.Some? <==> IsoShaped(s)
    ensures r.Some? ==> 0 <= r.value.year <= 9999 && 0 <= r.value.month <= 99
  {
    if IsoShaped(s) then
      DigitsValueBound(s[..4]);
      DigitsValueBound(s[5..7]);
      assert Pow10(4) == 10000 && Pow10(2) == 100;
      Some(Date(DigitsValue(s[..4]), DigitsValue(s[5..7]), DigitsValue(s[8..])))
    else None
  }

  lemma {:induction false} FourDigitYear(n: nat)
    requires 1000 <= n <= 9999
    ensures |NatToString(n)| == 4
  {
    var a := n / 10;
    var b := a / 10;
    var c := b / 10;
    assert 1 <= c < 10 <= b < 100 <= a < 1000;
    assert |NatToString(c)| == 1;
    assert NatToString(b) == NatToString(c) + [DigitChar(b % 10)];
    assert NatToString(a) == NatToString(b) + [DigitChar(a % 10)];
    assert NatToString(n) == NatToString(a) + [DigitChar(n % 10)];
  }

  /** For four-digit years formatDateLocal yields a 10-character
      `^\d{4}-\d{2}-\d{2}$` text, and reading it back gives the same date. */
  lemma FormatDateRoundTrip(d: Date)
    requires ValidDate(d) && 1000 <= d.year <= 9999
    ensures |FormatDate(d)| == 10 && IsoShaped(FormatDate(d))
    ensures ParseIsoDate(FormatDate(d)) == Some(d)
  {
    FourDigitYear(d.year);
    var y := NatToString(d.year);
    var s := FormatDate(d);
    assert s == y + "-" + Pad2(d.month) + "-" + Pad2(d.day);
    assert s[..4] == y;
    assert s[5..7] == Pad2(d.month);
    assert s[8..] == Pad2(d.day);
  }

  const MonthWord: string := "tháng "

  /** `formatMonthLabel(month, year)`: "tháng M/Y". */
  function FormatMonthLabel(month: int, year: int): (r: string)
    ensures month >= 0 && year >= 0 ==> r == "tháng " + NatToString(month) + "/" + NatToString(year)
  {
    MonthWord + IntToString(month) + "/" + IntToString(year)
  }

  /** The label reads back: it starts with the month word, the text between
      the word and the first '/' parses to the month, and the text after
      that '/' to the year, as `parseInt` reads them. */
  lemma MonthLabelReadBack(month: int, year: int)
    ensures var r := FormatMonthLabel(month, year);
            var k := IndexOf(r, "/", 0);
            && |MonthWord| <= |r| && r[..|MonthWord|] == MonthWord
            && k.Some? && |MonthWord| <= k.value
            && Js.ParseInt(r[|MonthWord|..k.value]) == Some(month)
            && Js.ParseInt(r[k.value + 1..]) == Some(year)
  {
    var m, y := IntToString(month), IntToString(year);
    LabelReadsBack(m, y, month, year);
    var r := MonthWord + m + "/" + y;
    assert FormatMonthLabel(month, year) == r;
    assert r[..|MonthWord|] == MonthWord;
  }

  /** The characters of a rendered integer: digits and a leading '-'. */
  lemma IntToStringNoSlash(n: int)
    ensures forall i :: 0 <= i < |IntToString(n)| ==> IntToString(n)[i] != '/'
  {
    var d := NatToString(if n < 0 then -n else n);
    assert forall i :: 0 <= i < |d| ==> IsDigit(d[i]);
  }

  /** In a text without '/' followed by "/", the first slash is the one after
      the text. */
  lemma FirstSlashAfter(a: string, b: string)
    requires forall j :: 0 <= j < |a| ==> a[j] != '/'
    ensures IndexOf(a + "/" + b, "/", 0) == Some(|a|)
  {
    var s := a + "/" + b;
    assert OccursAt(s, "/", |a|);
    var r := IndexOf(s, "/", 0);
    assert r.Some? && r.value <= |a|;
    assert s[r.value..r.value + 1] == "/";
    assert s[r.value] == '/';
    assert forall j :: 0 <= j < |a| ==> s[j] == a[j];
  }

  lemma LabelReadsBack(m: string, y: string, month: int, year: int)
    requires m == IntToString(month) && y == IntToString(year)
    ensures var r := MonthWord + m + "/" + y;
            var k := |MonthWord| + |m|;
            && IndexOf(r, "/", 0) == Some(k)
            && r[|MonthWord|..k] == m && r[k + 1..] == y
            && Js.ParseInt(m) == Some(month) && Js.ParseInt(y) == Some(year)
  {
    var a := MonthWord + m;
    IntToStringNoSlash(month);
    assert forall j :: 0 <= j < |a| ==> a[j] != '/' by {
      forall j | 0 <= j < |a| ensures a[j] != '/' {
        if j < |MonthWord| {
          assert a[j] == MonthWord[j];
        } else {
          assert a[j] == m[j - |MonthWord|];
        }
      }
    }
    FirstSlashAfter(a, y);
    assert a + "/" + y == MonthWord + m + "/" + y;
    assert (a + "/" + y)[|MonthWord|..|a|] == m;
    assert (a + "/" + y)[|a| + 1..] == y;
    Js.ParseIntOfIntToString(month);
    Js.ParseIntOfIntToString(year);
  }

  /** In digits followed by "/", the first slash is the one after the digits. */
  lemma FirstSlash(a: string, b: string)
    requires AllDigits(a)
    ensures IndexOf(a + "/" + b, "/", 0) == Some(|a|)
  {
    assert forall j :: 0 <= j < |a| ==> IsDigit(a[j]);
    FirstSlashAfter(a, b);
  }

  lemma SplitAtSlash(a1: string, b1: string, a2: string, b2: string)
    requires AllDigits(a1) && AllDigits(a2)
    requires a1 + "/" + b1 == a2 + "/" + b2
    ensures a1 == a2 && b1 == b2
  {
    var s := a1 + "/" + b1;
    var t := a2 + "/" + b2;
    FirstSlash(a1, b1);
    FirstSlash(a2, b2);
    assert a1 == s[..|a1|];
    assert a2 == t[..|a2|];
    assert b1 == s[|a1| + 1..];
    assert b2 == t[|a2| + 1..];
  }

  /** The label of a month with non-negative numbers, as its three parts. */
  lemma LabelParts(m: nat, y: nat)
    ensures FormatMonthLabel(m, y) == "tháng " + (NatToString(m) + "/" + NatToString(y))
  {
    assert IntToString(m) == NatToString(m);
    assert IntToString(y) == NatToString(y);
  }

  lemma PrefixCancel(p: string, u: string, v: string)
    requires p + u == p + v
    ensures u == v
  {
    assert u == (p + u)[|p|..];
    assert v == (p + v)[|p|..];
  }

  /** Distinct months get distinct labels: the label determines the month and
      the year. */
  lemma MonthLabelInjective(m1: nat, y1: nat, m2: nat, y2: nat)
    ensures FormatMonthLabel(m1, y1) == FormatMonthLabel(m2, y2) <==> m1 == m2 && y1 == y2
  {
    if FormatMonthLabel(m1, y1) == FormatMonthLabel(m2, y2) {
      LabelParts(m1, y1);
      LabelParts(m2, y2);
      PrefixCancel("tháng ", NatToString(m1) + "/" + NatToString(y1), NatToString(m2) + "/" + NatToString(y2));
      SplitAtSlash(NatToString(m1), NatToString(y1), NatToString(m2), NatToString(y2));
      NatToStringInjective(m1, m2);
      NatToStringInjective(y1, y2);
    }
  }
}

=== FILE: categories.dfy ===
/** src/services/categoryService.js: the categories a user sees (the shared
    global ones and their own), and the rules for creating, editing and
    deleting the user's own categories. Errors carry the HTTP status the
    service attaches to them. */
module Categories {
  import opened Common
  import opened Js
  import opened Ledger

  datatype CategoryError =
    | NameRequired        // 400: blank name
    | InvalidType         // 400: type other than income/expense
    | InvalidParentId     // 400: parentCategoryId is not a number
    | ParentNotFound      // 404
    | ParentTypeMismatch  // 400: child and parent types differ
    | InvalidId           // 400: the category id is not a number
    | NotFound            // 404
    | GlobalCategory      // 403: a shared category cannot be changed
    | NotOwner            // 403: another user's category
    | InUse               // 400: live transactions use it or a child
    | IdRejected          // 500: a number that is not an integer id

  function Status(e: CategoryError): (code: int)
    ensures code in {400, 403, 404, 500}
    ensures code == 403 <==> e == GlobalCategory || e == NotOwner
    ensures code == 404 <==> e == ParentNotFound || e == NotFound
  {
    match e
    case ParentNotFound => 404
    case NotFound => 404
    case GlobalCategory => 403
    case NotOwner => 403
    case IdRejected => 500
    case _ => 400
  }

  /** What `Number(v)` gives as an id to look up: not a number (NaN), an
      integer, or a number no `bigint` parameter accepts. */
  datatype IdRead = NotANumber | Id(id: int) | NotAnInteger

  function ReadId(n: Num): (r: IdRead)
    ensures r.NotANumber? <==> n.NaN?
    ensures r.Id? <==> n.Finite? && n.r.Floor as real == n.r
    ensures r.Id? ==> r.id as real == n.r
  {
    match n
    case NaN => NotANumber
    case Finite(x) => if x.Floor as real == x then Id(x.Floor) else NotAnInteger
    case _ => NotAnInteger
  }

  /** The category type a request names, if it names one. */
  function KindOf(s: string): (r: Option<CategoryType>)
    ensures r == Some(Income) <==> s == "income"
    ensures r == Some(Expense) <==> s == "expense"
  {
    if s == "income" then Some(Income)
    else if s == "expense" then Some(Expense)
    else None
  }

  // ---------------------------------------------------------------------------
  // mapCategoryRow and getCategories

  /** The object the API returns for a category row. */
  datatype CategoryDto = CategoryDto(
    id: int,
    name: string,
    kind: CategoryType,
    icon: Option<string>,
    color: Option<string>,
    parentCategoryId: Option<int>,
    isGlobal: bool)

  /** `mapCategoryRow(row)`: the row's fields, and `isGlobal` exactly when it
      has no owner. */
  function MapCategoryRow(c: Category): (d: CategoryDto)
    ensures d.isGlobal <==> c.owner.None?
    ensures d.id == c.id && d.name == c.name && d.kind == c.kind && d.parentCategoryId == c.parent
  {
    CategoryDto(c.id, c.name, c.kind, c.icon, c.color, c.parent, c.owner.None?)
  }

  /** `c.user_id IS NULL OR c.user_id = $1`. */
  predicate VisibleTo(c: Category, user: int) {
    c.owner.None? || c.owner == Some(user)
  }

  /** `AND c.type = $2`, added only for "income" and "expense". */
  predicate KindFilter(kind: Option<string>, c: Category) {
    kind.Some? && KindOf(kind.value).Some? ==> c.kind == KindOf(kind.value).value
  }

  function VisibleRows(cats: seq<Category>, user: int, kind: Option<string>): (r: seq<Category>)
    ensures forall c :: c in r <==> c in cats && VisibleTo(c, user) && KindFilter(kind, c)
  {
    if cats == [] then []
    else
      var rest := VisibleRows(cats[1..], user, kind);
      assert forall c :: c in cats <==> c == cats[0] || c in cats[1..];
      if VisibleTo(cats[0], user) && KindFilter(kind, cats[0]) then [cats[0]] + rest else rest
  }

  function MapRows(rows: seq<Category>): (r: seq<CategoryDto>)
    ensures |r| == |rows|
    ensures forall k :: 0 <= k < |rows| ==> r[k] == MapCategoryRow(rows[k])
  {
    if rows == [] then [] else [MapCategoryRow(rows[0])] + MapRows(rows[1..])
  }

  /** `getCategories(userId, type)`: the global categories and the user's
      own, of the requested type when it is "income" or "expense". */
  function GetCategories(db: Db, user: int, kind: Option<string>): (r: seq<CategoryDto>)
    ensures forall c :: c in db.categories && VisibleTo(c, user) && KindFilter(kind, c) ==> MapCategoryRow(c) in r
    ensures forall k :: 0 <= k < |r| ==>
              exists c :: c in db.categories && VisibleTo(c, user) && KindFilter(kind, c) && r[k] == MapCategoryRow(c)
  {
    var rows := VisibleRows(db.categories, user, kind);
    var r := MapRows(rows);
    forall c | c in db.categories && VisibleTo(c, user) && KindFilter(kind, c)
      ensures MapCategoryRow(c) in r
    {
      var k :| 0 <= k < |rows| && rows[k] == c;
      assert r[k] == MapCategoryRow(c);
    }
    forall k | 0 <= k < |r|
      ensures exists c :: c in db.categories && VisibleTo(c, user) && KindFilter(kind, c) && r[k] == MapCategoryRow(c)
    {
      assert rows[k] in rows;
    }
    r
  }

  /** Another user's category is never listed, unless a visible row shares
      its id. */
  lemma OthersHidden(db: Db, user: int, kind: Option<string>, c: Category)
    requires c in db.categories && c.owner.Some? && c.owner != Some(user)
    requires forall v :: v in db.categories && VisibleTo(v, user) ==> v.id != c.id
    ensures forall d :: d in GetCategories(db, user, kind) ==> d.id != c.id
  {
    var r := GetCategories(db, user, kind);
    forall d | d in r
      ensures d.id != c.id
    {
      var k :| 0 <= k < |r| && r[k] == d;
    }
  }

  /** A visible category is listed without a type filter, and under a type
      filter exactly when it has that type. */
  lemma KindLists(db: Db, user: int, c: Category)
    requires c in db.categories && VisibleTo(c, user)
    ensures MapCategoryRow(c) in GetCategories(db, user, None)
    ensures MapCategoryRow(c) in GetCategories(db, user, Some("income")) <==> c.kind == Income
    ensures MapCategoryRow(c) in GetCategories(db, user, Some("expense")) <==> c.kind == Expense
  {
    assert KindOf("income") == Some(Income) && KindOf("expense") == Some(Expense);
    ListedHasKind(db, user, "income", c);
    ListedHasKind(db, user, "expense", c);
  }

  lemma ListedHasKind(db: Db, user: int, kind: string, c: Category)
    requires KindOf(kind).Some?
    ensures MapCategoryRow(c) in GetCategories(db, user, Some(kind)) ==> c.kind == KindOf(kind).value
  {
    var r := GetCategories(db, user, Some(kind));
    if MapCategoryRow(c) in r {
      var k :| 0 <= k < |r| && r[k] == MapCategoryRow(c);
      var c' :| c' in db.categories && VisibleTo(c', user) && KindFilter(Some(kind), c') && r[k] == MapCategoryRow(c');
      assert c.kind == MapCategoryRow(c).kind == c'.kind;
    }
  }

  // ---------------------------------------------------------------------------
  // createCategory

  /** The payload of `createCategory`; None stands for null or undefined. */
  datatype NewCategory = NewCategory(
    name: Option<string>,
    kind: Option<string>,
    icon: Option<string>,
    color: Option<string>,
    parentCategoryId: JsValue)

  /** `name?.trim()`, with a missing name read as "". */
  function TrimmedName(name: Option<string>): string {
    if name.Some? then Trim(name.value) else []
  }

  /** The parent check: None when there is no parent; otherwise the parent
      must be a number, an existing category, and of the child's type. */
  function CheckParent(db: Db, v: JsValue, kind: CategoryType): (r: Result<Option<int>, CategoryError>)
    ensures IsNullish(v) ==> r == Ok(None)
    ensures r.Err? && r.error == InvalidParentId <==> !IsNullish(v) && ToNumber(v).NaN?
    ensures r.Ok? && r.value.Some? ==>
              !IsNullish(v) && ToNumber(v) == Finite(r.value.value as real)
              && FindCategory(db.categories, r.value.value).Some?
              && FindCategory(db.categories, r.value.value).value.kind == kind
    ensures r.Err? && r.error == ParentNotFound <==>
              !IsNullish(v) && ReadId(ToNumber(v)).Id? && FindCategory(db.categories, ReadId(ToNumber(v)).id).None?
    ensures r.Err? && r.error == ParentTypeMismatch <==>
              !IsNullish(v) && ReadId(ToNumber(v)).Id? && FindCategory(db.categories, ReadId(ToNumber(v)).id).Some?
              && FindCategory(db.categories, ReadId(ToNumber(v)).id).value.kind != kind
    ensures r.Err? && r.error == IdRejected <==> !IsNullish(v) && ReadId(ToNumber(v)).NotAnInteger?
    ensures r.Err? ==> r.error in {InvalidParentId, ParentNotFound, ParentTypeMismatch, IdRejected}
    ensures r.Ok? <==>
              IsNullish(v)
              || (ReadId(ToNumber(v)).Id? && FindCategory(db.categories, ReadId(ToNumber(v)).id).Some?
                  && FindCategory(db.categories, ReadId(ToNumber(v)).id).value.kind == kind)
  {
    if IsNullish(v) then Ok(None)
    else match ReadId(ToNumber(v))
      case NotANumber => Err(InvalidParentId)
      case NotAnInteger => Err(IdRejected)
      case Id(pid) =>
        match FindCategory(db.categories, pid)
        case None => Err(ParentNotFound)
        case Some(p) => if p.kind != kind then Err(ParentTypeMismatch) else Ok(Some(pid))
  }

  /** `createCategory(userId, payload)`: 400 for a blank name (checked first)
      or a type other than income/expense, then the parent checks; otherwise
      the user's new category, with a fresh id, is appended. */
  function CreateCategory(db: Db, user: int, p: NewCategory): (r: Result<(Db, CategoryDto), CategoryError>)
    ensures r.Err? && r.error == NameRequired <==> TrimmedName(p.name) == []
    ensures r.Err? && r.error == InvalidType <==>
              TrimmedName(p.name) != [] && (p.kind.None? || KindOf(p.kind.value).None?)
    ensures r.Err? ==> r.error in {NameRequired, InvalidType, InvalidParentId, ParentNotFound, ParentTypeMismatch, IdRejected}
    ensures TrimmedName(p.name) != [] && p.kind.Some? && KindOf(p.kind.value).Some? ==>
              var parent := CheckParent(db, p.parentCategoryId, KindOf(p.kind.value).value);
              && (r.Ok? <==> parent.Ok?)
              && (parent.Err? ==> r == Err(parent.error))
    ensures r.Ok? ==>
              TrimmedName(p.name) != [] && p.kind.Some? && KindOf(p.kind.value).Some?
              && exists c: Category ::
                   r.value.0 == db.(categories := db.categories + [c]) && r.value.1 == MapCategoryRow(c)
                   && c.owner == Some(user) && c.name == TrimmedName(p.name) && Some(c.kind) == KindOf(p.kind.value)
                   && c.icon == OrNull(p.icon) && c.color == OrNull(p.color)
                   && Ok(c.parent) == CheckParent(db, p.parentCategoryId, c.kind)
                   && forall k :: 0 <= k < |db.categories| ==> db.categories[k].id != c.id
  {
    var name := TrimmedName(p.name);
    if name == [] then Err(NameRequired)
    else if p.kind.None? || KindOf(p.kind.value).None? then Err(InvalidType)
    else
      var kind := KindOf(p.kind.value).value;
      match CheckParent(db, p.parentCategoryId, kind)
      case Err(e) => Err(e)
      case Ok(parent) =>
        var c := Category(NextId(db.categories, (c: Category) => c.id), Some(user), name, kind, OrNull(p.icon), OrNull(p.color), parent);
        Ok((db.(categories := db.categories + [c]), MapCategoryRow(c)))
  }

  /** A created category is the user's own and is listed for them, under
      its own type too. */
  lemma CreatedIsListed(db: Db, user: int, p: NewCategory)
    requires CreateCategory(db, user, p).Ok?
    ensures var (db', d) := CreateCategory(db, user, p).value;
            !d.isGlobal && d in GetCategories(db', user, None) && d in GetCategories(db', user, p.kind)
  {
    var (db', d) := CreateCategory(db, user, p).value;
    var c :| db' == db.(categories := db.categories + [c]) && d == MapCategoryRow(c)
             && c.owner == Some(user) && Some(c.kind) == KindOf(p.kind.value);
    assert c in db'.categories;
  }

  // ---------------------------------------------------------------------------
  // updateCategory and deleteCategory: the shared ownership checks

  /** `Number(categoryId)`, the lookup by id and the two ownership checks:
      the user's own category with that id, or why there is none. */
  function OwnedCategory(db: Db, user: int, idParam: string): (r: Result<Category, CategoryError>)
    ensures r.Err? && r.error == InvalidId <==> StringToNumber(idParam).NaN?
    ensures r.Err? && r.error == NotFound <==>
              ReadId(StringToNumber(idParam)).Id? && FindCategory(db.categories, ReadId(StringToNumber(idParam)).id).None?
    ensures r.Err? && r.error == GlobalCategory <==>
              ReadId(StringToNumber(idParam)).Id? && FindCategory(db.categories, ReadId(StringToNumber(idParam)).id).Some?
              && FindCategory(db.categories, ReadId(StringToNumber(idParam)).id).value.owner.None?
    ensures r.Err? && r.error == NotOwner <==>
              ReadId(StringToNumber(idParam)).Id? && FindCategory(db.categories, ReadId(StringToNumber(idParam)).id).Some?
              && FindCategory(db.categories, ReadId(StringToNumber(idParam)).id).value.owner.Some?
              && FindCategory(db.categories, ReadId(StringToNumber(idParam)).id).value.owner != Some(user)
    ensures r.Err? && r.error == IdRejected <==> ReadId(StringToNumber(idParam)).NotAnInteger?
    ensures r.Err? ==> r.error in {InvalidId, NotFound, GlobalCategory, NotOwner, IdRejected}
    ensures r.Ok? <==>
              ReadId(StringToNumber(idParam)).Id? && FindCategory(db.categories, ReadId(StringToNumber(idParam)).id).Some?
              && FindCategory(db.categories, ReadId(StringToNumber(idParam)).id).value.owner == Some(user)
    ensures r.Ok? ==> r.value in db.categories && r.value.owner == Some(user)
                      && ReadId(StringToNumber(idParam)) == Id(r.value.id)
                      && FindCategory(db.categories, r.value.id) == Some(r.value)
  {
    match ReadId(StringToNumber(idParam))
    case NotANumber => Err(InvalidId)
    case NotAnInteger => Err(IdRejected)
    case Id(id) =>
      match FindCategory(db.categories, id)
      case None => Err(NotFound)
      case Some(c) =>
        if c.owner.None? then Err(GlobalCategory)
        else if c.owner != Some(user) then Err(NotOwner)
        else Ok(c)
  }

  /** Updating or deleting a shared category is refused with 403 whoever
      asks. */
  lemma GlobalCategoriesAreReadOnly(db: Db, user: int, c: Category, u: CategoryUpdate)
    requires c in db.categories && c.owner.None? && c.id >= 0
    requires forall v :: v in db.categories && v.id == c.id ==> v == c
    ensures UpdateCategory(db, user, NatToString(c.id), u) == Err(GlobalCategory)
    ensures DeleteCategory(db, user, NatToString(c.id)) == Err(GlobalCategory)
  {
    StringToNumberOfNat(c.id);
  }

  // ---------------------------------------------------------------------------
  // updateCategory

  /** The fields `updateCategory` reads; None stands for null or undefined. */
  datatype CategoryUpdate = CategoryUpdate(
    name: Option<string>,
    kind: Option<string>,
    icon: Option<string>,
    color: Option<string>)

  /** `updates.type || current.type`. */
  function NewKindText(u: CategoryUpdate, current: Category): string {
    if u.kind.Some? && u.kind.value != [] then u.kind.value
    else if current.kind == Income then "income" else "expense"
  }

  /** `updates.name != null ? updates.name.trim() : current.category_name`. */
  function NewName(u: CategoryUpdate, current: Category): string {
    if u.name.Some? then Trim(u.name.value) else current.name
  }

  /** The row after the `SET` list: name, type, icon and color, each the
      supplied value or the current one; id, owner and parent stay. */
  function Edited(c: Category, name: string, kind: CategoryType, u: CategoryUpdate, current: Category): (r: Category)
    ensures r.id == c.id && r.owner == c.owner && r.parent == c.parent
    ensures r.name == name && r.kind == kind
    ensures r.icon == (if u.icon.Some? then u.icon else current.icon)
    ensures r.color == (if u.color.Some? then u.color else current.color)
  {
    c.(name := name, kind := kind,
       icon := if u.icon.Some? then u.icon else current.icon,
       color := if u.color.Some? then u.color else current.color)
  }

  /** `UPDATE categories SET ... WHERE category_id = $5 AND user_id = $6`. */
  function EditRows(cats: seq<Category>, user: int, id: int, name: string, kind: CategoryType,
                    u: CategoryUpdate, current: Category): (r: seq<Category>)
    ensures |r| == |cats|
    ensures forall k :: 0 <= k < |cats| ==>
              r[k] == if cats[k].id == id && cats[k].owner == Some(user) then Edited(cats[k], name, kind, u, current) else cats[k]
  {
    if cats == [] then []
    else
      var c := cats[0];
      [if c.id == id && c.owner == Some(user) then Edited(c, name, kind, u, current) else c]
        + EditRows(cats[1..], user, id, name, kind, u, current)
  }

  /** `updateCategory(userId, categoryId, updates)`: the ownership checks,
      then 400 for a blank resulting name and then for a resulting type other
      than income/expense; otherwise the user's row with that id takes the
      new values and the parent never changes. */
  function UpdateCategory(db: Db, user: int, idParam: string, u: CategoryUpdate): (r: Result<(Db, CategoryDto), CategoryError>)
    ensures OwnedCategory(db, user, idParam).Err? ==> r == Err(OwnedCategory(db, user, idParam).error)
    ensures OwnedCategory(db, user, idParam).Ok? ==>
              var current := OwnedCategory(db, user, idParam).value;
              && (r.Err? && r.error == NameRequired <==> NewName(u, current) == [])
              && (r.Err? && r.error == InvalidType <==>
                    NewName(u, current) != [] && KindOf(NewKindText(u, current)).None?)
              && (r.Err? ==> r.error in {NameRequired, InvalidType})
              && (r.Ok? ==>
                    var kind := KindOf(NewKindText(u, current)).value;
                    r.value.0 == db.(categories := EditRows(db.categories, user, current.id, NewName(u, current), kind, u, current))
                    && r.value.1 == MapCategoryRow(Edited(current, NewName(u, current), kind, u, current)))
    ensures r.Ok? ==> |r.value.0.categories| == |db.categories|
                      && forall k :: 0 <= k < |db.categories| ==>
                           r.value.0.categories[k].parent == db.categories[k].parent
                           && r.value.0.categories[k].id == db.categories[k].id
                           && r.value.0.categories[k].owner == db.categories[k].owner
  {
    match OwnedCategory(db, user, idParam)
    case Err(e) => Err(e)
    case Ok(current) =>
      var name := NewName(u, current);
      if name == [] then Err(NameRequired)
      else match KindOf(NewKindText(u, current))
        case None => Err(InvalidType)
        case Some(kind) =>
          Ok((db.(categories := EditRows(db.categories, user, current.id, name, kind, u, current)),
              MapCategoryRow(Edited(current, name, kind, u, current))))
  }

  /** Category ids are a primary key. */
  predicate UniqueIds(cats: seq<Category>) {
    forall i, j :: 0 <= i < j < |cats| ==> cats[i].id != cats[j].id
  }

  /** An update that supplies nothing leaves a well-named category as it
      is. */
  lemma EmptyUpdateKeeps(db: Db, user: int, idParam: string)
    requires UniqueIds(db.categories)
    requires OwnedCategory(db, user, idParam).Ok? && OwnedCategory(db, user, idParam).value.name != []
    ensures UpdateCategory(db, user, idParam, CategoryUpdate(None, None, None, None))
            == Ok((db, MapCategoryRow(OwnedCategory(db, user, idParam).value)))
  {
    var current := OwnedCategory(db, user, idParam).value;
    var u := CategoryUpdate(None, None, None, None);
    var kind := KindOf(NewKindText(u, current)).value;
    var rows := EditRows(db.categories, user, current.id, current.name, kind, u, current);
    assert kind == current.kind;
    forall k | 0 <= k < |db.categories|
      ensures rows[k] == db.categories[k]
    {
      var c := db.categories[k];
      if c.id == current.id && c.owner == Some(user) {
        var m :| 0 <= m < |db.categories| && db.categories[m] == current;
        assert m == k;
      }
    }
    assert rows == db.categories;
    assert db.(categories := rows) == db;
  }

  // ---------------------------------------------------------------------------
  // deleteCategory

  /** `t.category_id = ANY([id, ...direct children of id])` for the user's
      live transactions. */
  predicate UsesTree(cats: seq<Category>, user: int, id: int, t: Tx) {
    t.owner == user && !t.deleted
    && (t.categoryId == id || exists c :: c in cats && c.parent == Some(id) && c.id == t.categoryId)
  }

  /** The rows the two `DELETE` statements remove: the user's direct
      children of the category, and the category itself. */
  predicate Removed(c: Category, user: int, id: int) {
    c.owner == Some(user) && (c.parent == Some(id) || c.id == id)
  }

  function RemoveRows(cats: seq<Category>, user: int, id: int): (r: seq<Category>)
    ensures forall c :: c in r <==> c in cats && !Removed(c, user, id)
    ensures |r| <= |cats|
  {
    if cats == [] then []
    else
      var rest := RemoveRows(cats[1..], user, id);
      assert forall c :: c in cats <==> c == cats[0] || c in cats[1..];
      if Removed(cats[0], user, id) then rest else [cats[0]] + rest
  }

  /** `deleteCategory(userId, categoryId)`: the ownership checks, then 400
      while any live transaction of the user uses the category or one of its
      direct children; otherwise those children and the category are deleted
      and nothing else changes. */
  function DeleteCategory(db: Db, user: int, idParam: string): (r: Result<Db, CategoryError>)
    ensures OwnedCategory(db, user, idParam).Err? ==> r == Err(OwnedCategory(db, user, idParam).error)
    ensures OwnedCategory(db, user, idParam).Ok? ==>
              var id := OwnedCategory(db, user, idParam).value.id;
              && (r.Err? <==> exists t :: t in db.txs && UsesTree(db.categories, user, id, t))
              && (r.Err? ==> r.error == InUse)
              && (r.Ok? ==> r.value == db.(categories := r.value.categories)
                            && forall c :: c in r.value.categories <==> c in db.categories && !Removed(c, user, id))
  {
    match OwnedCategory(db, user, idParam)
    case Err(e) => Err(e)
    case Ok(current) =>
      if exists t :: t in db.txs && UsesTree(db.categories, user, current.id, t) then Err(InUse)
      else Ok(db.(categories := RemoveRows(db.categories, user, current.id)))
  }

  /** Once deleted, the category cannot be found again: a second delete is
      404. */
  lemma DeleteTwiceNotFound(db: Db, user: int, idParam: string)
    requires UniqueIds(db.categories)
    requires DeleteCategory(db, user, idParam).Ok?
    ensures DeleteCategory(DeleteCategory(db, user, idParam).value, user, idParam) == Err(NotFound)
  {
    var current := OwnedCategory(db, user, idParam).value;
    var db' := DeleteCategory(db, user, idParam).value;
    forall c | c in db'.categories
      ensures c.id != current.id
    {
    }
  }
}

=== FILE: chat_text.dfy ===
/** The text rules of the keyword assistant in src/services/chatbotService.js:
    which month a question is about (`detectMonthOffset`) and the category
    and wallet names it mentions (`extractCategoryNames`, `extractWalletName`).
    Each regular expression is written out as a leftmost-match function. */
module ChatText {
  import opened Common
  import opened Calendar

  // ---------------------------------------------------------------------------
  // `<word>\s+(\d{min,max})`

  /** The digits `/<word>\s+(\d{min,max})/` captures when it matches at `i`.
      A shorter `\s+` would leave white space where a digit is needed, so only
      the longest run of white space can match; the greedy `\d{min,max}` then
      takes as many digits as it may. */
  function NumberAfterWordAt(text: string, word: string, i: nat, min: nat, max: nat): (r: Option<string>)
    requires 1 <= min <= max
    ensures r.Some? ==> min <= |r.value| <= max && AllDigits(r.value)
  {
    if !OccursAt(text, word, i) then None
    else
      var j := i + |word|;
      var sp := SpaceRun(text, j);
      var d := DigitRun(text, j + sp);
      var n := if d < max then d else max;
      if sp >= 1 && d >= min then Some(text[j + sp..j + sp + n]) else None
  }

  /** The capture of the leftmost match at or after `from` (`text.match`). */
  function FirstNumberAfter(text: string, word: string, min: nat, max: nat, from: nat): (r: Option<string>)
    requires 1 <= min <= max
    ensures r.Some? ==> min <= |r.value| <= max && AllDigits(r.value)
    decreases |text| - from
  {
    if from > |text| then None
    else match NumberAfterWordAt(text, word, from, min, max)
      case Some(d) => Some(d)
      case None => FirstNumberAfter(text, word, min, max, from + 1)
  }

  /** Positions where the word does not occur cannot start a match. */
  lemma {:induction false} FirstNumberAfterSkips(text: string, word: string, min: nat, max: nat, from: nat, to: nat)
    requires 1 <= min <= max
    requires from <= to <= |text|
    requires forall i :: from <= i < to ==> !OccursAt(text, word, i)
    ensures FirstNumberAfter(text, word, min, max, from) == FirstNumberAfter(text, word, min, max, to)
    decreases |text| - from
  {
    if from < to {
      FirstNumberAfterSkips(text, word, min, max, from + 1, to);
    }
  }

  /** The word, one space and a run of digits: the match captures the run. */
  lemma NumberAfterWordOf(t: string, word: string, i: nat, digits: string, min: nat, max: nat)
    requires 1 <= min <= |digits| <= max && AllDigits(digits)
    requires OccursAt(t, word, i)
    requires var j := i + |word| + 1;
             j + |digits| <= |t| && IsSpace(t[j - 1]) && t[j..j + |digits|] == digits
             && (j + |digits| == |t| || !IsDigit(t[j + |digits|]))
    ensures NumberAfterWordAt(t, word, i, min, max) == Some(digits)
  {
    var j := i + |word| + 1;
    assert t[j] == digits[0];
    assert SpaceRun(t, j - 1) == 1;
    DigitRunOf(t, j, |digits|);
  }

  /** The word, one space, the digits and then no digit: a match at the word
      captures the digits. */
  lemma {:induction false} WordThenNumber(p: string, w: string, ds: string, s: string, min: nat, max: nat)
    requires 1 <= min <= |ds| <= max && AllDigits(ds)
    requires s == [] || !IsDigit(s[0])
    ensures NumberAfterWordAt(p + w + " " + ds + s, w, |p|, min, max) == Some(ds)
  {
    var t := p + w + " " + ds + s;
    var j := |p| + |w| + 1;
    assert t[|p|..|p| + |w|] == w;
    assert t[j - 1] == ' ';
    assert t[j..j + |ds|] == ds;
    assert j + |ds| == |t| || t[j + |ds|] == s[0];
    NumberAfterWordOf(t, w, |p|, ds, min, max);
  }

  /** When the prefix holds no copy of the word, the first match is the one
      right after the prefix. */
  lemma {:induction false} FirstWordThenNumber(p: string, w: string, ds: string, s: string, min: nat, max: nat)
    requires w != [] && !Contains(p, w)
    requires forall k :: 1 <= k < |w| ==> w[k] != w[0]
    requires 1 <= min <= |ds| <= max && AllDigits(ds)
    requires s == [] || !IsDigit(s[0])
    ensures FirstNumberAfter(p + w + " " + ds + s, w, min, max, 0) == Some(ds)
  {
    var rest := w + " " + ds + s;
    var t := p + w + " " + ds + s;
    assert t == p + rest;
    assert rest[0] == w[0];
    NoWordBefore(p, rest, w);
    FirstNumberAfterSkips(t, w, min, max, 0, |p|);
    WordThenNumber(p, w, ds, s, min, max);
  }

  // ---------------------------------------------------------------------------
  // detectMonthOffset

  /** The month named by the leftmost `thang\s+(\d{1,2})`, when its number
      lies in 1..12; a number outside that range is ignored, and a later
      mention is never looked at. */
  function MonthMention(t: string): (r: Option<int>)
    ensures r.Some? ==> 1 <= r.value <= 12
  {
    match FirstNumberAfter(t, "thang", 1, 2, 0)
    case None => None
    case Some(d) => if 1 <= DigitsValue(d) <= 12 then Some(DigitsValue(d)) else None
  }

  /** The year named by the leftmost `nam\s+(\d{4})`, when it lies strictly
      between 1900 and 3000. */
  function YearMention(t: string): (r: Option<int>)
    ensures r.Some? ==> 1900 < r.value < 3000
  {
    match FirstNumberAfter(t, "nam", 4, 4, 0)
    case None => None
    case Some(d) => if 1900 < DigitsValue(d) < 3000 then Some(DigitsValue(d)) else None
  }

  /** `detectMonthOffset(textNorm)` run on the host's date `now`: how many
      months from now's month the (accent-free) question is about. */
  function DetectMonthOffset(t: string, now: Date): (r: int)
    ensures Contains(t, "thang nay") ==> r == 0
    ensures !Contains(t, "thang nay") && Contains(t, "thang truoc") ==> r == -1
    ensures !Contains(t, "thang truoc") && MonthMention(t).None? && YearMention(t).None? ==> r == 0
  {
    if Contains(t, "thang nay") then 0
    else if Contains(t, "thang truoc") then -1
    else
      var month := if MonthMention(t).Some? then MonthMention(t).value else now.month;
      var year := if YearMention(t).Some? then YearMention(t).value else now.year;
      if MonthMention(t).None? && FirstNumberAfter(t, "nam", 4, 4, 0).None? then 0
      else (year - now.year) * 12 + (month - now.month)
  }

  /** The month range the detected offset selects is the month the question
      names: this month for "thang nay", the previous one for "thang truoc",
      and otherwise the named month and year, each defaulting to now's. */
  lemma DetectedMonthIsNamedMonth(t: string, now: CivilDate)
    ensures var r := GetMonthRange(now, DetectMonthOffset(t, now));
            && (Contains(t, "thang nay") ==> r.month == now.month && r.year == now.year)
            && (!Contains(t, "thang nay") && Contains(t, "thang truoc") ==>
                  r.year * 12 + r.month == now.year * 12 + now.month - 1)
            && (!Contains(t, "thang nay") && !Contains(t, "thang truoc") ==>
                  && r.month == (if MonthMention(t).Some? then MonthMention(t).value else now.month)
                  && r.year == (if YearMention(t).Some? then YearMention(t).value else now.year))
  {
    var month := if MonthMention(t).Some? then MonthMention(t).value else now.month;
    var year := if YearMention(t).Some? then YearMention(t).value else now.year;
    if Contains(t, "thang nay") || (!Contains(t, "thang truoc") && MonthMention(t).None? && FirstNumberAfter(t, "nam", 4, 4, 0).None?) {
      MonthRangeOfTarget(now, now.month, now.year);
    } else if !Contains(t, "thang truoc") {
      MonthRangeOfTarget(now, month, year);
    }
  }

  /** A character absent from the text rules out every pattern holding it. */
  lemma AbsentChar(text: string, pat: string, c: char)
    requires c in pat
    requires forall k :: 0 <= k < |text| ==> text[k] != c
    ensures !Contains(text, pat)
  {}

  lemma {:induction false} DigitRunOf(s: string, i: nat, n: nat)
    requires i + n <= |s|
    requires forall k :: i <= k < i + n ==> IsDigit(s[k])
    requires i + n == |s| || !IsDigit(s[i + n])
    ensures DigitRun(s, i) == n
    decreases n
  {
    if n > 0 {
      DigitRunOf(s, i + 1, n - 1);
    }
  }

  lemma {:induction false} Pow10Mono(a: nat, b: nat)
    ensures a <= b ==> Pow10(a) <= Pow10(b)
    decreases b
  {
    if a < b {
      Pow10Mono(a, b - 1);
    }
  }

  /** A digit string without a leading zero denotes at least `10^(n-1)`. */
  lemma {:induction false} LeadingDigitBound(s: string)
    requires AllDigits(s) && |s| >= 1 && s[0] != '0'
    ensures DigitsValue(s) >= Pow10(|s| - 1)
  {
    var p := s[..|s| - 1];
    if |s| > 1 {
      assert p[0] == s[0];
      LeadingDigitBound(p);
    }
  }

  /** The number of digits of `n` lies between those of `lo` and `hi`. */
  lemma DigitCount(n: nat, lo: nat, hi: nat)
    requires Pow10(lo) <= n < Pow10(hi)
    ensures lo < |NatToString(n)| <= hi
  {
    var s := NatToString(n);
    DigitsValueBound(s);
    Pow10Mono(|s|, lo);
    if |s| > 1 {
      LeadingDigitBound(s);
    }
    Pow10Mono(hi, |s| - 1);
  }

  /** The accent-free form of "tháng <m> năm <y>". */
  function MonthYearText(m: nat, y: nat): string {
    "thang " + NatToString(m) + " nam " + NatToString(y)
  }

  /** No "y" or "r" anywhere, and no "m" before the one of "nam". */
  lemma MonthYearTextChars(m: nat, y: nat)
    ensures var t := MonthYearText(m, y);
            && (forall k :: 0 <= k < |t| ==> t[k] != 'y' && t[k] != 'r')
            && (forall k :: 0 <= k < 9 + |NatToString(m)| ==> t[k] != 'm')
  {
    var ms := NatToString(m);
    var ys := NatToString(y);
    var t := MonthYearText(m, y);
    forall k | 0 <= k < |t|
      ensures t[k] != 'y' && t[k] != 'r' && (k < 9 + |ms| ==> t[k] != 'm')
    {
      if k < 6 {
        assert t[k] == "thang "[k];
      } else if k < 6 + |ms| {
        assert t[k] == ms[k - 6];
      } else if k < 11 + |ms| {
        assert t[k] == " nam "[k - 6 - |ms|];
      } else {
        assert t[k] == ys[k - 11 - |ms|];
      }
    }
  }

  /** The month of "thang <m> nam <y>" is `m`. */
  lemma MonthOfMonthYearText(m: nat, y: nat)
    requires 1 <= m <= 12
    ensures MonthMention(MonthYearText(m, y)) == Some(m)
  {
    var ms := NatToString(m);
    var t := MonthYearText(m, y);
    DigitCount(m, 0, 2);
    assert t[..5] == "thang";
    assert t[6..6 + |ms|] == ms;
    assert t[5] == ' ' && t[6 + |ms|] == ' ';
    NumberAfterWordOf(t, "thang", 0, ms, 1, 2);
  }

  /** The year of "thang <m> nam <y>" is `y`: "nam" first occurs after the
      month. */
  lemma {:induction false} YearOfMonthYearText(m: nat, y: nat)
    requires 1 <= m <= 12 && 1900 < y < 3000
    ensures YearMention(MonthYearText(m, y)) == Some(y)
  {
    var ms := NatToString(m);
    var ys := NatToString(y);
    var p := "thang " + ms + " ";
    assert |ys| == 4 by {
      DigitCount(y, 3, 4);
    }
    assert !Contains(p, "nam") by {
      forall k | 0 <= k < |p|
        ensures p[k] != 'm'
      {
        if k < 6 {
          assert p[k] == "thang "[k];
        } else if k < 6 + |ms| {
          assert p[k] == ms[k - 6];
        }
      }
      AbsentChar(p, "nam", 'm');
    }
    assert MonthYearText(m, y) == p + "nam" + " " + ys + [];
    FirstWordThenNumber(p, "nam", ys, [], 4, 4);
  }





  /** "thang <m> nam <y>" is read as month `m` of year `y`, whichever month
      the question is asked in. */
  lemma ExplicitMonthAndYear(m: nat, y: nat, now: CivilDate)
    requires 1 <= m <= 12 && 1900 < y < 3000
    ensures var r := GetMonthRange(now, DetectMonthOffset(MonthYearText(m, y), now));
            r.month == m && r.year == y
  {
    var t := MonthYearText(m, y);
    MonthYearTextChars(m, y);
    AbsentChar(t, "thang nay", 'y');
    AbsentChar(t, "thang truoc", 'r');
    MonthOfMonthYearText(m, y);
    YearOfMonthYearText(m, y);
    DetectedMonthIsNamedMonth(t, now);
  }

  // ---------------------------------------------------------------------------
  // Quoted names: `/["“'‘](.+?)["”'’]/`

  predicate OpenQuote(c: char) {
    c == '"' || c == '\'' || c as int == 0x201C || c as int == 0x2018
  }

  predicate CloseQuote(c: char) {
    c == '"' || c == '\'' || c as int == 0x201D || c as int == 0x2019
  }

  /** Where the lazy `(.+?)` followed by a closing quote stops when the
      capture has reached position `k - 1`: the first closing quote at or
      after `k`, provided no line terminator comes before it. */
  function QuoteClose(text: string, k: nat): (r: Option<nat>)
    requires 1 <= k
    ensures r.Some? ==> k <= r.value < |text| && CloseQuote(text[r.value])
    ensures r.Some? ==> forall j :: k - 1 <= j < r.value ==> !IsLineTerminator(text[j])
    ensures r.Some? ==> forall j :: k <= j < r.value ==> !CloseQuote(text[j])
    decreases |text| - k
  {
    if k >= |text| || IsLineTerminator(text[k - 1]) then None
    else if CloseQuote(text[k]) then Some(k)
    else QuoteClose(text, k + 1)
  }

  /** The match at `i`: where it ends and what it captures. */
  function QuotedAt(text: string, i: nat): (r: Option<(nat, string)>)
    ensures r.Some? ==> i + 2 < r.value.0 + 1 && r.value.0 <= |text|
    ensures r.Some? ==> r.value.1 != [] && forall k :: 0 <= k < |r.value.1| ==> !IsLineTerminator(r.value.1[k])
  {
    if i < |text| && OpenQuote(text[i]) then
      match QuoteClose(text, i + 2)
      case None => None
      case Some(e) => Some((e + 1, text[i + 1..e]))
    else None
  }

  /** The captures of `text.matchAll(...)` from `from` on: each search
      resumes where the previous match ended. */
  function AllQuoted(text: string, from: nat): seq<string>
    decreases |text| - from
  {
    if from >= |text| then []
    else match QuotedAt(text, from)
      case Some((e, cap)) => [cap] + AllQuoted(text, e)
      case None => AllQuoted(text, from + 1)
  }

  /** The capture of `text.match(...)`: the leftmost match at or after `from`. */
  function FirstQuoted(text: string, from: nat): Option<string>
    decreases |text| - from
  {
    if from >= |text| then None
    else match QuotedAt(text, from)
      case Some((_, cap)) => Some(cap)
      case None => FirstQuoted(text, from + 1)
  }

  /** No match can start before the first opening quote. */
  lemma {:induction false} QuotedSkip(text: string, from: nat, to: nat)
    requires from <= to <= |text|
    requires forall k :: from <= k < to ==> !OpenQuote(text[k])
    ensures AllQuoted(text, from) == AllQuoted(text, to)
    ensures FirstQuoted(text, from) == FirstQuoted(text, to)
    decreases |text| - from
  {
    if from < to {
      QuotedSkip(text, from + 1, to);
    }
  }

  /** An opening quote at `i`, a name without closing quotes or line
      terminators, and a closing quote: the match captures the name. */
  lemma QuotedAtName(text: string, i: nat, n: string)
    requires n != []
    requires i + |n| + 2 <= |text| && OpenQuote(text[i]) && text[i + 1..i + 1 + |n|] == n
    requires CloseQuote(text[i + 1 + |n|])
    requires forall k :: 0 <= k < |n| ==> !CloseQuote(n[k]) && !IsLineTerminator(n[k])
    ensures QuotedAt(text, i) == Some((i + |n| + 2, n))
  {
    QuoteCloseAt(text, i + 2, i + 1 + |n|, i + 1);
  }

  lemma {:induction false} QuoteCloseAt(text: string, k: nat, e: nat, s: nat)
    requires 1 <= s < k <= e < |text|
    requires CloseQuote(text[e])
    requires forall j :: s <= j < e ==> !CloseQuote(text[j]) && !IsLineTerminator(text[j])
    ensures QuoteClose(text, k) == Some(e)
    decreases e - k
  {
    if k < e {
      QuoteCloseAt(text, k + 1, e, s);
    }
  }

  /** `.map(s => s.trim()).filter(Boolean)`. */
  function TrimmedNonEmpty(parts: seq<string>): (r: seq<string>)
    ensures |r| <= |parts|
    ensures forall k :: 0 <= k < |r| ==> r[k] != [] && Trim(r[k]) == r[k]
    ensures forall x :: x in r <==> x != [] && exists p :: p in parts && Trim(p) == x
  {
    if parts == [] then []
    else
      var rest := TrimmedNonEmpty(parts[1..]);
      var t := Trim(parts[0]);
      TrimIdempotent(parts[0]);
      assert forall p :: p in parts <==> p == parts[0] || p in parts[1..];
      if t != [] then [t] + rest else rest
  }

  /** The names keep the order of the parts: splitting the parts splits the
      names. */
  lemma {:induction false} TrimmedNonEmptyAppend(a: seq<string>, b: seq<string>)
    ensures TrimmedNonEmpty(a + b) == TrimmedNonEmpty(a) + TrimmedNonEmpty(b)
  {
    if a == [] {
      assert a + b == b;
    } else {
      var ab := a + b;
      assert ab[0] == a[0] && ab[1..] == a[1..] + b;
      TrimmedNonEmptyAppend(a[1..], b);
    }
  }

  /** One part gives its trim, or nothing when that is empty. */
  lemma TrimmedNonEmptySingle(p: string)
    ensures TrimmedNonEmpty([p]) == if Trim(p) == [] then [] else [Trim(p)]
  {
    assert [p][1..] == [];
  }

  /** A character none of the parts holds is in none of the names. */
  lemma {:induction false} TrimmedNonEmptyKeepsOut(parts: seq<string>, c: char)
    requires forall p, k :: p in parts && 0 <= k < |p| ==> p[k] != c
    ensures forall n, k :: n in TrimmedNonEmpty(parts) && 0 <= k < |n| ==> n[k] != c
  {
    if parts != [] {
      var p0 := parts[0];
      assert forall p :: p in parts[1..] ==> p in parts;
      TrimmedNonEmptyKeepsOut(parts[1..], c);
      var t := Trim(p0);
      forall k | 0 <= k < |t|
        ensures t[k] != c
      {
        assert t[k] == p0[TrimOffset(p0) + k];
      }
    }
  }

  // ---------------------------------------------------------------------------
  // `<word>\s+(.+)`

  /** The largest `k` in `[lo, hi]` where `.+` can start: a character that is
      not a line terminator. */
  function RestStart(text: string, lo: nat, hi: nat): (r: Option<nat>)
    requires 1 <= lo
    ensures r.Some? ==> lo <= r.value <= hi && r.value < |text| && !IsLineTerminator(text[r.value])
    ensures r.Some? ==> forall k :: r.value < k <= hi ==> k >= |text| || IsLineTerminator(text[k])
    ensures r.None? ==> forall k :: lo <= k <= hi ==> k >= |text| || IsLineTerminator(text[k])
    decreases hi
  {
    if hi < lo then None
    else if hi < |text| && !IsLineTerminator(text[hi]) then Some(hi)
    else RestStart(text, lo, hi - 1)
  }

  /** The capture of `/<word>\s+(.+)/` matched at `i`. The greedy `.+` runs
      to the end of the line; when the longest `\s+` leaves it nothing, `\s+`
      gives back white space one character at a time until `.+` can take a
      character that is not a line terminator. */
  function RestAfterWordAt(text: string, word: string, i: nat): (r: Option<string>)
    requires word != []
    ensures r.Some? ==> r.value != [] && forall k :: 0 <= k < |r.value| ==> !IsLineTerminator(r.value[k])
  {
    if !OccursAt(text, word, i) then None
    else
      var j := i + |word|;
      var sp := SpaceRun(text, j);
      if sp == 0 then None
      else match RestStart(text, j + 1, j + sp)
        case None => None
        case Some(k) => Some(text[k..LineEnd(text, k)])
  }

  function FirstRestAfterWord(text: string, word: string, from: nat): (r: Option<string>)
    requires word != []
    ensures r.Some? ==> r.value != [] && forall k :: 0 <= k < |r.value| ==> !IsLineTerminator(r.value[k])
    decreases |text| - from
  {
    if from > |text| then None
    else match RestAfterWordAt(text, word, from)
      case Some(s) => Some(s)
      case None => FirstRestAfterWord(text, word, from + 1)
  }

  /** No capture can start before the first position where the word occurs. */
  lemma {:induction false} FirstRestSkip(text: string, word: string, from: nat, to: nat)
    requires word != [] && from <= to <= |text|
    requires forall i :: from <= i < to ==> !OccursAt(text, word, i)
    ensures FirstRestAfterWord(text, word, from) == FirstRestAfterWord(text, word, to)
    decreases |text| - from
  {
    if from < to {
      FirstRestSkip(text, word, from + 1, to);
    }
  }

  /** Lower-case ASCII letters and spaces: text the lower-casing leaves as it is. */
  predicate PlainText(s: string) {
    forall k :: 0 <= k < |s| ==> 'a' <= s[k] <= 'z' || s[k] == ' '
  }

  lemma PlainLower(s: string)
    requires PlainText(s)
    ensures Lower(s) == s
  {}

  /** The word, one space and a character that is not white space: the
      capture starts at that character. */
  lemma {:induction false} RestAfterWordAtOne(text: string, word: string, i: nat)
    requires word != [] && OccursAt(text, word, i)
    requires i + |word| + 1 < |text|
    requires text[i + |word|] == ' ' && !IsSpace(text[i + |word| + 1])
    ensures RestAfterWordAt(text, word, i) == Some(text[i + |word| + 1..LineEnd(text, i + |word| + 1)])
  {
    var j := i + |word|;
    assert SpaceRun(text, j + 1) == 0;
    assert SpaceRun(text, j) == 1;
    assert RestStart(text, j + 1, j + 1) == Some(j + 1);
  }

  /** Where the word's capture exists, the leftmost search from there finds it. */
  lemma {:induction false} FirstRestAt(text: string, word: string, i: nat)
    requires word != [] && i <= |text| && RestAfterWordAt(text, word, i).Some?
    ensures FirstRestAfterWord(text, word, i) == RestAfterWordAt(text, word, i)
  {}

  /** The characters of a plain question: lower-case ASCII letters, spaces,
      commas and question marks. */
  predicate PlainOrMark(c: char) {
    'a' <= c <= 'z' || c == ' ' || c == ',' || c == '?'
  }

  /** A plain question quotes nothing and lower-cases to itself. */
  lemma {:induction false} PlainQuestion(s: string)
    requires forall k :: 0 <= k < |s| ==> PlainOrMark(s[k])
    ensures Lower(s) == s
    ensures FirstQuoted(s, 0).None? && AllQuoted(s, 0) == []
  {
    QuotedSkip(s, 0, |s|);
  }

  /** Text free of the word, the word, one space and a line that does not
      start with white space: the capture is that line. */
  lemma {:induction false} RestAfterPlainWord(p: string, word: string, rest: string)
    requires word != [] && !Contains(p, word)
    requires forall k :: 1 <= k < |word| ==> word[k] != word[0]
    requires rest != [] && !IsSpace(rest[0])
    requires forall k :: 0 <= k < |rest| ==> !IsLineTerminator(rest[k])
    ensures FirstRestAfterWord(p + word + " " + rest, word, 0) == Some(rest)
  {
    var text := p + word + " " + rest;
    assert text == p + (word + " " + rest);
    NoWordBefore(p, word + " " + rest, word);
    FirstRestSkip(text, word, 0, |p|);
    RestAfterWordThere(p, word, rest);
  }

  lemma {:induction false} RestAfterWordThere(p: string, word: string, rest: string)
    requires word != [] && rest != [] && !IsSpace(rest[0])
    requires forall k :: 0 <= k < |rest| ==> !IsLineTerminator(rest[k])
    ensures FirstRestAfterWord(p + word + " " + rest, word, |p|) == Some(rest)
  {
    var text := p + word + " " + rest;
    var j := |p| + |word|;
    assert text[|p|..j] == word;
    assert text[j] == ' ' && text[j + 1] == rest[0];
    var e := LineEnd(text, j + 1);
    assert e == |text|;
    assert text[j + 1..e] == rest;
    RestAfterWordAtOne(text, word, |p|);
    FirstRestAt(text, word, |p|);
  }

  // ---------------------------------------------------------------------------
  // extractCategoryNames

  /** Length of the filler `thang nay|thang truoc|bao nhieu|\?` (flag `i`)
      matched at the start of `s`, 0 when none matches; the alternatives are
      tried in that order. */
  function FillerAt(s: string): (n: nat)
    ensures n <= |s|
    ensures s != [] && s[0] == '?' ==> n > 0
  {
    if FoldOccursAt(s, "thang nay", 0) then 9
    else if FoldOccursAt(s, "thang truoc", 0) then 11
    else if FoldOccursAt(s, "bao nhieu", 0) then 9
    else if FoldOccursAt(s, "?", 0) then 1
    else 0
  }

  /** `segment.replace(/thang nay|thang truoc|bao nhieu|\?/gi, "")`: every
      filler found scanning left to right is removed; question marks never
      survive. */
  function StripFillers(s: string): (r: string)
    ensures |r| <= |s|
    ensures forall k :: 0 <= k < |r| ==> r[k] != '?'
    decreases |s|
  {
    if s == [] then []
    else if FillerAt(s) > 0 then StripFillers(s[FillerAt(s)..])
    else [s[0]] + StripFillers(s[1..])
  }

  /** `segment.replace(/^danh muc\s+|^danh mục\s+/i, "")`. */
  function StripCategoryWord(s: string): (r: string)
    ensures |r| <= |s| && r == s[|s| - |r|..]
  {
    if (FoldOccursAt(s, "danh muc", 0) || FoldOccursAt(s, "danh mục", 0)) && SpaceRun(s, 8) >= 1
    then s[8 + SpaceRun(s, 8)..]
    else s
  }

  /** Length of the separator `,| và | va ` (flag `i`) at `i`, 0 if none. */
  function SeparatorAt(s: string, i: nat): (n: nat)
    ensures i + n <= |s| || n == 0
    ensures i < |s| && s[i] == ',' ==> n == 1
  {
    if FoldOccursAt(s, ",", i) then 1
    else if FoldOccursAt(s, " và ", i) then 4
    else if FoldOccursAt(s, " va ", i) then 4
    else 0
  }

  /** `s.split(/,| và | va /i)` from the piece starting at `start`, the
      scan being at `i`: the text between consecutive separators, in order. */
  function SplitAtSeparators(s: string, start: nat, i: nat): (r: seq<string>)
    requires start <= i <= |s|
    requires forall k :: start <= k < i ==> s[k] != ','
    ensures |r| >= 1
    ensures forall p, k :: p in r && 0 <= k < |p| ==> p[k] != ','
    ensures (forall k :: start <= k < |s| ==> s[k] != '?') ==> forall p, k :: p in r && 0 <= k < |p| ==> p[k] != '?'
    decreases |s| - i
  {
    if i == |s| then [s[start..]]
    else if SeparatorAt(s, i) > 0 then
      [s[start..i]] + SplitAtSeparators(s, i + SeparatorAt(s, i), i + SeparatorAt(s, i))
    else SplitAtSeparators(s, start, i + 1)
  }

  /** The names quoted in the message, trimmed, empty ones dropped. */
  function QuotedNames(raw: string): seq<string> {
    TrimmedNonEmpty(AllQuoted(raw, 0))
  }

  /** `extractCategoryNames(rawMessage)`: the quoted names when there are
      any; otherwise the comma- or "và"-separated names after "cho" in the
      lower-cased message, fillers and a leading "danh muc" removed. Every
      name is non-empty and trimmed. */
  function ExtractCategoryNames(raw: string): (r: seq<string>)
    ensures forall k :: 0 <= k < |r| ==> r[k] != [] && Trim(r[k]) == r[k]
    ensures QuotedNames(raw) != [] ==> r == QuotedNames(raw)
    ensures QuotedNames(raw) == [] && FirstRestAfterWord(Lower(raw), "cho", 0).None? ==> r == []
    ensures QuotedNames(raw) == [] ==> forall k, j :: 0 <= k < |r| && 0 <= j < |r[k]| ==> r[k][j] != ',' && r[k][j] != '?'
  {
    var quoted := QuotedNames(raw);
    if quoted != [] then quoted
    else match FirstRestAfterWord(Lower(raw), "cho", 0)
      case None => []
      case Some(segment) =>
        var s := StripCategoryWord(StripFillers(segment));
        var pieces := SplitAtSeparators(s, 0, 0);
        TrimmedNonEmptyKeepsOut(pieces, ',');
        TrimmedNonEmptyKeepsOut(pieces, '?');
        TrimmedNonEmpty(pieces)
  }

  /** Text without opening quotes, then a quoted name: the one match. */
  lemma QuotedOfName(p: string, q: char, n: string, e: char, rest: string)
    requires forall k :: 0 <= k < |p| ==> !OpenQuote(p[k])
    requires OpenQuote(q) && CloseQuote(e)
    requires n != []
    requires forall k :: 0 <= k < |n| ==> !CloseQuote(n[k]) && !IsLineTerminator(n[k])
    ensures var raw := p + [q] + n + [e] + rest;
            && FirstQuoted(raw, 0) == Some(n)
            && (rest == [] ==> AllQuoted(raw, 0) == [n])
  {
    var raw := p + [q] + n + [e] + rest;
    assert forall k :: 0 <= k < |p| ==> raw[k] == p[k];
    QuotedSkip(raw, 0, |p|);
    assert raw[|p|] == q && raw[|p| + 1 + |n|] == e;
    assert raw[|p| + 1..|p| + 1 + |n|] == n;
    QuotedAtName(raw, |p|, n);
    if rest == [] {
      assert |raw| == |p| + |n| + 2;
      assert AllQuoted(raw, |raw|) == [];
    }
  }

  /** A quoted name after text without opening quotes comes back as the
      only category name. */
  lemma QuotedCategoryRoundTrip(p: string, q: char, n: string, e: char)
    requires forall k :: 0 <= k < |p| ==> !OpenQuote(p[k])
    requires OpenQuote(q) && CloseQuote(e)
    requires n != [] && Trim(n) == n
    requires forall k :: 0 <= k < |n| ==> !CloseQuote(n[k]) && !IsLineTerminator(n[k])
    ensures ExtractCategoryNames(p + [q] + n + [e]) == [n]
  {
    var raw := p + [q] + n + [e];
    QuotedOfName(p, q, n, e, []);
    assert raw == p + [q] + n + [e] + [];
    assert TrimmedNonEmpty([n]) == [n] by {
      assert [n][1..] == [];
    }
    assert QuotedNames(raw) == [n];
  }

  /** A name that survives the unquoted path unchanged: plain, trimmed,
      without a filler phrase and without the separator " va ". */
  predicate CategoryWords(n: string) {
    && PlainText(n) && n != [] && !IsSpace(n[0]) && !IsSpace(n[|n| - 1])
    && !Contains(n, "thang nay") && !Contains(n, "thang truoc") && !Contains(n, "bao nhieu")
    && !Contains(" " + n, " va ")
  }

  /** A pattern without commas occurs in `a + ", " + b` only inside `a` or
      inside `" " + b`. */
  lemma {:induction false} SegmentOccurs(a: string, b: string, pat: string, i: nat)
    requires ',' !in pat
    ensures OccursAt(a + ", " + b, pat, i) ==> Contains(a, pat) || Contains(" " + b, pat)
  {
    assert a + ", " + b == a + [','] + (" " + b);
    OccursAcross(a, ',', " " + b, pat, i);
  }

  /** A pattern that does not start with a space and is absent from `b` is
      absent from `" " + b`. */
  lemma {:induction false} NotAfterSpace(b: string, pat: string)
    requires pat != [] && pat[0] != ' ' && !Contains(b, pat)
    ensures !Contains(" " + b, pat)
  {
    forall i | 0 <= i
      ensures !OccursAt(" " + b, pat, i)
    {
      OccursAfterChar(' ', b, pat, i);
    }
  }

  lemma {:induction false} NotInSegment(a: string, b: string, pat: string, i: nat)
    requires pat != [] && pat[0] != ' ' && ',' !in pat
    requires !Contains(a, pat) && !Contains(b, pat)
    ensures !OccursAt(a + ", " + b, pat, i)
  {
    NotAfterSpace(b, pat);
    SegmentOccurs(a, b, pat, i);
  }

  /** No filler starts anywhere in the segment of two category words. */
  lemma {:induction false} SegmentNoFiller(a: string, b: string, i: nat)
    requires PlainText(a) && PlainText(b)
    requires !Contains(a, "thang nay") && !Contains(a, "thang truoc") && !Contains(a, "bao nhieu")
    requires !Contains(b, "thang nay") && !Contains(b, "thang truoc") && !Contains(b, "bao nhieu")
    requires i < |a + ", " + b|
    ensures FillerAt((a + ", " + b)[i..]) == 0
  {
    var seg := a + ", " + b;
    var t := seg[i..];
    assert forall k :: 0 <= k < |t| ==> PlainOrMark(t[k]);
    FoldOccursExact(t, "thang nay", 0);
    FoldOccursExact(t, "thang truoc", 0);
    FoldOccursExact(t, "bao nhieu", 0);
    FoldOccursExact(t, "?", 0);
    OccursInSuffix(seg, "thang nay", i);
    OccursInSuffix(seg, "thang truoc", i);
    OccursInSuffix(seg, "bao nhieu", i);
    NotInSegment(a, b, "thang nay", i);
    NotInSegment(a, b, "thang truoc", i);
    NotInSegment(a, b, "bao nhieu", i);
    assert t[0] != '?';
  }

  lemma {:induction false} SegmentKeepsFillers(a: string, b: string)
    requires PlainText(a) && PlainText(b)
    requires !Contains(a, "thang nay") && !Contains(a, "thang truoc") && !Contains(a, "bao nhieu")
    requires !Contains(b, "thang nay") && !Contains(b, "thang truoc") && !Contains(b, "bao nhieu")
    ensures StripFillers(a + ", " + b) == a + ", " + b
  {
    var seg := a + ", " + b;
    forall i | 0 <= i < |seg|
      ensures FillerAt(seg[i..]) == 0
    {
      SegmentNoFiller(a, b, i);
    }
    StripFillersNone(seg);
  }

  /** Text with no filler anywhere goes through `StripFillers` unchanged. */
  lemma {:induction false} StripFillersNone(s: string)
    requires forall i :: 0 <= i < |s| ==> FillerAt(s[i..]) == 0
    ensures StripFillers(s) == s
    decreases |s|
  {
    if s != [] {
      assert s[0..] == s;
      forall i | 0 <= i < |s[1..]|
        ensures FillerAt(s[1..][i..]) == 0
      {
        assert s[1..][i..] == s[i + 1..];
      }
      StripFillersNone(s[1..]);
    }
  }

  /** The segment does not start with "danh muc" or "danh mục". */
  lemma {:induction false} SegmentKeepsStart(a: string, b: string)
    requires PlainText(a) && PlainText(b) && !OccursAt(a, "danh muc", 0)
    ensures StripCategoryWord(a + ", " + b) == a + ", " + b
  {
    var seg := a + ", " + b;
    assert forall k :: 0 <= k < |seg| ==> PlainOrMark(seg[k]);
    FoldOccursExact(seg, "danh muc", 0);
    assert a + ", " + b == a + [','] + (" " + b);
    OccursAcross(a, ',', " " + b, "danh muc", 0);
    assert !FoldOccursAt(seg, "danh mục", 0) by {
      if 8 <= |seg| {
        assert !FoldMatch(seg[6], "danh mục"[6]);
      }
    }
  }

  /** " va " does not occur in a text whose copy behind a space lacks it. */
  lemma {:induction false} NoVaInside(a: string)
    requires !Contains(" " + a, " va ")
    ensures !Contains(a, " va ")
  {
    forall i | 0 <= i && i + 4 <= |a|
      ensures !OccursAt(a, " va ", i)
    {
      assert (" " + a)[i + 1..i + 5] == a[i..i + 4];
      assert !OccursAt(" " + a, " va ", i + 1);
    }
  }

  /** In the segment the only separator is its comma. */
  lemma {:induction false} SegmentSeparator(a: string, b: string, k: nat)
    requires PlainText(a) && PlainText(b)
    requires !Contains(a, " va ") && !Contains(" " + b, " va ")
    requires k < |a + ", " + b|
    ensures SeparatorAt(a + ", " + b, k) == if k == |a| then 1 else 0
  {
    var seg := a + ", " + b;
    assert forall j :: 0 <= j < |seg| ==> PlainOrMark(seg[j]);
    FoldOccursExact(seg, ",", k);
    FoldOccursExact(seg, " va ", k);
    assert seg[k..k + 1][0] == seg[k];
    SegmentOccurs(a, b, " va ", k);
    assert !FoldOccursAt(seg, " và ", k) by {
      if k + 4 <= |seg| {
        assert !FoldMatch(seg[k + 2], " và "[2]);
      }
    }
  }

  /** No separator in `[i, j)` and no comma in `[start, j)`: the scan moves
      on to `j` with the same piece open. */
  lemma {:induction false} SplitSkip(s: string, start: nat, i: nat, j: nat)
    requires start <= i <= j <= |s|
    requires forall k :: start <= k < j ==> s[k] != ','
    requires forall k :: i <= k < j ==> SeparatorAt(s, k) == 0
    ensures SplitAtSeparators(s, start, i) == SplitAtSeparators(s, start, j)
    decreases j - i
  {
    if i < j {
      assert SeparatorAt(s, i) == 0 && i != |s|;
      assert SplitAtSeparators(s, start, i) == SplitAtSeparators(s, start, i + 1);
      SplitSkip(s, start, i + 1, j);
    }
  }

  /** The segment splits at its comma into the first word and the second
      word with the space before it. */
  lemma {:induction false} SegmentSplit(a: string, b: string)
    requires PlainText(a) && PlainText(b)
    requires !Contains(a, " va ") && !Contains(" " + b, " va ")
    ensures SplitAtSeparators(a + ", " + b, 0, 0) == [a, " " + b]
  {
    var seg := a + ", " + b;
    SegmentSeparators(a, b);
    SegmentOneComma(a, b);
    SplitAtOneComma(seg, |a|);
    SegmentHalves(a, b);
  }

  /** The words sit on either side of the comma. */
  lemma SegmentHalves(a: string, b: string)
    ensures (a + ", " + b)[..|a|] == a && (a + ", " + b)[|a| + 1..] == " " + b
  {
    assert (a + ", " + b)[..|a|] == a;
    assert (a + ", " + b)[|a| + 1..] == " " + b;
  }

  /** Every position of the segment but its comma holds no separator. */
  lemma {:induction false} SegmentSeparators(a: string, b: string)
    requires PlainText(a) && PlainText(b)
    requires !Contains(a, " va ") && !Contains(" " + b, " va ")
    ensures var seg := a + ", " + b;
            forall k :: 0 <= k < |seg| ==> SeparatorAt(seg, k) == if k == |a| then 1 else 0
  {
    var seg := a + ", " + b;
    forall k | 0 <= k < |seg|
      ensures SeparatorAt(seg, k) == if k == |a| then 1 else 0
    {
      SegmentSeparator(a, b, k);
    }
  }

  /** The segment's only comma is the one between the words. */
  lemma {:induction false} SegmentOneComma(a: string, b: string)
    requires PlainText(a) && PlainText(b)
    ensures var seg := a + ", " + b;
            forall k :: 0 <= k < |seg| && k != |a| ==> seg[k] != ','
  {
    var seg := a + ", " + b;
    forall k | 0 <= k < |seg| && k != |a|
      ensures seg[k] != ','
    {
      if k < |a| {
        assert seg[k] == a[k];
      } else {
        assert seg[k] == (" " + b)[k - |a| - 1];
      }
    }
  }

  /** Text whose one separator is a comma splits into what comes before it
      and what comes after it. */
  lemma {:induction false} SplitAtOneComma(s: string, c: nat)
    requires c < |s|
    requires forall k :: 0 <= k < |s| ==> SeparatorAt(s, k) == if k == c then 1 else 0
    requires forall k :: 0 <= k < |s| && k != c ==> s[k] != ','
    ensures SplitAtSeparators(s, 0, 0) == [s[..c], s[c + 1..]]
  {
    var rest := SplitAtSeparators(s, c + 1, c + 1);
    assert SplitAtSeparators(s, 0, 0) == SplitAtSeparators(s, 0, c) by {
      SplitSkip(s, 0, 0, c);
    }
    assert SplitAtSeparators(s, 0, c) == [s[0..c]] + rest by {
      assert SeparatorAt(s, c) == 1;
    }
    assert rest == [s[c + 1..]] by {
      SplitSkip(s, c + 1, c + 1, |s|);
    }
  }

  /** The two pieces trim to the two words. */
  lemma {:induction false} SegmentNames(a: string, b: string)
    requires a != [] && Trim(a) == a
    requires b != [] && !IsSpace(b[0]) && !IsSpace(b[|b| - 1])
    ensures TrimmedNonEmpty([a, " " + b]) == [a, b]
  {
    var sb := " " + b;
    TrimSpaceBefore(b);
    TrimmedNonEmptyAppend([a], [sb]);
    assert [a, sb] == [a] + [sb];
    TrimmedNonEmptySingle(a);
    TrimmedNonEmptySingle(sb);
  }

  lemma {:induction false} TrimSpaceBefore(b: string)
    requires b != [] && !IsSpace(b[0]) && !IsSpace(b[|b| - 1])
    ensures Trim(" " + b) == b
  {
    var sb := " " + b;
    assert TrimOffset(sb) == 1 by {
      assert sb[1] == b[0];
    }
    assert sb[|sb| - 1] == b[|b| - 1];
  }

  /** A plain question quotes nothing, so its names come from the segment
      after "cho". */
  lemma {:induction false} CategoryOfSegment(p: string, seg: string)
    requires PlainText(p) && !Contains(p, "cho")
    requires seg != [] && !IsSpace(seg[0])
    requires forall k :: 0 <= k < |seg| ==> PlainOrMark(seg[k])
    ensures ExtractCategoryNames(p + "cho " + seg)
         == TrimmedNonEmpty(SplitAtSeparators(StripCategoryWord(StripFillers(seg)), 0, 0))
  {
    var raw := p + "cho " + seg;
    assert forall k :: 0 <= k < |raw| ==> PlainOrMark(raw[k]);
    PlainQuestion(raw);
    assert QuotedNames(raw) == [];
    assert raw == p + "cho" + " " + seg;
    RestAfterPlainWord(p, "cho", seg);
  }

  /** The segment of two category words gives back the two words. */
  lemma {:induction false} SegmentRoundTrip(a: string, b: string)
    requires PlainText(a) && PlainText(b) && !OccursAt(a, "danh muc", 0)
    requires a != [] && !IsSpace(a[0]) && !IsSpace(a[|a| - 1])
    requires b != [] && !IsSpace(b[0]) && !IsSpace(b[|b| - 1])
    requires !Contains(a, "thang nay") && !Contains(a, "thang truoc") && !Contains(a, "bao nhieu")
    requires !Contains(b, "thang nay") && !Contains(b, "thang truoc") && !Contains(b, "bao nhieu")
    requires !Contains(" " + a, " va ") && !Contains(" " + b, " va ")
    ensures TrimmedNonEmpty(SplitAtSeparators(StripCategoryWord(StripFillers(a + ", " + b)), 0, 0)) == [a, b]
  {
    var seg := a + ", " + b;
    assert StripFillers(seg) == seg by {
      SegmentKeepsFillers(a, b);
    }
    assert StripCategoryWord(seg) == seg by {
      SegmentKeepsStart(a, b);
    }
    assert SplitAtSeparators(seg, 0, 0) == [a, " " + b] by {
      NoVaInside(a);
      SegmentSplit(a, b);
    }
    assert TrimmedNonEmpty([a, " " + b]) == [a, b] by {
      TrimOfTrimmed(a);
      SegmentNames(a, b);
    }
  }

  /** Two words after "cho" in a plain question, separated by a comma, come
      back as the two category names, in order. */
  lemma {:induction false} CategoryNamesRoundTrip(p: string, a: string, b: string)
    requires PlainText(p) && !Contains(p, "cho")
    requires CategoryWords(a) && CategoryWords(b) && !OccursAt(a, "danh muc", 0)
    ensures ExtractCategoryNames(p + "cho " + a + ", " + b) == [a, b]
  {
    var seg := a + ", " + b;
    assert forall k :: 0 <= k < |seg| ==> PlainOrMark(seg[k]);
    assert seg[0] == a[0];
    CategoryOfSegment(p, seg);
    SegmentRoundTrip(a, b);
    SegmentAfter(p + "cho ", a, b);
  }

  lemma SegmentAfter(x: string, a: string, b: string)
    ensures x + (a + ", " + b) == x + a + ", " + b
  {}

  // ---------------------------------------------------------------------------
  // extractWalletName

  predicate IsMark(c: char) { c == '?' || c == '.' || c == '!' }

  /** `name.replace(/[?.!]+$/, "")`: drops the run of question marks,
      points and exclamation marks that ends the name. */
  function DropTrailingMarks(s: string): (r: string)
    ensures |r| <= |s| && r == s[..|r|]
    ensures forall k :: |r| <= k < |s| ==> IsMark(s[k])
    ensures r == [] || !IsMark(r[|r| - 1])
  {
    if s != [] && IsMark(s[|s| - 1]) then DropTrailingMarks(s[..|s| - 1]) else s
  }

  /** `extractWalletName(rawMessage)`: the first quoted text, trimmed (it may
      come out empty); else what follows "vi" in the lower-cased message,
      trimmed and without its closing marks; else None (`null`). */
  function ExtractWalletName(raw: string): (r: Option<string>)
    ensures FirstQuoted(raw, 0).Some? ==> r == Some(Trim(FirstQuoted(raw, 0).value))
    ensures r.None? <==> FirstQuoted(raw, 0).None? && FirstRestAfterWord(Lower(raw), "vi", 0).None?
    ensures FirstQuoted(raw, 0).None? && r.Some? ==> r.value == [] || !IsMark(r.value[|r.value| - 1])
  {
    match FirstQuoted(raw, 0)
    case Some(cap) => Some(Trim(cap))
    case None =>
      match FirstRestAfterWord(Lower(raw), "vi", 0)
      case None => None
      case Some(rest) => Some(DropTrailingMarks(Trim(rest)))
  }

  /** The first quoted text is the wallet name, whatever follows it. */
  lemma QuotedWalletRoundTrip(p: string, q: char, n: string, e: char, rest: string)
    requires forall k :: 0 <= k < |p| ==> !OpenQuote(p[k])
    requires OpenQuote(q) && CloseQuote(e)
    requires n != []
    requires forall k :: 0 <= k < |n| ==> !CloseQuote(n[k]) && !IsLineTerminator(n[k])
    ensures ExtractWalletName(p + [q] + n + [e] + rest) == Some(Trim(n))
  {
    QuotedOfName(p, q, n, e, rest);
  }

  /** A wallet named after "vi" in a plain question comes back as it is:
      the closing question mark is dropped. */
  lemma {:induction false} WalletNameRoundTrip(p: string, name: string)
    requires PlainText(p) && !Contains(p, "vi")
    requires PlainText(name) && name != [] && !IsSpace(name[0]) && !IsSpace(name[|name| - 1])
    ensures ExtractWalletName(p + "vi " + name + "?") == Some(name)
  {
    var raw := p + "vi " + name + "?";
    var rest := name + "?";
    assert forall k :: 0 <= k < |raw| ==> PlainOrMark(raw[k]);
    PlainQuestion(raw);
    assert raw == p + "vi" + " " + rest;
    RestAfterPlainWord(p, "vi", rest);
    WalletOfRest(raw, rest);
    DropQuestionMark(name);
  }

  lemma {:induction false} WalletOfRest(raw: string, rest: string)
    requires FirstQuoted(raw, 0).None? && FirstRestAfterWord(Lower(raw), "vi", 0) == Some(rest)
    ensures ExtractWalletName(raw) == Some(DropTrailingMarks(Trim(rest)))
  {}

  /** A trimmed name not ending in a mark, then a question mark: trimming
      and dropping the marks gives the name back. */
  lemma {:induction false} DropQuestionMark(name: string)
    requires name != [] && !IsSpace(name[0]) && !IsSpace(name[|name| - 1]) && !IsMark(name[|name| - 1])
    ensures DropTrailingMarks(Trim(name + "?")) == name
  {
    var rest := name + "?";
    TrimOfTrimmed(rest);
    assert rest[..|rest| - 1] == name;
  }
}

=== FILE: chatbot.dfy ===
/** `callAssistant`: the keyword assistant. The trimmed question is
    normalised (lower-cased, accents stripped), its month is detected, and
    the first of fifteen keyword rules that matches picks the query and the
    reply; a question no rule matches goes to the local language model. */
module Chatbot {
  import opened Common
  import opened Calendar
  import opened Ledger
  import opened ChatbotData
  import opened ChatText

  // ---------------------------------------------------------------------------
  // The keyword rules

  /** The rules of `callAssistant`, plus `Unmatched` for the model fallback. */
  datatype Intent =
    | AskToday | AskLast7Days | AskBudget | AskCategories | AskTopIncomes
    | AskTop3Expenses | AskMonthExpense | AskMonthIncome | AskTopWallet
    | AskMonthNet | AskTotalBalance | AskTopCategories | AskWalletBalance
    | AskTopExpenses | AskOverview | Unmatched

  /** The position of each rule in the chain; the fallback comes last. */
  function Rank(i: Intent): nat {
    match i
    case AskToday => 0
    case AskLast7Days => 1
    case AskBudget => 2
    case AskCategories => 3
    case AskTopIncomes => 4
    case AskTop3Expenses => 5
    case AskMonthExpense => 6
    case AskMonthIncome => 7
    case AskTopWallet => 8
    case AskMonthNet => 9
    case AskTotalBalance => 10
    case AskTopCategories => 11
    case AskWalletBalance => 12
    case AskTopExpenses => 13
    case AskOverview => 14
    case Unmatched => 15
  }

  predicate AsksSpending(t: string) {
    Contains(t, "chi bao nhieu") || Contains(t, "chi tieu") || Contains(t, "chi phi")
  }

  predicate AsksTop3(t: string) {
    Contains(t, "top 3") || Contains(t, "top3") || Contains(t, "top ba")
  }

  predicate AsksLargest(t: string) {
    Contains(t, "lon nhat") || Contains(t, "cao nhat") || Contains(t, "nhieu nhat")
  }

  /** Words that name income. */
  predicate NamesIncome(t: string) {
    Contains(t, "khoan thu") || Contains(t, "thu nhap")
  }

  /** Words that name spending in the top-3 expense rule. */
  predicate NamesExpense(t: string) {
    Contains(t, "chi tieu") || Contains(t, "chi phi")
  }

  /** The keyword test of each rule on the normalised question `t`. With
      `asWritten` the top-3 income rule is the one in the code, which also
      fires on "giao dich" alone; otherwise "giao dich" selects incomes only
      when the question names no spending. */
  predicate RuleHolds(i: Intent, t: string, asWritten: bool) {
    match i
    case AskToday => Contains(t, "hom nay") && AsksSpending(t)
    case AskLast7Days => (Contains(t, "7 ngay") || Contains(t, "bay ngay")) && AsksSpending(t)
    case AskBudget => Contains(t, "thang") && (Contains(t, "ngan sach") || Contains(t, "han muc"))
    case AskCategories =>
      Contains(t, "chi bao nhieu cho") || Contains(t, "chi cho danh muc")
      || (Contains(t, "thang") && Contains(t, "chi cho"))
    case AskTopIncomes =>
      && AsksTop3(t)
      && (if asWritten then Contains(t, "giao dich") || NamesIncome(t)
          else NamesIncome(t) || (Contains(t, "giao dich") && !NamesExpense(t)))
      && AsksLargest(t)
    case AskTop3Expenses => AsksTop3(t) && (Contains(t, "giao dich") || NamesExpense(t)) && AsksLargest(t)
    case AskMonthExpense => Contains(t, "thang") && AsksSpending(t)
    case AskMonthIncome => Contains(t, "thang") && Contains(t, "thu nhap")
    case AskTopWallet =>
      Contains(t, "vi nao")
      && (Contains(t, "khau tru nhieu nhat") || Contains(t, "tieu nhieu nhat") || Contains(t, "chi nhieu nhat"))
    case AskMonthNet => (Contains(t, "tong so du") || Contains(t, "chenh lech")) && Contains(t, "thang")
    case AskTotalBalance =>
      (!Contains(t, "thang") && Contains(t, "tong so du"))
      || Contains(t, "tong tai san") || Contains(t, "tong tien hien co")
    case AskTopCategories =>
      (Contains(t, "top") && Contains(t, "danh muc"))
      || (Contains(t, "danh muc")
          && (Contains(t, "chi nhieu nhat") || Contains(t, "tieu nhieu nhat") || Contains(t, "ton nhieu nhat")))
    case AskWalletBalance => (Contains(t, "so du") && Contains(t, "vi")) || Contains(t, "so du cua vi")
    case AskTopExpenses =>
      (Contains(t, "giao dich") && Contains(t, "lon nhat"))
      || (Contains(t, "khoan chi") && Contains(t, "lon nhat"))
      || (Contains(t, "top") && (Contains(t, "giao dich") || Contains(t, "chi tieu")))
    case AskOverview => Contains(t, "tong quan") && Contains(t, "thang")
    case Unmatched => true
  }

  /** First match wins: the selected rule holds and every rule before it
      fails; `Unmatched` means that no rule holds. */
  function Classify(t: string, asWritten: bool): (r: Intent)
    ensures RuleHolds(r, t, asWritten)
    ensures forall i :: Rank(i) < Rank(r) ==> !RuleHolds(i, t, asWritten)
  {
    if RuleHolds(AskToday, t, asWritten) then AskToday
    else if RuleHolds(AskLast7Days, t, asWritten) then AskLast7Days
    else if RuleHolds(AskBudget, t, asWritten) then AskBudget
    else if RuleHolds(AskCategories, t, asWritten) then AskCategories
    else if RuleHolds(AskTopIncomes, t, asWritten) then AskTopIncomes
    else if RuleHolds(AskTop3Expenses, t, asWritten) then AskTop3Expenses
    else if RuleHolds(AskMonthExpense, t, asWritten) then AskMonthExpense
    else if RuleHolds(AskMonthIncome, t, asWritten) then AskMonthIncome
    else if RuleHolds(AskTopWallet, t, asWritten) then AskTopWallet
    else if RuleHolds(AskMonthNet, t, asWritten) then AskMonthNet
    else if RuleHolds(AskTotalBalance, t, asWritten) then AskTotalBalance
    else if RuleHolds(AskTopCategories, t, asWritten) then AskTopCategories
    else if RuleHolds(AskWalletBalance, t, asWritten) then AskWalletBalance
    else if RuleHolds(AskTopExpenses, t, asWritten) then AskTopExpenses
    else if RuleHolds(AskOverview, t, asWritten) then AskOverview
    else Unmatched
  }

  /** A question two rules accept is answered by the earlier one. */
  lemma EarlierRuleWins(t: string, asWritten: bool, a: Intent, b: Intent)
    requires Rank(a) < Rank(b)
    requires RuleHolds(a, t, asWritten)
    ensures Classify(t, asWritten) != b
  {}

  /** The classification is exactly the rule of least rank that holds. */
  lemma ClassifyIsLeastRank(t: string, asWritten: bool, i: Intent)
    requires RuleHolds(i, t, asWritten)
    requires forall j :: Rank(j) < Rank(i) ==> !RuleHolds(j, t, asWritten)
    ensures Classify(t, asWritten) == i
  {
    var r := Classify(t, asWritten);
    assert Rank(r) == Rank(i);
  }

  /** The top-3 income rule as written also takes a spending question that
      says "giao dich"; the corrected rule leaves it to the expense rule. */
  lemma TopSpendingQuestionMisrouted(t: string)
    ensures !RuleHolds(AskToday, t, false) && !RuleHolds(AskLast7Days, t, false)
            && !RuleHolds(AskBudget, t, false) && !RuleHolds(AskCategories, t, false)
            && AsksTop3(t) && Contains(t, "giao dich") && NamesExpense(t) && !NamesIncome(t) && AsksLargest(t)
            ==> Classify(t, true) == AskTopIncomes && Classify(t, false) == AskTop3Expenses
  {}

  const TopSpendingQuestion: string := "top 3 giao dich chi tieu lon nhat"

  lemma QuestionLacksY()
    ensures forall k :: 0 <= k < |TopSpendingQuestion| ==> TopSpendingQuestion[k] != 'y'
  {}

  /** The example question asks neither about today nor about seven days. */
  lemma QuestionNotTodayOrWeek()
    ensures !RuleHolds(AskToday, TopSpendingQuestion, false)
    ensures !RuleHolds(AskLast7Days, TopSpendingQuestion, false)
  {
    QuestionLacksY();
    AbsentChar(TopSpendingQuestion, "hom nay", 'y');
    AbsentChar(TopSpendingQuestion, "7 ngay", 'y');
    AbsentChar(TopSpendingQuestion, "bay ngay", 'y');
  }

  lemma QuestionLacksNg()
    ensures forall k :: 0 <= k < |TopSpendingQuestion| - 1 ==>
              !(TopSpendingQuestion[k] == 'n' && TopSpendingQuestion[k + 1] == 'g')
  {}

  lemma QuestionLacksHo()
    ensures forall k :: 0 <= k < |TopSpendingQuestion| - 1 ==>
              !(TopSpendingQuestion[k] == 'h' && TopSpendingQuestion[k + 1] == 'o')
  {}

  lemma QuestionLacksHu()
    ensures forall k :: 0 <= k < |TopSpendingQuestion| - 1 ==>
              !(TopSpendingQuestion[k] == 'h' && TopSpendingQuestion[k + 1] == 'u')
  {}

  lemma QuestionLacksBmk()
    ensures forall k :: 0 <= k < |TopSpendingQuestion| ==>
              TopSpendingQuestion[k] != 'b' && TopSpendingQuestion[k] != 'm' && TopSpendingQuestion[k] != 'k'
  {}

  lemma QuestionLacksThang()
    ensures !Contains(TopSpendingQuestion, "thang")
  {
    QuestionLacksNg();
    AbsentPair(TopSpendingQuestion, "thang", 3, 'n', 'g');
  }

  lemma QuestionLacksChiCho()
    ensures !Contains(TopSpendingQuestion, "chi cho")
  {
    QuestionLacksHo();
    AbsentPair(TopSpendingQuestion, "chi cho", 5, 'h', 'o');
  }

  /** The example question names no month, no budget and no category. */
  lemma QuestionNotBudgetOrCategory()
    ensures !RuleHolds(AskBudget, TopSpendingQuestion, false)
    ensures !RuleHolds(AskCategories, TopSpendingQuestion, false)
  {
    QuestionLacksThang();
    QuestionLacksChiCho();
    QuestionLacksBmk();
    AbsentChar(TopSpendingQuestion, "chi bao nhieu cho", 'b');
    AbsentChar(TopSpendingQuestion, "chi cho danh muc", 'm');
  }

  lemma QuestionLacksThuNhap()
    ensures !Contains(TopSpendingQuestion, "thu nhap")
  {
    QuestionLacksHu();
    AbsentPair(TopSpendingQuestion, "thu nhap", 1, 'h', 'u');
  }

  /** The example question names no income. */
  lemma QuestionNamesNoIncome()
    ensures !NamesIncome(TopSpendingQuestion)
  {
    QuestionLacksThuNhap();
    QuestionLacksBmk();
    AbsentChar(TopSpendingQuestion, "khoan thu", 'k');
  }

  lemma QuestionHasTop3()
    ensures AsksTop3(TopSpendingQuestion)
  {
    OccursAtChars(TopSpendingQuestion, "top 3", 0);
  }

  lemma QuestionHasGiaoDich()
    ensures Contains(TopSpendingQuestion, "giao dich")
  {
    OccursAtChars(TopSpendingQuestion, "giao dich", 6);
  }

  lemma QuestionHasChiTieu()
    ensures NamesExpense(TopSpendingQuestion)
  {
    OccursAtChars(TopSpendingQuestion, "chi tieu", 16);
  }

  lemma QuestionHasLonNhat()
    ensures AsksLargest(TopSpendingQuestion)
  {
    OccursAtChars(TopSpendingQuestion, "lon nhat", 25);
  }

  /** "top 3 giao dich chi tieu lon nhat" is answered with incomes as
      written, and with expenses by the corrected rule. */
  lemma TopSpendingQuestionExample()
    ensures Classify(TopSpendingQuestion, true) == AskTopIncomes
    ensures Classify(TopSpendingQuestion, false) == AskTop3Expenses
  {
    QuestionNotTodayOrWeek();
    QuestionNotBudgetOrCategory();
    QuestionNamesNoIncome();
    QuestionHasTop3();
    QuestionHasGiaoDich();
    QuestionHasChiTieu();
    QuestionHasLonNhat();
    TopSpendingQuestionMisrouted(TopSpendingQuestion);
  }

  /** Under the corrected rule a question that names spending but no income
      is never answered with the top incomes. */
  lemma SpendingQuestionNeverIncome(t: string)
    requires NamesExpense(t) && !NamesIncome(t)
    ensures Classify(t, false) != AskTopIncomes
  {}

  /** The correction changes nothing for a question that names income. */
  lemma IncomeQuestionUnchanged(t: string)
    requires NamesIncome(t)
    ensures Classify(t, false) == Classify(t, true)
  {
    var r := Classify(t, true);
    forall j ensures RuleHolds(j, t, false) == RuleHolds(j, t, true) {
      if j.AskTopIncomes? {
        assert RuleHolds(j, t, false) == (AsksTop3(t) && AsksLargest(t));
      }
    }
    ClassifyIsLeastRank(t, false, r);
  }

  // ---------------------------------------------------------------------------
  // Reply arithmetic

  /** The figures of the budget reply. */
  datatype BudgetAdvice = BudgetAdvice(usedPct: real, alertPct: int, remainToAlert: real, remainToLimit: real)

  /** `alertThreshold || 100`: a zero threshold means 100%. */
  function AlertPct(threshold: int): (p: int)
    ensures p != 0
    ensures threshold != 0 ==> p == threshold
  {
    if threshold == 0 then 100 else threshold
  }

  function Max0(x: real): (r: real)
    ensures r >= 0.0 && r >= x
    ensures r == x || r == 0.0
  {
    if x > 0.0 then x else 0.0
  }

  /** The budget reply: the percentage used (0 without one), the alert
      percentage, and what is left before the alert amount
      (`limit * alertPct / 100`) and before the limit, never negative. */
  function AdviseBudget(u: BudgetUsage): (a: BudgetAdvice)
    ensures a.usedPct == (if u.percentage.Some? then u.percentage.value else 0.0)
    ensures a.alertPct == AlertPct(u.budget.threshold)
    ensures a.remainToAlert >= 0.0 && a.remainToLimit >= 0.0
    ensures a.remainToAlert > 0.0 <==> u.spent * 100.0 < u.limit * a.alertPct as real
    ensures a.remainToAlert > 0.0 ==> (u.spent + a.remainToAlert) * 100.0 == u.limit * a.alertPct as real
    ensures a.remainToLimit > 0.0 <==> u.spent < u.limit
    ensures a.remainToLimit > 0.0 ==> u.spent + a.remainToLimit == u.limit
  {
    var usedPct := if u.percentage.Some? then u.percentage.value else 0.0;
    var alertPct := AlertPct(u.budget.threshold);
    var alertAmount := u.limit * alertPct as real / 100.0;
    BudgetAdvice(usedPct, alertPct, Max0(alertAmount - u.spent), Max0(u.limit - u.spent))
  }

  /** With a positive limit the reply says "still before the alert" exactly
      when the percentage used is below the alert percentage, and "alert
      passed" exactly when it has reached it. */
  lemma AlertLineIffPercentBelow(u: BudgetUsage)
    requires u.limit > 0.0
    requires u.percentage.Some? && IsPercentOf(u.percentage.value, u.spent, u.limit)
    ensures var a := AdviseBudget(u);
            a.remainToAlert > 0.0 <==> a.usedPct < a.alertPct as real
  {
    var a := AdviseBudget(u);
    var p := u.percentage.value;
    var x := a.alertPct as real;
    assert p * u.limit == u.spent * 100.0;
    if p < x {
      assert p * u.limit < x * u.limit;
    } else {
      assert p * u.limit >= x * u.limit;
    }
  }

  /** The sign of the month's net and the amount the reply states. */
  datatype NetVerdict = Surplus(amount: real) | Overspent(amount: real) | Balanced

  /** `net = income - expense`: a surplus when positive, an overspend when
      negative, balanced otherwise; `amount` is `|net|`. */
  function Verdict(income: real, expense: real): (v: NetVerdict)
    ensures v.Surplus? <==> income > expense
    ensures v.Overspent? <==> income < expense
    ensures v.Balanced? <==> income == expense
    ensures v.Surplus? ==> v.amount > 0.0 && income == expense + v.amount
    ensures v.Overspent? ==> v.amount > 0.0 && expense == income + v.amount
  {
    var net := income - expense;
    if net > 0.0 then Surplus(net)
    else if net < 0.0 then Overspent(-net)
    else Balanced
  }

  /** The wallet's share of the month's spending in percent, shown only when
      the month's spending is positive. */
  function ShareOfExpense(walletSpend: real, totalExpense: real): (r: Option<real>)
    ensures r.Some? <==> totalExpense > 0.0
    ensures r.Some? ==> IsPercentOf(r.value, walletSpend, totalExpense)
  {
    if totalExpense > 0.0 then Some(Percentage(walletSpend, totalExpense)) else None
  }

  /** `items.reduce((sum, it) => sum + Number(it.total_expense || 0), 0)`. */
  function SumTotals(items: seq<CategoryTotal>): real {
    if items == [] then 0.0 else SumTotals(items[..|items| - 1]) + items[|items| - 1].total
  }

  // ---------------------------------------------------------------------------
  // Replies

  datatype Role = SystemRole | UserRole | AssistantRole

  datatype LlmMessage = LlmMessage(role: Role, content: string)

  /** What the `message` field of the model server's response holds. */
  datatype LlmMessageField = NoMessage | MessageText(text: string) | MessageObject(content: string)

  /** The model call: a failure (the request threw), or a response. */
  datatype LlmOutcome = LlmFailed | LlmResponded(message: LlmMessageField)

  /** The reply of each rule, carrying what the reply text shows. */
  datatype Answer =
    | NothingSpentToday(day: Date)
    | SpentToday(day: Date, amount: real)
    | NothingSpentLast7Days(first: Date, last: Date)
    | SpentLast7Days(first: Date, last: Date, amount: real)
    | NoBudget
    | BudgetReport(usage: BudgetUsage, advice: BudgetAdvice)
    | AskWhichCategories
    | NoCategorySpending(monthLabel: string, names: seq<string>)
    | CategorySpending(report: CategoryReport, total: real)
    | NoIncomes(monthLabel: string)
    | TopIncomeList(txs: TxReport)
    | NoTop3Expenses(monthLabel: string)
    | Top3ExpenseList(txs: TxReport)
    | NoMonthExpense(monthLabel: string)
    | MonthExpense(totals: MonthlyTotals)
    | NoMonthIncome(monthLabel: string)
    | MonthIncome(totals: MonthlyTotals)
    | NoTopWallet(monthLabel: string)
    | TopWallet(top: WalletTotal, share: Option<real>)
    | MonthNet(totals: MonthlyTotals, verdict: NetVerdict)
    | Balance(total: real)
    | NoCategoryData(monthLabel: string)
    | TopCategoryList(report: CategoryReport, total: real)
    | AskWhichWallet
    | WalletNotFound(name: string)
    | WalletBalance(wallet: Wallet)
    | NoExpenses(monthLabel: string)
    | TopExpenseList(txs: TxReport)
    | Overview(totals: MonthlyTotals, net: real)
    | Reply(text: string)
    | ReplyMessageObject

  /** `a` is one of the replies of rule `i`. */
  predicate Answers(a: Answer, i: Intent) {
    match i
    case AskToday => a.NothingSpentToday? || a.SpentToday?
    case AskLast7Days => a.NothingSpentLast7Days? || a.SpentLast7Days?
    case AskBudget => a.NoBudget? || a.BudgetReport?
    case AskCategories => a.AskWhichCategories? || a.NoCategorySpending? || a.CategorySpending?
    case AskTopIncomes => a.NoIncomes? || a.TopIncomeList?
    case AskTop3Expenses => a.NoTop3Expenses? || a.Top3ExpenseList?
    case AskMonthExpense => a.NoMonthExpense? || a.MonthExpense?
    case AskMonthIncome => a.NoMonthIncome? || a.MonthIncome?
    case AskTopWallet => a.NoTopWallet? || a.TopWallet?
    case AskMonthNet => a.MonthNet?
    case AskTotalBalance => a.Balance?
    case AskTopCategories => a.NoCategoryData? || a.TopCategoryList?
    case AskWalletBalance => a.AskWhichWallet? || a.WalletNotFound? || a.WalletBalance?
    case AskTopExpenses => a.NoExpenses? || a.TopExpenseList?
    case AskOverview => a.Overview?
    case Unmatched => a.Reply? || a.ReplyMessageObject?
  }

  const SystemPrompt: string :=
    "Bạn là trợ lý tài chính cá nhân cho app BudgetF, nói tiếng Việt, trả lời ngắn gọn, dễ hiểu. Không được cam kết lợi nhuận hay lời khuyên đầu tư rủi ro."
  const NoAnswerApology: string := "Xin lỗi, hiện mình không trả lời được câu này."
  const ErrorApology: string := "Xin lỗi, hệ thống trợ lý đang gặp lỗi. Bạn thử lại sau nhé."

  /** The model's conversation: the system prompt, each stored message as a
      user turn when its sender is "user" and an assistant turn otherwise,
      then the latest message as sent (untrimmed). */
  function LlmMessages(history: seq<ChatMessage>, latest: string): (r: seq<LlmMessage>)
    ensures |r| == |history| + 2
    ensures r[0] == LlmMessage(SystemRole, SystemPrompt)
    ensures r[|r| - 1] == LlmMessage(UserRole, latest)
    ensures forall k :: 0 <= k < |history| ==>
              && r[k + 1].content == history[k].content
              && (r[k + 1].role == UserRole <==> history[k].sender == "user")
              && r[k + 1].role != SystemRole
  {
    [LlmMessage(SystemRole, SystemPrompt)]
    + seq(|history|, k requires 0 <= k < |history| =>
            LlmMessage(if history[k].sender == "user" then UserRole else AssistantRole, history[k].content))
    + [LlmMessage(UserRole, latest)]
  }

  /** `data?.message?.content || data?.message || apology`, and the error
      apology when the call fails: the fallback never throws. */
  function LlmReply(o: LlmOutcome): (a: Answer)
    ensures Answers(a, Unmatched)
    ensures o.LlmFailed? ==> a == Reply(ErrorApology)
    ensures o == LlmResponded(NoMessage) ==> a == Reply(NoAnswerApology)
    ensures a == ReplyMessageObject <==> o == LlmResponded(MessageObject(""))
    ensures o.LlmResponded? && o.message.MessageObject? && o.message.content != "" ==> a == Reply(o.message.content)
    ensures o.LlmResponded? && o.message.MessageText? && o.message.text != "" ==> a == Reply(o.message.text)
  {
    match o
    case LlmFailed => Reply(ErrorApology)
    case LlmResponded(m) =>
      match m
      case NoMessage => Reply(NoAnswerApology)
      case MessageText(s) => if s != "" then Reply(s) else Reply(NoAnswerApology)
      case MessageObject(c) => if c != "" then Reply(c) else ReplyMessageObject
  }

  /** The per-category reply: ask for names when none are found; otherwise
      report the month's spending on the categories whose lower-cased name
      is listed, or say that there is none. */
  function CategoryAnswer(db: Db, user: int, now: CivilDate, offset: int, raw: string): (a: Answer)
    ensures Answers(a, AskCategories)
    ensures var names := ExtractCategoryNames(raw);
            var lowered := seq(|names|, k requires 0 <= k < |names| => Lower(names[k]));
            var range := GetMonthRange(now, offset);
            && (a.AskWhichCategories? <==> names == [])
            && (a.NoCategorySpending? ==>
                  a.names == names
                  && a.monthLabel == FormatMonthLabel(range.month, range.year)
                  && forall c :: c in db.categories && NameListed(lowered, c) ==> !ExpenseGroup(db, user, range, c))
            && (a.CategorySpending? ==>
                  a.report == SpendingByCategoryNames(db, user, lowered, now, offset)
                  && a.report.CategoryReport? && a.report.items != []
                  && a.total == SumTotals(a.report.items))
  {
    var names := ExtractCategoryNames(raw);
    if names == [] then AskWhichCategories
    else
      var lowered := seq(|names|, k requires 0 <= k < |names| => Lower(names[k]));
      var report := SpendingByCategoryNames(db, user, lowered, now, offset);
      if report.items == [] then NoCategorySpending(report.monthLabel, names)
      else CategorySpending(report, SumTotals(report.items))
  }

  /** The wallet-balance reply: ask for a name when none (or an empty one)
      is found; otherwise the matching wallet, or "not found". */
  function WalletAnswer(db: Db, user: int, raw: string): (a: Answer)
    ensures Answers(a, AskWalletBalance)
    ensures var n := ExtractWalletName(raw);
            && (a.AskWhichWallet? <==> n.None? || n.value == "")
            && (a.WalletNotFound? <==>
                  n.Some? && n.value != "" && forall w :: w in db.wallets ==> !NameMatches(user, n.value, w))
            && (a.WalletNotFound? ==> a.name == n.value)
            && (a.WalletBalance? ==> n.Some? && a.wallet in db.wallets && NameMatches(user, n.value, a.wallet))
  {
    match ExtractWalletName(raw)
    case None => AskWhichWallet
    case Some(name) =>
      if name == "" then AskWhichWallet
      else match WalletByName(db.wallets, user, name)
        case None => WalletNotFound(name)
        case Some(w) => WalletBalance(w)
  }

  /** The today reply carries today's spending; "nothing" exactly when it
      is zero. */
  predicate TodayCarries(db: Db, user: int, now: CivilDate, a: Answer) {
    (a.NothingSpentToday? <==> ExpenseToday(db, user, now) == 0.0)
    && (a.NothingSpentToday? || a.SpentToday?) && a.day == now
    && (a.SpentToday? ==> a.amount == ExpenseToday(db, user, now))
  }

  function TodayAnswer(db: Db, user: int, now: CivilDate): (a: Answer)
    ensures TodayCarries(db, user, now, a)
  {
    var amount := ExpenseToday(db, user, now);
    if amount == 0.0 then NothingSpentToday(now) else SpentToday(now, amount)
  }

  /** The seven-day reply carries the spending of the seven days ending
      today; "nothing" exactly when it is zero. */
  predicate Last7DaysCarries(db: Db, user: int, now: CivilDate, a: Answer) {
    (a.NothingSpentLast7Days? <==> ExpenseLast7Days(db, user, now) == 0.0)
    && (a.NothingSpentLast7Days? || a.SpentLast7Days?)
    && a.first == DaysBefore(now, 6) && a.last == now
    && (a.SpentLast7Days? ==> a.amount == ExpenseLast7Days(db, user, now))
  }

  function Last7DaysAnswer(db: Db, user: int, now: CivilDate): (a: Answer)
    ensures Last7DaysCarries(db, user, now, a)
  {
    var amount := ExpenseLast7Days(db, user, now);
    if amount == 0.0 then NothingSpentLast7Days(DaysBefore(now, 6), now)
    else SpentLast7Days(DaysBefore(now, 6), now, amount)
  }

  /** The rules that report on one month, the month `offset` months from
      the current one. */
  predicate MonthScoped(i: Intent) {
    !(i.AskToday? || i.AskLast7Days? || i.AskCategories? || i.AskTotalBalance? || i.AskWalletBalance? || i.Unmatched?)
  }

  /** The data a month-scoped reply carries: the query of its rule for the
      month `offset` months from `now`, and the "nothing" reply exactly when
      that query comes back empty. */
  predicate MonthReplyCarries(db: Db, user: int, now: CivilDate, offset: int, i: Intent, a: Answer) {
    var m := MonthlyIncomeExpense(db, user, now, offset);
    match i
    case AskBudget =>
      (a.NoBudget? <==> CurrentBudgetWithUsage(db, user, now, offset).None?)
      && (a.BudgetReport? ==> CurrentBudgetWithUsage(db, user, now, offset) == Some(a.usage) && a.advice == AdviseBudget(a.usage))
    case AskTopIncomes =>
      var r := TopBigTransactions(db, user, Income, now, offset, 3);
      (a.NoIncomes? <==> r.items == [])
      && (a.NoIncomes? ==> a.monthLabel == r.monthLabel) && (a.TopIncomeList? ==> a.txs == r)
    case AskTop3Expenses =>
      var r := TopBigTransactions(db, user, Expense, now, offset, 3);
      (a.NoTop3Expenses? <==> r.items == [])
      && (a.NoTop3Expenses? ==> a.monthLabel == r.monthLabel) && (a.Top3ExpenseList? ==> a.txs == r)
    case AskTopExpenses =>
      var r := TopBigTransactions(db, user, Expense, now, offset, 3);
      (a.NoExpenses? <==> r.items == [])
      && (a.NoExpenses? ==> a.monthLabel == r.monthLabel) && (a.TopExpenseList? ==> a.txs == r)
    case AskMonthExpense =>
      (a.NoMonthExpense? <==> m.expense == 0.0)
      && (a.NoMonthExpense? ==> a.monthLabel == m.monthLabel) && (a.MonthExpense? ==> a.totals == m)
    case AskMonthIncome =>
      (a.NoMonthIncome? <==> m.income == 0.0)
      && (a.NoMonthIncome? ==> a.monthLabel == m.monthLabel) && (a.MonthIncome? ==> a.totals == m)
    case AskTopWallet =>
      (a.NoTopWallet? <==> TopSpendingWallet(db, user, now, offset).None?)
      && (a.NoTopWallet? ==> a.monthLabel == m.monthLabel)
      && (a.TopWallet? ==> TopSpendingWallet(db, user, now, offset) == Some(a.top)
                           && a.share == ShareOfExpense(a.top.total, m.expense))
    case AskMonthNet =>
      a.MonthNet? && a.totals == m && a.verdict == Verdict(m.income, m.expense)
    case AskTopCategories =>
      var r := TopExpenseCategories(db, user, now, offset, 5);
      (a.NoCategoryData? <==> r.items == [])
      && (a.NoCategoryData? ==> a.monthLabel == r.monthLabel)
      && (a.TopCategoryList? ==> a.report == r && a.total == SumTotals(r.items))
    case AskOverview =>
      a.Overview? && a.totals == m && a.net == m.income - m.expense
    case _ => true
  }

  /** The reply of a month-scoped rule, built from the month's queries. */
  function MonthAnswer(db: Db, user: int, now: CivilDate, offset: int, i: Intent): (a: Answer)
    requires MonthScoped(i)
    ensures Answers(a, i)
    ensures MonthReplyCarries(db, user, now, offset, i, a)
  {
    match i
    case AskBudget =>
      (match CurrentBudgetWithUsage(db, user, now, offset)
       case None => NoBudget
       case Some(u) => BudgetReport(u, AdviseBudget(u)))
    case AskTopIncomes =>
      var r := TopBigTransactions(db, user, Income, now, offset, 3);
      if r.items == [] then NoIncomes(r.monthLabel) else TopIncomeList(r)
    case AskTop3Expenses =>
      var r := TopBigTransactions(db, user, Expense, now, offset, 3);
      if r.items == [] then NoTop3Expenses(r.monthLabel) else Top3ExpenseList(r)
    case AskMonthExpense =>
      var m := MonthlyIncomeExpense(db, user, now, offset);
      if m.expense == 0.0 then NoMonthExpense(m.monthLabel) else MonthExpense(m)
    case AskMonthIncome =>
      var m := MonthlyIncomeExpense(db, user, now, offset);
      if m.income == 0.0 then NoMonthIncome(m.monthLabel) else MonthIncome(m)
    case AskTopWallet =>
      var m := MonthlyIncomeExpense(db, user, now, offset);
      (match TopSpendingWallet(db, user, now, offset)
       case None => NoTopWallet(m.monthLabel)
       case Some(w) => TopWallet(w, ShareOfExpense(w.total, m.expense)))
    case AskMonthNet =>
      var m := MonthlyIncomeExpense(db, user, now, offset);
      MonthNet(m, Verdict(m.income, m.expense))
    case AskTopCategories =>
      var r := TopExpenseCategories(db, user, now, offset, 5);
      if r.items == [] then NoCategoryData(r.monthLabel) else TopCategoryList(r, SumTotals(r.items))
    case AskTopExpenses =>
      var r := TopBigTransactions(db, user, Expense, now, offset, 3);
      if r.items == [] then NoExpenses(r.monthLabel) else TopExpenseList(r)
    case AskOverview =>
      var m := MonthlyIncomeExpense(db, user, now, offset);
      Overview(m, m.income - m.expense)
  }

  /** `callAssistant`: the reply to `latest`. `normalize` is the accent
      stripping applied after trimming, `llm` the local model server. The
      reply belongs to the first rule that matches the normalised question;
      with no match it is the model's reply to the shaped conversation. */
  function CallAssistant(db: Db, user: int, now: CivilDate, normalize: string -> string,
                         llm: seq<LlmMessage> -> LlmOutcome, history: seq<ChatMessage>, latest: string): (a: Answer)
    ensures var t := normalize(Trim(latest));
            && Answers(a, Classify(t, false))
            && (Classify(t, false) == Unmatched ==> a == LlmReply(llm(LlmMessages(history, latest))))
    ensures var t := normalize(Trim(latest));
            var i := Classify(t, false);
            && (MonthScoped(i) ==> MonthReplyCarries(db, user, now, DetectMonthOffset(t, now), i, a))
            && (i == AskToday ==> TodayCarries(db, user, now, a))
            && (i == AskLast7Days ==> Last7DaysCarries(db, user, now, a))
            && (i == AskCategories ==> a == CategoryAnswer(db, user, now, DetectMonthOffset(t, now), Trim(latest)))
            && (i == AskTotalBalance ==> a == Balance(TotalBalance(db.wallets, user)))
            && (i == AskWalletBalance ==> a == WalletAnswer(db, user, Trim(latest)))
  {
    var raw := Trim(latest);
    var t := normalize(raw);
    var offset := DetectMonthOffset(t, now);
    var i := Classify(t, false);
    match i
    case AskToday => TodayAnswer(db, user, now)
    case AskLast7Days => Last7DaysAnswer(db, user, now)
    case AskCategories => CategoryAnswer(db, user, now, offset, raw)
    case AskTotalBalance => Balance(TotalBalance(db.wallets, user))
    case AskWalletBalance => WalletAnswer(db, user, raw)
    case Unmatched => LlmReply(llm(LlmMessages(history, latest)))
    case _ => MonthAnswer(db, user, now, offset, i)
  }

  // ---------------------------------------------------------------------------
  // Properties of the replies

  /** The net reply's verdict and the overview's net agree in sign. */
  lemma NetAndOverviewAgree(db: Db, user: int, now: CivilDate, offset: int)
    ensures var m := MonthlyIncomeExpense(db, user, now, offset);
            var v := Verdict(m.income, m.expense);
            (v.Surplus? <==> m.income - m.expense > 0.0)
            && (v.Overspent? ==> v.amount == -(m.income - m.expense))
  {}

  /** With no negative amounts the top wallet's share of the month's
      spending is between 0 and 100 percent. */
  lemma TopWalletShareAtMost100(db: Db, user: int, now: CivilDate, offset: int)
    requires forall t :: t in db.txs ==> t.amount >= 0.0
    ensures TopSpendingWallet(db, user, now, offset).Some? ==>
              var w := TopSpendingWallet(db, user, now, offset).value;
              var m := MonthlyIncomeExpense(db, user, now, offset);
              var s := ShareOfExpense(w.total, m.expense);
              s.Some? ==> 0.0 <= s.value <= 100.0
  {
    if TopSpendingWallet(db, user, now, offset).Some? {
      var w := TopSpendingWallet(db, user, now, offset).value;
      var m := MonthlyIncomeExpense(db, user, now, offset);
      WalletSpentWithinMonth(db, user, now, offset, w.wallet);
      var s := ShareOfExpense(w.total, m.expense);
      if s.Some? {
        PercentBounds(s.value, w.total, m.expense);
      }
    }
  }
}

=== FILE: chatbot_data.dfy ===
/** The read-only queries of src/services/chatbotDataService.js, each as a
    function of the ledger, the user, and the date the query runs on. */
module ChatbotData {
  import opened Common
  import opened Calendar
  import opened Sorting
  import opened Ledger

  // ---------------------------------------------------------------------------
  // getMonthlyIncomeExpense

  datatype MonthlyTotals = MonthlyTotals(income: real, expense: real, range: MonthRange, monthLabel: string)

  /** `getMonthlyIncomeExpense(userId, offset)` run on `now`: the user's live
      income and expense totals for the month `offset` months from now. */
  function MonthlyIncomeExpense(db: Db, user: int, now: CivilDate, offset: int): (r: MonthlyTotals)
    ensures r.range == GetMonthRange(now, offset)
    ensures r.monthLabel == FormatMonthLabel(r.range.month, r.range.year)
    ensures r.income == SumWhere(db.txs, t => InMonth(db.categories, user, Income, MonthIndex(now) + offset, t))
    ensures r.expense == SumWhere(db.txs, t => InMonth(db.categories, user, Expense, MonthIndex(now) + offset, t))
  {
    var range := GetMonthRange(now, offset);
    MonthSum(db, user, Income, now, offset);
    MonthSum(db, user, Expense, now, offset);
    MonthlyTotals(
      SumWhere(db.txs, t => Counted(db.categories, user, Income, range.start, range.end, t)),
      SumWhere(db.txs, t => Counted(db.categories, user, Expense, range.start, range.end, t)),
      range,
      FormatMonthLabel(range.month, range.year))
  }

  /** A user with no live transaction has zero income and zero expense in
      every month (in particular on an empty ledger). */
  lemma MonthlyTotalsWithoutActivity(db: Db, user: int, now: CivilDate, offset: int)
    requires forall t :: t in db.txs ==> t.owner != user || t.deleted
    ensures MonthlyIncomeExpense(db, user, now, offset).income == 0.0
    ensures MonthlyIncomeExpense(db, user, now, offset).expense == 0.0
  {
    var idx := MonthIndex(now) + offset;
    SumWhereNone(db.txs, t => InMonth(db.categories, user, Income, idx, t));
    SumWhereNone(db.txs, t => InMonth(db.categories, user, Expense, idx, t));
  }

  // ---------------------------------------------------------------------------
  // getExpenseInRange, getExpenseToday, getExpenseLast7Days

  /** `getExpenseInRange(userId, start, end)`: the user's live expense total
      over `[start, end)`. */
  function ExpenseInRange(db: Db, user: int, start: Date, end: Date): (r: real)
    ensures Key(end) <= Key(start) ==> r == 0.0
  {
    var p := t => Counted(db.categories, user, Expense, start, end, t);
    if Key(end) <= Key(start) then
      SumWhereNone(db.txs, p);
      SumWhere(db.txs, p)
    else SumWhere(db.txs, p)
  }

  /** Adjacent ranges add up: `[a, c)` is `[a, b)` followed by `[b, c)`. */
  lemma ExpenseInRangeAdditive(db: Db, user: int, a: Date, b: Date, c: Date)
    requires Key(a) <= Key(b) <= Key(c)
    ensures ExpenseInRange(db, user, a, c) == ExpenseInRange(db, user, a, b) + ExpenseInRange(db, user, b, c)
  {
    SumWhereSplit(db.txs,
      t => Counted(db.categories, user, Expense, a, c, t),
      t => Counted(db.categories, user, Expense, a, b, t),
      t => Counted(db.categories, user, Expense, b, c, t));
  }

  /** An empty or reversed range sums to 0. */
  lemma ExpenseInEmptyRange(db: Db, user: int, a: Date, b: Date)
    requires Key(b) <= Key(a)
    ensures ExpenseInRange(db, user, a, b) == 0.0
  {
    SumWhereNone(db.txs, t => Counted(db.categories, user, Expense, a, b, t));
  }

  /** The user's live expense transactions. */
  predicate LiveExpense(cats: seq<Category>, user: int, t: Tx) {
    t.owner == user && !t.deleted && CategoryKind(cats, t.categoryId) == Some(Expense)
  }

  /** `getExpenseToday`: the range `[today, today + 1 day)`, which holds
      exactly the transactions dated today. */
  function ExpenseToday(db: Db, user: int, today: CivilDate): (r: real)
    ensures r == SumWhere(db.txs, t => LiveExpense(db.categories, user, t) && t.date == today)
  {
    forall t | t in db.txs
      ensures Counted(db.categories, user, Expense, today, NextDay(today), t)
              <==> LiveExpense(db.categories, user, t) && t.date == today
    {
      TodayWindow(today, t.date);
    }
    SumWhereSame(db.txs, t => Counted(db.categories, user, Expense, today, NextDay(today), t),
                 t => LiveExpense(db.categories, user, t) && t.date == today);
    ExpenseInRange(db, user, today, NextDay(today))
  }

  /** `getExpenseLast7Days`: the range `[today - 6 days, today + 1 day)`,
      which holds exactly the transactions dated on one of the seven days
      ending today. */
  function ExpenseLast7Days(db: Db, user: int, today: CivilDate): (r: real)
    ensures r == SumWhere(db.txs, t => LiveExpense(db.categories, user, t)
                                      && exists j :: 0 <= j < 7 && t.date == DaysBefore(today, j))
  {
    forall t | t in db.txs
      ensures Counted(db.categories, user, Expense, DaysBefore(today, 6), NextDay(today), t)
              <==> LiveExpense(db.categories, user, t) && exists j :: 0 <= j < 7 && t.date == DaysBefore(today, j)
    {
      Last7DaysWindow(today, t.date);
    }
    SumWhereSame(db.txs, t => Counted(db.categories, user, Expense, DaysBefore(today, 6), NextDay(today), t),
                 t => LiveExpense(db.categories, user, t) && exists j :: 0 <= j < 7 && t.date == DaysBefore(today, j));
    ExpenseInRange(db, user, DaysBefore(today, 6), NextDay(today))
  }

  /** The seven-day total includes today's. */
  lemma TodayWithinLast7Days(db: Db, user: int, today: CivilDate)
    ensures ExpenseLast7Days(db, user, today)
            == ExpenseToday(db, user, today) + ExpenseInRange(db, user, DaysBefore(today, 6), today)
  {
    ExpenseInRangeAdditive(db, user, DaysBefore(today, 6), today, NextDay(today));
    assert ExpenseToday(db, user, today) == ExpenseInRange(db, user, today, NextDay(today));
  }

  // ---------------------------------------------------------------------------
  // getTopSpendingWallet

  /** The user's expense transactions in the range paid from wallet `w`
      (`JOIN wallets w ON w.wallet_id = t.wallet_id`). */
  predicate SpentFrom(db: Db, user: int, range: MonthRange, w: Wallet, t: Tx) {
    Counted(db.categories, user, Expense, range.start, range.end, t) && t.walletId == w.id
  }

  function WalletSpent(db: Db, user: int, range: MonthRange, w: Wallet): real {
    SumWhere(db.txs, t => SpentFrom(db, user, range, w, t))
  }

  /** The wallet forms a group: at least one transaction joins it. */
  predicate HasSpending(db: Db, user: int, range: MonthRange, w: Wallet) {
    exists t :: t in db.txs && SpentFrom(db, user, range, w, t)
  }

  datatype WalletTotal = WalletTotal(wallet: Wallet, total: real, range: MonthRange, monthLabel: string)

  function Spends(db: Db, user: int, range: MonthRange): Wallet -> bool {
    w => HasSpending(db, user, range, w)
  }

  function SpentBy(db: Db, user: int, range: MonthRange): Wallet -> real {
    w => WalletSpent(db, user, range, w)
  }

  /** The wallet with the largest expense total over `range` among the
      wallets `ws` that have one; among equal totals the earlier row wins. */
  function BestWallet(db: Db, user: int, range: MonthRange, ws: seq<Wallet>): (r: Option<(Wallet, real)>)
    ensures r.None? <==> forall w :: w in ws ==> !HasSpending(db, user, range, w)
    ensures r.Some? ==>
              && r.value.0 in ws
              && HasSpending(db, user, range, r.value.0)
              && r.value.1 == WalletSpent(db, user, range, r.value.0)
              && forall w :: w in ws && HasSpending(db, user, range, w) ==> WalletSpent(db, user, range, w) <= r.value.1
  {
    match MaxBy(ws, Spends(db, user, range), SpentBy(db, user, range))
    case None => None
    case Some(w) => Some((w, WalletSpent(db, user, range, w)))
  }

  /** One pass over the wallet rows keeping the best so far: computes
      `BestWallet` over all of them. */
  method LargestSpendingWallet(db: Db, user: int, range: MonthRange) returns (r: Option<(Wallet, real)>)
    ensures r == BestWallet(db, user, range, db.wallets)
  {
    var best := FindMaxBy(db.wallets, Spends(db, user, range), SpentBy(db, user, range));
    r := match best
         case None => None
         case Some(w) => Some((w, WalletSpent(db, user, range, w)));
  }

  /** Over non-negative amounts a wallet's share of the month's spending is
      at most the month's expense total. */
  lemma WalletSpentWithinMonth(db: Db, user: int, now: CivilDate, offset: int, w: Wallet)
    requires forall t :: t in db.txs ==> t.amount >= 0.0
    ensures var spent := WalletSpent(db, user, GetMonthRange(now, offset), w);
            0.0 <= spent <= MonthlyIncomeExpense(db, user, now, offset).expense
  {
    var range := GetMonthRange(now, offset);
    var idx := MonthIndex(now) + offset;
    forall t | t in db.txs
      ensures SpentFrom(db, user, range, w, t) ==> InMonth(db.categories, user, Expense, idx, t)
    {
      MonthFilterIsMonth(db.categories, user, Expense, now, offset, t);
    }
    SumWhereMono(db.txs, t => SpentFrom(db, user, range, w, t), t => InMonth(db.categories, user, Expense, idx, t));
    SumWhereNonNegative(db.txs, t => SpentFrom(db, user, range, w, t));
  }

  /** `getTopSpendingWallet(userId, offset)`: among the wallets the month's
      expense transactions were paid from, one with the largest total; None
      when there is no such wallet. */
  function TopSpendingWallet(db: Db, user: int, now: CivilDate, offset: int): (r: Option<WalletTotal>)
    ensures var range := GetMonthRange(now, offset);
            r.None? <==> forall w :: w in db.wallets ==> !HasSpending(db, user, range, w)
    ensures var range := GetMonthRange(now, offset);
            r.Some? ==>
              && r.value.range == range
              && r.value.monthLabel == FormatMonthLabel(range.month, range.year)
              && r.value.wallet in db.wallets
              && HasSpending(db, user, range, r.value.wallet)
              && r.value.total == WalletSpent(db, user, range, r.value.wallet)
              && forall w :: w in db.wallets && HasSpending(db, user, range, w) ==> WalletSpent(db, user, range, w) <= r.value.total
  {
    var range := GetMonthRange(now, offset);
    match BestWallet(db, user, range, db.wallets)
    case None => None
    case Some((w, total)) => Some(WalletTotal(w, total, range, FormatMonthLabel(range.month, range.year)))
  }

  // ---------------------------------------------------------------------------
  // Per-category groups: getSpendingByCategoryNames, getTopExpenseCategories

  /** The user's transactions in the range joined to category `c`. */
  predicate SpentOn(db: Db, user: int, range: MonthRange, c: Category, t: Tx) {
    t.owner == user && !t.deleted && t.categoryId == c.id && InRange(t.date, range.start, range.end)
  }

  function CategorySpent(db: Db, user: int, range: MonthRange, c: Category): real {
    SumWhere(db.txs, t => SpentOn(db, user, range, c, t))
  }

  /** Category `c` forms a group: it is an expense category and at least one
      transaction joins it. */
  predicate ExpenseGroup(db: Db, user: int, range: MonthRange, c: Category) {
    c.kind == Expense && exists t :: t in db.txs && SpentOn(db, user, range, c, t)
  }

  datatype CategoryTotal = CategoryTotal(category: Category, total: real)

  function TotalOf(g: CategoryTotal): real { g.total }

  /** `GROUP BY c.category_id, c.category_name` over the candidate categories
      `cands`, in their order. */
  function CategoryGroups(db: Db, user: int, range: MonthRange, cands: seq<Category>): (r: seq<CategoryTotal>)
    ensures forall g :: g in r ==> g.category in cands && ExpenseGroup(db, user, range, g.category)
                                   && g.total == CategorySpent(db, user, range, g.category)
    ensures forall c :: c in cands && ExpenseGroup(db, user, range, c) ==> CategoryTotal(c, CategorySpent(db, user, range, c)) in r
    ensures forall g :: multiset(r)[g] <= multiset(cands)[g.category]
  {
    if cands == [] then []
    else
      var c := cands[0];
      var rest := CategoryGroups(db, user, range, cands[1..]);
      assert forall x :: x in cands ==> x == c || x in cands[1..];
      assert cands == [c] + cands[1..];
      if ExpenseGroup(db, user, range, c) then [CategoryTotal(c, CategorySpent(db, user, range, c))] + rest
      else rest
  }

  /** `lower(c.category_name) = ANY(names)`. */
  predicate NameListed(names: seq<string>, c: Category) {
    Lower(c.name) in names
  }

  function NamedCategories(cats: seq<Category>, names: seq<string>): (r: seq<Category>)
    ensures forall c :: c in r <==> c in cats && NameListed(names, c)
    ensures multiset(r) <= multiset(cats)
  {
    if cats == [] then []
    else
      assert forall x :: x in cats ==> x == cats[0] || x in cats[1..];
      assert cats == [cats[0]] + cats[1..];
      if NameListed(names, cats[0]) then [cats[0]] + NamedCategories(cats[1..], names)
      else NamedCategories(cats[1..], names)
  }

  datatype CategoryReport =
    | NoNames
    | CategoryReport(items: seq<CategoryTotal>, range: MonthRange, monthLabel: string)

  /** `getSpendingByCategoryNames(userId, namesLower, offset)`: nothing to
      report for an empty name list; otherwise the month's expense totals of
      the categories whose lower-cased name is listed, largest first. */
  function SpendingByCategoryNames(db: Db, user: int, names: seq<string>, now: CivilDate, offset: int): (r: CategoryReport)
    ensures r.NoNames? <==> names == []
    ensures r.CategoryReport? ==>
      var range := GetMonthRange(now, offset);
      && r.range == range
      && r.monthLabel == FormatMonthLabel(range.month, range.year)
      && SortedDesc(r.items, TotalOf)
      && (forall g :: g in r.items ==>
            && g.category in db.categories
            && NameListed(names, g.category)
            && ExpenseGroup(db, user, range, g.category)
            && g.total == CategorySpent(db, user, range, g.category))
      && (forall c :: c in db.categories && NameListed(names, c) && ExpenseGroup(db, user, range, c)
                      ==> CategoryTotal(c, CategorySpent(db, user, range, c)) in r.items)
      && (forall g :: multiset(r.items)[g] <= multiset(db.categories)[g.category])
  {
    if names == [] then NoNames
    else
      var range := GetMonthRange(now, offset);
      var groups := CategoryGroups(db, user, range, NamedCategories(db.categories, names));
      var items := SortDesc(groups, TotalOf);
      assert forall g :: g in items <==> g in groups by {
        forall g ensures g in items <==> g in groups {
          assert g in items <==> g in multiset(items);
          assert g in groups <==> g in multiset(groups);
        }
      }
      CategoryReport(items, range, FormatMonthLabel(range.month, range.year))
  }

  /** With `category_id` a primary key, every category appears at most once
      in the report. */
  lemma SpendingByCategoryNamesOnce(db: Db, user: int, names: seq<string>, now: CivilDate, offset: int)
    requires forall i, j :: 0 <= i < j < |db.categories| ==> db.categories[i].id != db.categories[j].id
    ensures var r := SpendingByCategoryNames(db, user, names, now, offset);
            r.CategoryReport? ==>
              forall i, j :: 0 <= i < j < |r.items| ==> r.items[i].category.id != r.items[j].category.id
  {
    var r := SpendingByCategoryNames(db, user, names, now, offset);
    if r.CategoryReport? {
      GroupsOnce(db, user, r.range, r.items);
    }
  }

  /** Groups drawn at most once per category row, each carrying its
      category's total, name pairwise distinct categories when the ids are
      distinct. */
  lemma GroupsOnce(db: Db, user: int, range: MonthRange, items: seq<CategoryTotal>)
    requires forall i, j :: 0 <= i < j < |db.categories| ==> db.categories[i].id != db.categories[j].id
    requires forall g :: multiset(items)[g] <= multiset(db.categories)[g.category]
    requires forall g :: g in items ==> g.total == CategorySpent(db, user, range, g.category)
    ensures forall i, j :: 0 <= i < j < |items| ==> items[i].category.id != items[j].category.id
  {
    DistinctCountedOnce(db.categories, (c: Category) => c.id);
    assert forall g :: multiset(items)[g] <= 1;
    CountedOnceDistinct(items);
    forall i, j | 0 <= i < j < |items|
      ensures items[i].category.id != items[j].category.id
    {
      var ci, cj := items[i].category, items[j].category;
      assert ci != cj;
      assert ci in multiset(db.categories) && cj in multiset(db.categories);
      var a :| 0 <= a < |db.categories| && db.categories[a] == ci;
      var b :| 0 <= b < |db.categories| && db.categories[b] == cj;
    }
  }

  /** `getTopExpenseCategories(userId, offset, limit)`: the `limit` expense
      categories with the largest month totals, largest first. */
  function TopExpenseCategories(db: Db, user: int, now: CivilDate, offset: int, limit: nat): (r: CategoryReport)
    ensures r.CategoryReport?
    ensures var range := GetMonthRange(now, offset);
            var groups := CategoryGroups(db, user, range, db.categories);
            && r.range == range
            && r.monthLabel == FormatMonthLabel(range.month, range.year)
            && |r.items| == (if limit < |groups| then limit else |groups|)
            && multiset(r.items) <= multiset(groups)
            && SortedDesc(r.items, TotalOf)
            && (forall g, k :: g in multiset(groups) - multiset(r.items) && 0 <= k < |r.items| ==> TotalOf(g) <= TotalOf(r.items[k]))
  {
    var range := GetMonthRange(now, offset);
    var groups := CategoryGroups(db, user, range, db.categories);
    CategoryReport(TopN(groups, TotalOf, limit), range, FormatMonthLabel(range.month, range.year))
  }

  // ---------------------------------------------------------------------------
  // getTotalBalance

  /** The balance of one wallet if it is the user's and not archived. */
  function Counts(user: int, w: Wallet): real {
    if w.owner == user && !w.archived then w.balance else 0.0
  }

  /** `getTotalBalance(userId)`: the summed balance of the user's
      non-archived wallets. */
  function TotalBalance(wallets: seq<Wallet>, user: int): (r: real)
    ensures (forall k :: 0 <= k < |wallets| ==> wallets[k].balance >= 0.0) ==> r >= 0.0
    ensures (forall k :: 0 <= k < |wallets| && wallets[k].owner == user && !wallets[k].archived ==> wallets[k].balance <= 0.0) ==> r <= 0.0
  {
    if wallets == [] then 0.0 else Counts(user, wallets[0]) + TotalBalance(wallets[1..], user)
  }

  /** Archiving one of the user's wallets takes exactly its balance out of
      the total; archiving it again changes nothing. */
  lemma {:induction false} ArchiveLowersTotal(wallets: seq<Wallet>, user: int, i: nat)
    requires i < |wallets|
    ensures var w := wallets[i];
            var after := wallets[i := w.(archived := true)];
            TotalBalance(after, user) == TotalBalance(wallets, user) - Counts(user, w)
  {
    var after := wallets[i := wallets[i].(archived := true)];
    if i > 0 {
      assert after[1..] == wallets[1..][i - 1 := wallets[i].(archived := true)];
      ArchiveLowersTotal(wallets[1..], user, i - 1);
    } else {
      assert after[1..] == wallets[1..];
    }
  }

  /** The total is zero when the user has no active wallet. */
  lemma {:induction false} TotalBalanceWithoutWallets(wallets: seq<Wallet>, user: int)
    requires forall w :: w in wallets ==> w.owner != user || w.archived
    ensures TotalBalance(wallets, user) == 0.0
  {
    if wallets != [] {
      TotalBalanceWithoutWallets(wallets[1..], user);
    }
  }

  // ---------------------------------------------------------------------------
  // getWalletByName

  /** `lower(wallet_name) LIKE lower('%' || name || '%')` on the user's
      non-archived wallets. */
  predicate NameMatches(user: int, name: string, w: Wallet) {
    w.owner == user && !w.archived && Contains(Lower(w.name), Lower(name))
  }

  /** `getWalletByName(userId, name)`: the matching wallet that comes first by
      name (`ORDER BY wallet_name LIMIT 1`), or None. */
  function WalletByName(wallets: seq<Wallet>, user: int, name: string): (r: Option<Wallet>)
    ensures r.None? <==> forall w :: w in wallets ==> !NameMatches(user, name, w)
    ensures r.Some? ==> r.value in wallets && NameMatches(user, name, r.value)
    ensures r.Some? ==> forall w :: w in wallets && NameMatches(user, name, w) ==> LexLe(r.value.name, w.name)
  {
    if wallets == [] then None
    else
      var w := wallets[0];
      var rest := WalletByName(wallets[1..], user, name);
      assert forall x :: x in wallets ==> x == w || x in wallets[1..];
      if !NameMatches(user, name, w) then rest
      else if rest.None? then
        assert LexLe(w.name, w.name) by { LexLeTotal(w.name, w.name); }
        Some(w)
      else if LexLe(w.name, rest.value.name) then
        assert forall x :: x in wallets[1..] && NameMatches(user, name, x) ==> LexLe(w.name, x.name) by {
          forall x | x in wallets[1..] && NameMatches(user, name, x)
            ensures LexLe(w.name, x.name)
          {
            LexLeTransitive(w.name, rest.value.name, x.name);
          }
        }
        assert LexLe(w.name, w.name) by { LexLeTotal(w.name, w.name); }
        Some(w)
      else
        LexLeTotal(w.name, rest.value.name);
        rest
  }

  // ---------------------------------------------------------------------------
  // getTopBigExpenses, getTopBigIncomes

  /** Rows of the top-transactions query: `Counted` and joined to a wallet. */
  predicate Listed(db: Db, user: int, kind: CategoryType, range: MonthRange, t: Tx) {
    Counted(db.categories, user, kind, range.start, range.end, t) && WalletExists(db.wallets, t.walletId)
  }

  function AmountOf(t: Tx): real { t.amount }

  datatype TxReport = TxReport(items: seq<Tx>, range: MonthRange, monthLabel: string)

  /** `getTopBigExpenses` (kind Expense) and `getTopBigIncomes` (kind
      Income): the month's `limit` largest transactions of the kind, largest
      first. */
  function TopBigTransactions(db: Db, user: int, kind: CategoryType, now: CivilDate, offset: int, limit: nat): (r: TxReport)
    ensures var range := GetMonthRange(now, offset);
            var rows := FilterTx(db.txs, t => Listed(db, user, kind, range, t));
            && r.range == range
            && r.monthLabel == FormatMonthLabel(range.month, range.year)
            && |r.items| == (if limit < |rows| then limit else |rows|)
            && (forall t :: t in r.items ==> t in db.txs && Listed(db, user, kind, range, t))
            && SortedDesc(r.items, AmountOf)
            && multiset(r.items) <= multiset(rows)
            && (forall t, k :: t in multiset(rows) - multiset(r.items) && 0 <= k < |r.items| ==> AmountOf(t) <= AmountOf(r.items[k]))
  {
    var range := GetMonthRange(now, offset);
    var rows := FilterTx(db.txs, t => Listed(db, user, kind, range, t));
    var items := TopN(rows, AmountOf, limit);
    TxReport(items, range, FormatMonthLabel(range.month, range.year))
  }

  // ---------------------------------------------------------------------------
  // getCurrentBudgetWithUsage

  /** The global budget (no category, no wallet) of `user` for the month
      starting on `monthStart`. */
  predicate GlobalBudgetFor(b: Budget, user: int, monthStart: Date) {
    b.owner == user && b.categoryId.None? && b.walletId.None? && b.month == monthStart
  }

  function FindGlobalBudget(budgets: seq<Budget>, user: int, monthStart: Date): (r: Option<Budget>)
    ensures r.None? <==> forall b :: b in budgets ==> !GlobalBudgetFor(b, user, monthStart)
    ensures r.Some? ==> r.value in budgets && GlobalBudgetFor(r.value, user, monthStart)
  {
    if budgets == [] then None
    else if GlobalBudgetFor(budgets[0], user, monthStart) then Some(budgets[0])
    else
      assert forall x :: x in budgets ==> x == budgets[0] || x in budgets[1..];
      FindGlobalBudget(budgets[1..], user, monthStart)
  }

  datatype BudgetUsage = BudgetUsage(budget: Budget, limit: real, spent: real, percentage: Option<real>, monthLabel: string)

  /** The usage figures of budget `b` against the month's expense total. */
  function UsageOf(b: Budget, spent: real, monthLabel: string): (u: BudgetUsage)
    ensures u.budget == b && u.limit == b.limit && u.spent == spent && u.monthLabel == monthLabel
    ensures u.percentage.Some? <==> u.limit > 0.0
    ensures u.percentage.Some? ==> IsPercentOf(u.percentage.value, u.spent, u.limit)
  {
    BudgetUsage(b, b.limit, spent, if b.limit > 0.0 then Some(Percentage(spent, b.limit)) else None, monthLabel)
  }

  /** `getCurrentBudgetWithUsage(userId, offset)`: None when the user set no
      global budget for the month; otherwise the month's expense total and the
      share of the limit it uses, which is absent when the limit is not
      positive. */
  function CurrentBudgetWithUsage(db: Db, user: int, now: CivilDate, offset: int): (r: Option<BudgetUsage>)
    ensures var range := GetMonthRange(now, offset);
            r.None? <==> forall b :: b in db.budgets ==> !GlobalBudgetFor(b, user, range.start)
    ensures var range := GetMonthRange(now, offset);
            r.Some? ==>
              && r.value.budget in db.budgets
              && GlobalBudgetFor(r.value.budget, user, range.start)
              && r.value.limit == r.value.budget.limit
              && r.value.spent == SumWhere(db.txs, t => InMonth(db.categories, user, Expense, MonthIndex(now) + offset, t))
              && (r.value.percentage.Some? <==> r.value.limit > 0.0)
              && (r.value.percentage.Some? ==> IsPercentOf(r.value.percentage.value, r.value.spent, r.value.limit))
              && r.value.monthLabel == FormatMonthLabel(range.month, range.year)
  {
    var range := GetMonthRange(now, offset);
    match FindGlobalBudget(db.budgets, user, range.start)
    case None => None
    case Some(b) =>
      MonthSum(db, user, Expense, now, offset);
      Some(UsageOf(b, ExpenseInRange(db, user, range.start, range.end), FormatMonthLabel(range.month, range.year)))
  }
}

=== FILE: common.dfy ===
/** Shared building blocks: optional values, the white-space and case rules of
    JavaScript strings, substring search, trimming, code-point ordering and
    decimal digit strings. */
module Common {

  datatype Option<+T> = None | Some(value: T)

  /** `s || null` for an optional text: the empty text becomes null. */
  function OrNull(s: Option<string>): (r: Option<string>)
    ensures r.Some? <==> s.Some? && s.value != []
    ensures r.Some? ==> r == s
  {
    if s.Some? && s.value != [] then s else None
  }

  /** The outcome of a service call: its value, or the error it throws or
      answers with. */
  datatype Result<+T, +E> = Ok(value: T) | Err(error: E)

  /** A character that JavaScript's `\s` class and `String.prototype.trim`
      treat as white space (WhiteSpace and LineTerminator of ECMA-262). */
  predicate IsSpace(c: char) {
    var n := c as int;
    n == 9 || n == 10 || n == 11 || n == 12 || n == 13 || n == 32 || n == 0xA0
    || n == 0x1680 || (0x2000 <= n <= 0x200A) || n == 0x2028 || n == 0x2029
    || n == 0x202F || n == 0x205F || n == 0x3000 || n == 0xFEFF
  }

  /** A character the regular-expression wildcard `.` does not match. */
  predicate IsLineTerminator(c: char) {
    var n := c as int;
    n == 10 || n == 13 || n == 0x2028 || n == 0x2029
  }

  lemma LineTerminatorIsSpace(c: char)
    ensures IsLineTerminator(c) ==> IsSpace(c)
  {}

  predicate IsDigit(c: char) { '0' <= c <= '9' }

  predicate AllDigits(s: string) {
    forall i :: 0 <= i < |s| ==> IsDigit(s[i])
  }

  predicate NoSpace(s: string) {
    forall i :: 0 <= i < |s| ==> !IsSpace(s[i])
  }

  /** Length of the longest run of white space starting at `i` (what a
      greedy `\s+` or `\s*` consumes). */
  function SpaceRun(s: string, i: nat): (n: nat)
    requires i <= |s|
    ensures i + n <= |s|
    ensures forall k :: i <= k < i + n ==> IsSpace(s[k])
    ensures i + n == |s| || !IsSpace(s[i + n])
    decreases |s| - i
  {
    if i < |s| && IsSpace(s[i]) then 1 + SpaceRun(s, i + 1) else 0
  }

  /** Length of the longest run of decimal digits starting at `i`. */
  function DigitRun(s: string, i: nat): (n: nat)
    requires i <= |s|
    ensures i + n <= |s|
    ensures forall k :: i <= k < i + n ==> IsDigit(s[k])
    ensures i + n == |s| || !IsDigit(s[i + n])
    decreases |s| - i
  {
    if i < |s| && IsDigit(s[i]) then 1 + DigitRun(s, i + 1) else 0
  }

  /** The end of the line holding position `i`: the first line terminator
      at or after `i`, or the end of the text (how far a greedy `.+` or `.*`
      reaches). */
  function LineEnd(s: string, i: nat): (e: nat)
    requires i <= |s|
    ensures i <= e <= |s|
    ensures forall k :: i <= k < e ==> !IsLineTerminator(s[k])
    ensures e == |s| || IsLineTerminator(s[e])
    decreases |s| - i
  {
    if i < |s| && !IsLineTerminator(s[i]) then LineEnd(s, i + 1) else i
  }

  // ---------------------------------------------------------------------------
  // Leftmost match

  /** The first capture `cap` yields at a position in `[from, last]`: the
      leftmost match of a pattern whose match at each position is `cap`. */
  function FirstCapture<T>(cap: nat -> Option<T>, from: nat, last: nat): (r: Option<T>)
    ensures r.Some? ==> exists i: nat :: from <= i <= last && cap(i) == r
    decreases last + 1 - from
  {
    if from > last then None
    else if cap(from).Some? then cap(from)
    else FirstCapture(cap, from + 1, last)
  }

  lemma {:induction false} FirstCaptureNone<T>(cap: nat -> Option<T>, from: nat, last: nat)
    ensures FirstCapture(cap, from, last).None? <==> forall i: nat :: from <= i <= last ==> cap(i).None?
    decreases last + 1 - from
  {
    if from <= last && cap(from).None? {
      FirstCaptureNone(cap, from + 1, last);
    }
  }

  lemma {:induction false} FirstCaptureSkips<T>(cap: nat -> Option<T>, from: nat, upto: nat, last: nat)
    requires from <= upto <= last + 1
    requires forall i: nat :: from <= i < upto ==> cap(i).None?
    ensures FirstCapture(cap, from, last) == FirstCapture(cap, upto, last)
    decreases upto - from
  {
    if from < upto {
      FirstCaptureSkips(cap, from + 1, upto, last);
    }
  }

  /** A character of the class `[\d.]`. */
  predicate DigitOrDot(c: char) { IsDigit(c) || c == '.' }

  /** Length of the longest run of `[\d.]` characters starting at `i`. */
  function DigitDotRun(s: string, i: nat): (n: nat)
    requires i <= |s|
    ensures i + n <= |s|
    ensures forall k :: i <= k < i + n ==> DigitOrDot(s[k])
    ensures i + n == |s| || !DigitOrDot(s[i + n])
    decreases |s| - i
  {
    if i < |s| && DigitOrDot(s[i]) then 1 + DigitDotRun(s, i + 1) else 0
  }

  lemma {:induction false} DigitDotRunOf(s: string, i: nat, n: nat)
    requires i + n < |s|
    requires forall k :: i <= k < i + n ==> DigitOrDot(s[k])
    requires !DigitOrDot(s[i + n])
    ensures DigitDotRun(s, i) == n
    decreases n
  {
    if n > 0 {
      DigitDotRunOf(s, i + 1, n - 1);
    }
  }

  // ---------------------------------------------------------------------------
  // Trimming

  /** `s.trimStart()`: drops the leading white space and nothing else. */
  function TrimStart(s: string): (r: string)
    ensures |r| <= |s| && r == s[|s| - |r|..]
    ensures forall k :: 0 <= k < |s| - |r| ==> IsSpace(s[k])
    ensures r != [] ==> !IsSpace(r[0])
  {
    if s != [] && IsSpace(s[0]) then TrimStart(s[1..]) else s
  }

  lemma TrimStartNoSpace(s: string)
    requires s != [] && !IsSpace(s[0])
    ensures TrimStart(s) == s
  {}

  /** Number of leading white-space characters `s.trim()` removes. */
  function TrimOffset(s: string): (n: nat)
    ensures n <= |s|
  {
    SpaceRun(s, 0)
  }

  /** Where `s.trim()` ends: trailing white space from `e` on is dropped,
      never going below `lo`. */
  function TrimmedEnd(s: string, lo: nat, e: nat): (r: nat)
    requires lo <= e <= |s|
    requires forall k :: e <= k < |s| ==> IsSpace(s[k])
    ensures lo <= r <= e
    ensures forall k :: r <= k < |s| ==> IsSpace(s[k])
    ensures r > lo ==> !IsSpace(s[r - 1])
  {
    if e > lo && IsSpace(s[e - 1]) then TrimmedEnd(s, lo, e - 1) else e
  }

  /** `s.trim()`: the infix of `s` left after removing white space at both
      ends; everything removed is white space. */
  function Trim(s: string): (r: string)
    ensures TrimOffset(s) + |r| <= |s|
    ensures r == s[TrimOffset(s)..TrimOffset(s) + |r|]
    ensures forall k :: 0 <= k < TrimOffset(s) ==> IsSpace(s[k])
    ensures forall k :: TrimOffset(s) + |r| <= k < |s| ==> IsSpace(s[k])
    ensures r != [] ==> !IsSpace(r[0]) && !IsSpace(r[|r| - 1])
  {
    var o := TrimOffset(s);
    var e := TrimmedEnd(s, o, |s|);
    s[o..e]
  }

  /** A string without white space at either end is its own trim. */
  lemma {:induction false} TrimOfTrimmed(s: string)
    requires s != [] ==> !IsSpace(s[0]) && !IsSpace(s[|s| - 1])
    ensures Trim(s) == s
  {}

  lemma TrimIdempotent(s: string)
    ensures Trim(Trim(s)) == Trim(s)
  {
    TrimOfTrimmed(Trim(s));
  }

  /** Trimming a string made only of white space leaves nothing. */
  lemma TrimAllSpace(s: string)
    requires forall i :: 0 <= i < |s| ==> IsSpace(s[i])
    ensures Trim(s) == []
  {}

  // ---------------------------------------------------------------------------
  // Case mapping

  /** `toLowerCase` on one character, for ASCII, Latin-1 and the letters of
      the Vietnamese alphabet (Latin Extended-A/B and Extended Additional). */
  function LowerChar(c: char): char {
    var n := c as int;
    if 'A' <= c <= 'Z' then (n + 32) as char
    else if 0xC0 <= n <= 0xDE && n != 0xD7 then (n + 32) as char
    else if 0x100 <= n <= 0x12F && n % 2 == 0 then (n + 1) as char
    else if 0x14A <= n <= 0x177 && n % 2 == 0 then (n + 1) as char
    else if n == 0x1A0 || n == 0x1AF then (n + 1) as char
    else if 0x1EA0 <= n <= 0x1EF9 && n % 2 == 0 then (n + 1) as char
    else c
  }

  function Lower(s: string): (r: string)
    ensures |r| == |s|
    ensures forall i :: 0 <= i < |s| ==> r[i] == LowerChar(s[i])
  {
    seq(|s|, i requires 0 <= i < |s| => LowerChar(s[i]))
  }

  lemma LowerCharIdempotent(c: char)
    ensures LowerChar(LowerChar(c)) == LowerChar(c)
  {}

  /** Lower-casing twice is lower-casing once. */
  lemma LowerIdempotent(s: string)
    ensures Lower(Lower(s)) == Lower(s)
  {
    forall i | 0 <= i < |s| {
      LowerCharIdempotent(s[i]);
    }
  }

  lemma LowerAppend(a: string, b: string)
    ensures Lower(a + b) == Lower(a) + Lower(b)
  {}

  // ---------------------------------------------------------------------------
  // Substring search

  predicate OccursAt(text: string, pat: string, i: int) {
    0 <= i && i + |pat| <= |text| && text[i..i + |pat|] == pat
  }

  /** The leftmost occurrence of `pat` in `text` at or after `from`. */
  function IndexOf(text: string, pat: string, from: nat): (r: Option<nat>)
    ensures r.Some? ==> from <= r.value && OccursAt(text, pat, r.value)
    ensures forall i :: from <= i && (r.None? || i < r.value) ==> !OccursAt(text, pat, i)
    decreases |text| - from
  {
    if from + |pat| > |text| then None
    else if text[from..from + |pat|] == pat then Some(from)
    else IndexOf(text, pat, from + 1)
  }

  /** `text.includes(pat)`. */
  function Contains(text: string, pat: string): (b: bool)
    ensures b <==> exists i :: OccursAt(text, pat, i)
  {
    var r := IndexOf(text, pat, 0);
    if r.Some? then true
    else
      assert forall i :: !OccursAt(text, pat, i) by {
        forall i ensures !OccursAt(text, pat, i) {
          if 0 <= i {
            assert !OccursAt(text, pat, i);
          }
        }
      }
      false
  }

  /** A pattern occurs where every one of its characters does. */
  lemma OccursAtChars(text: string, pat: string, i: nat)
    requires i + |pat| <= |text|
    requires forall k :: 0 <= k < |pat| ==> text[i + k] == pat[k]
    ensures Contains(text, pat)
  {
    assert text[i..i + |pat|] == pat;
    assert OccursAt(text, pat, i);
  }

  /** A text without two adjacent characters of the pattern does not contain it. */
  lemma AbsentPair(text: string, pat: string, j: nat, a: char, b: char)
    requires j + 1 < |pat| && pat[j] == a && pat[j + 1] == b
    requires forall k :: 0 <= k < |text| - 1 ==> !(text[k] == a && text[k + 1] == b)
    ensures !Contains(text, pat)
  {
    forall i | 0 <= i && i + |pat| <= |text|
      ensures !OccursAt(text, pat, i)
    {
      assert text[i..i + |pat|][j] == text[i + j];
      assert text[i..i + |pat|][j + 1] == text[i + j + 1];
    }
  }

  /** A character matched against a lower-case pattern character under the
      `i` flag: only ASCII letters fold onto ASCII letters. */
  predicate FoldMatch(c: char, p: char) {
    c == p || ('a' <= p <= 'z' && c as int == p as int - 32)
  }

  predicate FoldOccursAt(text: string, pat: string, i: nat) {
    i + |pat| <= |text| && forall k :: 0 <= k < |pat| ==> FoldMatch(text[i + k], pat[k])
  }

  /** Under the `i` flag a lower-case letter or a space matches only
      characters that lower-case to it. */
  lemma FoldMatchLower(c: char, p: char)
    requires 'a' <= p <= 'z' || p == ' '
    requires FoldMatch(c, p)
    ensures LowerChar(c) == p
  {}

  /** Under the `i` flag a text without upper-case ASCII letters matches a
      pattern only where it holds the pattern exactly. */
  lemma FoldOccursExact(text: string, pat: string, i: nat)
    requires forall k :: 0 <= k < |text| ==> !('A' <= text[k] <= 'Z')
    ensures FoldOccursAt(text, pat, i) <==> OccursAt(text, pat, i)
  {
    if FoldOccursAt(text, pat, i) {
      assert forall k :: 0 <= k < |pat| ==> text[i + k] == pat[k];
      assert text[i..i + |pat|] == pat;
    }
    if OccursAt(text, pat, i) {
      forall k | 0 <= k < |pat|
        ensures FoldMatch(text[i + k], pat[k])
      {
        assert text[i..i + |pat|][k] == text[i + k];
      }
    }
  }

  /** An occurrence at `i` of the text's suffix from `i`. */
  lemma OccursInSuffix(text: string, pat: string, i: nat)
    requires i <= |text|
    ensures OccursAt(text[i..], pat, 0) <==> OccursAt(text, pat, i)
  {
    if i + |pat| <= |text| {
      assert text[i..][0..|pat|] == text[i..i + |pat|];
    }
  }

  /** An occurrence in `a + [c] + rest` of a pattern without `c` lies wholly
      in `a` or wholly in `rest`. */
  lemma OccursAcross(a: string, c: char, rest: string, pat: string, i: nat)
    requires c !in pat
    ensures OccursAt(a + [c] + rest, pat, i) ==>
              (i + |pat| <= |a| && OccursAt(a, pat, i)) || (i > |a| && OccursAt(rest, pat, i - |a| - 1))
  {
    var t := a + [c] + rest;
    if i + |pat| <= |a| {
      assert t[i..i + |pat|] == a[i..i + |pat|];
    } else if i > |a| && i + |pat| <= |t| {
      assert t[i..i + |pat|] == rest[i - |a| - 1..i - |a| - 1 + |pat|];
    } else if i + |pat| <= |t| {
      assert t[i..i + |pat|][|a| - i] == c;
      assert pat[|a| - i] in pat;
    }
  }

  /** A pattern not starting with `c` occurs in `[c] + b` only inside `b`. */
  lemma OccursAfterChar(c: char, b: string, pat: string, i: nat)
    requires pat != [] && pat[0] != c
    ensures OccursAt([c] + b, pat, i) ==> i >= 1 && OccursAt(b, pat, i - 1)
  {
    var t := [c] + b;
    if i >= 1 && i + |pat| <= |t| {
      assert t[i..i + |pat|] == b[i - 1..i - 1 + |pat|];
    } else if i + |pat| <= |t| {
      assert t[i..i + |pat|][0] == c;
    }
  }

  /** A word whose first letter does not recur in it cannot begin inside a
      text free of it and run on into a suffix starting with that letter. */
  lemma NoWordBefore(p: string, rest: string, w: string)
    requires w != [] && !Contains(p, w)
    requires rest != [] && rest[0] == w[0]
    requires forall k :: 1 <= k < |w| ==> w[k] != w[0]
    ensures forall i :: 0 <= i < |p| ==> !OccursAt(p + rest, w, i)
  {
    var t := p + rest;
    forall i | 0 <= i < |p|
      ensures !OccursAt(t, w, i)
    {
      if i + |w| <= |p| {
        assert t[i..i + |w|] == p[i..i + |w|];
        assert !OccursAt(p, w, i);
      } else if i + |w| <= |t| {
        assert t[i..i + |w|][|p| - i] == t[|p|] == w[0];
      }
    }
  }

  /** A string contains every one of its infixes. */
  lemma ContainsInfix(a: string, pat: string, b: string)
    ensures Contains(a + pat + b, pat)
  {
    assert OccursAt(a + pat + b, pat, |a|);
  }

  // ---------------------------------------------------------------------------
  // Code-point ordering (ORDER BY on text, compared character by character)

  predicate LexLe(a: string, b: string) {
    a == [] || (b != [] && (a[0] < b[0] || (a[0] == b[0] && LexLe(a[1..], b[1..]))))
  }

  lemma {:induction false} LexLeTotal(a: string, b: string)
    ensures LexLe(a, b) || LexLe(b, a)
  {
    if a != [] && b != [] && a[0] == b[0] {
      LexLeTotal(a[1..], b[1..]);
    }
  }

  lemma {:induction false} LexLeTransitive(a: string, b: string, c: string)
    requires LexLe(a, b) && LexLe(b, c)
    ensures LexLe(a, c)
  {
    if a != [] && b != [] && c != [] && a[0] == b[0] && b[0] == c[0] {
      LexLeTransitive(a[1..], b[1..], c[1..]);
    }
  }

  // ---------------------------------------------------------------------------
  // Decimal digit strings

  function DigitValue(c: char): nat
    requires IsDigit(c)
  {
    c as int - '0' as int
  }

  function DigitChar(d: nat): (c: char)
    requires d < 10
    ensures IsDigit(c) && DigitValue(c) == d
  {
    (d + '0' as int) as char
  }

  /** The number a string of decimal digits denotes ("" denotes 0). */
  function DigitsValue(s: string): nat
    requires AllDigits(s)
  {
    if s == [] then 0 else DigitsValue(s[..|s| - 1]) * 10 + DigitValue(s[|s| - 1])
  }

  /** Decimal rendering of a natural number, as JavaScript's `String(n)`. */
  function NatToString(n: nat): (r: string)
    ensures |r| >= 1 && AllDigits(r)
    ensures DigitsValue(r) == n
    ensures |r| > 1 ==> r[0] != '0'
    ensures n < 10 <==> |r| == 1
  {
    if n < 10 then [DigitChar(n)]
    else
      var p := NatToString(n / 10);
      var r := p + [DigitChar(n % 10)];
      assert r[..|r| - 1] == p;
      r
  }

  lemma NatToStringInjective(a: nat, b: nat)
    requires NatToString(a) == NatToString(b)
    ensures a == b
  {}

  /** Decimal rendering of an integer, with a leading '-' when negative. */
  function IntToString(n: int): (r: string)
    ensures n >= 0 ==> r == NatToString(n)
    ensures n < 0 ==> r == "-" + NatToString(-n)
  {
    if n < 0 then "-" + NatToString(-n) else NatToString(n)
  }

  /** The longest prefix of `s` made of decimal digits. */
  function DigitPrefix(s: string): (r: string)
    ensures |r| <= |s| && AllDigits(r) && r == s[..|r|]
    ensures |r| == |s| || !IsDigit(s[|r|])
  {
    if s != [] && IsDigit(s[0]) then [s[0]] + DigitPrefix(s[1..]) else []
  }

  lemma {:induction false} DigitPrefixOfDigits(s: string, rest: string)
    requires AllDigits(s)
    requires rest == [] || !IsDigit(rest[0])
    ensures DigitPrefix(s + rest) == s
  {
    if s != [] {
      assert (s + rest)[1..] == s[1..] + rest;
      DigitPrefixOfDigits(s[1..], rest);
    } else {
      assert s + rest == rest;
    }
  }

  function Pow10(n: nat): (r: nat)
    ensures r >= 1
  {
    if n == 0 then 1 else 10 * Pow10(n - 1)
  }

  /** A string of `n` digits denotes a number below `10^n`. */
  lemma {:induction false} DigitsValueBound(s: string)
    requires AllDigits(s)
    ensures DigitsValue(s) < Pow10(|s|)
  {
    if s != [] {
      var p := s[..|s| - 1];
      DigitsValueBound(p);
      assert DigitsValue(p) * 10 <= (Pow10(|p|) - 1) * 10;
    }
  }

  lemma ShiftByTen(x: int, pw: int, y: int)
    ensures (x * pw + y) * 10 == x * (pw * 10) + y * 10
  {}

  /** Reading digits one after another: the value of `a + b` shifts `a` by
      the length of `b`. */
  lemma {:induction false} DigitsValueAppend(a: string, b: string)
    requires AllDigits(a) && AllDigits(b)
    ensures AllDigits(a + b)
    ensures DigitsValue(a + b) == DigitsValue(a) * Pow10(|b|) + DigitsValue(b)
    decreases |b|
  {
    if b == [] {
      assert a + b == a;
    } else {
      var p := b[..|b| - 1];
      assert (a + b)[..|a + b| - 1] == a + p;
      assert (a + b)[|a + b| - 1] == b[|b| - 1];
      DigitsValueAppend(a, p);
      var x, y, pw := DigitsValue(a), DigitsValue(p), Pow10(|p|);
      assert Pow10(|b|) == pw * 10;
      assert DigitsValue(a + b) == (x * pw + y) * 10 + DigitValue(b[|b| - 1]);
      ShiftByTen(x, pw, y);
      assert DigitsValue(b) == y * 10 + DigitValue(b[|b| - 1]);
    }
  }
}

=== FILE: intent.dfy ===
/** The older four-way classifier of src/services/chatbotIntentService.js:
    `normalize`, `detectMonthInfo`, `detectCategory`, `detectCreateWallet`
    and `detectIntent`. Unlike the keyword assistant it works on the
    lower-cased text with its accents kept. */
module Intent {
  import opened Common
  import opened Js
  import opened Calendar
  import opened ChatText

  // ---------------------------------------------------------------------------
  // normalize

  predicate IsLowered(t: string) {
    forall k :: 0 <= k < |t| ==> LowerChar(t[k]) == t[k]
  }

  /** `text.toLowerCase().trim()`: lower-case, with no white space at either
      end. */
  function Normalize(raw: string): (t: string)
    ensures IsLowered(t)
    ensures t != [] ==> !IsSpace(t[0]) && !IsSpace(t[|t| - 1])
  {
    var low := Lower(raw);
    var t := Trim(low);
    forall k | 0 <= k < |t|
      ensures LowerChar(t[k]) == t[k]
    {
      assert t[k] == low[TrimOffset(low) + k];
      LowerCharIdempotent(raw[TrimOffset(low) + k]);
    }
    t
  }

  lemma LowerOfLowered(t: string)
    requires IsLowered(t)
    ensures Lower(t) == t
  {}

  /** Normalising twice is normalising once. */
  lemma NormalizeIdempotent(raw: string)
    ensures Normalize(Normalize(raw)) == Normalize(raw)
  {
    var t := Normalize(raw);
    LowerOfLowered(t);
    TrimOfTrimmed(t);
  }

  // ---------------------------------------------------------------------------
  // detectMonthInfo

  datatype MonthYear = MonthYear(month: int, year: int)

  /** `new Date(year, month - 2, 1)` read back as a month and a year: the
      month before, January rolling back to December of the year before. */
  function PreviousMonth(month: int, year: int): (r: MonthYear)
    ensures 1 <= r.month <= 12
    ensures r.year * 12 + r.month == year * 12 + month - 1
  {
    var idx := year * 12 + month - 2;
    MonthYear(idx % 12 + 1, idx / 12)
  }

  lemma PreviousMonthOfJanuary(year: int)
    ensures PreviousMonth(1, year) == MonthYear(12, year - 1)
  {
    var r := PreviousMonth(1, year);
    assert r.year * 12 + r.month == (year - 1) * 12 + 12;
  }

  predicate NamesThisMonth(t: string) {
    Contains(t, "tháng này") || Contains(t, "tháng hiện tại")
  }

  /** `detectMonthInfo(text)` on the host's date `now`: this month for
      "tháng này" / "tháng hiện tại", the month before for "tháng trước",
      else the number of the leftmost `tháng\s+(\d{1,2})` as the month of the
      current year (any number from 0 to 99), else this month. */
  function MonthInfo(t: string, now: Date): (r: MonthYear)
    ensures NamesThisMonth(t) ==> r == MonthYear(now.month, now.year)
    ensures !NamesThisMonth(t) && Contains(t, "tháng trước") ==> r == PreviousMonth(now.month, now.year)
    ensures r.year != now.year ==> !NamesThisMonth(t) && Contains(t, "tháng trước")
    ensures r.month != now.month && !Contains(t, "tháng trước") ==> 0 <= r.month <= 99
  {
    if NamesThisMonth(t) then MonthYear(now.month, now.year)
    else if Contains(t, "tháng trước") then PreviousMonth(now.month, now.year)
    else
      match FirstNumberAfter(t, "tháng", 1, 2, 0)
      case Some(d) =>
        DigitsValueBound(d);
        assert Pow10(|d|) <= 100 by {
          if |d| == 2 {
            assert Pow10(2) == 100;
          }
        }
        MonthYear(DigitsValue(d), now.year)
      case None => MonthYear(now.month, now.year)
  }

  /** "tháng <n>" sets the month to `n` with no check that it is a month,
      and keeps the current year. */
  lemma MonthInfoNamedMonth(n: nat, now: Date)
    requires n <= 99
    ensures MonthInfo("tháng " + NatToString(n), now) == MonthYear(n, now.year)
  {
    var ds := NatToString(n);
    var t := "tháng " + ds;
    if n >= 10 {
      DigitCount(n, 1, 2);
    }
    assert |t| <= 8;
    assert t[..5] == "tháng";
    assert OccursAt(t, "tháng", 0);
    assert t[6..6 + |ds|] == ds;
    NumberAfterWordOf(t, "tháng", 0, ds, 1, 2);
  }

  /** "tháng <n>" anywhere in the question sets the month to `n`, with no
      check that it is a month, and keeps the current year, provided no
      earlier "tháng" comes before it, the number ends there, and the
      question names neither this month nor the month before. */
  lemma MonthInfoNamedMonthIn(p: string, n: nat, s: string, now: Date)
    requires n <= 99
    requires !Contains(p, "tháng")
    requires s == [] || !IsDigit(s[0])
    requires var t := p + "tháng " + NatToString(n) + s;
             !NamesThisMonth(t) && !Contains(t, "tháng trước")
    ensures MonthInfo(p + "tháng " + NatToString(n) + s, now) == MonthYear(n, now.year)
  {
    MonthNumberIn(p, n, s);
  }

  /** The leftmost `tháng\s+(\d{1,2})` of such a question captures `n`. */
  lemma MonthNumberIn(p: string, n: nat, s: string)
    requires n <= 99
    requires !Contains(p, "tháng")
    requires s == [] || !IsDigit(s[0])
    ensures FirstNumberAfter(p + "tháng " + NatToString(n) + s, "tháng", 1, 2, 0) == Some(NatToString(n))
  {
    var ds := NatToString(n);
    if n >= 10 {
      DigitCount(n, 1, 2);
    }
    assert p + "tháng " + ds + s == p + "tháng" + " " + ds + s;
    FirstWordThenNumber(p, "tháng", ds, s, 1, 2);
  }


  /** At the position after `p`, the word, one space and the digits `ds`
      match, and the capture is `ds`. */
  lemma MonthWordThenNumber(p: string, ds: string, s: string)
    requires 1 <= |ds| <= 2 && AllDigits(ds)
    requires s == [] || !IsDigit(s[0])
    ensures NumberAfterWordAt(p + "tháng " + ds + s, "tháng", |p|, 1, 2) == Some(ds)
  {
    assert p + "tháng " + ds + s == p + "tháng" + " " + ds + s;
    WordThenNumber(p, "tháng", ds, s, 1, 2);
  }


  // ---------------------------------------------------------------------------
  // detectCategory

  const CategoryKeywords: seq<string> := ["ăn uống", "giải trí", "đi lại", "mua sắm", "hoá đơn"]

  /** The position in `keys` of the first key the text contains. */
  function FirstKeyIndex(t: string, keys: seq<string>, from: nat): (r: Option<nat>)
    requires from <= |keys|
    ensures r.Some? ==> from <= r.value < |keys| && Contains(t, keys[r.value])
    ensures forall j :: from <= j < |keys| && (r.None? || j < r.value) ==> !Contains(t, keys[j])
    decreases |keys| - from
  {
    if from == |keys| then None
    else if Contains(t, keys[from]) then Some(from)
    else FirstKeyIndex(t, keys, from + 1)
  }

  /** `detectCategory(text)`: the first of the category keywords, in list
      order, that the text contains; None when it contains none. */
  function DetectCategory(t: string): (r: Option<string>)
    ensures r.None? <==> forall k :: 0 <= k < |CategoryKeywords| ==> !Contains(t, CategoryKeywords[k])
    ensures r.Some? ==> r.value in CategoryKeywords && Contains(t, r.value)
  {
    match FirstKeyIndex(t, CategoryKeywords, 0)
    case None => None
    case Some(k) => Some(CategoryKeywords[k])
  }

  /** A keyword the text contains is the answer exactly when no earlier
      keyword occurs in it. */
  lemma DetectCategoryFirstListed(t: string, k: nat)
    requires k < |CategoryKeywords| && Contains(t, CategoryKeywords[k])
    ensures DetectCategory(t) == Some(CategoryKeywords[k])
            <==> forall j :: 0 <= j < k ==> !Contains(t, CategoryKeywords[j])
  {
    var r := FirstKeyIndex(t, CategoryKeywords, 0);
    if r.Some? && r.value != k {
      assert CategoryKeywords[r.value] != CategoryKeywords[k] by {
        assert CategoryKeywords[0][0] == 'ă' && CategoryKeywords[1][0] == 'g' && CategoryKeywords[2][0] == 'đ';
        assert CategoryKeywords[3][0] == 'm' && CategoryKeywords[4][0] == 'h';
      }
    }
  }

  // ---------------------------------------------------------------------------
  // detectCreateWallet

  predicate AsksCreateWallet(t: string) {
    Contains(t, "tạo ví") || Contains(t, "mở ví") || Contains(t, "thêm ví")
  }

  const DefaultWalletName: string := "Ví mới"

  /** `\s+với\s+số\s+tiền` matches at `p`. Every `\s+` here is followed by a
      letter, so only its longest run of white space can match. */
  predicate AmountPhraseAt(t: string, p: nat) {
    p <= |t| &&
    (var s1 := SpaceRun(t, p);
     s1 >= 1 && OccursAt(t, "với", p + s1) &&
     (var q := p + s1 + 3;
      var s2 := SpaceRun(t, q);
      s2 >= 1 && OccursAt(t, "số", q + s2) &&
      (var u := q + s2 + 2;
       var s3 := SpaceRun(t, u);
       s3 >= 1 && OccursAt(t, "tiền", u + s3))))
  }

  function AmountPhrases(t: string): nat -> bool {
    (p: nat) => AmountPhraseAt(t, p)
  }

  /** The lazy `(.+?)` started at `c`, trying ends from `p` on: the first
      end where the rest of the pattern (`rest`) matches. `.` stops at a line
      terminator, and so does the capture. */
  function LazyEnd(t: string, c: nat, p: nat, rest: nat -> bool): (e: Option<nat>)
    requires c < p <= |t| + 1
    requires forall k :: c <= k < p - 1 ==> !IsLineTerminator(t[k])
    ensures e.Some? ==> p <= e.value <= |t| && rest(e.value)
    ensures e.Some? ==> forall k :: c <= k < e.value ==> !IsLineTerminator(t[k])
    ensures e.Some? ==> forall q: nat :: p <= q < e.value ==> !rest(q)
    ensures e.None? ==> forall q: nat :: p <= q <= |t| && (forall k :: c <= k < q ==> !IsLineTerminator(t[k]))
                                    ==> !rest(q)
    decreases |t| + 1 - p
  {
    if p > |t| then None
    else if IsLineTerminator(t[p - 1]) then None
    else if rest(p) then Some(p)
    else LazyEnd(t, c, p + 1, rest)
  }

  /** Backtracking over the `\s+` after "là": the longest run of `s` spaces
      first, then shorter ones, each followed by the lazy capture. */
  function NameAfterSpaces(t: string, a: nat, s: nat): (r: Option<(nat, nat)>)
    requires a + s <= |t|
    ensures r.Some? ==> a < r.value.0 <= a + s && r.value.0 < r.value.1 <= |t|
    ensures r.Some? ==> AmountPhraseAt(t, r.value.1)
    ensures r.Some? ==> forall k :: r.value.0 <= k < r.value.1 ==> !IsLineTerminator(t[k])
    decreases s
  {
    if s == 0 then None
    else
      match LazyEnd(t, a + s, a + s + 1, AmountPhrases(t))
      case Some(e) => Some((a + s, e))
      case None => NameAfterSpaces(t, a, s - 1)
  }

  /** The span `/là\s+(.+?)\s+với\s+số\s+tiền/` captures when matched at `i`:
      it follows "là" and white space, stays on one line and is followed by
      "với số tiền" written with white space between the words. */
  function NameSpanAt(t: string, i: nat): (r: Option<(nat, nat)>)
    ensures r.Some? ==> OccursAt(t, "là", i) && i + 2 < r.value.0 < r.value.1 <= |t|
    ensures r.Some? ==> forall k :: i + 2 <= k < r.value.0 ==> IsSpace(t[k])
    ensures r.Some? ==> AmountPhraseAt(t, r.value.1)
    ensures r.Some? ==> forall k :: r.value.0 <= k < r.value.1 ==> !IsLineTerminator(t[k])
  {
    if OccursAt(t, "là", i) then NameAfterSpaces(t, i + 2, SpaceRun(t, i + 2)) else None
  }

  function NameSpans(t: string): nat -> Option<(nat, nat)> {
    (i: nat) => NameSpanAt(t, i)
  }

  /** What every span of the name pattern satisfies: it follows "là" and
      white space, runs up to "với số tiền" and holds no line terminator. */
  predicate NameSpanFacts(t: string, c: nat, e: nat) {
    && c < e <= |t|
    && (exists i :: 0 <= i && i + 2 < c && OccursAt(t, "là", i)
                    && forall k :: i + 2 <= k < c ==> IsSpace(t[k]))
    && AmountPhraseAt(t, e)
    && forall k :: c <= k < e ==> !IsLineTerminator(t[k])
  }

  /** The facts `NameSpanAt` states, carried over to the leftmost span. */
  lemma NameCapture(t: string)
    ensures var r := FirstCapture(NameSpans(t), 0, |t|);
            r.Some? ==> NameSpanFacts(t, r.value.0, r.value.1)
  {
    var r := FirstCapture(NameSpans(t), 0, |t|);
    if r.Some? {
      var i: nat :| i <= |t| && NameSpans(t)(i) == r;
      assert NameSpanAt(t, i) == r;
    }
  }

  /** The capture of the leftmost match of the name pattern: it lies between
      "là" and "với số tiền" and holds no line terminator. */
  function NameMatch(t: string): (r: Option<(nat, nat)>)
    ensures r.Some? ==> r.value.0 < r.value.1 <= |t|
    ensures r.Some? ==> exists i :: 0 <= i && i + 2 < r.value.0 && OccursAt(t, "là", i)
                                    && forall k :: i + 2 <= k < r.value.0 ==> IsSpace(t[k])
    ensures r.Some? ==> AmountPhraseAt(t, r.value.1)
    ensures r.Some? ==> forall k :: r.value.0 <= k < r.value.1 ==> !IsLineTerminator(t[k])
  {
    var r := FirstCapture(NameSpans(t), 0, |t|);
    if r.None? then r
    else
      NameCapture(t);
      r
  }

  /** The run `/số\s+tiền\s+([\d\.]+)/` captures when matched at `i`: the
      whole run of digits and dots after "số tiền". */
  function AmountSpanAt(t: string, i: nat): (r: Option<(nat, nat)>)
    ensures r.Some? ==> OccursAt(t, "số", i) && i + 2 < r.value.0 < r.value.1 <= |t|
    ensures r.Some? ==> forall k :: r.value.0 <= k < r.value.1 ==> DigitOrDot(t[k])
    ensures r.Some? ==> r.value.1 == |t| || !DigitOrDot(t[r.value.1])
  {
    if !OccursAt(t, "số", i) then None
    else
      var a := i + 2;
      var s1 := SpaceRun(t, a);
      if s1 == 0 || !OccursAt(t, "tiền", a + s1) then None
      else
        var b := a + s1 + 4;
        var s2 := SpaceRun(t, b);
        var d := DigitDotRun(t, b + s2);
        if s2 >= 1 && d >= 1 then Some((b + s2, b + s2 + d)) else None
  }

  function AmountSpans(t: string): nat -> Option<(nat, nat)> {
    (i: nat) => AmountSpanAt(t, i)
  }

  /** The facts `AmountSpanAt` states, carried over to any span it returns. */
  lemma AmountCapture(t: string, c: nat, e: nat)
    requires exists i: nat :: i <= |t| && AmountSpans(t)(i) == Some((c, e))
    ensures c < e <= |t|
    ensures exists i :: 0 <= i && i + 2 < c && OccursAt(t, "số", i)
    ensures forall k :: c <= k < e ==> DigitOrDot(t[k])
    ensures e == |t| || !DigitOrDot(t[e])
  {
    var i: nat :| i <= |t| && AmountSpans(t)(i) == Some((c, e));
    assert AmountSpanAt(t, i) == Some((c, e));
  }

  /** The capture of the leftmost match of the amount pattern: a whole run
      of digits and dots that follows "số tiền". */
  function AmountMatch(t: string): (r: Option<(nat, nat)>)
    ensures r.Some? ==> r.value.0 < r.value.1 <= |t|
    ensures r.Some? ==> exists i :: 0 <= i && i + 2 < r.value.0 && OccursAt(t, "số", i)
    ensures r.Some? ==> DigitsAndDots(t[r.value.0..r.value.1])
    ensures r.Some? ==> r.value.1 == |t| || !DigitOrDot(t[r.value.1])
  {
    var r := FirstCapture(AmountSpans(t), 0, |t|);
    if r.None? then r
    else
      var (c, e) := r.value;
      AmountCapture(t, c, e);
      assert forall k :: 0 <= k < e - c ==> t[c..e][k] == t[c + k];
      r
  }

  predicate DigitsAndDots(s: string) {
    forall k :: 0 <= k < |s| ==> DigitOrDot(s[k])
  }

  predicate OnlyDots(s: string) {
    forall k :: 0 <= k < |s| ==> s[k] == '.'
  }

  /** `s.replace(/\./g, "")`: the characters of `s` other than '.', in
      order. */
  function RemoveDots(s: string): (r: string)
    ensures |r| <= |s|
    ensures forall k :: 0 <= k < |r| ==> r[k] != '.'
    ensures DigitsAndDots(s) ==> AllDigits(r)
    ensures r == [] <==> OnlyDots(s)
  {
    if s == [] then []
    else if s[0] == '.' then RemoveDots(s[1..])
    else [s[0]] + RemoveDots(s[1..])
  }

  lemma {:induction false} RemoveDotsAppend(a: string, b: string)
    ensures RemoveDots(a + b) == RemoveDots(a) + RemoveDots(b)
  {
    if a != [] {
      assert (a + b)[1..] == a[1..] + b;
      RemoveDotsAppend(a[1..], b);
    } else {
      assert a + b == b;
    }
  }

  /** `parseInt(d.replace(/\./g, ""), 10)` on a run of digits and dots: NaN
      (None) exactly when the run has no digit, else the value of its digits
      with the dots left out. */
  function ParseAmount(d: string): (r: Option<int>)
    ensures DigitsAndDots(d) ==> (r.None? <==> OnlyDots(d))
    ensures DigitsAndDots(d) && r.Some? ==> r.value == DigitsValue(RemoveDots(d))
  {
    var u := RemoveDots(d);
    if u != [] && AllDigits(u) then
      ParseIntOfDigits(u);
      ParseInt(u)
    else ParseInt(u)
  }

  lemma {:induction false} RemoveDotsOfDigits(s: string)
    requires AllDigits(s)
    ensures RemoveDots(s) == s
  {
    if s != [] {
      RemoveDotsOfDigits(s[1..]);
      assert s == [s[0]] + s[1..];
    }
  }

  lemma DigitsAroundDot(a: string, b: string)
    requires AllDigits(a) && AllDigits(b)
    ensures DigitsAndDots(a + "." + b)
  {
    var d := a + "." + b;
    forall k | 0 <= k < |d|
      ensures DigitOrDot(d[k])
    {
      if k < |a| {
        assert d[k] == a[k];
      } else if k > |a| {
        assert d[k] == b[k - |a| - 1];
      }
    }
  }

  /** A dot between two runs of digits is dropped. */
  lemma DotDropped(a: string, b: string)
    requires AllDigits(a) && AllDigits(b)
    ensures RemoveDots(a + "." + b) == a + b
  {
    var tail := "." + b;
    assert a + "." + b == a + tail;
    RemoveDotsAppend(a, tail);
    assert RemoveDots(tail) == RemoveDots(b) by {
      assert tail[0] == '.' && tail[1..] == b;
    }
    RemoveDotsOfDigits(a);
    RemoveDotsOfDigits(b);
    assert RemoveDots(a + tail) == a + b;
  }

  /** A dot between runs of digits is ignored by the amount reading. */
  lemma DottedDigits(a: string, b: string)
    requires a != [] && AllDigits(a) && AllDigits(b)
    ensures DigitsAndDots(a + "." + b)
    ensures ParseAmount(a + "." + b).Some?
    ensures ParseAmount(a + "." + b).value == DigitsValue(a) * Pow10(|b|) + DigitsValue(b)
  {
    var d := a + "." + b;
    DigitsAroundDot(a, b);
    DotDropped(a, b);
    assert d[0] == a[0] && IsDigit(a[0]);
    assert !OnlyDots(d);
    DigitsValueAppend(a, b);
  }

  /** Dots group the thousands: a number followed by a dot and a group of
      three digits reads as that number times 1000 plus the group. */
  lemma ThousandsGroup(n: nat, g: string)
    requires |g| == 3 && AllDigits(g)
    ensures DigitsAndDots(NatToString(n) + "." + g)
    ensures ParseAmount(NatToString(n) + "." + g).Some?
    ensures ParseAmount(NatToString(n) + "." + g).value == n * 1000 + DigitsValue(g)
  {
    DottedDigits(NatToString(n), g);
    assert Pow10(|g|) == 1000;
  }

  datatype NewWallet = NewWallet(walletName: string, initialBalance: Option<int>)

  /** `detectCreateWallet(text)`: None unless the text asks to create, open
      or add a wallet. The name is the trimmed capture of the name pattern,
      or "Ví mới" when it does not match; the balance is 0 when the amount
      pattern does not match, else its capture read with the dots removed,
      NaN (None) when the capture is only dots. */
  function DetectCreateWallet(t: string): (r: Option<NewWallet>)
    ensures r.None? <==> !AsksCreateWallet(t)
    ensures r.Some? && NameMatch(t).None? ==> r.value.walletName == DefaultWalletName
    ensures r.Some? && NameMatch(t).Some? ==>
              r.value.walletName == Trim(t[NameMatch(t).value.0..NameMatch(t).value.1])
    ensures r.Some? && AmountMatch(t).None? ==> r.value.initialBalance == Some(0)
    ensures r.Some? && AmountMatch(t).Some? ==>
              var d := t[AmountMatch(t).value.0..AmountMatch(t).value.1];
              && (r.value.initialBalance.None? <==> OnlyDots(d))
              && (r.value.initialBalance.Some? ==> r.value.initialBalance.value == DigitsValue(RemoveDots(d)))
  {
    if !AsksCreateWallet(t) then None
    else
      var name := if NameMatch(t).None? then DefaultWalletName
                  else Trim(t[NameMatch(t).value.0..NameMatch(t).value.1]);
      var balance := if AmountMatch(t).None? then Some(0)
                     else ParseAmount(t[AmountMatch(t).value.0..AmountMatch(t).value.1]);
      Some(NewWallet(name, balance))
  }

  // ---------------------------------------------------------------------------
  // detectIntent

  predicate AsksSpendingSummary(t: string) {
    Contains(t, "chi bao nhiêu") || Contains(t, "chi tiêu") || Contains(t, "đã xài") || Contains(t, "đã tiêu")
  }

  predicate AsksIncomeSummary(t: string) {
    Contains(t, "thu nhập") || Contains(t, "kiếm được")
  }

  datatype Request =
    | CreateWallet(wallet: NewWallet)
    | SpendingSummary(period: MonthYear, categoryName: Option<string>)
    | IncomeSummary(period: MonthYear)
    | SmallTalk

  /** `detectIntent(rawMessage)` on the host's date `now`: the first of
      wallet creation, spending summary and income summary whose keywords
      the normalised text contains, else small talk. */
  function DetectIntent(raw: string, now: Date): (r: Request)
    ensures var t := Normalize(raw);
            && (r.CreateWallet? <==> AsksCreateWallet(t))
            && (r.SpendingSummary? <==> !AsksCreateWallet(t) && AsksSpendingSummary(t))
            && (r.IncomeSummary? <==> !AsksCreateWallet(t) && !AsksSpendingSummary(t) && AsksIncomeSummary(t))
            && (r.CreateWallet? ==> Some(r.wallet) == DetectCreateWallet(t))
            && (r.SpendingSummary? ==> r.period == MonthInfo(t, now) && r.categoryName == DetectCategory(t))
            && (r.IncomeSummary? ==> r.period == MonthInfo(t, now))
  {
    var t := Normalize(raw);
    match DetectCreateWallet(t)
    case Some(w) => CreateWallet(w)
    case None =>
      if AsksSpendingSummary(t) then SpendingSummary(MonthInfo(t, now), DetectCategory(t))
      else if AsksIncomeSummary(t) then IncomeSummary(MonthInfo(t, now))
      else SmallTalk
  }

  /** Classifying an already normalised message gives the same answer. */
  lemma DetectIntentOfNormalized(raw: string, now: Date)
    ensures DetectIntent(Normalize(raw), now) == DetectIntent(raw, now)
  {
    NormalizeIdempotent(raw);
  }
}

=== FILE: js.dfy ===
/** The slice of JavaScript value semantics the services rely on: truthiness,
    `Number(...)`, `String(...)`, `parseInt`, `Math.trunc` and `Math.ceil`. */
module Js {
  import opened Common

  /** A JavaScript number: NaN, an infinity, or a finite value. */
  datatype Num = NaN | PosInf | NegInf | Finite(r: real)

  /** A JSON-like request value as the handlers receive it. */
  datatype JsValue = Undefined | Null | Bool(b: bool) | Number(n: Num) | Str(s: string)

  predicate IsFinite(n: Num) { n.Finite? }

  /** `!!v`: false for undefined, null, false, 0, NaN and "". */
  predicate Truthy(v: JsValue) {
    match v
    case Undefined => false
    case Null => false
    case Bool(b) => b
    case Number(n) => !n.NaN? && n != Finite(0.0)
    case Str(s) => s != []
  }

  /** `v == null` (loose equality): null or undefined. */
  predicate IsNullish(v: JsValue) { v.Undefined? || v.Null? }

  /** `Number(v)`. */
  function ToNumber(v: JsValue): (n: Num)
    ensures v.Null? ==> n == Finite(0.0)
    ensures v.Undefined? ==> n.NaN?
  {
    match v
    case Undefined => NaN
    case Null => Finite(0.0)
    case Bool(b) => Finite(if b then 1.0 else 0.0)
    case Number(n) => n
    case Str(s) => StringToNumber(s)
  }

  /** The value of an unsigned decimal literal such as "12", "12.5", ".5" or
      "5." (digits with at most one point and at least one digit). */
  function DecimalLiteralValue(u: string): (r: Option<real>)
    ensures r.Some? ==> r.value >= 0.0
    ensures AllDigits(u) && u != [] ==> r == Some(DigitsValue(u) as real)
  {
    match IndexOf(u, ".", 0)
    case None =>
      if u != [] && AllDigits(u) then Some(DigitsValue(u) as real) else None
    case Some(p) =>
      assert u[p] == '.';
      var ip := u[..p];
      var fp := u[p + 1..];
      if AllDigits(ip) && AllDigits(fp) && |ip| + |fp| > 0 then
        Some(DigitsValue(ip) as real + DigitsValue(fp) as real / Pow10(|fp|) as real)
      else None
  }

  /** `Number(s)` for a string: surrounding white space is ignored, the empty
      string is 0, "Infinity" with an optional sign is infinite, a signed
      decimal literal is its value and anything else is NaN. */
  function StringToNumber(s: string): (n: Num)
    ensures Trim(s) == [] ==> n == Finite(0.0)
  {
    var t := Trim(s);
    if t == [] then Finite(0.0)
    else if t == "Infinity" || t == "+Infinity" then PosInf
    else if t == "-Infinity" then NegInf
    else
      var neg := t[0] == '-';
      var body := if t[0] == '-' || t[0] == '+' then t[1..] else t;
      match DecimalLiteralValue(body)
      case None => NaN
      case Some(v) => Finite(if neg then -v else v)
  }

  /** `Math.trunc` on a finite value: rounds toward zero. */
  function Trunc(x: real): (r: int)
    ensures x >= 0.0 ==> 0 <= r && r as real <= x < r as real + 1.0
    ensures x < 0.0 ==> r <= 0 && r as real - 1.0 < x <= r as real
  {
    if x >= 0.0 then x.Floor else -((-x).Floor)
  }

  /** `Math.ceil` on a finite value: the least integer not below `x`. */
  function Ceil(x: real): (r: int)
    ensures x <= r as real < x + 1.0
  {
    -((-x).Floor)
  }

  /** `String(v)`. A non-integral number is rendered by its integer part
      (see README, Left out). */
  function ToJsString(v: JsValue): string {
    match v
    case Undefined => "undefined"
    case Null => "null"
    case Bool(b) => if b then "true" else "false"
    case Number(n) =>
      (match n
       case NaN => "NaN"
       case PosInf => "Infinity"
       case NegInf => "-Infinity"
       case Finite(r) => IntToString(Trunc(r)))
    case Str(s) => s
  }

  /** `parseInt(s, 10)`: leading white space, an optional sign and the longest
      run of digits after it; None stands for NaN (no digit found). */
  function ParseInt(s: string): (r: Option<int>)
  {
    ParseSigned(TrimStart(s))
  }

  /** The sign and digits `parseInt` reads once white space is skipped. */
  function ParseSigned(t: string): (r: Option<int>)
  {
    var neg := t != [] && t[0] == '-';
    var body := if t != [] && (t[0] == '-' || t[0] == '+') then t[1..] else t;
    var d := DigitPrefix(body);
    if d == [] then None
    else Some(if neg then -(DigitsValue(d) as int) else DigitsValue(d))
  }

  /** A text starting with a digit is read as its leading digits. */
  lemma ParseIntUnsigned(s: string)
    requires s != [] && IsDigit(s[0])
    ensures ParseInt(s) == Some(DigitsValue(DigitPrefix(s)))
  {
    TrimStartNoSpace(s);
  }

  /** A text of digits only is read as their value. */
  lemma ParseIntOfDigits(u: string)
    requires u != [] && AllDigits(u)
    ensures ParseInt(u) == Some(DigitsValue(u))
  {
    ParseIntUnsigned(u);
    DigitPrefixOfDigits(u, []);
    assert u + [] == u;
  }

  /** `parseInt` reads a rendered natural number, ignoring whatever
      non-digit text follows it. */
  lemma ParseIntIgnoresSuffix(n: nat, rest: string)
    requires rest == [] || !IsDigit(rest[0])
    ensures ParseInt(NatToString(n) + rest) == Some(n)
  {
    var digits := NatToString(n);
    assert (digits + rest)[0] == digits[0];
    ParseIntUnsigned(digits + rest);
    DigitPrefixOfDigits(digits, rest);
  }

  /** A rendered number is its own digit prefix. */
  lemma DigitPrefixOfNatToString(n: nat)
    ensures DigitPrefix(NatToString(n)) == NatToString(n)
  {
    var digits := NatToString(n);
    DigitPrefixOfDigits(digits, []);
    assert digits + [] == digits;
  }

  /** `parseInt` reads back every integer `String` renders. */
  lemma ParseIntOfIntToString(n: int)
    ensures ParseInt(IntToString(n)) == Some(n)
  {
    if n >= 0 {
      assert IntToString(n) == NatToString(n);
      ParseIntOfNatToString(n);
    } else {
      assert IntToString(n) == "-" + NatToString(-n);
      ParseIntOfNegated(-n);
    }
  }

  lemma ParseIntOfNatToString(n: nat)
    ensures ParseInt(NatToString(n)) == Some(n)
  {
    var d := NatToString(n);
    assert IsDigit(d[0]);
    ParseIntUnsigned(d);
    DigitPrefixOfNatToString(n);
    assert DigitsValue(DigitPrefix(d)) == n;
  }

  lemma ParseIntOfNegated(n: nat)
    ensures ParseInt("-" + NatToString(n)) == Some(-(n as int))
  {
    var d := NatToString(n);
    TrimStartNoSpace("-" + d);
    DigitPrefixOfNatToString(n);
    ParseSignedNegative(d);
  }

  /** A minus sign followed by nothing but digits reads as their negation. */
  lemma ParseSignedNegative(d: string)
    requires d != [] && DigitPrefix(d) == d
    ensures ParseSigned("-" + d) == Some(-(DigitsValue(d) as int))
  {
    assert ("-" + d)[1..] == d;
  }

  /** `Number` reads back every natural number `String` renders. */
  lemma StringToNumberOfNat(n: nat)
    ensures StringToNumber(NatToString(n)) == Finite(n as real)
  {
    var s := NatToString(n);
    assert !IsSpace(s[0]) && !IsSpace(s[|s| - 1]);
    TrimOfTrimmed(s);
    assert s != "Infinity" && s != "+Infinity" && s != "-Infinity" by {
      assert IsDigit(s[0]);
    }
  }
}

=== FILE: ledger.dfy ===
/** The tables the services read and write (`categories`, `wallets`,
    `transactions`, `budgets`, `budget_alert_logs`) as sequences of rows, with
    the primary-key lookups and the filtered sums the queries are built from. */
module Ledger {
  import opened Common
  import opened Calendar

  datatype CategoryType = Income | Expense

  /** A `categories` row; `owner` is None for a global (shared) category. */
  datatype Category = Category(
    id: int,
    owner: Option<int>,
    name: string,
    kind: CategoryType,
    icon: Option<string>,
    color: Option<string>,
    parent: Option<int>)

  /** A `wallets` row. */
  datatype Wallet = Wallet(
    id: int,
    owner: int,
    name: string,
    description: Option<string>,
    icon: Option<string>,
    kind: string,
    balance: real,
    color: string,
    archived: bool)

  /** A `transactions` row; `deleted` stands for `deleted_at IS NOT NULL`. */
  datatype Tx = Tx(
    id: int,
    owner: int,
    categoryId: int,
    walletId: int,
    amount: real,
    description: Option<string>,
    date: CivilDate,
    deleted: bool)

  /** A `budgets` row; a global budget has neither category nor wallet. */
  datatype Budget = Budget(
    id: int,
    owner: int,
    categoryId: Option<int>,
    walletId: Option<int>,
    month: CivilDate,
    limit: real,
    threshold: int,
    notifyInApp: bool,
    notifyEmail: bool)

  datatype Channel = InApp | Email

  /** A `budget_alert_logs` row. */
  datatype AlertLog = AlertLog(owner: int, budgetId: int, threshold: int, sentOn: CivilDate, channel: Channel)

  /** A stored chat message: who sent it ("user" or "assistant") and its text. */
  datatype ChatMessage = ChatMessage(sender: string, content: string)

  datatype Db = Db(
    categories: seq<Category>,
    wallets: seq<Wallet>,
    txs: seq<Tx>,
    budgets: seq<Budget>,
    alertLogs: seq<AlertLog>)

  // ---------------------------------------------------------------------------
  // Primary-key lookups (`WHERE <table>_id = $1`)

  function FindCategory(cats: seq<Category>, id: int): (r: Option<Category>)
    ensures r.Some? ==> r.value in cats && r.value.id == id
    ensures r.None? <==> forall c :: c in cats ==> c.id != id
  {
    if cats == [] then None
    else if cats[0].id == id then Some(cats[0])
    else FindCategory(cats[1..], id)
  }

  /** `c.type` after `JOIN categories c ON c.category_id = t.category_id`;
      None when the join finds no category. */
  function CategoryKind(cats: seq<Category>, id: int): (r: Option<CategoryType>)
    ensures r.None? <==> forall c :: c in cats ==> c.id != id
  {
    match FindCategory(cats, id)
    case None => None
    case Some(c) => Some(c.kind)
  }

  function FindWallet(wallets: seq<Wallet>, id: int): (r: Option<Wallet>)
    ensures r.Some? ==> r.value in wallets && r.value.id == id
    ensures r.None? <==> forall w :: w in wallets ==> w.id != id
  {
    if wallets == [] then None
    else if wallets[0].id == id then Some(wallets[0])
    else FindWallet(wallets[1..], id)
  }

  predicate WalletExists(wallets: seq<Wallet>, id: int) {
    exists w :: w in wallets && w.id == id
  }

  function FindTx(txs: seq<Tx>, id: int): (r: Option<nat>)
    ensures r.Some? ==> r.value < |txs| && txs[r.value].id == id
    ensures r.None? <==> forall k :: 0 <= k < |txs| ==> txs[k].id != id
  {
    if txs == [] then None
    else if txs[0].id == id then Some(0)
    else match FindTx(txs[1..], id)
      case None => None
      case Some(k) => Some(k + 1)
  }

  /** A fresh serial id (`transaction_id`, `category_id`, `wallet_id`,
      `budget_id`): larger than the id of every row in the table. */
  function NextId<T>(rows: seq<T>, idOf: T -> int): (id: int)
    ensures forall k :: 0 <= k < |rows| ==> idOf(rows[k]) < id
  {
    if rows == [] then 1
    else
      var rest := NextId(rows[1..], idOf);
      if idOf(rows[0]) < rest then rest else idOf(rows[0]) + 1
  }

  // ---------------------------------------------------------------------------
  // Filtering and summing transactions

  /** `WHERE p(t)` over the transactions, keeping their order. */
  function FilterTx(txs: seq<Tx>, p: Tx -> bool): (r: seq<Tx>)
    ensures |r| <= |txs|
    ensures forall t :: t in r <==> t in txs && p(t)
    ensures multiset(r) <= multiset(txs)
    ensures forall t :: multiset(r)[t] == if p(t) then multiset(txs)[t] else 0
  {
    if txs == [] then []
    else
      assert txs == [txs[0]] + txs[1..];
      if p(txs[0]) then [txs[0]] + FilterTx(txs[1..], p) else FilterTx(txs[1..], p)
  }

  /** The filter keeps the order of the rows: filtering a concatenation is
      concatenating the filtered parts. */
  lemma {:induction false} FilterTxAppend(a: seq<Tx>, b: seq<Tx>, p: Tx -> bool)
    ensures FilterTx(a + b, p) == FilterTx(a, p) + FilterTx(b, p)
  {
    if a == [] {
      assert a + b == b;
    } else {
      var ab := a + b;
      assert ab[0] == a[0] && ab[1..] == a[1..] + b;
      FilterTxAppend(a[1..], b, p);
    }
  }

  /** A single row is kept exactly when it passes. */
  lemma FilterTxSingle(t: Tx, p: Tx -> bool)
    ensures FilterTx([t], p) == if p(t) then [t] else []
  {
    assert [t][1..] == [];
  }

  /** `COALESCE(SUM(t.amount), 0) ... WHERE p(t)`. */
  function SumWhere(txs: seq<Tx>, p: Tx -> bool): real {
    if txs == [] then 0.0
    else (if p(txs[0]) then txs[0].amount else 0.0) + SumWhere(txs[1..], p)
  }

  /** The sum only depends on which transactions the filter keeps. */
  lemma {:induction false} SumWhereSame(txs: seq<Tx>, p: Tx -> bool, q: Tx -> bool)
    requires forall t :: t in txs ==> (p(t) <==> q(t))
    ensures SumWhere(txs, p) == SumWhere(txs, q)
  {
    if txs != [] {
      SumWhereSame(txs[1..], p, q);
    }
  }

  /** With no transaction passing the filter the sum is 0. */
  lemma {:induction false} SumWhereNone(txs: seq<Tx>, p: Tx -> bool)
    requires forall t :: t in txs ==> !p(t)
    ensures SumWhere(txs, p) == 0.0
  {
    if txs != [] {
      SumWhereNone(txs[1..], p);
    }
  }

  lemma {:induction false} SumWhereAppend(a: seq<Tx>, b: seq<Tx>, p: Tx -> bool)
    ensures SumWhere(a + b, p) == SumWhere(a, p) + SumWhere(b, p)
  {
    if a != [] {
      assert (a + b)[1..] == a[1..] + b;
      SumWhereAppend(a[1..], b, p);
    } else {
      assert a + b == b;
    }
  }

  /** Splitting a filter into two disjoint parts splits the sum. */
  lemma {:induction false} SumWhereSplit(txs: seq<Tx>, p: Tx -> bool, q: Tx -> bool, r: Tx -> bool)
    requires forall t :: t in txs ==> (p(t) <==> q(t) || r(t)) && !(q(t) && r(t))
    ensures SumWhere(txs, p) == SumWhere(txs, q) + SumWhere(txs, r)
  {
    if txs != [] {
      SumWhereSplit(txs[1..], p, q, r);
    }
  }

  /** Summing the kept rows after filtering is summing with the filter. */
  lemma {:induction false} SumWhereFilter(txs: seq<Tx>, p: Tx -> bool)
    ensures SumWhere(txs, p) == SumWhere(FilterTx(txs, p), t => true)
  {
    if txs != [] {
      SumWhereFilter(txs[1..], p);
    }
  }

  /** Over non-negative amounts a wider filter never sums to less. */
  lemma {:induction false} SumWhereMono(txs: seq<Tx>, p: Tx -> bool, q: Tx -> bool)
    requires forall t :: t in txs ==> t.amount >= 0.0 && (p(t) ==> q(t))
    ensures SumWhere(txs, p) <= SumWhere(txs, q)
  {
    if txs != [] {
      SumWhereMono(txs[1..], p, q);
    }
  }

  lemma {:induction false} SumWhereNonNegative(txs: seq<Tx>, p: Tx -> bool)
    requires forall t :: t in txs ==> t.amount >= 0.0
    ensures SumWhere(txs, p) >= 0.0
  {
    if txs != [] {
      SumWhereNonNegative(txs[1..], p);
    }
  }

  /** `p` is `spent` as a percentage of `limit`. */
  predicate IsPercentOf(p: real, spent: real, limit: real) {
    p * limit == spent * 100.0
  }

  /** `(spent / limit) * 100`: the share of a positive limit already spent,
      in percent. */
  function Percentage(spent: real, limit: real): (p: real)
    requires limit > 0.0
    ensures IsPercentOf(p, spent, limit)
    ensures p >= 100.0 <==> spent >= limit
  {
    assert spent / limit * limit == spent;
    spent / limit * 100.0
  }

  /** A part of a positive whole is between 0 and 100 percent of it. */
  lemma PercentBounds(p: real, part: real, whole: real)
    requires whole > 0.0 && 0.0 <= part <= whole
    requires IsPercentOf(p, part, whole)
    ensures 0.0 <= p <= 100.0
  {
    assert p * whole <= 100.0 * whole;
    assert 0.0 <= p * whole;
  }

  // ---------------------------------------------------------------------------
  // The filter shared by the chatbot queries and the budget checks

  /** The user's live transactions whose joined category has type `kind` and
      whose date lies in `[start, end)`. */
  predicate Counted(cats: seq<Category>, user: int, kind: CategoryType, start: Date, end: Date, t: Tx) {
    t.owner == user && !t.deleted && CategoryKind(cats, t.categoryId) == Some(kind)
    && InRange(t.date, start, end)
  }

  /** The same transactions as `Counted` with a month range, described by
      the month they fall in rather than by dates. */
  predicate InMonth(cats: seq<Category>, user: int, kind: CategoryType, monthIndex: int, t: Tx) {
    t.owner == user && !t.deleted && CategoryKind(cats, t.categoryId) == Some(kind)
    && MonthIndex(t.date) == monthIndex
  }

  /** Filtering on the range of `GetMonthRange(now, offset)` keeps exactly
      the transactions dated in the target month. */
  lemma MonthFilterIsMonth(cats: seq<Category>, user: int, kind: CategoryType, now: CivilDate, offset: int, t: Tx)
    ensures var r := GetMonthRange(now, offset);
            Counted(cats, user, kind, r.start, r.end, t)
            <==> InMonth(cats, user, kind, MonthIndex(now) + offset, t)
  {
    MonthRangeCoversMonth(now, offset, t.date);
  }

  /** Summing over a month range is summing over the target month. */
  lemma MonthSum(db: Db, user: int, kind: CategoryType, now: CivilDate, offset: int)
    ensures var r := GetMonthRange(now, offset);
            SumWhere(db.txs, t => Counted(db.categories, user, kind, r.start, r.end, t))
            == SumWhere(db.txs, t => InMonth(db.categories, user, kind, MonthIndex(now) + offset, t))
  {
    var r := GetMonthRange(now, offset);
    forall t | t in db.txs
      ensures Counted(db.categories, user, kind, r.start, r.end, t)
              <==> InMonth(db.categories, user, kind, MonthIndex(now) + offset, t)
    {
      MonthFilterIsMonth(db.categories, user, kind, now, offset, t);
    }
    SumWhereSame(db.txs, t => Counted(db.categories, user, kind, r.start, r.end, t),
                 t => InMonth(db.categories, user, kind, MonthIndex(now) + offset, t));
  }
}

=== FILE: orchestrator.dfy ===
/** `runGeminiWithTools`: at most three rounds in which the model answers,
    asks for tool calls, or fails. The model is an oracle from the
    conversation so far to its response. */
module Orchestrator {
  import opened Common
  import opened Js
  import opened Calendar
  import opened Ledger
  import opened Assistant

  /** One `generateContent` call: an error, or a result carrying function
      calls and text ("" when absent). */
  datatype ModelResponse = Failure(err: ModelError) | Response(calls: seq<FunctionCall>, text: string)

  /** What the tools see: the ledger, the user, the host's date and the
      Vietnamese clock. */
  datatype Env = Env(db: Db, user: int, now: CivilDate, vn: YearMonth)

  /** The result recorded for each function call. */
  type Tools = FunctionCall -> ToolResult

  /** The assistant's tool table run against `env`. */
  function AssistantTools(env: Env): Tools {
    call => ToolResultFor(env.db, env.user, env.now, env.vn, call)
  }

  const MaxIterations: nat := 3
  const FallbackText := "Xin lỗi, mình chưa xử lý được câu hỏi này."
  const GenericApology := "Xin lỗi, hệ thống trợ lý đang gặp lỗi. Bạn thử lại sau nhé."
  const ExhaustedApology := "Xin lỗi, câu hỏi này cần nhiều bước xử lý hơn. Bạn thử hỏi cụ thể hơn (tháng/năm, danh mục, ví) nhé."

  /** `${sec ?? 60}`. */
  function SecondsText(sec: Option<Num>): (r: string)
    ensures sec.None? ==> r == "60"
    ensures sec.Some? && sec.value.Finite? && sec.value.r >= 0.0 && sec.value.r == sec.value.r.Floor as real
            ==> r == NatToString(sec.value.r.Floor) && DigitsValue(r) as real == sec.value.r
  {
    match sec
    case None => "60"
    case Some(n) => ToJsString(Number(n))
  }

  const QuotaPrefix := "Bạn đang bị giới hạn lượt gọi AI (quota). Vui lòng thử lại sau khoảng "
  const QuotaSuffix := " giây nhé."

  function QuotaReply(err: ModelError): (r: string)
    ensures |r| > |QuotaPrefix| + |QuotaSuffix|
    ensures r[..|QuotaPrefix|] == QuotaPrefix && r[|r| - |QuotaSuffix|..] == QuotaSuffix
    ensures r[|QuotaPrefix|..|r| - |QuotaSuffix|] == SecondsText(ParseRetryAfterSeconds(err))
  {
    QuotaPrefix + SecondsText(ParseRetryAfterSeconds(err)) + QuotaSuffix
  }

  lemma QuotaNotApology(q: string)
    requires |q| > |QuotaPrefix| && q[..|QuotaPrefix|] == QuotaPrefix
    ensures q != GenericApology
  {
    assert q[0] == QuotaPrefix[0];
  }

  /** The reply to a failed model call. */
  function FailureReply(err: ModelError): (r: string)
    ensures r != GenericApology <==> IsQuota429(err.message)
    ensures IsQuota429(err.message) ==> |r| > |QuotaPrefix| && r[..|QuotaPrefix|] == QuotaPrefix
  {
    if IsQuota429(err.message) then
      var q := QuotaReply(err);
      QuotaNotApology(q);
      q
    else GenericApology
  }

  function ResultTurn(tools: Tools, call: FunctionCall): Turn {
    Turn(UserRole, ResponsePart(call.name, tools(call)))
  }

  /** The turns a round of function calls adds: for each call in request
      order, the model's call followed by the user's function response. */
  function ToolTurns(tools: Tools, calls: seq<FunctionCall>): (r: seq<Turn>)
    ensures |r| == 2 * |calls|
    ensures forall k :: 0 <= k < |r| ==> !r[k].part.TextPart?
    ensures forall k :: 0 <= k < |calls| ==>
              r[2 * k] == Turn(ModelRole, CallPart(calls[k])) && r[2 * k + 1] == ResultTurn(tools, calls[k])
  {
    if calls == [] then []
    else
      var prefix := calls[..|calls| - 1];
      var last := calls[|calls| - 1];
      var head := ToolTurns(tools, prefix);
      var r := head + [Turn(ModelRole, CallPart(last)), ResultTurn(tools, last)];
      assert forall k :: 0 <= k < |prefix| ==> calls[k] == prefix[k];
      r
  }

  /** How a run ends: the reply, how many times the model was called and
      the conversation as last sent. */
  datatype Conversation = Conversation(reply: string, modelCalls: nat, contents: seq<Turn>)

  /** The rounds from `round` on, given the conversation so far. */
  function Converse(tools: Tools, respond: seq<Turn> -> ModelResponse, contents: seq<Turn>, round: nat): (c: Conversation)
    requires round <= MaxIterations
    ensures round < MaxIterations ==> 1 <= c.modelCalls
    ensures c.modelCalls <= MaxIterations - round
    decreases MaxIterations - round
  {
    if round == MaxIterations then Conversation(ExhaustedApology, 0, contents)
    else
      match respond(contents)
      case Failure(err) => Conversation(FailureReply(err), 1, contents)
      case Response(calls, text) =>
        if calls != [] then
          var next := contents + ToolTurns(tools, calls);
          var rest := Converse(tools, respond, next, round + 1);
          Conversation(rest.reply, rest.modelCalls + 1, rest.contents)
        else
          Conversation(if text == [] then FallbackText else text, 1, contents)
  }

  /** The inner `for (const fc of result.functionCalls)` loop: runs each
      call's tool and appends its two turns. */
  method AppendToolTurns(tools: Tools, contents: seq<Turn>, calls: seq<FunctionCall>) returns (r: seq<Turn>)
    ensures r == contents + ToolTurns(tools, calls)
  {
    r := contents;
    var j := 0;
    while j < |calls|
      invariant 0 <= j <= |calls|
      invariant r == contents + ToolTurns(tools, calls[..j])
    {
      var fc := calls[j];
      assert calls[..j + 1][..j] == calls[..j];
      r := r + [Turn(ModelRole, CallPart(fc)), ResultTurn(tools, fc)];
      j := j + 1;
    }
    assert calls[..j] == calls;
  }

  /** One iteration: call the model once; stop on a failure or an answer,
      otherwise run the requested tools and go on with the longer
      conversation. */
  method Round(tools: Tools, respond: seq<Turn> -> ModelResponse, contents: seq<Turn>, i: nat)
    returns (done: bool, reply: string, next: seq<Turn>)
    requires i < MaxIterations
    ensures done ==> Converse(tools, respond, contents, i) == Conversation(reply, 1, contents)
    ensures !done ==>
              var rest := Converse(tools, respond, next, i + 1);
              Converse(tools, respond, contents, i) == Conversation(rest.reply, rest.modelCalls + 1, rest.contents)
  {
    next := contents;
    var result := respond(contents);
    if result.Failure? {
      return true, FailureReply(result.err), contents;
    }
    if result.calls == [] {
      return true, (if result.text == [] then FallbackText else result.text), contents;
    }
    next := AppendToolTurns(tools, contents, result.calls);
    done, reply := false, "";
  }

  /** A run's outcome with `n` earlier model calls counted in. */
  function After(n: nat, c: Conversation): Conversation {
    Conversation(c.reply, c.modelCalls + n, c.contents)
  }

  /** The `for (let i = 0; i < maxIterations; i++)` loop from the
      conversation `start` on. */
  method RunRounds(tools: Tools, respond: seq<Turn> -> ModelResponse, start: seq<Turn>)
    returns (reply: string, modelCalls: nat, contents: seq<Turn>)
    ensures Conversation(reply, modelCalls, contents) == Converse(tools, respond, start, 0)
  {
    contents := start;
    var i := 0;
    while i < MaxIterations
      invariant 0 <= i <= MaxIterations
      invariant Converse(tools, respond, start, 0) == After(i, Converse(tools, respond, contents, i))
    {
      var done, r, next := Round(tools, respond, contents, i);
      if done {
        return r, i + 1, contents;
      }
      contents := next;
      i := i + 1;
    }
    return ExhaustedApology, i, contents;
  }

  /** `runGeminiWithTools({userId, history, latestMessage})` with the model
      as `respond`: a bounded loop that appends two turns per function call
      and stops at the first answer, the first failure, or after three
      rounds. */
  method RunWithTools(env: Env, respond: seq<Turn> -> ModelResponse, history: seq<ChatMessage>, latest: string)
    returns (reply: string, modelCalls: nat, contents: seq<Turn>)
    ensures Conversation(reply, modelCalls, contents) == Converse(AssistantTools(env), respond, HistoryToContents(history, latest), 0)
    ensures 1 <= modelCalls <= MaxIterations
  {
    reply, modelCalls, contents := RunRounds(AssistantTools(env), respond, HistoryToContents(history, latest));
  }

  /** A round of function calls hands the longer conversation to the next
      round and counts one model call. */
  lemma ConverseStep(tools: Tools, respond: seq<Turn> -> ModelResponse, contents: seq<Turn>, round: nat)
    requires round < MaxIterations
    requires respond(contents).Response? && respond(contents).calls != []
    ensures Converse(tools, respond, contents, round)
            == After(1, Converse(tools, respond, contents + ToolTurns(tools, respond(contents).calls), round + 1))
  {}

  /** The loop only ever appends to the conversation, and only function
      calls and their responses: the history and the latest message stay in
      front. */
  lemma {:induction false} ConverseOnlyAppends(tools: Tools, respond: seq<Turn> -> ModelResponse, contents: seq<Turn>, round: nat)
    requires round <= MaxIterations
    ensures var c := Converse(tools, respond, contents, round);
            && |contents| <= |c.contents| && c.contents[..|contents|] == contents
            && forall k :: |contents| <= k < |c.contents| ==> !c.contents[k].part.TextPart?
    decreases MaxIterations - round
  {
    var c0 := Converse(tools, respond, contents, round);
    if round < MaxIterations && respond(contents).Response? && respond(contents).calls != [] {
      var calls := respond(contents).calls;
      var next := contents + ToolTurns(tools, calls);
      ConverseOnlyAppends(tools, respond, next, round + 1);
      ConverseStep(tools, respond, contents, round);
      var c := Converse(tools, respond, next, round + 1);
      assert c0.contents == c.contents;
      assert c.contents[..|contents|] == c.contents[..|next|][..|contents|];
      forall k | |contents| <= k < |next|
        ensures !c.contents[k].part.TextPart?
      {
        assert c.contents[k] == next[k] == ToolTurns(tools, calls)[k - |contents|];
      }
    } else {
      assert c0.contents == contents;
    }
  }

  /** A text response ends the run at once: its text, or the fixed fallback
      when the text is empty. */
  lemma AnswerEndsRun(tools: Tools, respond: seq<Turn> -> ModelResponse, contents: seq<Turn>, round: nat, text: string)
    requires round < MaxIterations
    requires respond(contents) == Response([], text)
    ensures Converse(tools, respond, contents, round)
            == Conversation(if text == [] then FallbackText else text, 1, contents)
  {}

  /** A failing model call ends the run: the quota message when the error
      is a 429, else the generic apology. */
  lemma FailureEndsRun(tools: Tools, respond: seq<Turn> -> ModelResponse, contents: seq<Turn>, round: nat, err: ModelError)
    requires round < MaxIterations
    requires respond(contents) == Failure(err)
    ensures var c := Converse(tools, respond, contents, round);
            && c.modelCalls == 1 && c.contents == contents
            && (IsQuota429(err.message) ==> c.reply == QuotaReply(err))
            && (!IsQuota429(err.message) ==> c.reply == GenericApology)
  {}

  /** Without a "retry in" delay the quota message asks to wait 60 seconds. */
  lemma QuotaWaitDefaultsToSixty(msg: string)
    requires IsQuota429(msg) && !Contains(Lower(msg), "retry in")
    ensures FailureReply(ModelError(msg, None)) == QuotaPrefix + "60" + QuotaSuffix
  {
    NoRetryPhraseNoDelay(msg);
  }

  /** Three rounds of function calls exhaust the loop: the model was called
      three times, every round's turns were appended in order, and the run
      ends with the fixed apology. */
  lemma ThreeToolRoundsExhaust(tools: Tools, respond: seq<Turn> -> ModelResponse, c0: seq<Turn>,
                               calls0: seq<FunctionCall>, calls1: seq<FunctionCall>, calls2: seq<FunctionCall>,
                               t0: string, t1: string, t2: string)
    requires calls0 != [] && calls1 != [] && calls2 != []
    requires respond(c0) == Response(calls0, t0)
    requires respond(c0 + ToolTurns(tools, calls0)) == Response(calls1, t1)
    requires respond(c0 + ToolTurns(tools, calls0) + ToolTurns(tools, calls1)) == Response(calls2, t2)
    ensures Converse(tools, respond, c0, 0)
            == Conversation(ExhaustedApology, 3,
                            c0 + ToolTurns(tools, calls0) + ToolTurns(tools, calls1) + ToolTurns(tools, calls2))
  {
    var c1 := c0 + ToolTurns(tools, calls0);
    var c2 := c1 + ToolTurns(tools, calls1);
    var c3 := c2 + ToolTurns(tools, calls2);
    assert Converse(tools, respond, c3, 3) == Conversation(ExhaustedApology, 0, c3);
    assert Converse(tools, respond, c2, 2) == Conversation(ExhaustedApology, 1, c3);
    assert Converse(tools, respond, c1, 1) == Conversation(ExhaustedApology, 2, c3);
  }

  /** A call to a tool that does not exist is answered with an error result
      in the conversation instead of ending the run. */
  lemma UnknownToolAnswered(env: Env, call: FunctionCall)
    requires call.name !in ToolNames
    ensures ToolTurns(AssistantTools(env), [call])
            == [Turn(ModelRole, CallPart(call)),
                Turn(UserRole, ResponsePart(call.name, ToolError("Unknown tool: " + call.name)))]
  {
    var r := ToolTurns(AssistantTools(env), [call]);
    assert r[0] == Turn(ModelRole, CallPart(call));
    assert r[1] == ResultTurn(AssistantTools(env), call);
  }
}

=== FILE: settings.dfy ===
/** src/services/settingsService.js: per-user display settings, read with a
    get-or-create and written with a COALESCE upsert. The table holds at
    most one row per user (`ON CONFLICT (user_id)`), so it is a map from
    user id to that user's row. */
module Settings {
  import opened Common

  /** The stored columns `dark_mode`, `locale` and `timezone`. */
  datatype Prefs = Prefs(darkMode: bool, locale: string, timezone: string)

  /** The settings table, keyed by `user_id`. */
  type Store = map<int, Prefs>

  /** The object handed to the front end (timestamps left out). */
  datatype SettingsDto = SettingsDto(darkMode: bool, locale: string, timezone: string)

  /** `mapSettingsRow(row)`: no row gives null; a row gives its columns under
      the front end's names. */
  function MapSettingsRow(row: Option<Prefs>): (r: Option<SettingsDto>)
    ensures r.None? <==> row.None?
    ensures r.Some? ==> r.value.darkMode == row.value.darkMode
                        && r.value.locale == row.value.locale
                        && r.value.timezone == row.value.timezone
  {
    match row
    case None => None
    case Some(p) => Some(SettingsDto(p.darkMode, p.locale, p.timezone))
  }

  /** The mapping loses nothing: different rows give different objects. */
  lemma MapSettingsRowInjective(a: Option<Prefs>, b: Option<Prefs>)
    ensures MapSettingsRow(a) == MapSettingsRow(b) <==> a == b
  {
  }

  function Dto(p: Prefs): SettingsDto {
    MapSettingsRow(Some(p)).value
  }

  /** `getSettingsByUser(userId)`: the user's row when there is one, with
      the table untouched; otherwise a row holding the table's column
      defaults is inserted for that user and returned. Other users' rows
      never change. */
  function GetSettingsByUser(s: Store, user: int, tableDefaults: Prefs): (r: (Store, SettingsDto))
    ensures r.0.Keys == s.Keys + {user}
    ensures forall u :: u in s ==> r.0[u] == s[u]
    ensures user !in s ==> r.0[user] == tableDefaults
    ensures r.1 == Dto(r.0[user])
  {
    if user in s then (s, Dto(s[user]))
    else
      var s' := s[user := tableDefaults];
      (s', Dto(tableDefaults))
  }

  /** Reading twice: the second read sees the first read's store and
      answer, and changes nothing. */
  lemma GetStable(s: Store, user: int, tableDefaults: Prefs)
    ensures var (s1, v1) := GetSettingsByUser(s, user, tableDefaults);
            GetSettingsByUser(s1, user, tableDefaults) == (s1, v1)
  {
  }

  /** The payload of `updateSettings`; None stands for null or undefined. */
  datatype SettingsPatch = SettingsPatch(darkMode: Option<bool>, locale: Option<string>, timezone: Option<string>)

  const EmptyPatch: SettingsPatch := SettingsPatch(None, None, None)

  /** The literals the INSERT branch falls back on. */
  const DefaultPrefs: Prefs := Prefs(false, "vi-VN", "Asia/Ho_Chi_Minh")

  /** `COALESCE($n, base)` for each column. */
  function Coalesce(p: SettingsPatch, base: Prefs): (r: Prefs)
    ensures r.darkMode == (if p.darkMode.Some? then p.darkMode.value else base.darkMode)
    ensures r.locale == (if p.locale.Some? then p.locale.value else base.locale)
    ensures r.timezone == (if p.timezone.Some? then p.timezone.value else base.timezone)
  {
    Prefs(if p.darkMode.Some? then p.darkMode.value else base.darkMode,
          if p.locale.Some? then p.locale.value else base.locale,
          if p.timezone.Some? then p.timezone.value else base.timezone)
  }

  /** `updateSettings(userId, payload)`: an upsert. A user without a row gets
      one whose omitted fields take the defaults (dark mode off, "vi-VN",
      "Asia/Ho_Chi_Minh"); a user with a row keeps the stored value of every
      omitted field. Only that user's row changes, and it is returned. */
  function UpdateSettings(s: Store, user: int, p: SettingsPatch): (r: (Store, SettingsDto))
    ensures r.0.Keys == s.Keys + {user}
    ensures forall u :: u in s && u != user ==> r.0[u] == s[u]
    ensures var base := if user in s then s[user] else DefaultPrefs;
            r.0[user] == Coalesce(p, base)
    ensures r.1 == Dto(r.0[user])
  {
    var row := if user in s then Coalesce(p, s[user]) else Coalesce(p, DefaultPrefs);
    (s[user := row], Dto(row))
  }

  /** After an update, reading returns the updated row and inserts nothing,
      whatever the table's column defaults. */
  lemma UpdateThenGet(s: Store, user: int, p: SettingsPatch, tableDefaults: Prefs)
    ensures var (s1, v1) := UpdateSettings(s, user, p);
            GetSettingsByUser(s1, user, tableDefaults) == (s1, v1)
  {
  }

  /** The patch that applies `first` and then `second`: a field given in
      `second` wins, otherwise the one given in `first`. */
  function Then(first: SettingsPatch, second: SettingsPatch): (r: SettingsPatch)
    ensures forall base :: Coalesce(r, base) == Coalesce(second, Coalesce(first, base))
  {
    SettingsPatch(if second.darkMode.Some? then second.darkMode else first.darkMode,
                  if second.locale.Some? then second.locale else first.locale,
                  if second.timezone.Some? then second.timezone else first.timezone)
  }

  /** Two updates in a row amount to one update with the combined patch,
      whether or not the user had a row before. */
  lemma UpdateCompose(s: Store, user: int, p1: SettingsPatch, p2: SettingsPatch)
    ensures UpdateSettings(UpdateSettings(s, user, p1).0, user, p2) == UpdateSettings(s, user, Then(p1, p2))
  {
    var s1 := UpdateSettings(s, user, p1).0;
    var base := if user in s then s[user] else DefaultPrefs;
    assert s1[user] == Coalesce(p1, base);
    assert UpdateSettings(s1, user, p2).0 == UpdateSettings(s, user, Then(p1, p2)).0;
  }

  /** Sending the same update twice changes nothing the second time. */
  lemma {:induction false} UpdateIdempotent(s: Store, user: int, p: SettingsPatch)
    ensures var (s1, v1) := UpdateSettings(s, user, p);
            UpdateSettings(s1, user, p) == (s1, v1)
  {
    UpdateCompose(s, user, p, p);
    assert Then(p, p) == p;
  }

  /** An empty update leaves an existing row as it is. */
  lemma EmptyUpdateKeeps(s: Store, user: int)
    requires user in s
    ensures UpdateSettings(s, user, EmptyPatch) == (s, Dto(s[user]))
  {
    assert s[user := s[user]] == s;
  }

  /** An empty update and a read do the same thing when the table's column
      defaults are the literals the upsert falls back on. */
  lemma EmptyUpdateIsGet(s: Store, user: int)
    ensures UpdateSettings(s, user, EmptyPatch) == GetSettingsByUser(s, user, DefaultPrefs)
  {
    if user in s {
      EmptyUpdateKeeps(s, user);
    }
  }
}

=== FILE: sorting.dfy ===
/** `ORDER BY <key> DESC [LIMIT n]` over in-memory rows: a stable insertion
    sort on a real-valued key and the top-`n` prefix it yields. */
module Sorting {
  import opened Common

  predicate SortedDesc<T>(s: seq<T>, key: T -> real) {
    forall i, j :: 0 <= i < j < |s| ==> key(s[i]) >= key(s[j])
  }

  /** Inserts `x` after every element whose key is at least `x`'s. */
  function InsertDesc<T>(x: T, s: seq<T>, key: T -> real): (r: seq<T>)
    requires SortedDesc(s, key)
    ensures |r| == |s| + 1
    ensures multiset(r) == multiset(s) + multiset{x}
    ensures SortedDesc(r, key)
  {
    if s == [] then [x]
    else if key(x) > key(s[0]) then
      SortedCons(x, s, key);
      [x] + s
    else
      var rest := InsertDesc(x, s[1..], key);
      assert s == [s[0]] + s[1..];
      assert forall k :: 0 <= k < |s[1..]| ==> key(s[1..][k]) <= key(s[0]) by {
        forall k | 0 <= k < |s[1..]| ensures key(s[1..][k]) <= key(s[0]) {
          assert s[1..][k] == s[k + 1];
        }
      }
      KeysBoundedAfterInsert(rest, s[1..], x, key, key(s[0]));
      SortedCons(s[0], rest, key);
      [s[0]] + rest
  }

  /** A row ranking at least as high as every row of a sorted list can go in
      front of it. */
  lemma SortedCons<T>(h: T, s: seq<T>, key: T -> real)
    requires SortedDesc(s, key)
    requires forall k :: 0 <= k < |s| ==> key(s[k]) <= key(h)
    ensures SortedDesc([h] + s, key)
  {
    var r := [h] + s;
    forall i, j | 0 <= i < j < |r|
      ensures key(r[i]) >= key(r[j])
    {
      assert r[j] == s[j - 1];
      if i > 0 {
        assert r[i] == s[i - 1];
      }
    }
  }

  /** A bound on every key of `s` and on `x` bounds every key of a
      rearrangement of `s` with `x` added. */
  lemma KeysBoundedAfterInsert<T>(r: seq<T>, s: seq<T>, x: T, key: T -> real, b: real)
    requires multiset(r) == multiset(s) + multiset{x}
    requires key(x) <= b
    requires forall k :: 0 <= k < |s| ==> key(s[k]) <= b
    ensures forall k :: 0 <= k < |r| ==> key(r[k]) <= b
  {
    forall k | 0 <= k < |r|
      ensures key(r[k]) <= b
    {
      assert r[k] in multiset(r);
      if r[k] != x {
        assert r[k] in multiset(s);
        var m :| 0 <= m < |s| && s[m] == r[k];
      }
    }
  }

  /** The rows ordered by `key`, largest first; rows with equal keys keep
      their input order. */
  function SortDesc<T>(s: seq<T>, key: T -> real): (r: seq<T>)
    ensures |r| == |s|
    ensures multiset(r) == multiset(s)
    ensures SortedDesc(r, key)
  {
    if s == [] then []
    else
      assert s == s[..|s| - 1] + [s[|s| - 1]];
      InsertDesc(s[|s| - 1], SortDesc(s[..|s| - 1], key), key)
  }

  /** `LIMIT n`: the first `n` rows (all of them when there are fewer). */
  function Take<T>(s: seq<T>, n: nat): (r: seq<T>)
    ensures |r| == if n < |s| then n else |s|
    ensures r == s[..|r|]
  {
    if n < |s| then s[..n] else s
  }

  /** The `n` largest rows by `key`, largest first: at most `n` rows, drawn
      from the input, ordered, and no row left out outranks a row kept. */
  function TopN<T>(s: seq<T>, key: T -> real, n: nat): (r: seq<T>)
    ensures |r| == if n < |s| then n else |s|
    ensures multiset(r) <= multiset(s)
    ensures forall x :: x in r ==> x in s
    ensures SortedDesc(r, key)
    ensures forall x, k :: x in multiset(s) - multiset(r) && 0 <= k < |r| ==> key(x) <= key(r[k])
  {
    var sorted := SortDesc(s, key);
    var r := Take(sorted, n);
    TakeSplit(sorted, |r|);
    forall x, k | x in multiset(s) - multiset(r) && 0 <= k < |r|
      ensures key(x) <= key(r[k])
    {
      SortedSuffixBelowPrefix(sorted, |r|, x, k, key);
    }
    SubMultisetMembers(r, s);
    r
  }

  /** `ORDER BY key DESC LIMIT 1` over the rows that pass `keep`: the first
      such row with the largest key, or None when no row passes. */
  function MaxBy<T>(s: seq<T>, keep: T -> bool, key: T -> real): (r: Option<T>)
    ensures r.None? <==> forall x :: x in s ==> !keep(x)
    ensures r.Some? ==> r.value in s && keep(r.value)
    ensures r.Some? ==> forall x :: x in s && keep(x) ==> key(x) <= key(r.value)
  {
    if s == [] then None
    else
      var best := MaxBy(s[..|s| - 1], keep, key);
      var x := s[|s| - 1];
      assert s == s[..|s| - 1] + [x];
      if keep(x) && (best.None? || key(x) > key(best.value)) then Some(x) else best
  }

  /** One pass over the rows keeping the best so far; a later row replaces
      it only with a strictly larger key. */
  method FindMaxBy<T>(s: seq<T>, keep: T -> bool, key: T -> real) returns (best: Option<T>)
    ensures best == MaxBy(s, keep, key)
  {
    best := None;
    var i := 0;
    while i < |s|
      invariant 0 <= i <= |s|
      invariant best == MaxBy(s[..i], keep, key)
    {
      var x := s[i];
      assert s[..i + 1][..i] == s[..i];
      if keep(x) && (best.None? || key(x) > key(best.value)) {
        best := Some(x);
      }
      i := i + 1;
    }
    assert s[..i] == s;
  }

  /** In rows sorted by `key`, a row past position `cut` ranks no higher than
      any row before it. */
  lemma SortedSuffixBelowPrefix<T>(sorted: seq<T>, cut: nat, x: T, k: nat, key: T -> real)
    requires SortedDesc(sorted, key) && k < cut <= |sorted|
    requires x in multiset(sorted[cut..])
    ensures key(x) <= key(sorted[k])
  {
    var m :| 0 <= m < |sorted[cut..]| && sorted[cut..][m] == x;
    assert sorted[cut + m] == x;
  }

  lemma SubMultisetMembers<T>(r: seq<T>, s: seq<T>)
    requires multiset(r) <= multiset(s)
    ensures forall x :: x in r ==> x in s
  {
    forall x | x in r
      ensures x in s
    {
      assert x in multiset(r);
    }
  }

  /** A row found at two positions is counted at least twice. */
  lemma RepeatCounted<T>(s: seq<T>, i: nat, j: nat)
    requires i < j < |s| && s[i] == s[j]
    ensures multiset(s)[s[i]] >= 2
  {
    assert s == s[..i] + [s[i]] + s[i + 1..j] + [s[j]] + s[j + 1..];
  }

  /** Rows whose keys are pairwise distinct (a primary key) are each counted
      once. */
  lemma {:induction false} DistinctCountedOnce<T>(s: seq<T>, id: T -> int)
    requires forall i, j :: 0 <= i < j < |s| ==> id(s[i]) != id(s[j])
    ensures forall x :: multiset(s)[x] <= 1
  {
    if s != [] {
      var t := s[1..];
      assert s == [s[0]] + t;
      assert forall i, j :: 0 <= i < j < |t| ==> id(t[i]) != id(t[j]) by {
        forall i, j | 0 <= i < j < |t| ensures id(t[i]) != id(t[j]) {
          assert t[i] == s[i + 1] && t[j] == s[j + 1];
        }
      }
      DistinctCountedOnce(t, id);
      assert s[0] !in t by {
        forall k | 0 <= k < |t| ensures t[k] != s[0] {
          assert t[k] == s[k + 1];
        }
      }
    }
  }

  /** In a list where every row is counted at most once, no row repeats. */
  lemma CountedOnceDistinct<T>(s: seq<T>)
    requires forall x :: multiset(s)[x] <= 1
    ensures forall i, j :: 0 <= i < j < |s| ==> s[i] != s[j]
  {
    forall i, j | 0 <= i < j < |s|
      ensures s[i] != s[j]
    {
      if s[i] == s[j] {
        RepeatCounted(s, i, j);
      }
    }
  }

  /** Rows drawn from a list with pairwise distinct keys have pairwise
      distinct keys. */
  lemma DistinctKeysKept<T>(r: seq<T>, s: seq<T>, id: T -> int)
    requires forall i, j :: 0 <= i < j < |s| ==> id(s[i]) != id(s[j])
    requires multiset(r) <= multiset(s)
    ensures forall i, j :: 0 <= i < j < |r| ==> id(r[i]) != id(r[j])
  {
    DistinctCountedOnce(s, id);
    CountedOnceDistinct(r);
    forall i, j | 0 <= i < j < |r|
      ensures id(r[i]) != id(r[j])
    {
      assert r[i] in multiset(s) && r[j] in multiset(s);
      var a :| 0 <= a < |s| && s[a] == r[i];
      var b :| 0 <= b < |s| && s[b] == r[j];
      assert a != b;
    }
  }

  lemma TakeSplit<T>(s: seq<T>, k: nat)
    requires k <= |s|
    ensures multiset(s) == multiset(s[..k]) + multiset(s[k..])
  {
    assert s == s[..k] + s[k..];
  }

  /** Sorting already-sorted rows leaves them as they are. */
  lemma {:induction false} SortDescOfSorted<T>(s: seq<T>, key: T -> real)
    requires SortedDesc(s, key)
    ensures SortDesc(s, key) == s
  {
    if s != [] {
      var p := s[..|s| - 1];
      assert SortedDesc(p, key);
      SortDescOfSorted(p, key);
      InsertDescAtEnd(s[|s| - 1], p, key);
      assert p + [s[|s| - 1]] == s;
    }
  }

  lemma {:induction false} InsertDescAtEnd<T>(x: T, s: seq<T>, key: T -> real)
    requires SortedDesc(s, key)
    requires forall k :: 0 <= k < |s| ==> key(s[k]) >= key(x)
    ensures InsertDesc(x, s, key) == s + [x]
  {
    if s != [] {
      assert SortedDesc(s[1..], key);
      InsertDescAtEnd(x, s[1..], key);
      assert [s[0]] + (s[1..] + [x]) == s + [x];
    }
  }

  /** `LIMIT limit OFFSET offset`: skip `offset` rows, then keep at most
      `limit` of the rest. */
  function Page<T>(s: seq<T>, offset: nat, limit: nat): (r: seq<T>)
    ensures offset >= |s| ==> r == []
    ensures offset < |s| ==> |r| == (if limit < |s| - offset then limit else |s| - offset)
    ensures forall k :: 0 <= k < |r| ==> offset + k < |s| && r[k] == s[offset + k]
  {
    if offset >= |s| then [] else Take(s[offset..], limit)
  }

  /** A page of a rearrangement of `all` is drawn from `all`, and its size
      is fixed by the size of `all`. */
  lemma PageOfPermutation<T>(all: seq<T>, sorted: seq<T>, offset: nat, limit: nat)
    requires multiset(sorted) == multiset(all)
    ensures var r := Page(sorted, offset, limit);
            && multiset(r) <= multiset(all)
            && |r| == (if offset >= |all| then 0 else if limit < |all| - offset then limit else |all| - offset)
            && (forall k :: 0 <= k < |r| ==> offset + k < |all| && r[k] == sorted[offset + k])
  {
    assert |sorted| == |all| by {
      assert |multiset(sorted)| == |multiset(all)|;
    }
    var r := Page(sorted, offset, limit);
    if offset < |sorted| {
      var rest := sorted[offset..];
      assert sorted == sorted[..offset] + rest;
      assert rest == r + rest[|r|..];
    }
  }

  /** Two consecutive pages make up the page covering both. */
  lemma PageTile<T>(s: seq<T>, a: nat, n: nat, m: nat)
    ensures Page(s, a, n) + Page(s, a + n, m) == Page(s, a, n + m)
  {
    var p1, p2, p3 := Page(s, a, n), Page(s, a + n, m), Page(s, a, n + m);
    assert |p1 + p2| == |p3|;
    forall k | 0 <= k < |p3|
      ensures (p1 + p2)[k] == p3[k]
    {
      if k >= |p1| {
        assert p2[k - |p1|] == s[a + n + (k - |p1|)];
      }
    }
  }

  /** The first page holds every row when the limit leaves none out. */
  lemma PageAll<T>(s: seq<T>, limit: nat)
    requires |s| <= limit
    ensures Page(s, 0, limit) == s
  {
  }

  // ---------------------------------------------------------------------------
  // Ordering by two integer columns (`ORDER BY a DESC, b DESC`) with one
  // real key

  /** A strictly increasing image of the integers inside (-1/2, 1/2). */
  function Squash(x: int): (r: real) {
    var a := if x < 0 then -x else x;
    x as real / (2.0 * (a + 1) as real)
  }

  lemma SquashBounds(x: int)
    ensures -0.5 < Squash(x) < 0.5
  {
    var a := if x < 0 then -x else x;
    assert Squash(x) * (2.0 * (a + 1) as real) == x as real;
  }

  lemma MulCancel(x: real, y: real, k: real)
    requires k > 0.0 && x * k < y * k
    ensures x < y
  {
  }

  /** Comparing two fractions with positive denominators by cross-multiplying. */
  lemma DivOrder(p: real, dp: real, q: real, dq: real)
    requires dp > 0.0 && dq > 0.0 && p * dq < q * dp
    ensures p / dp < q / dq
  {
    var a, b, k := p / dp, q / dq, dp * dq;
    assert a * dp == p && b * dq == q;
    assert a * k == p * dq;
    assert b * k == q * dp;
    MulCancel(a, b, k);
  }

  lemma SquashMono(x: int, y: int)
    requires x < y
    ensures Squash(x) < Squash(y)
  {
    var X, Y := x as real, y as real;
    if x >= 0 {
      assert X * (2.0 * (Y + 1.0)) == 2.0 * X * Y + 2.0 * X;
      assert Y * (2.0 * (X + 1.0)) == 2.0 * X * Y + 2.0 * Y;
      DivOrder(X, 2.0 * (X + 1.0), Y, 2.0 * (Y + 1.0));
    } else if y < 0 {
      assert X * (2.0 * (1.0 - Y)) == 2.0 * X - 2.0 * X * Y;
      assert Y * (2.0 * (1.0 - X)) == 2.0 * Y - 2.0 * X * Y;
      DivOrder(X, 2.0 * (1.0 - X), Y, 2.0 * (1.0 - Y));
    } else {
      assert Squash(x) < 0.0 by {
        assert Squash(x) * (2.0 * (1.0 - X)) == X;
      }
      assert Squash(y) >= 0.0 by {
        assert Squash(y) * (2.0 * (Y + 1.0)) == Y;
      }
    }
  }

  /** One real key for the pair (`major`, `minor`): the major column decides
      and the minor one breaks ties. */
  function LexKey(major: int, minor: int): real {
    major as real + Squash(minor)
  }

  /** `LexKey` orders pairs lexicographically, strictly and non-strictly. */
  lemma LexKeyOrder(a1: int, b1: int, a2: int, b2: int)
    ensures LexKey(a1, b1) > LexKey(a2, b2) <==> a1 > a2 || (a1 == a2 && b1 > b2)
    ensures LexKey(a1, b1) >= LexKey(a2, b2) <==> a1 > a2 || (a1 == a2 && b1 >= b2)
  {
    SquashBounds(b1);
    SquashBounds(b2);
    if b1 < b2 {
      SquashMono(b1, b2);
    } else if b2 < b1 {
      SquashMono(b2, b1);
    }
  }
}

=== FILE: transaction_controller.dfy ===
/** src/controllers/transactionController.js: the HTTP handlers that query the
    `transactions` table directly. Each handler is a function from the
    database and the request to the new database and the reply; after a
    successful write the handler runs the budget alert check, whose failure
    (`alertsOk` false) is logged and swallowed. */
module TxController {
  import opened Common
  import opened Js
  import opened Calendar
  import opened Sorting
  import opened Ledger
  import opened Budgets
  import opened Transactions

  /** An HTTP status with the row the JSON body carries, if any. */
  datatype Reply = Reply(status: int, row: Option<Tx>)

  /** `toInt(value, fallback)`: `parseInt(value, 10)`, or the fallback when
      that is NaN. */
  function ToInt(s: string, fallback: Option<int>): (r: Option<int>)
    ensures ParseInt(s).None? ==> r == fallback
    ensures ParseInt(s).Some? ==> r == ParseInt(s)
  {
    match ParseInt(s)
    case None => fallback
    case Some(n) => Some(n)
  }

  /** `toInt` reads back every rendered integer. */
  lemma ToIntOfIntToString(n: int, fallback: Option<int>)
    ensures ToInt(IntToString(n), fallback) == Some(n)
  {
    ParseIntOfIntToString(n);
  }

  /** `toInt` reads a leading number and ignores the text after it, so
      "2024abc" is 2024. */
  lemma ToIntIgnoresSuffix(n: nat, rest: string, fallback: Option<int>)
    requires rest == [] || !IsDigit(rest[0])
    ensures ToInt(NatToString(n) + rest, fallback) == Some(n)
  {
    ParseIntIgnoresSuffix(n, rest);
  }

  /** A text without a digit after its sign gives the fallback. */
  lemma ToIntFallback(s: string, fallback: Option<int>)
    requires s != [] && !IsDigit(s[0]) && s[0] != '-' && s[0] != '+' && !IsSpace(s[0])
    ensures ToInt(s, fallback) == fallback
  {
    TrimStartNoSpace(s);
  }

  /** The budget alert check that follows a successful write. */
  function AfterWrite(db: Db, user: int, today: CivilDate, sentOn: CivilDate, alertsOk: bool): (r: Db)
    ensures r.(alertLogs := db.alertLogs) == db
    ensures alertsOk ==> r == CheckBudgetAlerts(db, user, today, sentOn)
    ensures !alertsOk ==> r == db
  {
    if alertsOk then CheckBudgetAlerts(db, user, today, sentOn) else db
  }

  /** `amt > 0` on a JavaScript number: NaN fails, +Infinity passes. */
  predicate Positive(n: Num) {
    n.PosInf? || (n.Finite? && n.r > 0.0)
  }

  // ---------------------------------------------------------------------------
  // GET /api/transactions

  /** The query string: each parameter is None when absent. */
  datatype ListQuery = ListQuery(month: Option<string>, year: Option<string>, kind: Option<string>, q: Option<string>)

  /** A query parameter that is present and not "". */
  predicate Present(s: Option<string>) {
    s.Some? && s.value != []
  }

  /** `EXTRACT(...) = toInt(param)` when the parameter is present; a
      parameter `toInt` cannot read compares with NULL and so matches no row. */
  predicate FieldMatches(param: Option<string>, field: int) {
    Present(param) ==> ToInt(param.value, None) == Some(field)
  }

  /** `c.type = $n` for the types the handler accepts; any other type does
      not filter. */
  predicate KindMatches(kind: Option<string>, c: Category) {
    (kind == Some("income") ==> c.kind == Income)
    && (kind == Some("expense") ==> c.kind == Expense)
  }

  /** `t.description ILIKE '%q%' OR c.category_name ILIKE '%q%'` on the
      trimmed query, when it is not blank. */
  predicate SearchMatches(q: Option<string>, t: Tx, c: Category) {
    q.Some? && Trim(q.value) != [] ==>
      DescriptionMatches(t.description, Trim(q.value)) || Contains(Lower(c.name), Lower(Trim(q.value)))
  }

  /** A row of the list: the transaction with its category and wallet. */
  datatype ListedRow = ListedRow(tx: Tx, category: Category, wallet: Wallet)

  /** The `WHERE` clause over a transaction joined with its category. */
  predicate Shown(user: int, query: ListQuery, t: Tx, c: Category) {
    t.owner == user && !t.deleted
    && FieldMatches(query.year, t.date.year) && FieldMatches(query.month, t.date.month)
    && KindMatches(query.kind, c) && SearchMatches(query.q, t, c)
  }

  /** `JOIN categories c ... JOIN wallets w ...`: the joined row, if both
      exist. */
  function JoinRow(db: Db, t: Tx): (r: Option<ListedRow>)
    ensures r.Some? <==> FindCategory(db.categories, t.categoryId).Some? && FindWallet(db.wallets, t.walletId).Some?
    ensures r.Some? ==> r.value.tx == t && Some(r.value.category) == FindCategory(db.categories, t.categoryId)
                        && Some(r.value.wallet) == FindWallet(db.wallets, t.walletId)
  {
    match (FindCategory(db.categories, t.categoryId), FindWallet(db.wallets, t.walletId))
    case (Some(c), Some(w)) => Some(ListedRow(t, c, w))
    case _ => None
  }

  predicate RowShown(db: Db, user: int, query: ListQuery, t: Tx) {
    JoinRow(db, t).Some? && Shown(user, query, t, JoinRow(db, t).value.category)
  }

  function ShownRows(db: Db, txs: seq<Tx>, user: int, query: ListQuery): (r: seq<ListedRow>)
    ensures forall v :: v in r <==> v.tx in txs && RowShown(db, user, query, v.tx) && JoinRow(db, v.tx) == Some(v)
    ensures forall v :: multiset(r)[v] == if RowShown(db, user, query, v.tx) && JoinRow(db, v.tx) == Some(v) then multiset(txs)[v.tx] else 0
  {
    if txs == [] then []
    else
      var t := txs[0];
      var rest := ShownRows(db, txs[1..], user, query);
      assert forall u :: u in txs <==> u == t || u in txs[1..];
      assert txs == [t] + txs[1..];
      if RowShown(db, user, query, t) then [JoinRow(db, t).value] + rest else rest
  }

  function RowRecency(v: ListedRow): real {
    TxRecency(v.tx)
  }

  /** `listTransactions`: every joined live row of the user passing the
      filters, and only those, newest first with the larger id first on the
      same date. */
  function ListTransactionsReply(db: Db, user: int, query: ListQuery): (r: seq<ListedRow>)
    ensures forall v :: v in r <==> v.tx in db.txs && RowShown(db, user, query, v.tx) && JoinRow(db, v.tx) == Some(v)
    ensures forall i, j :: 0 <= i < j < |r| ==> NotOlder(r[i].tx, r[j].tx)
    ensures forall v :: v in r ==> v.tx.owner == user && !v.tx.deleted
    ensures forall v :: multiset(r)[v] == if RowShown(db, user, query, v.tx) && JoinRow(db, v.tx) == Some(v) then multiset(db.txs)[v.tx] else 0
  {
    var all := ShownRows(db, db.txs, user, query);
    var r := SortDesc(all, RowRecency);
    forall i, j | 0 <= i < j < |r|
      ensures NotOlder(r[i].tx, r[j].tx)
    {
      NotOlderByRecency(r[i].tx, r[j].tx);
    }
    forall v
      ensures v in r <==> v in all
    {
      assert v in r <==> v in multiset(r);
      assert v in all <==> v in multiset(all);
    }
    r
  }

  /** No row is shown when no transaction passes the filters. */
  lemma {:induction false} NothingShown(db: Db, txs: seq<Tx>, user: int, query: ListQuery)
    requires forall t :: t in txs ==> !RowShown(db, user, query, t)
    ensures ShownRows(db, txs, user, query) == []
  {
    if txs != [] {
      NothingShown(db, txs[1..], user, query);
    }
  }

  /** The year filter with an unreadable year ("abc") lists nothing. */
  lemma UnreadableYearListsNothing(db: Db, user: int, query: ListQuery)
    requires Present(query.year) && ParseInt(query.year.value).None?
    ensures ListTransactionsReply(db, user, query) == []
  {
    assert forall t: Tx :: !FieldMatches(query.year, t.date.year);
    NothingShown(db, db.txs, user, query);
  }

  /** An unknown type does not filter: such a query lists what the query
      without a type lists. */
  lemma UnknownKindIgnored(db: Db, user: int, query: ListQuery)
    requires query.kind != Some("income") && query.kind != Some("expense")
    ensures forall v :: v in ListTransactionsReply(db, user, query) <==> v in ListTransactionsReply(db, user, query.(kind := None))
  {
  }

  // ---------------------------------------------------------------------------
  // POST /api/transactions

  /** `createTransaction`: 400 when `category_id`, `wallet_id` or `amount` is
      falsy, 400 unless `Number(amount) > 0`; otherwise 201 with the inserted
      row (`tx_date` defaulting to CURRENT_DATE), after the alert check. An
      infinite amount passes the check but no `numeric` column can hold it,
      so the insert fails with 500. */
  function CreateTransactionReply(db: Db, user: int, today: CivilDate, sentOn: CivilDate, body: NewTx, alertsOk: bool): (r: (Db, Reply))
    ensures r.1.status == 400 <==>
              !GivenId(body.categoryId) || !GivenId(body.walletId) || !Truthy(body.amount) || !Positive(ToNumber(body.amount))
    ensures r.1.status != 201 ==> r.0 == db && r.1.row.None?
    ensures r.1.status == 201 <==> CreateTransaction(db, user, today, body).Ok?
    ensures r.1.status == 201 ==>
              r.1.row.Some? && r.0.txs == db.txs + [r.1.row.value]
              && r.0 == AfterWrite(db.(txs := r.0.txs), user, today, sentOn, alertsOk)
  {
    if !GivenId(body.categoryId) || !GivenId(body.walletId) || !Truthy(body.amount) then (db, Reply(400, None))
    else
      var amount := ToNumber(body.amount);
      if !Positive(amount) then (db, Reply(400, None))
      else if !amount.Finite? then (db, Reply(500, None))
      else
        var (db1, t) := InsertTx(db, user, body.categoryId.value, body.walletId.value, amount.r,
                                 OrNull(body.description), body.txDate, today);
        (AfterWrite(db1, user, today, sentOn, alertsOk), Reply(201, Some(t)))
  }

  /** Where both accept the payload, the handler inserts the very row the
      service inserts. */
  lemma CreateAgreesWithService(db: Db, user: int, today: CivilDate, sentOn: CivilDate, body: NewTx, alertsOk: bool)
    requires CreateTransaction(db, user, today, body).Ok?
    ensures var (db1, t) := CreateTransaction(db, user, today, body).value;
            CreateTransactionReply(db, user, today, sentOn, body, alertsOk)
              == (AfterWrite(db1, user, today, sentOn, alertsOk), Reply(201, Some(t)))
  {
  }

  // ---------------------------------------------------------------------------
  // PUT /api/transactions/:id

  /** `SET col = COALESCE(x || null, col)`: a falsy or absent value keeps the
      stored one; a given amount is already known to be finite. */
  function Coalesced(t: Tx, body: NewTx): (r: Tx)
    requires body.amount.Undefined? || ToNumber(body.amount).Finite?
    ensures r.id == t.id && r.owner == t.owner && r.deleted == t.deleted
    ensures r.categoryId == (if GivenId(body.categoryId) then body.categoryId.value else t.categoryId)
    ensures r.walletId == (if GivenId(body.walletId) then body.walletId.value else t.walletId)
    ensures body.amount.Undefined? ==> r.amount == t.amount
    ensures !body.amount.Undefined? ==> Finite(r.amount) == ToNumber(body.amount)
    ensures r.description == (if OrNull(body.description).Some? then body.description else t.description)
    ensures r.date == (if body.txDate.Some? then body.txDate.value else t.date)
  {
    t.(categoryId := if GivenId(body.categoryId) then body.categoryId.value else t.categoryId,
       walletId := if GivenId(body.walletId) then body.walletId.value else t.walletId,
       amount := if body.amount.Undefined? then t.amount else ToNumber(body.amount).r,
       description := if OrNull(body.description).Some? then body.description else t.description,
       date := if body.txDate.Some? then body.txDate.value else t.date)
  }

  /** `UPDATE ... WHERE transaction_id = $6 AND user_id = $7 AND deleted_at
      IS NULL`. */
  function CoalesceRows(txs: seq<Tx>, user: int, id: int, body: NewTx): (r: seq<Tx>)
    requires body.amount.Undefined? || ToNumber(body.amount).Finite?
    ensures |r| == |txs|
    ensures forall k :: 0 <= k < |txs| ==>
              r[k] == if LiveOwned(txs[k], user, id) then Coalesced(txs[k], body) else txs[k]
  {
    if txs == [] then []
    else
      var t := txs[0];
      [if LiveOwned(t, user, id) then Coalesced(t, body) else t] + CoalesceRows(txs[1..], user, id, body)
  }

  /** The position of the first live row of the user with that id. */
  function FirstLive(txs: seq<Tx>, user: int, id: int): (r: Option<nat>)
    ensures r.None? <==> forall k :: 0 <= k < |txs| ==> !LiveOwned(txs[k], user, id)
    ensures r.Some? ==> r.value < |txs| && LiveOwned(txs[r.value], user, id)
                        && forall k :: 0 <= k < r.value ==> !LiveOwned(txs[k], user, id)
  {
    if txs == [] then None
    else if LiveOwned(txs[0], user, id) then Some(0)
    else match FirstLive(txs[1..], user, id)
      case None => None
      case Some(k) => Some(k + 1)
  }

  /** `updateTransaction`: 400 for a given amount that is not `> 0`, before
      anything is written; 404 when the user has no live row with that id;
      otherwise every such row takes the truthy fields of the body and the
      reply carries the first of them. */
  function UpdateTransactionReply(db: Db, user: int, id: int, today: CivilDate, sentOn: CivilDate, body: NewTx, alertsOk: bool): (r: (Db, Reply))
    ensures r.1.status == 400 <==> !body.amount.Undefined? && !Positive(ToNumber(body.amount))
    ensures r.1.status == 404 <==>
              (body.amount.Undefined? || Positive(ToNumber(body.amount)))
              && forall k :: 0 <= k < |db.txs| ==> !LiveOwned(db.txs[k], user, id)
    ensures r.1.status in {200, 400, 404, 500}
    ensures r.1.status == 500 <==>
              !body.amount.Undefined? && Positive(ToNumber(body.amount)) && !ToNumber(body.amount).Finite?
              && exists k :: 0 <= k < |db.txs| && LiveOwned(db.txs[k], user, id)
    ensures r.1.status == 200 <==>
              (body.amount.Undefined? || (Positive(ToNumber(body.amount)) && ToNumber(body.amount).Finite?))
              && exists k :: 0 <= k < |db.txs| && LiveOwned(db.txs[k], user, id)
    ensures r.1.status != 200 ==> r.0 == db && r.1.row.None?
    ensures r.1.status == 200 ==>
              (body.amount.Undefined? || ToNumber(body.amount).Finite?)
              && r.0 == AfterWrite(db.(txs := CoalesceRows(db.txs, user, id, body)), user, today, sentOn, alertsOk)
              && r.1.row.Some? && r.1.row.value in r.0.txs
              && r.1.row.value.id == id && r.1.row.value.owner == user && !r.1.row.value.deleted
  {
    var amount := ToNumber(body.amount);
    if !body.amount.Undefined? && !Positive(amount) then (db, Reply(400, None))
    else match FirstLive(db.txs, user, id)
      case None => (db, Reply(404, None))
      case Some(k) =>
        if !body.amount.Undefined? && !amount.Finite? then (db, Reply(500, None))
        else
          var txs := CoalesceRows(db.txs, user, id, body);
          assert txs[k] == Coalesced(db.txs[k], body);
          (AfterWrite(db.(txs := txs), user, today, sentOn, alertsOk), Reply(200, Some(txs[k])))
  }

  /** A body whose every field is absent or falsy, an empty description
      included, leaves the transactions as they were. */
  lemma FalsyBodyKeepsRow(db: Db, user: int, id: int, today: CivilDate, sentOn: CivilDate, body: NewTx, alertsOk: bool)
    requires !GivenId(body.categoryId) && !GivenId(body.walletId) && body.amount.Undefined?
    requires OrNull(body.description).None? && body.txDate.None?
    ensures var (db', reply) := UpdateTransactionReply(db, user, id, today, sentOn, body, alertsOk);
            db'.txs == db.txs && (reply.status == 200 ==> reply.row.value in db.txs)
  {
    var txs := CoalesceRows(db.txs, user, id, body);
    assert txs == db.txs;
  }

  /** The rows an update leaves: the coalesced rows after a 200, the same
      rows otherwise. */
  lemma UpdateReplyTxs(db: Db, user: int, id: int, today: CivilDate, sentOn: CivilDate, body: NewTx, alertsOk: bool)
    ensures var (db', reply) := UpdateTransactionReply(db, user, id, today, sentOn, body, alertsOk);
            && (reply.status == 200 ==> (body.amount.Undefined? || ToNumber(body.amount).Finite?)
                                        && db'.txs == CoalesceRows(db.txs, user, id, body))
            && (reply.status != 200 ==> db'.txs == db.txs)
  {
    var (db', reply) := UpdateTransactionReply(db, user, id, today, sentOn, body, alertsOk);
    if reply.status == 200 {
      var w := db.(txs := CoalesceRows(db.txs, user, id, body));
      assert db' == AfterWrite(w, user, today, sentOn, alertsOk);
      assert db'.(alertLogs := w.alertLogs) == w;
    }
  }

  lemma CoalesceRowsTwice(txs: seq<Tx>, user: int, id: int, body: NewTx)
    requires body.amount.Undefined? || ToNumber(body.amount).Finite?
    ensures CoalesceRows(CoalesceRows(txs, user, id, body), user, id, body) == CoalesceRows(txs, user, id, body)
  {
    var once := CoalesceRows(txs, user, id, body);
    var twice := CoalesceRows(once, user, id, body);
    forall k | 0 <= k < |once|
      ensures twice[k] == once[k]
    {
    }
  }

  /** Sending the same body twice writes nothing more the second time. */
  lemma UpdateTwiceSameRows(db: Db, user: int, id: int, today: CivilDate, sentOn: CivilDate, body: NewTx, alertsOk: bool)
    ensures var (db1, reply) := UpdateTransactionReply(db, user, id, today, sentOn, body, alertsOk);
            reply.status == 200 ==> UpdateTransactionReply(db1, user, id, today, sentOn, body, alertsOk).0.txs == db1.txs
  {
    var (db1, reply) := UpdateTransactionReply(db, user, id, today, sentOn, body, alertsOk);
    if reply.status == 200 {
      UpdateReplyTxs(db, user, id, today, sentOn, body, alertsOk);
      UpdateReplyTxs(db1, user, id, today, sentOn, body, alertsOk);
      CoalesceRowsTwice(db.txs, user, id, body);
    }
  }

  // ---------------------------------------------------------------------------
  // DELETE /api/transactions/:id

  /** `deleteTransaction`: 404 when the user has no live row with that id;
      otherwise the row is only marked deleted (the soft delete of the
      service) and the alert check runs. */
  function DeleteTransactionReply(db: Db, user: int, id: int, today: CivilDate, sentOn: CivilDate, alertsOk: bool): (r: (Db, Reply))
    ensures r.1.status == 404 <==> forall t :: t in db.txs ==> !LiveOwned(t, user, id)
    ensures r.1.status == 404 ==> r.0 == db
    ensures r.1.status != 404 ==>
              r.1.status == 200 && SoftDeleteTransaction(db, user, id).Ok?
              && r.0 == AfterWrite(SoftDeleteTransaction(db, user, id).value, user, today, sentOn, alertsOk)
    ensures |r.0.txs| == |db.txs|
    ensures r.1.row.None?
  {
    match SoftDeleteTransaction(db, user, id)
    case Err(_) => (db, Reply(404, None))
    case Ok(db1) => (AfterWrite(db1, user, today, sentOn, alertsOk), Reply(200, None))
  }

  /** Deleting the same transaction twice: the second request is 404. */
  lemma DeleteTwiceNotFound(db: Db, user: int, id: int, today: CivilDate, sentOn: CivilDate, alertsOk: bool)
    requires DeleteTransactionReply(db, user, id, today, sentOn, alertsOk).1.status == 200
    ensures var db1 := DeleteTransactionReply(db, user, id, today, sentOn, alertsOk).0;
            DeleteTransactionReply(db1, user, id, today, sentOn, alertsOk).1.status == 404
  {
    SoftDeleteHides(db, user, id);
  }

  // ---------------------------------------------------------------------------
  // The swallowed alert failure

  /** Whether the alert check fails changes neither the reply nor the
      transactions, for each of the three writes. */
  lemma AlertFailureInvisible(db: Db, user: int, id: int, today: CivilDate, sentOn: CivilDate, body: NewTx)
    ensures CreateTransactionReply(db, user, today, sentOn, body, true).1 == CreateTransactionReply(db, user, today, sentOn, body, false).1
    ensures CreateTransactionReply(db, user, today, sentOn, body, true).0.txs == CreateTransactionReply(db, user, today, sentOn, body, false).0.txs
    ensures UpdateTransactionReply(db, user, id, today, sentOn, body, true).1 == UpdateTransactionReply(db, user, id, today, sentOn, body, false).1
    ensures UpdateTransactionReply(db, user, id, today, sentOn, body, true).0.txs == UpdateTransactionReply(db, user, id, today, sentOn, body, false).0.txs
    ensures DeleteTransactionReply(db, user, id, today, sentOn, true).1 == DeleteTransactionReply(db, user, id, today, sentOn, false).1
    ensures DeleteTransactionReply(db, user, id, today, sentOn, true).0.txs == DeleteTransactionReply(db, user, id, today, sentOn, false).0.txs
  {
  }
}

=== FILE: transactions.dfy ===
/** src/services/transactionService.js: creating, listing, reading, patching
    and soft-deleting a user's transactions. The database's CURRENT_DATE is
    the parameter `today`; `tx_date` values are already valid dates. */
module Transactions {
  import opened Common
  import opened Js
  import opened Calendar
  import opened Sorting
  import opened Ledger

  datatype TxError = MissingFields | InvalidAmount | NotFound

  /** `!!id` for an id the payload may omit: present and not 0. */
  predicate GivenId(v: Option<int>) {
    v.Some? && v.value != 0
  }

  /** `Number.isFinite(Number(v)) && Number(v) > 0`. */
  predicate ValidAmount(v: JsValue) {
    ToNumber(v).Finite? && ToNumber(v).r > 0.0
  }

  /** The row `INSERT INTO transactions ... RETURNING ...` adds: a fresh id
      and `COALESCE(date, CURRENT_DATE)` as its date. */
  function InsertTx(db: Db, user: int, categoryId: int, walletId: int, amount: real,
                    description: Option<string>, date: Option<CivilDate>, today: CivilDate): (r: (Db, Tx))
    ensures r.0 == db.(txs := db.txs + [r.1])
    ensures r.1.owner == user && r.1.categoryId == categoryId && r.1.walletId == walletId
    ensures r.1.amount == amount && r.1.description == description && !r.1.deleted
    ensures r.1.date == (if date.Some? then date.value else today)
    ensures forall k :: 0 <= k < |db.txs| ==> db.txs[k].id != r.1.id
  {
    var t := Tx(NextId(db.txs, (t: Tx) => t.id), user, categoryId, walletId, amount, description,
                if date.Some? then date.value else today, false);
    (db.(txs := db.txs + [t]), t)
  }

  // ---------------------------------------------------------------------------
  // createTransaction

  /** The payload of `createTransaction`; `txDate` is None when omitted or "". */
  datatype NewTx = NewTx(
    categoryId: Option<int>,
    walletId: Option<int>,
    amount: JsValue,
    description: Option<string>,
    txDate: Option<CivilDate>)

  /** `createTransaction(userId, payload)`: MISSING_FIELDS when an id or the
      amount is falsy, checked first; INVALID_AMOUNT when the amount is not a
      finite positive number; otherwise the new row is appended. */
  function CreateTransaction(db: Db, user: int, today: CivilDate, p: NewTx): (r: Result<(Db, Tx), TxError>)
    ensures r.Err? && r.error == MissingFields
            <==> !GivenId(p.categoryId) || !GivenId(p.walletId) || !Truthy(p.amount)
    ensures r.Err? && r.error == InvalidAmount
            <==> GivenId(p.categoryId) && GivenId(p.walletId) && Truthy(p.amount) && !ValidAmount(p.amount)
    ensures r.Err? ==> r.error != NotFound
    ensures r.Ok? ==>
              var (db', t) := r.value;
              db' == db.(txs := db.txs + [t])
              && t.owner == user && !t.deleted
              && t.categoryId == p.categoryId.value && t.walletId == p.walletId.value
              && ToNumber(p.amount) == Finite(t.amount) && t.amount > 0.0
              && t.description == OrNull(p.description)
              && t.date == (if p.txDate.Some? then p.txDate.value else today)
              && forall k :: 0 <= k < |db.txs| ==> db.txs[k].id != t.id
  {
    if !GivenId(p.categoryId) || !GivenId(p.walletId) || !Truthy(p.amount) then Err(MissingFields)
    else if !ValidAmount(p.amount) then Err(InvalidAmount)
    else
      Ok(InsertTx(db, user, p.categoryId.value, p.walletId.value, ToNumber(p.amount).r,
                  OrNull(p.description), p.txDate, today))
  }

  // ---------------------------------------------------------------------------
  // getTransactionById

  /** A transaction row joined with its category (`JOIN categories c`). */
  datatype TxView = TxView(tx: Tx, category: Category)

  /** `t.transaction_id = $1 AND t.user_id = $2 AND t.deleted_at IS NULL`. */
  predicate LiveOwned(t: Tx, user: int, id: int) {
    t.id == id && t.owner == user && !t.deleted
  }

  /** The first row the lookup query returns, scanning `txs` in order. */
  function FindView(cats: seq<Category>, txs: seq<Tx>, user: int, id: int): (r: Option<TxView>)
    ensures r.None? <==> forall t :: t in txs ==> !LiveOwned(t, user, id) || FindCategory(cats, t.categoryId).None?
    ensures r.Some? ==> r.value.tx in txs && LiveOwned(r.value.tx, user, id)
                        && FindCategory(cats, r.value.tx.categoryId) == Some(r.value.category)
  {
    if txs == [] then None
    else
      var t := txs[0];
      var rest := FindView(cats, txs[1..], user, id);
      assert forall u :: u in txs <==> u == t || u in txs[1..];
      if LiveOwned(t, user, id) then
        match FindCategory(cats, t.categoryId)
        case Some(c) => Some(TxView(t, c))
        case None => rest
      else rest
  }

  /** `getTransactionById(userId, transactionId)`: the user's live row with
      that id and its category, or None (another user's row, a deleted row,
      no row, or a row whose category is gone). */
  function GetTransactionById(db: Db, user: int, id: int): (r: Option<TxView>)
    ensures r.None? <==> forall t :: t in db.txs ==> !LiveOwned(t, user, id) || FindCategory(db.categories, t.categoryId).None?
    ensures r.Some? ==> r.value.tx in db.txs && r.value.tx.id == id && r.value.tx.owner == user && !r.value.tx.deleted
    ensures r.Some? ==> FindCategory(db.categories, r.value.tx.categoryId) == Some(r.value.category)
  {
    FindView(db.categories, db.txs, user, id)
  }

  /** A created transaction can be read back by its id, as long as its
      category exists. */
  lemma GetAfterCreate(db: Db, user: int, today: CivilDate, p: NewTx)
    requires CreateTransaction(db, user, today, p).Ok?
    ensures var (db', t) := CreateTransaction(db, user, today, p).value;
            FindCategory(db.categories, t.categoryId).Some?
            ==> GetTransactionById(db', user, t.id) == Some(TxView(t, FindCategory(db.categories, t.categoryId).value))
  {
    var (db', t) := CreateTransaction(db, user, today, p).value;
    if FindCategory(db.categories, t.categoryId).Some? {
      FindViewAppendFresh(db.categories, db.txs, t, user);
    }
  }

  /** Looking up a row whose id no earlier row has finds that row. */
  lemma {:induction false} FindViewAppendFresh(cats: seq<Category>, txs: seq<Tx>, t: Tx, user: int)
    requires forall k :: 0 <= k < |txs| ==> txs[k].id != t.id
    requires LiveOwned(t, user, t.id) && FindCategory(cats, t.categoryId).Some?
    ensures FindView(cats, txs + [t], user, t.id) == Some(TxView(t, FindCategory(cats, t.categoryId).value))
  {
    if txs == [] {
      assert txs + [t] == [t];
    } else {
      assert (txs + [t])[1..] == txs[1..] + [t];
      assert !LiveOwned(txs[0], user, t.id);
      FindViewAppendFresh(cats, txs[1..], t, user);
    }
  }

  // ---------------------------------------------------------------------------
  // updateTransaction

  /** The payload of `updateTransaction`: None (and `Undefined` for the
      amount) is a field left out. A description can be set to null. */
  datatype TxPatch = TxPatch(
    categoryId: Option<int>,
    walletId: Option<int>,
    amount: JsValue,
    description: Option<Option<string>>,
    txDate: Option<CivilDate>)

  predicate EmptyPatch(p: TxPatch) {
    p.categoryId.None? && p.walletId.None? && p.amount.Undefined? && p.description.None? && p.txDate.None?
  }

  /** The columns the `SET` list assigns, given a valid amount. */
  function Patched(t: Tx, p: TxPatch): (r: Tx)
    requires p.amount.Undefined? || ValidAmount(p.amount)
    ensures r.id == t.id && r.owner == t.owner && r.deleted == t.deleted
    ensures r.categoryId == (if p.categoryId.Some? then p.categoryId.value else t.categoryId)
    ensures r.walletId == (if p.walletId.Some? then p.walletId.value else t.walletId)
    ensures p.amount.Undefined? ==> r.amount == t.amount
    ensures !p.amount.Undefined? ==> ToNumber(p.amount) == Finite(r.amount)
    ensures r.description == (if p.description.Some? then p.description.value else t.description)
    ensures r.date == (if p.txDate.Some? then p.txDate.value else t.date)
  {
    t.(categoryId := if p.categoryId.Some? then p.categoryId.value else t.categoryId,
       walletId := if p.walletId.Some? then p.walletId.value else t.walletId,
       amount := if p.amount.Undefined? then t.amount else ToNumber(p.amount).r,
       description := if p.description.Some? then p.description.value else t.description,
       date := if p.txDate.Some? then p.txDate.value else t.date)
  }

  /** `UPDATE transactions SET ... WHERE transaction_id = $i AND user_id = $j`. */
  function PatchRows(txs: seq<Tx>, user: int, id: int, p: TxPatch): (r: seq<Tx>)
    requires p.amount.Undefined? || ValidAmount(p.amount)
    ensures |r| == |txs|
    ensures forall k :: 0 <= k < |txs| ==>
              r[k] == if txs[k].id == id && txs[k].owner == user then Patched(txs[k], p) else txs[k]
  {
    if txs == [] then []
    else
      var t := txs[0];
      [if t.id == id && t.owner == user then Patched(t, p) else t] + PatchRows(txs[1..], user, id, p)
  }

  /** `updateTransaction(userId, transactionId, payload)`: NOT_FOUND unless
      the user's live row can be read; INVALID_AMOUNT for a given amount that
      is not finite and positive, before anything is written; an empty
      payload returns the row as it is; otherwise the given fields are set on
      the row and it is read again. */
  function UpdateTransaction(db: Db, user: int, id: int, p: TxPatch): (r: Result<(Db, Option<TxView>), TxError>)
    ensures r.Err? && r.error == NotFound <==> GetTransactionById(db, user, id).None?
    ensures r.Err? && r.error == InvalidAmount
            <==> GetTransactionById(db, user, id).Some? && !p.amount.Undefined? && !ValidAmount(p.amount)
    ensures r.Err? ==> r.error != MissingFields
    ensures r.Ok? && EmptyPatch(p) ==> r.value == (db, GetTransactionById(db, user, id))
    ensures r.Ok? ==> r.value.0 == db.(txs := r.value.0.txs) && |r.value.0.txs| == |db.txs|
    ensures r.Ok? && !EmptyPatch(p) ==>
              forall k :: 0 <= k < |db.txs| ==>
                r.value.0.txs[k] == if db.txs[k].id == id && db.txs[k].owner == user then Patched(db.txs[k], p) else db.txs[k]
    ensures r.Ok? ==> r.value.1 == GetTransactionById(r.value.0, user, id)
  {
    match GetTransactionById(db, user, id)
    case None => Err(NotFound)
    case Some(existing) =>
      if !p.amount.Undefined? && !ValidAmount(p.amount) then Err(InvalidAmount)
      else if EmptyPatch(p) then Ok((db, Some(existing)))
      else
        var db' := db.(txs := PatchRows(db.txs, user, id, p));
        Ok((db', GetTransactionById(db', user, id)))
  }

  /** Setting a field twice leaves the value the first setting left. */
  lemma PatchedTwice(t: Tx, p: TxPatch)
    requires p.amount.Undefined? || ValidAmount(p.amount)
    ensures Patched(Patched(t, p), p) == Patched(t, p)
  {
  }

  /** Patching the same rows twice is patching them once. */
  lemma PatchRowsTwice(txs: seq<Tx>, user: int, id: int, p: TxPatch)
    requires p.amount.Undefined? || ValidAmount(p.amount)
    ensures PatchRows(PatchRows(txs, user, id, p), user, id, p) == PatchRows(txs, user, id, p)
  {
    var once := PatchRows(txs, user, id, p);
    var twice := PatchRows(once, user, id, p);
    forall k | 0 <= k < |txs|
      ensures twice[k] == once[k]
    {
      if txs[k].id == id && txs[k].owner == user {
        PatchedTwice(txs[k], p);
      }
    }
  }

  /** Sending the same payload again changes nothing more, as long as the
      patched row can still be read. */
  lemma UpdateIdempotent(db: Db, user: int, id: int, p: TxPatch)
    ensures var r := UpdateTransaction(db, user, id, p);
            r.Ok? && r.value.1.Some? ==> UpdateTransaction(r.value.0, user, id, p) == r
  {
    var r := UpdateTransaction(db, user, id, p);
    if r.Ok? && r.value.1.Some? && !EmptyPatch(p) {
      var db1 := r.value.0;
      assert db1.txs == PatchRows(db.txs, user, id, p);
      PatchRowsTwice(db.txs, user, id, p);
      assert db1.(txs := PatchRows(db1.txs, user, id, p)) == db1;
    }
  }

  // ---------------------------------------------------------------------------
  // softDeleteTransaction

  /** `UPDATE transactions SET deleted_at = now() WHERE transaction_id = $1
      AND user_id = $2 AND deleted_at IS NULL`: the marked rows stay. */
  function MarkDeleted(txs: seq<Tx>, user: int, id: int): (r: seq<Tx>)
    ensures |r| == |txs|
    ensures forall k :: 0 <= k < |txs| ==>
              r[k] == if LiveOwned(txs[k], user, id) then txs[k].(deleted := true) else txs[k]
  {
    if txs == [] then []
    else
      var t := txs[0];
      [if LiveOwned(t, user, id) then t.(deleted := true) else t] + MarkDeleted(txs[1..], user, id)
  }

  /** `softDeleteTransaction(userId, transactionId)`: NOT_FOUND when the user
      has no live row with that id; otherwise that row is marked deleted and
      nothing else changes. */
  function SoftDeleteTransaction(db: Db, user: int, id: int): (r: Result<Db, TxError>)
    ensures r.Err? <==> forall t :: t in db.txs ==> !LiveOwned(t, user, id)
    ensures r.Err? ==> r.error == NotFound
    ensures r.Ok? ==> r.value == db.(txs := r.value.txs) && |r.value.txs| == |db.txs|
    ensures r.Ok? ==> forall k :: 0 <= k < |db.txs| ==>
              r.value.txs[k] == if LiveOwned(db.txs[k], user, id) then db.txs[k].(deleted := true) else db.txs[k]
  {
    if forall t :: t in db.txs ==> !LiveOwned(t, user, id) then Err(NotFound)
    else Ok(db.(txs := MarkDeleted(db.txs, user, id)))
  }

  /** After a soft delete the row can no longer be read, and deleting it
      again is NOT_FOUND. */
  lemma SoftDeleteHides(db: Db, user: int, id: int)
    requires SoftDeleteTransaction(db, user, id).Ok?
    ensures var db' := SoftDeleteTransaction(db, user, id).value;
            GetTransactionById(db', user, id).None?
            && SoftDeleteTransaction(db', user, id) == Err(NotFound)
  {
    var db' := SoftDeleteTransaction(db, user, id).value;
    forall t | t in db'.txs
      ensures !LiveOwned(t, user, id)
    {
      var k :| 0 <= k < |db'.txs| && db'.txs[k] == t;
    }
  }

  // ---------------------------------------------------------------------------
  // listTransactions

  /** The options of `listTransactions`; absent and "" are None, and a
      `limit`/`offset` of None takes the default 50/0. */
  datatype ListOptions = ListOptions(
    fromDate: Option<CivilDate>,
    toDate: Option<CivilDate>,
    walletId: Option<int>,
    categoryId: Option<int>,
    q: string,
    limit: Option<nat>,
    offset: Option<nat>)

  /** `t.description ILIKE '%q%'`: a null description never matches. */
  predicate DescriptionMatches(description: Option<string>, q: string) {
    description.Some? && Contains(Lower(description.value), Lower(q))
  }

  /** The `WHERE` clause `listTransactions` builds. */
  predicate Listed(t: Tx, user: int, o: ListOptions) {
    t.owner == user && !t.deleted
    && (o.fromDate.Some? ==> Key(o.fromDate.value) <= Key(t.date))
    && (o.toDate.Some? ==> Key(t.date) <= Key(o.toDate.value))
    && (GivenId(o.walletId) ==> t.walletId == o.walletId.value)
    && (GivenId(o.categoryId) ==> t.categoryId == o.categoryId.value)
    && (o.q != [] ==> DescriptionMatches(t.description, o.q))
  }

  /** `a` comes no later than `b` under `ORDER BY t.tx_date DESC,
      t.transaction_id DESC`. */
  predicate NotOlder(a: Tx, b: Tx) {
    Key(a.date) > Key(b.date) || (a.date == b.date && a.id >= b.id)
  }

  /** That order as one real key. */
  function TxRecency(t: Tx): real {
    LexKey(Key(t.date), t.id)
  }

  lemma NotOlderByRecency(a: Tx, b: Tx)
    ensures TxRecency(a) >= TxRecency(b) <==> NotOlder(a, b)
  {
    LexKeyOrder(Key(a.date), a.id, Key(b.date), b.id);
    if Key(a.date) == Key(b.date) {
      KeyInjective(a.date, b.date);
    }
  }

  function Recency(v: TxView): real {
    TxRecency(v.tx)
  }

  /** Rows ordered newest first, the larger id first on the same date. */
  predicate NewestFirst(s: seq<TxView>) {
    forall i, j :: 0 <= i < j < |s| ==> NotOlder(s[i].tx, s[j].tx)
  }

  lemma RecencyOrder(s: seq<TxView>)
    requires SortedDesc(s, Recency)
    ensures NewestFirst(s)
  {
    forall i, j | 0 <= i < j < |s|
      ensures NotOlder(s[i].tx, s[j].tx)
    {
      NotOlderByRecency(s[i].tx, s[j].tx);
    }
  }

  /** The joined rows of the transactions passing `Listed`, in table order. */
  function Joined(cats: seq<Category>, txs: seq<Tx>, user: int, o: ListOptions): (r: seq<TxView>)
    ensures forall v :: v in r <==> v.tx in txs && Listed(v.tx, user, o) && FindCategory(cats, v.tx.categoryId) == Some(v.category)
  {
    if txs == [] then []
    else
      var t := txs[0];
      var rest := Joined(cats, txs[1..], user, o);
      assert forall u :: u in txs <==> u == t || u in txs[1..];
      if Listed(t, user, o) && FindCategory(cats, t.categoryId).Some? then
        [TxView(t, FindCategory(cats, t.categoryId).value)] + rest
      else rest
  }

  function DefaultLimit(o: ListOptions): nat {
    if o.limit.Some? then o.limit.value else 50
  }

  function DefaultOffset(o: ListOptions): nat {
    if o.offset.Some? then o.offset.value else 0
  }

  /** `listTransactions(userId, options)`: the page of the user's matching
      live rows, newest first, at most `limit` (default 50) of them. */
  function ListTransactions(db: Db, user: int, o: ListOptions): (r: seq<TxView>)
    ensures |r| <= DefaultLimit(o)
    ensures forall v :: v in r ==> v.tx in db.txs && Listed(v.tx, user, o)
                                   && FindCategory(db.categories, v.tx.categoryId) == Some(v.category)
    ensures NewestFirst(r)
    ensures var all := Joined(db.categories, db.txs, user, o);
            && |r| == (if DefaultOffset(o) >= |all| then 0
                       else if DefaultLimit(o) < |all| - DefaultOffset(o) then DefaultLimit(o)
                       else |all| - DefaultOffset(o))
            && multiset(r) <= multiset(all)
            && forall k :: 0 <= k < |r| ==> DefaultOffset(o) + k < |all| && r[k] == SortDesc(all, Recency)[DefaultOffset(o) + k]
    ensures DefaultOffset(o) == 0 && |Joined(db.categories, db.txs, user, o)| <= DefaultLimit(o) ==>
              forall t :: t in db.txs && Listed(t, user, o) && FindCategory(db.categories, t.categoryId).Some?
                ==> TxView(t, FindCategory(db.categories, t.categoryId).value) in r
  {
    var all := Joined(db.categories, db.txs, user, o);
    var sorted := SortDesc(all, Recency);
    PageOfSorted(all, sorted, DefaultOffset(o), DefaultLimit(o));
    PageOfPermutation(all, sorted, DefaultOffset(o), DefaultLimit(o));
    Page(sorted, DefaultOffset(o), DefaultLimit(o))
  }

  /** Only the filters decide which rows are joined; the page bounds do
      not. */
  lemma {:induction false} JoinedIgnoresPage(cats: seq<Category>, txs: seq<Tx>, user: int, o: ListOptions, o2: ListOptions)
    requires o2 == o.(limit := o2.limit, offset := o2.offset)
    ensures Joined(cats, txs, user, o2) == Joined(cats, txs, user, o)
  {
    if txs != [] {
      JoinedIgnoresPage(cats, txs[1..], user, o, o2);
      assert Listed(txs[0], user, o2) == Listed(txs[0], user, o);
    }
  }

  /** Every page is cut from the same sorted rows, whatever its bounds; with
      `PageTile`, the page of `n` rows at `a` followed by the page of `m`
      rows at `a + n` is the page of `n + m` rows at `a`. */
  lemma ListTransactionsIsPage(db: Db, user: int, o: ListOptions, o2: ListOptions)
    requires o2 == o.(limit := o2.limit, offset := o2.offset)
    ensures ListTransactions(db, user, o2)
            == Page(SortDesc(Joined(db.categories, db.txs, user, o), Recency), DefaultOffset(o2), DefaultLimit(o2))
  {
    JoinedIgnoresPage(db.categories, db.txs, user, o, o2);
  }

  /** A page of the sorted rows is ordered newest first and drawn from the
      rows; the first page holds them all when the limit leaves none out. */
  lemma PageOfSorted(all: seq<TxView>, sorted: seq<TxView>, offset: nat, limit: nat)
    requires multiset(sorted) == multiset(all) && SortedDesc(sorted, Recency)
    ensures var r := Page(sorted, offset, limit);
            NewestFirst(r) && (forall v :: v in r ==> v in all)
            && (offset == 0 && |all| <= limit ==> forall v :: v in all ==> v in r)
  {
    var r := Page(sorted, offset, limit);
    assert SortedDesc(r, Recency) by {
      forall i, j | 0 <= i < j < |r| ensures Recency(r[i]) >= Recency(r[j]) {
        assert r[i] == sorted[offset + i] && r[j] == sorted[offset + j];
      }
    }
    RecencyOrder(r);
    forall v | v in r
      ensures v in all
    {
      var k :| 0 <= k < |r| && r[k] == v;
      assert sorted[offset + k] == v;
      assert v in multiset(sorted);
    }
    if offset == 0 && |all| <= limit {
      assert |sorted| == |all| by {
        assert |multiset(sorted)| == |multiset(all)|;
      }
      PageAll(sorted, limit);
      forall v | v in all
        ensures v in r
      {
        assert v in multiset(all);
      }
    }
  }
}

=== FILE: wallets.dfy ===
/** src/services/walletService.js: listing a user's wallets and the rules for
    creating, editing and deleting them. Errors carry the HTTP status the
    service attaches to them. */
module Wallets {
  import opened Common
  import opened Js
  import opened Sorting
  import opened Ledger

  datatype WalletError =
    | NameRequired     // 400: blank name
    | InvalidBalance   // 400: a balance below 0 (and, see JsBelowZero, one that is no number)
    | NotFound         // 404
    | InUse            // 400: live transactions use the wallet

  function Status(e: WalletError): (code: int)
    ensures code == 404 <==> e == NotFound
    ensures code != 404 ==> code == 400
  {
    if e == NotFound then 404 else 400
  }

  const DefaultColor: string := "#4ECDC4"
  const DefaultKind: string := "standard"

  // ---------------------------------------------------------------------------
  // getWalletsByUser

  /** `WHERE user_id = $1 AND is_archived = false`. */
  predicate Listed(w: Wallet, user: int) {
    w.owner == user && !w.archived
  }

  function ListedRows(ws: seq<Wallet>, user: int): (r: seq<Wallet>)
    ensures forall w :: w in r <==> w in ws && Listed(w, user)
    ensures multiset(r) <= multiset(ws)
    ensures forall w :: multiset(r)[w] == if Listed(w, user) then multiset(ws)[w] else 0
  {
    if ws == [] then []
    else
      var rest := ListedRows(ws[1..], user);
      assert ws == [ws[0]] + ws[1..];
      if Listed(ws[0], user) then [ws[0]] + rest else rest
  }

  /** `ORDER BY wallet_id ASC` as a descending sort on the negated id. */
  function IdDescending(w: Wallet): real {
    -(w.id as real)
  }

  /** `getWalletsByUser(userId)`: the user's wallets that are not archived,
      and only those, by ascending id. */
  function GetWalletsByUser(db: Db, user: int): (r: seq<Wallet>)
    ensures forall w :: w in r <==> w in db.wallets && Listed(w, user)
    ensures forall i, j :: 0 <= i < j < |r| ==> r[i].id <= r[j].id
    ensures forall w :: multiset(r)[w] == if Listed(w, user) then multiset(db.wallets)[w] else 0
  {
    var rows := ListedRows(db.wallets, user);
    var r := SortDesc(rows, IdDescending);
    forall w
      ensures w in r <==> w in rows
    {
      assert w in r <==> w in multiset(r);
      assert w in rows <==> w in multiset(rows);
    }
    r
  }

  /** With `wallet_id` a primary key, every wallet is listed once and the
      ids strictly increase. */
  lemma GetWalletsByUserStrict(db: Db, user: int)
    requires forall i, j :: 0 <= i < j < |db.wallets| ==> db.wallets[i].id != db.wallets[j].id
    ensures var r := GetWalletsByUser(db, user);
            forall i, j :: 0 <= i < j < |r| ==> r[i].id < r[j].id
  {
    var r := GetWalletsByUser(db, user);
    var rows := ListedRows(db.wallets, user);
    assert multiset(r) <= multiset(db.wallets) by {
      assert multiset(r) == multiset(rows);
    }
    DistinctKeysKept(r, db.wallets, (w: Wallet) => w.id);
  }

  // ---------------------------------------------------------------------------
  // The balance check

  /** `n < 0` on a JavaScript number: NaN compares false. */
  predicate JsBelowZero(n: Num) {
    n.NegInf? || (n.Finite? && n.r < 0.0)
  }

  /** The balance check as the service writes it: `balance != null ?
      Number(balance) : fallback`, refused only when that is `< 0`. The
      number it would store, or None when it refuses. */
  function CheckedBalanceAsWritten(v: JsValue, fallback: Num): (r: Option<Num>)
    ensures r.None? <==> !IsNullish(v) && JsBelowZero(ToNumber(v))
    ensures IsNullish(v) ==> r == Some(fallback)
  {
    if IsNullish(v) then Some(fallback)
    else if JsBelowZero(ToNumber(v)) then None
    else Some(ToNumber(v))
  }

  /** A balance that is no number at all ("abc") passes the check as
      written and would be stored as NaN. */
  lemma NaNBalancePasses()
    ensures ToNumber(Str("abc")).NaN?
    ensures CheckedBalanceAsWritten(Str("abc"), Finite(0.0)) == Some(NaN)
  {
    AbcIsNaN();
  }

  lemma AbcIsNaN()
    ensures StringToNumber("abc") == NaN
  {
    TrimOfTrimmed("abc");
    assert DecimalLiteralValue("abc").None? by {
      assert IndexOf("abc", ".", 3).None?;
      assert "abc"[2..3] != ".";
      assert IndexOf("abc", ".", 2).None?;
      assert "abc"[1..2] != ".";
      assert IndexOf("abc", ".", 1).None?;
      assert "abc"[0..1] != ".";
      assert IndexOf("abc", ".", 0).None?;
      assert !IsDigit("abc"[0]);
    }
  }

  /** The balance check as intended: an absent balance takes the fallback;
      a given one must be a finite number of at least 0. */
  function CheckedBalance(v: JsValue, fallback: real): (r: Option<real>)
    ensures IsNullish(v) ==> r == Some(fallback)
    ensures !IsNullish(v) ==> (r.Some? <==> ToNumber(v).Finite? && ToNumber(v).r >= 0.0)
    ensures !IsNullish(v) && r.Some? ==> r.value == ToNumber(v).r
  {
    if IsNullish(v) then Some(fallback)
    else
      var n := ToNumber(v);
      if n.Finite? && n.r >= 0.0 then Some(n.r) else None
  }

  /** The intended check differs from the written one only on NaN and
      +Infinity: wherever the written one yields a finite number, both agree. */
  lemma CheckedBalanceAgrees(v: JsValue, fallback: real)
    ensures CheckedBalance(v, fallback).Some?
            <==> CheckedBalanceAsWritten(v, Finite(fallback)).Some? && CheckedBalanceAsWritten(v, Finite(fallback)).value.Finite?
    ensures CheckedBalance(v, fallback).Some? ==> CheckedBalanceAsWritten(v, Finite(fallback)) == Some(Finite(CheckedBalance(v, fallback).value))
    ensures CheckedBalance(Str("abc"), fallback).None?
  {
    NaNBalancePasses();
  }

  // ---------------------------------------------------------------------------
  // createWallet

  /** The payload of `createWallet`; None stands for null or undefined. The
      name may come as `name`, `wallet_name` or `walletName`. */
  datatype WalletInput = WalletInput(
    name: Option<string>,
    walletName: Option<string>,
    walletNameCamel: Option<string>,
    description: Option<string>,
    icon: Option<string>,
    kind: Option<string>,
    balance: JsValue,
    color: Option<string>)

  /** `a || b || c || ""` over optional texts. */
  function FirstText(a: Option<string>, b: Option<string>, c: Option<string>): (r: string)
    ensures OrNull(a).Some? ==> r == a.value
    ensures OrNull(a).None? && OrNull(b).Some? ==> r == b.value
    ensures OrNull(a).None? && OrNull(b).None? ==> r == (if OrNull(c).Some? then c.value else [])
  {
    if OrNull(a).Some? then a.value
    else if OrNull(b).Some? then b.value
    else if OrNull(c).Some? then c.value
    else []
  }

  /** `x || fallback` over an optional text. */
  function OrDefault(x: Option<string>, fallback: string): (r: string)
    ensures OrNull(x).Some? ==> r == x.value
    ensures OrNull(x).None? ==> r == fallback
  {
    if OrNull(x).Some? then x.value else fallback
  }

  /** `createWallet(userId, payload)`: 400 for a blank name (checked first)
      and for a balance that is not a number of at least 0; otherwise the
      new wallet, with balance 0, color "#4ECDC4" and type "standard" unless
      given, is appended. */
  function CreateWallet(db: Db, user: int, p: WalletInput): (r: Result<(Db, Wallet), WalletError>)
    ensures r.Err? && r.error == NameRequired <==> Trim(FirstText(p.name, p.walletName, p.walletNameCamel)) == []
    ensures r.Err? && r.error == InvalidBalance <==>
              Trim(FirstText(p.name, p.walletName, p.walletNameCamel)) != [] && CheckedBalance(p.balance, 0.0).None?
    ensures r.Err? ==> r.error in {NameRequired, InvalidBalance}
    ensures r.Ok? ==>
              var (db', w) := r.value;
              db' == db.(wallets := db.wallets + [w])
              && w.owner == user && !w.archived
              && w.name == Trim(FirstText(p.name, p.walletName, p.walletNameCamel)) && w.name != []
              && w.description == OrNull(p.description) && w.icon == OrNull(p.icon)
              && w.kind == OrDefault(p.kind, DefaultKind) && w.color == OrDefault(p.color, DefaultColor)
              && Some(w.balance) == CheckedBalance(p.balance, 0.0) && w.balance >= 0.0
              && forall k :: 0 <= k < |db.wallets| ==> db.wallets[k].id < w.id
  {
    var name := Trim(FirstText(p.name, p.walletName, p.walletNameCamel));
    if name == [] then Err(NameRequired)
    else match CheckedBalance(p.balance, 0.0)
      case None => Err(InvalidBalance)
      case Some(balance) =>
        var w := Wallet(NextId(db.wallets, (w: Wallet) => w.id), user, name, OrNull(p.description), OrNull(p.icon),
                        OrDefault(p.kind, DefaultKind), balance, OrDefault(p.color, DefaultColor), false);
        Ok((db.(wallets := db.wallets + [w]), w))
  }

  /** A new wallet is listed for its owner, after every wallet listed
      before. */
  lemma CreatedWalletListed(db: Db, user: int, p: WalletInput)
    requires CreateWallet(db, user, p).Ok?
    ensures var (db', w) := CreateWallet(db, user, p).value;
            w in GetWalletsByUser(db', user)
            && forall x :: x in GetWalletsByUser(db', user) && x != w ==> x.id < w.id
  {
    var (db', w) := CreateWallet(db, user, p).value;
    forall x | x in db'.wallets && x != w
      ensures x.id < w.id
    {
      var k :| 0 <= k < |db'.wallets| && db'.wallets[k] == x;
      assert k < |db.wallets|;
    }
  }

  // ---------------------------------------------------------------------------
  // updateWallet

  /** The fields `updateWallet` reads; None (and a nullish `balance`) stands
      for a field left out. */
  datatype WalletUpdate = WalletUpdate(
    name: Option<string>,
    description: Option<string>,
    icon: Option<string>,
    kind: Option<string>,
    balance: JsValue,
    color: Option<string>)

  /** `SELECT * FROM wallets WHERE wallet_id = $1 AND user_id = $2`: the
      first such row. */
  function FindOwned(ws: seq<Wallet>, user: int, id: int): (r: Option<Wallet>)
    ensures r.None? <==> forall w :: w in ws ==> !(w.id == id && w.owner == user)
    ensures r.Some? ==> r.value in ws && r.value.id == id && r.value.owner == user
  {
    if ws == [] then None
    else if ws[0].id == id && ws[0].owner == user then Some(ws[0])
    else FindOwned(ws[1..], user, id)
  }

  /** The row after the `SET` list: each column the supplied value or the
      current row's. */
  function Edited(w: Wallet, u: WalletUpdate, current: Wallet, balance: real): (r: Wallet)
    ensures r.id == w.id && r.owner == w.owner && r.archived == w.archived
    ensures r.name == (if u.name.Some? then u.name.value else current.name)
    ensures r.description == (if u.description.Some? then u.description else current.description)
    ensures r.icon == (if u.icon.Some? then u.icon else current.icon)
    ensures r.kind == (if u.kind.Some? then u.kind.value else current.kind)
    ensures r.color == (if u.color.Some? then u.color.value else current.color)
    ensures r.balance == balance
  {
    w.(name := if u.name.Some? then u.name.value else current.name,
       description := if u.description.Some? then u.description else current.description,
       icon := if u.icon.Some? then u.icon else current.icon,
       kind := if u.kind.Some? then u.kind.value else current.kind,
       color := if u.color.Some? then u.color.value else current.color,
       balance := balance)
  }

  /** `UPDATE wallets SET ... WHERE wallet_id = $7 AND user_id = $8`. */
  function EditRows(ws: seq<Wallet>, user: int, id: int, u: WalletUpdate, current: Wallet, balance: real): (r: seq<Wallet>)
    ensures |r| == |ws|
    ensures forall k :: 0 <= k < |ws| ==>
              r[k] == if ws[k].id == id && ws[k].owner == user then Edited(ws[k], u, current, balance) else ws[k]
  {
    if ws == [] then []
    else
      var w := ws[0];
      [if w.id == id && w.owner == user then Edited(w, u, current, balance) else w]
        + EditRows(ws[1..], user, id, u, current, balance)
  }

  /** `updateWallet(userId, walletId, updates)`: 404 unless the user owns a
      wallet with that id, then 400 for a bad balance; otherwise the supplied
      fields replace the stored ones (null and undefined keep them). */
  function UpdateWallet(db: Db, user: int, id: int, u: WalletUpdate): (r: Result<(Db, Wallet), WalletError>)
    ensures r.Err? && r.error == NotFound <==> FindOwned(db.wallets, user, id).None?
    ensures r.Err? && r.error == InvalidBalance <==>
              FindOwned(db.wallets, user, id).Some?
              && CheckedBalance(u.balance, FindOwned(db.wallets, user, id).value.balance).None?
    ensures r.Err? ==> r.error in {NotFound, InvalidBalance}
    ensures r.Ok? ==>
              var current := FindOwned(db.wallets, user, id).value;
              var balance := CheckedBalance(u.balance, current.balance).value;
              r.value.0 == db.(wallets := EditRows(db.wallets, user, id, u, current, balance))
              && r.value.1 == Edited(current, u, current, balance)
  {
    match FindOwned(db.wallets, user, id)
    case None => Err(NotFound)
    case Some(current) =>
      match CheckedBalance(u.balance, current.balance)
      case None => Err(InvalidBalance)
      case Some(balance) =>
        Ok((db.(wallets := EditRows(db.wallets, user, id, u, current, balance)), Edited(current, u, current, balance)))
  }

  /** Editing an edited row again, with the same update and any row edited
      the same way as the current one, changes nothing. */
  lemma EditedTwice(w: Wallet, x: Wallet, u: WalletUpdate, current: Wallet, balance: real)
    ensures Edited(Edited(w, u, current, balance), u, Edited(x, u, current, balance), balance)
            == Edited(w, u, current, balance)
  {
  }

  /** The balance the second update computes is the one the first stored. */
  lemma SameBalanceAgain(u: WalletUpdate, current: Wallet, current1: Wallet, balance: real)
    requires CheckedBalance(u.balance, current.balance) == Some(balance)
    requires current1.balance == balance
    ensures CheckedBalance(u.balance, current1.balance) == Some(balance)
  {
  }

  /** The row the second update finds is the first update's row, edited. */
  lemma {:induction false} FindOwnedEdited(ws: seq<Wallet>, user: int, id: int, u: WalletUpdate, current: Wallet, balance: real)
    requires FindOwned(ws, user, id).Some?
    ensures FindOwned(EditRows(ws, user, id, u, current, balance), user, id)
            == Some(Edited(FindOwned(ws, user, id).value, u, current, balance))
  {
    if ws[0].id == id && ws[0].owner == user {
    } else {
      FindOwnedEdited(ws[1..], user, id, u, current, balance);
      assert EditRows(ws, user, id, u, current, balance)[1..] == EditRows(ws[1..], user, id, u, current, balance);
    }
  }

  /** Sending the same update twice changes nothing the second time. */
  lemma UpdateIdempotent(db: Db, user: int, id: int, u: WalletUpdate)
    requires UpdateWallet(db, user, id, u).Ok?
    ensures var (db1, w1) := UpdateWallet(db, user, id, u).value;
            UpdateWallet(db1, user, id, u) == Ok((db1, w1))
  {
    var (db1, w1) := UpdateWallet(db, user, id, u).value;
    var current := FindOwned(db.wallets, user, id).value;
    var balance := CheckedBalance(u.balance, current.balance).value;
    assert db1.wallets == EditRows(db.wallets, user, id, u, current, balance);
    assert w1 == Edited(current, u, current, balance);
    FindOwnedEdited(db.wallets, user, id, u, current, balance);
    assert FindOwned(db1.wallets, user, id) == Some(w1);
    SameBalanceAgain(u, current, w1, balance);
    var rows := EditRows(db1.wallets, user, id, u, w1, balance);
    forall k | 0 <= k < |db1.wallets|
      ensures rows[k] == db1.wallets[k]
    {
      if db.wallets[k].id == id && db.wallets[k].owner == user {
        EditedTwice(db.wallets[k], current, u, current, balance);
      }
    }
    assert rows == db1.wallets;
    EditedTwice(current, current, u, current, balance);
  }

  // ---------------------------------------------------------------------------
  // deleteWallet

  /** `wallet_id = $1 AND user_id = $2 AND deleted_at IS NULL`. */
  predicate UsesWallet(t: Tx, user: int, id: int) {
    t.walletId == id && t.owner == user && !t.deleted
  }

  function RemoveRows(ws: seq<Wallet>, user: int, id: int): (r: seq<Wallet>)
    ensures forall w :: w in r <==> w in ws && !(w.id == id && w.owner == user)
    ensures |r| <= |ws|
    ensures |r| == |ws| <==> forall w :: w in ws ==> !(w.id == id && w.owner == user)
  {
    if ws == [] then []
    else
      var rest := RemoveRows(ws[1..], user, id);
      assert forall w :: w in ws <==> w == ws[0] || w in ws[1..];
      if ws[0].id == id && ws[0].owner == user then rest else [ws[0]] + rest
  }

  /** `deleteWallet(userId, walletId)`: 400 while a live transaction of the
      user uses the wallet, checked before anything else; otherwise the
      user's wallet with that id is deleted, and 404 when there is none. */
  function DeleteWallet(db: Db, user: int, id: int): (r: Result<Db, WalletError>)
    ensures r.Err? && r.error == InUse <==> exists t :: t in db.txs && UsesWallet(t, user, id)
    ensures r.Err? && r.error == NotFound <==>
              (forall t :: t in db.txs ==> !UsesWallet(t, user, id))
              && forall w :: w in db.wallets ==> !(w.id == id && w.owner == user)
    ensures r.Err? ==> r.error in {InUse, NotFound}
    ensures r.Ok? ==> r.value == db.(wallets := r.value.wallets)
                      && forall w :: w in r.value.wallets <==> w in db.wallets && !(w.id == id && w.owner == user)
  {
    if exists t :: t in db.txs && UsesWallet(t, user, id) then Err(InUse)
    else
      var rows := RemoveRows(db.wallets, user, id);
      if |rows| == |db.wallets| then Err(NotFound)
      else Ok(db.(wallets := rows))
  }

  /** Deleting the same wallet twice: the second request is 404. */
  lemma DeleteTwiceNotFound(db: Db, user: int, id: int)
    requires DeleteWallet(db, user, id).Ok?
    ensures DeleteWallet(DeleteWallet(db, user, id).value, user, id) == Err(NotFound)
  {
  }
}
